=== FILE: README.md ===
# Vintage-guitar deal tracker: a Dafny model of its core

The system watches second-hand guitar shops, keeps a spreadsheet ledger of
every listing it has seen, and ranks the active listings for a buyer with a
fixed budget. This project models its decision logic as pure Dafny functions
over immutable records and proves properties of them:

- **Searcher** (`scripts/searcher.py`): reading brand, model, year and price
  out of listing titles and price text, the Reverb price-guide lookup with its
  query grid, deduplication of the ledger, and `check_sold`, the grace-period
  state machine that confirms a listing as sold only after it has stayed
  missing from complete crawls for long enough.
- **Scorer** (`scripts/scorer.py`): the four rule-based sub-scores (deal
  value against the Reverb range, appreciation, collection fit, condition),
  iconic-model matching, and the weighted total.
- **Valuation** (`scripts/valuation.py`): the tier-and-era appreciation rate
  table and the compounded value projection.
- **ML layer** (`scripts/ml_features.py`, `ml_predict.py`, `ml_train.py`,
  `ml_monitor.py`): the 19-feature vector and its canonical order, the model
  cache and the optional ML fields of a score, training-set construction and
  learned weights, and the monitor that compares ML and rule scores.
- **Sources** (`scripts/reverb_sold.py`, `scripts/currency.py`,
  `scripts/scrapers/woodstore.py`): Reverb sold-price statistics, currency
  conversion, and the Woodstore card parser.
- **Dashboard** (`scripts/generate_dashboard.py`, `scripts/dashboard.py`): the
  data the dashboard page is built from (budget, picks, price history), and
  the validation done by the dashboard's JSON endpoints.
- **Watchdog** (`scripts/watchdog.py`): reading product ids, arrival dates and
  hold/sold marks from the ledger rows, seeding the notified-id sets on a
  first run, and the poll that announces new, on-hold and sold listings
  without ever repeating an announcement.

Shared helpers: `Wrappers` (Option/Result), `Text` (ASCII and Latin-1 case
mapping, strip, tokens, substring search), `Numbers` (Python-style decimal
parsing and printing, half-even rounding), `Seqs` (sums, filters, a stable
descending sort, first-occurrence dedupe, Python slicing, `dict(zip(...))`),
`Counters` (`collections.Counter`), `Dates` (ISO dates, day numbers) and
`Cells` (spreadsheet cell values with Python truthiness).

Things the program gets from outside are parameters of the model: the clock
(`time.time()`, `date.today()`), file and spreadsheet contents, HTTP
responses, and the trained scikit-learn models, which appear as functions from
feature vectors to reals.

## Model

| member | source | states |
|---|---|---|
| Searcher.StepId | scripts/searcher.py:566-574 | one id of the `check_sold` loop: it is confirmed exactly when it is absent and its grace period is over; an id back on the site loses its entry, a first miss starts at `now`, a running candidate keeps its timestamp, and no other id's entry changes |
| Searcher.StepExtends | scripts/searcher.py:566-574 | stepping one more id of `seen - sold` extends the per-id description of the candidate map by that id |
| Searcher.SoldAfterExtends | scripts/searcher.py:569-572 | stepping one more id adds it to the confirmed ids exactly when its grace period is over |
| Searcher.LoopStart | scripts/searcher.py:564-566 | before the loop the map is the input map and nothing is confirmed |
| Searcher.LoopStep | scripts/searcher.py:566-574 | one loop iteration keeps the loop description for one more examined id, and the confirmed list stays free of repeats |
| Searcher.CheckSold | scripts/searcher.py:558-575 | `check_sold` returns the per-id candidate map and exactly the confirmed ids of `seen - sold`, each listed once |
| Searcher.SoldIdUntouched | scripts/searcher.py:566 | an id already in `sold_ids` is never confirmed and its candidate entry is left as it was |
| Searcher.CurrentIdCleared | scripts/searcher.py:567-568 | an id back on the site loses any candidate entry and is not confirmed in that call |
| Searcher.FirstMissStartsGrace | scripts/searcher.py:573-574 | an absent id with no entry gets the timestamp `now` and is not confirmed |
| Searcher.GraceExpiry | scripts/searcher.py:569-572 | an absent candidate is confirmed (and dropped) iff `now - since >= 600`; otherwise its timestamp is unchanged |
| Searcher.SoldAfterSubset | scripts/searcher.py:566-574 | confirmed ids are a subset of `seen - sold - current` |
| Searcher.Cycle | scripts/searcher.py:661-668 | a crawl that found no listings changes nothing; otherwise it confirms only ids not yet sold and adds exactly those to `sold_ids` |
| Searcher.RunSkipsEmpty | scripts/searcher.py:661 | a run of crawls that all found nothing confirms nothing and leaves the sold set and the candidates as they were |
| Searcher.CycleTracked | scripts/searcher.py:693-694 | every candidate was seen in some crawl: candidates are only ever drawn from ids already seen (`check_sold`, lines 566-574) and `seen_ids` only grows |
| Searcher.RunGracePeriod | scripts/searcher.py:558-575 | an id confirmed sold at crawl k was missing from every crawl from some earlier crawl j (or from the start of the run, if it was already a candidate) through k, and at least 600 seconds passed between the two |
| Searcher.Run | scripts/searcher.py:661-668 | a run of crawls yields one confirmation set per crawl |
| Searcher.RunConfirmsOnce | scripts/searcher.py:661-668 | across any run of crawls no id is confirmed twice, none already sold is confirmed, and every confirmation ends up in the final sold set |
| Searcher.RunSoldGrows | scripts/searcher.py:668 | the sold set only grows along a run |
| Searcher.MinConditionRankIsExcellentMinus | scripts/searcher.py:66-73 | `MIN_CONDITION_RANK` is the index of "excellent-", that is 8 |
| Searcher.ConditionRank | scripts/searcher.py:76-82 | `condition_rank` is the exact index of the lowercase grade in the 13-level scale, and -1 exactly for None or an unknown grade |
| Searcher.ConditionFilterGrades | scripts/searcher.py:683 | the crawl's filter keeps a condition iff its lowercase form is "excellent-" or a better grade |
| Searcher.TopGradesDistinct | scripts/searcher.py:66-73 | no grade from "excellent-" up also appears below it on the scale |
| Searcher.ConditionFilterKeeps | scripts/searcher.py:683 | a grade from "excellent-" up, in any letter case, passes the filter |
| Searcher.ExtractType | scripts/searcher.py:149-157 | "bass" beats "acoustic" beats "electric" as substrings of the lowercase title; otherwise "Unknown" |
| Searcher.BassBeatsAcoustic | scripts/searcher.py:151-154 | a title naming both "Acoustic" and "Bass" is a bass |
| Searcher.ExtractPriceDollars | scripts/searcher.py:160-165 | a whole-dollar amount written with "$" reads back as its value |
| Searcher.ExtractPriceNeedsDigit | scripts/searcher.py:160-165 | text without a digit never parses as a price |
| Searcher.ExtractPriceIgnoresMarks | scripts/searcher.py:162 | a "$" or "," anywhere in the text does not change the parsed price |
| Searcher.PriceTextIgnoresMarks | scripts/searcher.py:162 | removing "$" and "," erases a mark at any position |
| Searcher.YearDigitsAt | scripts/searcher.py:144-146 | where the year regex `(?:c\.\s*)?\d{4}s?` matching at an index has its four digits |
| Searcher.FirstYearFrom | scripts/searcher.py:144-146 | the leftmost index at which the year regex matches, with no match before it |
| Searcher.ExtractYear | scripts/searcher.py:144-146 | `extract_year` is "" iff the title has no four-digit run, and otherwise a substring of the title |
| Searcher.NotDigitNoYear | scripts/searcher.py:145 | a non-digit cannot start the four digits of a year |
| Searcher.ExtractYearDigits | scripts/searcher.py:144-146 | the first four-digit run of the extracted year text is the title's first four-digit run |
| Searcher.FirstSplitFrom | scripts/searcher.py:113-123 | the leftmost match of the model/type split regex, with no match before it |
| Searcher.BeforeSplit | scripts/searcher.py:132-133 | the text kept for the model is a prefix of the rest with no split word inside |
| Searcher.ModelOf | scripts/searcher.py:133 | the model is a substring of the rest with no space or comma at either end |
| Searcher.FirstTailFrom | scripts/searcher.py:128 | the leftmost "," or "(" that opens a year tail running to the end of the title |
| Searcher.CleanTitle | scripts/searcher.py:128 | the title without its trailing year tail is a substring of the title, stripped of edge whitespace |
| Searcher.KnownBrandFrom | scripts/searcher.py:129-130 | the first brand in `KNOWN_BRANDS` order that starts the lowercase title |
| Searcher.FirstWord | scripts/searcher.py:136-138 | the fallback brand is the title's first word (no whitespace inside, a prefix) and the rest is a substring |
| Searcher.BrandAndRest | scripts/searcher.py:129-138 | the brand is a known brand iff some known brand starts the cleaned title |
| Searcher.FallbackNotKnown | scripts/searcher.py:135-137 | a fallback brand is never one of the known brands |
| Searcher.KnownBrandHeads | scripts/searcher.py:130-131 | a recognised brand heads the cleaned title |
| Searcher.ExtractBrandModel | scripts/searcher.py:126-141 | `extract_brand_model`: the brand is known iff a known brand starts the cleaned title; the model is a substring of the title without edge spaces or commas |
| Searcher.ExtractBrandFirstKnown | scripts/searcher.py:129-134 | the first listed brand that starts the cleaned title wins, whatever brands follow it |
| Searcher.ExtractBrandFallback | scripts/searcher.py:135-141 | without a known brand the brand is the first word, non-empty for a non-empty title |
| Searcher.YearTailAcceptsYear | scripts/searcher.py:128 | the year-tail regex accepts " 1965" |
| Searcher.YearTailAcceptsDecade | scripts/searcher.py:128 | the year-tail regex accepts "c. 1960s)" |
| Searcher.YearTailRefuses | scripts/searcher.py:128 | the year-tail regex refuses the examples `" 19650"` and `" 65"` |
| Searcher.DigitRunFrom | scripts/searcher.py:128 | having read some digits of `\d{3,4}`, the rest of a digit run is accepted iff the whole run has three or four digits |
| Searcher.YearTailDigitRun | scripts/searcher.py:128 | a space followed by any run of digits is a year tail iff the run has three or four digits |
| Searcher.BrandsMatchIgnoresCase | scripts/searcher.py:340-344 | `_brands_match` ignores letter case on both sides |
| Searcher.BrandsMatchReflexive | scripts/searcher.py:340-344 | a brand with a letter matches itself, and nothing matches a make without letters |
| Searcher.BrandsMatchSymmetric | scripts/searcher.py:340-344 | `_brands_match` is symmetric |
| Searcher.BrandsMatchInside | scripts/searcher.py:340-344 | a make whose letters occur inside the brand's letters matches it ("C. F. Martin" and "Martin") |
| Searcher.CleanModel | scripts/searcher.py:350 | the cleaned model has no whitespace at either end |
| Searcher.ModelVariants | scripts/searcher.py:352-355 | the full cleaned model first, plus a second variant iff it has more than two words |
| Searcher.BrandVariants | scripts/searcher.py:357-361 | the brand first, plus its last word iff that differs from it ignoring case |
| Searcher.YearVariants | scripts/searcher.py:365 | with a year: the year then ""; without: only "" |
| Searcher.QueryRow | scripts/searcher.py:366-368 | one year's queries, brands outer and models inner |
| Searcher.QueryGrid | scripts/searcher.py:365-368 | every year/brand/model combination in nested-loop order |
| Searcher.QueryGridHas | scripts/searcher.py:365-369 | every combination of the variants appears in the grid |
| Searcher.DistinctQueries | scripts/searcher.py:369-371 | the kept queries are non-empty, from the grid, free of repeats |
| Searcher.DistinctQueriesCover | scripts/searcher.py:369-371 | every non-empty query of the grid is kept |
| Searcher.DistinctQueriesFirst | scripts/searcher.py:369-371 | a non-empty first query stays first |
| Searcher.ReverbQueries | scripts/searcher.py:347-371 | the queries are non-empty, distinct, drawn from the variant grid, and at most eight |
| Searcher.ReverbQueriesCover | scripts/searcher.py:363-371 | every non-empty combination of the variants is queried |
| Searcher.ReverbQueriesFirst | scripts/searcher.py:363-371 | the most specific query (full brand, model and year) comes first |
| Searcher.MatchingEstimates | scripts/searcher.py:385-390 | only estimates of entries whose make matches the brand are averaged |
| Searcher.MatchingEstimatesKeeps | scripts/searcher.py:385-390 | every matching entry with an estimate contributes it |
| Searcher.AverageRange | scripts/searcher.py:391-392 | there is an average iff some estimate matched |
| Searcher.AverageRangeOrdered | scripts/searcher.py:391-392 | when every estimate has low at most high, so do the averages |
| Searcher.AverageRangeBetween | scripts/searcher.py:391-392 | the averages lie within any bounds that hold for every matching estimate |
| Searcher.FirstAnswer | scripts/searcher.py:373-395 | the first query whose answer yields a matching estimate, none before it |
| Searcher.ReverbPrice | scripts/searcher.py:347-396 | `reverb_price` is None iff no query yields a matching estimate, and otherwise the averages of the first query that does: every earlier query yields none |
| Searcher.KnownBrandsNonBlank | scripts/searcher.py:101-110 | every known brand starts with a non-space character |
| Searcher.ExtractedBrandSplittable | scripts/searcher.py:359 | a brand read off a title never makes `brand.split()[-1]` fail |
| Scorer.Clamp100 | scripts/scorer.py:283 | `max(0, min(100, s))` lands in `[0, 100]` and leaves a score already in range unchanged |
| Scorer.ConditionScoresInRange | scripts/scorer.py:64-78 | every entry of the condition table scores between 0 and 100 |
| Scorer.ExactScoreFrom | scripts/scorer.py:87-88 | the exact-key lookup finds a key iff the table holds it, with that key's score |
| Scorer.FirstPartialFrom | scripts/scorer.py:90-94 | the first key in table order that partially matches gives the score; none iff no key matches |
| Scorer.ScoreConditionAsWritten | scripts/scorer.py:81-95 | the condition score as written lies in `[0, 100]` and is 50 for an empty condition |
| Scorer.BlankConditionScoresMint | scripts/scorer.py:83-94 | as written, a whitespace-only condition strips to "", which every key contains, so it scores 100 |
| Scorer.ScoreCondition | scripts/scorer.py:81-95 | the condition score lies in `[0, 100]`, is neutral for blank text, and otherwise agrees with the code as written |
| Scorer.ConditionKeysDistinct | scripts/scorer.py:64-78 | no two entries of the condition table share a key |
| Scorer.ExactScoreFromHit | scripts/scorer.py:87-88 | an exact key is found with its own score |
| Scorer.ConditionExactKey | scripts/scorer.py:85-88 | a condition equal to a key after strip and lower scores that key's score |
| Scorer.ConditionUnmatched | scripts/scorer.py:89-95 | a condition that no key matches, even partially, scores the neutral 50 |
| Scorer.ConditionValueInTable | scripts/scorer.py:81-95 | every condition score is a table score or the neutral 50 |
| Scorer.BestFromCorrect | scripts/scorer.py:133-150 | the scan over the knowledge base ends on the best match: the candidate with the strictly longest model, ties to the first |
| Scorer.MatchIconicIndex | scripts/scorer.py:121-152 | the match is a best candidate, and there is none iff no candidate has a non-empty model |
| Scorer.MatchIconic | scripts/scorer.py:121-152 | `_match_iconic_model` returns None for an empty knowledge base, and otherwise an entry that is a candidate with a non-empty model |
| Scorer.MatchIconicLongest | scripts/scorer.py:145-150 | the matched entry's model is at least as long as every candidate's |
| Scorer.MatchIconicFirstOfTies | scripts/scorer.py:147 | of two candidates with equally long models the later is never chosen |
| Scorer.ScoreValue | scripts/scorer.py:206-223 | the deal score is non-negative and at most 100 (for a non-negative high), 50 without data, 100 at or below the low |
| Scorer.ScoreValueAtMidpoint | scripts/scorer.py:214-218 | the midpoint of the Reverb range scores 75 |
| Scorer.ScoreValueAtHigh | scripts/scorer.py:219-220 | the Reverb high scores 50 |
| Scorer.ScoreValueUpToHigh | scripts/scorer.py:215-220 | up to the high the deal score is at least 50 |
| Scorer.ScoreValueAboveHigh | scripts/scorer.py:221-223 | above the high the score is `max(0, 50 - 50 * (price - high) / high)` |
| Scorer.ScoreValueZeroPastDouble | scripts/scorer.py:221-223 | at twice the high or more the deal score is 0 |
| Scorer.ScoreValueMonotone | scripts/scorer.py:206-223 | for a range `0 <= lo < hi` a dearer listing never scores higher |
| Scorer.ScoreAppreciation | scripts/scorer.py:226-243 | the appreciation score lies in `[0, 100]` |
| Scorer.ScoreAppreciationSpec | scripts/scorer.py:231-241 | the rate scaled so that 12% is 100, plus 20 capped at 100 inside the matched golden era |
| Scorer.ScoreAppreciationCeiling | scripts/scorer.py:231-232 | outside a golden era the score stays below 84, because the best rate is 10% |
| Scorer.GoldenEraRaises | scripts/scorer.py:238-241 | inside the golden era the score is never below the rate-based score |
| Scorer.ScoreFit | scripts/scorer.py:246-260 | the fit score lies in `[0, 100]`; with no collection it is 50 plus the iconic boost, clamped |
| Scorer.ScoreFitSpec | scripts/scorer.py:262-283 | with a collection: -25 for an owned brand and model, else +20 for a new brand, +15 for a type under a quarter of the collection, plus the boost, clamped |
| Scorer.RareShare | scripts/scorer.py:276-278 | `type_count / len(collection) < 0.25` is the same test as `4 * count < len` |
| Scorer.FitOwnedModel | scripts/scorer.py:268-271 | owning the exact brand and model caps the fit at 40 plus the boost |
| Scorer.WeightedTotalBounds | scripts/scorer.py:297-310 | with non-negative weights and sub-scores in range the total lies between 0 and 100 times the weights used |
| Scorer.WeightedTotalIgnoresCondition | scripts/scorer.py:304-310 | without a condition weight the condition sub-score has no effect on the total |
| Scorer.ScoreListing | scripts/scorer.py:286-320 | `score_listing` returns the four sub-scores of the listing, the weighted total of them, and sub-scores in range when the high is not negative |
| Scorer.ThreeDimIgnoresCondition | scripts/scorer.py:304-310 | three-dimension scoring gives the same total whatever the condition text |
| Scorer.ScoreListingBounds | scripts/scorer.py:286-320 | with non-negative weights the total lies between 0 and 100 times the weights used |
| Scorer.TopPicks | scripts/scorer.py:458-459 | the ranking keeps `min(top_n, n)` listings from the scored ones, sorted by total highest first, and none left out has a higher total than one kept |
| Valuation.ParseYear | scripts/valuation.py:57-60 | `_parse_year` is None iff the text has no run of four digits, and otherwise a number of at most four digits |
| Valuation.YearOrDefault | scripts/valuation.py:65 | `_parse_year(year) or 1970` is a year of at most four digits |
| Valuation.EraIndex | scripts/valuation.py:67-68 | the era found contains the year in its half-open range; none found means no era contains it |
| Valuation.EraIndexFrom | scripts/valuation.py:67-68 | the scan from a given era finds the first later era holding the year, or shows none does |
| Valuation.AppreciationRate | scripts/valuation.py:63-70 | `appreciation_rate` is between 0 and 10%, the rate of the year's era and the brand's tier |
| Valuation.EraTableTiles | scripts/valuation.py:42-48 | each year inside an era's range is found in exactly that era: the eras do not overlap |
| Valuation.FallbackOnlyAt9999 | scripts/valuation.py:42-48 | among four-digit years only 9999 misses every era and falls back to 2% |
| Valuation.UnparsedYearRate | scripts/valuation.py:65-69 | an unreadable year is treated as 1970: 5% for a major brand, 3% for a minor one |
| Valuation.MajorAtLeastMinor | scripts/valuation.py:42-48 | in every era a major brand appreciates at least as fast as a minor one |
| Valuation.RateNonIncreasing | scripts/valuation.py:42-48 | for a fixed tier the rate never rises as the year advances through the table |
| Valuation.CompoundAtLeast | scripts/valuation.py:78 | compounding a positive value at a non-negative rate never loses value |
| Valuation.CompoundAdd | scripts/valuation.py:78 | compounding `m` years and then `n` more is compounding `m + n` years |
| Valuation.CompoundMonotone | scripts/valuation.py:78 | a positive value at a non-negative rate grows with the number of years |
| Valuation.ProjectValue | scripts/valuation.py:73-78 | `project_value` is None exactly for a missing or non-positive value, and otherwise within half a cent of the compounded value and at least the value rounded to cents |
| Valuation.ProjectValueMonotone | scripts/valuation.py:73-78 | a longer horizon never projects a smaller value |
| Valuation.ProjectValueNow | scripts/valuation.py:73-78 | projecting zero years only rounds the value to cents |
| Valuation.ValueGuitar | scripts/valuation.py:82-96 | `value_guitar` has no current value when Reverb has no range or a zero low, and otherwise the midpoint rounded to cents; the projections are of that value, the range passes through |
| Valuation.ValueGuitarOrdered | scripts/valuation.py:82-96 | a positive current value is projected upward: now, then one year, then two years |
| Valuation.MajorByKeyword | scripts/valuation.py:51-54 | a brand naming a major keyword as a separate word is major, in any letter case |
| MlFeatures.FeatureOrderDistinct | scripts/ml_features.py:22-42 | the canonical order has nineteen pairwise different names |
| MlFeatures.PriceFeaturesLayout | scripts/ml_features.py:45-46 | the price features are the canonical order with "price" and the two price gaps (positions 2, 7 and 8) cut out, the rest in order |
| MlFeatures.PriceFeaturesCount | scripts/ml_features.py:45-46 | sixteen price features remain |
| MlFeatures.PriceFeaturesMembers | scripts/ml_features.py:45-46 | every price feature is a canonical name that is not price-derived |
| MlFeatures.AppreciationFeaturesStructural | scripts/ml_features.py:49-53 | the appreciation features are eleven distinct canonical names, none of them a price or market field |
| MlFeatures.EraBucket | scripts/ml_features.py:56-66 | `_era_bucket` is a bucket from 0 to 4 |
| MlFeatures.EraBucketCountsStarts | scripts/ml_features.py:56-66 | the bucket counts how many of the era starts 1950, 1965, 1980 and 2000 the year has reached |
| MlFeatures.EraBucketMonotone | scripts/ml_features.py:56-66 | a later year never falls in an earlier bucket |
| MlFeatures.EraBucketIsEraIndex | scripts/ml_features.py:56-66 | on the appreciation table's range the bucket is the index of the year's appreciation era in `_ERA_RATES` |
| MlFeatures.BrandTierNumeric | scripts/ml_features.py:69-72 | the tier number names the tier in the premium/major/minor table, and is 0 for any other tier name |
| MlFeatures.BrandTierRoundTrip | scripts/ml_features.py:72 | the number of each of the three tier names reads back as its position |
| MlFeatures.ExtractFeatures | scripts/ml_features.py:75-142 | year and age always add up to 2026 |
| MlFeatures.ExtractFeaturesDefaultYear | scripts/ml_features.py:88 | an unreadable year counts as 1970, 56 years old, in the 1965-80 bucket |
| MlFeatures.ExtractFeaturesAge | scripts/ml_features.py:88-140 | the year is `_parse_year(year) or 1970`, the age is 2026 minus it, and the bucket is the year's |
| MlFeatures.ExtractFeaturesMarket | scripts/ml_features.py:89-97 | midpoint and spread are 0 unless both ends are non-zero, and otherwise the middle and the width of the range; each price gap is 0 unless its denominator is positive, and otherwise the relative distance that recovers the price |
| MlFeatures.Midpoint | scripts/ml_features.py:92 | the midpoint is 0 unless both range ends are non-zero, and otherwise lies as far from the low end as from the high end |
| MlFeatures.Spread | scripts/ml_features.py:93 | the spread is 0 unless both range ends are non-zero, and otherwise is what takes the low end to the high end |
| MlFeatures.Gap | scripts/ml_features.py:96-97 | a price gap is 0 unless its base is positive, and otherwise is the relative distance from which the base recovers the price |
| MlFeatures.ExtractFeaturesMissingPrice | scripts/ml_features.py:89 | a missing price and a zero price give the same features |
| MlFeatures.ExtractFeaturesFlags | scripts/ml_features.py:99-120 | the type flags are independent substring tests on the lowercase type; the golden-era flag is set iff a match's era holds the year; the brand flag iff an owned guitar has the same lowercase brand |
| MlFeatures.ExtractFeaturesFlagsBinary | scripts/ml_features.py:101-120 | every flag is 0 or 1 |
| MlFeatures.AsDict | scripts/ml_features.py:122-142 | the returned dict has exactly the nineteen canonical names as keys |
| MlFeatures.AsDictAt | scripts/ml_features.py:122-142 | each canonical name maps to the field of the same meaning, the one at its position in the canonical order |
| MlFeatures.OrderOf | scripts/ml_features.py:155 | `feature_list or FEATURE_ORDER`: the canonical order for none or an empty list, the given list otherwise, never empty |
| MlFeatures.FeaturesToArray | scripts/ml_features.py:145-156 | one value per name of the order |
| MlFeatures.FeaturesToArraySlots | scripts/ml_features.py:156 | each slot reads its name from the dict, or 0.0 when the dict lacks the name |
| MlFeatures.FeaturesToArrayCanonical | scripts/ml_features.py:145-156 | the canonical array of an extracted record is its nineteen values in order, none defaulted |
| MlPredict.LoadFilesSpec | scripts/ml_predict.py:52-67 | after the loading loop a name is cached iff it was before or is a model name whose file loads, with that file's content; other entries are kept |
| MlPredict.EnsureLoaded | scripts/ml_predict.py:40-67 | `_ensure_loaded` always sets the attempted flag, and does nothing once it is set |
| MlPredict.EnsureLoadedOnce | scripts/ml_predict.py:43-45 | loading happens at most once: a second call changes nothing, whatever the disk holds by then |
| MlPredict.FirstLoadModels | scripts/ml_predict.py:47-67 | after the first load a model (and its metadata) is cached iff joblib imports, it is one of the four names, and its file loads |
| MlPredict.IsMlAvailable | scripts/ml_predict.py:70-73 | ML is available iff some model is cached |
| MlPredict.ActiveModelCount | scripts/ml_predict.py:185-188 | no model is loaded iff ML is unavailable |
| MlPredict.ModelStatus | scripts/ml_predict.py:76-88 | the status has exactly one entry per model name |
| MlPredict.ModelStatusEntry | scripts/ml_predict.py:80-87 | an entry is available iff its model is cached; without metadata it reports no timestamp, 0 samples and no metrics; with a sample count it reports that count |
| MlPredict.LearnedWeights | scripts/ml_predict.py:91-95 | without optimiser metadata there are no learned weights |
| MlPredict.TotalTrainingSamplesBounds | scripts/ml_predict.py:191-194 | with non-negative sample counts the total is non-negative, and 0 with no metadata |
| MlPredict.MlTotalDefaults | scripts/ml_predict.py:143-149 | weights that name no dimension weigh each of the five sub-scores equally at 0.2 |
| MlPredict.MlTotalBounds | scripts/ml_predict.py:143-149 | non-negative weights on all five dimensions that sum to 1 keep sub-scores on 0..100 on 0..100 |
| MlPredict.NonNegative | scripts/ml_predict.py:158 | `max(0, x)` is non-negative, at least `x`, and `x` itself when `x` is not negative |
| MlPredict.BuyProbability | scripts/ml_predict.py:177 | the class-1 entry of a longer vector, the only entry of a one-element vector, and a failure for an empty one |
| MlPredict.MlScoreListing | scripts/ml_predict.py:120-123 | `ml_score_listing` returns None exactly when no model is cached |
| MlPredict.MlTotalPresence | scripts/ml_predict.py:139-151 | the ML total is set iff the optimiser is cached with non-empty learned weights, and then it is their combination and the weights are reported |
| MlPredict.MlPriceNonNegative | scripts/ml_predict.py:153-160 | the predicted price is never negative |
| MlPredict.MlBuyProbSpec | scripts/ml_predict.py:171-180 | the buy probability is 100 times the class-1 entry, or the only entry of a one-element vector, and absent for an empty vector |
| MlPredict.PriceModelIsolated | scripts/ml_predict.py:153-160 | replacing the price predictor changes the price field and nothing else |
| MlPredict.FailingClassifierIsolated | scripts/ml_predict.py:171-180 | a failing classifier leaves only the buy probability empty |
| MlTrain.WeightSamples | scripts/ml_train.py:76-78 | the optimiser trains only on sold listings with both prices truthy and a positive listed price |
| MlTrain.Desirability | scripts/ml_train.py:118 | the target is at most 100, exactly 100 for a sale at or above asking, and otherwise the sold share of asking times 100 |
| MlTrain.DesirabilityMonotone | scripts/ml_train.py:118 | selling for more never lowers the desirability |
| MlTrain.Clip | scripts/ml_train.py:126 | clipping keeps one weight per coefficient, each `max(0, w)` |
| MlTrain.NormalizeWeights | scripts/ml_train.py:125-131 | the learned weights are never negative |
| MlTrain.ClipSumZero | scripts/ml_train.py:126-128 | the clipped coefficients sum to 0 exactly when none is positive |
| MlTrain.NormalizeWeightsSumOne | scripts/ml_train.py:128-129 | with some positive coefficient there is one weight per coefficient and they sum to 1 |
| MlTrain.NormalizeWeightsProportional | scripts/ml_train.py:128-129 | each weight is its clipped coefficient's share of the clipped total |
| MlTrain.NormalizeWeightsAllZero | scripts/ml_train.py:130-131 | with no positive coefficient the weights are five times 0.2 |
| MlTrain.LearnedWeightNames | scripts/ml_train.py:133-134 | five weights are named value, appreciate, fit, condition and iconic, in coefficient order |
| MlTrain.LearnedWeightsKeepTotalInRange | scripts/ml_train.py:125-134 | weights learned from five coefficients keep the ML total of sub-scores on 0..100 on 0..100 |
| MlTrain.PriceSamples | scripts/ml_train.py:169-170 | the price predictor trains only on listings with a positive sold price |
| MlTrain.WeightSampleIsPriceSample | scripts/ml_train.py:76-78 | every optimiser sample with a positive sold price is also a price-predictor sample |
| MlTrain.RateSampleOf | scripts/ml_train.py:259-263 | a learned-rate key gives a row iff it holds a bar |
| MlTrain.RateSampleSplit | scripts/ml_train.py:260-270 | the key splits at its first bar into brand and model, and the target is the rate times 100 |
| MlTrain.RateSamples | scripts/ml_train.py:259-270 | there are no more rows than learned keys |
| MlTrain.RateSamplesFrom | scripts/ml_train.py:259-270 | every row comes from a key with a bar, its target a hundred times that key's rate |
| MlTrain.RateSamplesKeep | scripts/ml_train.py:259-270 | every key with a bar yields a row |
| MlTrain.LabelsByOrigin | scripts/ml_train.py:316-340 | every buy example is an owned guitar with brand and model, a sale at 95% of asking or more, or a buy decision; every skip example is a cheaper sale or a skip decision |
| MlTrain.LabelledSaleLands | scripts/ml_train.py:325-333 | every sale with two positive prices is labelled, on the side its price ratio decides |
| MlTrain.ClassifierNeedsTotal | scripts/ml_train.py:342-343 | the examples 10 and 19 (no), 10 and 20 (yes), and 9 and 100 (no): ten of each label is not enough, since the total of 30 binds too |
| MlTrain.ClassifierTrainsWhen | scripts/ml_train.py:342-343 | for all label counts: fewer than ten of either label never trains, and with ten of each it trains iff there are at least 30 examples |
| MlMonitor.AbsReal | scripts/ml_monitor.py:78 | `abs(x)` is non-negative and `x` or `-x` |
| MlMonitor.ErrorPct | scripts/ml_monitor.py:78 | the percentage error is non-negative, scales the absolute error by 100 over the actual price, and is 0 iff the estimate is exact |
| MlMonitor.Evaluate | scripts/ml_monitor.py:153-181 | a sale is counted iff its listed price is positive and the ML scorer gives a buy probability; then the prediction is a probability above 50 and the actual outcome a sale at 95% of asking or more |
| MlMonitor.Outcomes | scripts/ml_monitor.py:153 | one outcome per sold listing, in order |
| MlMonitor.Tally | scripts/ml_monitor.py:151-183 | the confusion-matrix cells add up to the number of listings counted |
| MlMonitor.TallyTruePositives | scripts/ml_monitor.py:174-175 | the true positives are the counted outcomes predicted a buy that were good buys |
| MlMonitor.TallyFalsePositives | scripts/ml_monitor.py:176-177 | the false positives are the outcomes predicted a buy that sold below 95% of asking |
| MlMonitor.TallyFalseNegatives | scripts/ml_monitor.py:178-179 | the false negatives are the outcomes predicted a skip that sold at 95% of asking or more |
| MlMonitor.Share | scripts/ml_monitor.py:187-188 | a share lies in `[0, 1]`, is 0 for a zero denominator, and otherwise times the denominator gives the numerator |
| MlMonitor.F1Bounds | scripts/ml_monitor.py:189 | the harmonic mean of two shares lies in `[0, 1]` |
| MlMonitor.F1 | scripts/ml_monitor.py:189 | F1 lies in `[0, 1]` and is 0 iff precision or recall is 0 |
| MlMonitor.Metrics | scripts/ml_monitor.py:183-196 | no metrics for an empty matrix; otherwise n is the matrix total, each metric in `[0, 1]`, and precision and recall are the true positives' shares of their denominators |
| MlMonitor.BuySkipAccuracy | scripts/ml_monitor.py:137-196 | `_compute_buy_skip_accuracy` is None iff no model is loaded or no listing was counted; otherwise n is that count, at most the number of sales |
| MlMonitor.PerfectPredictions | scripts/ml_monitor.py:174-181 | a run whose every prediction is right has no false positives or negatives |
| MlMonitor.RuleError | scripts/ml_monitor.py:67-79 | a rule error is recorded iff the sale price is truthy and positive and the low and high are truthy with a positive low; it is the midpoint's percentage error |
| MlMonitor.MlError | scripts/ml_monitor.py:81-89 | an ML error is recorded iff the sale price is positive and the ML scorer returns a truthy price; it is that price's percentage error |
| MlMonitor.MeanOrNone | scripts/ml_monitor.py:95-96 | the mean is None exactly for an empty list |
| MlMonitor.PriceAccuracyOf | scripts/ml_monitor.py:50-98 | `_compute_price_accuracy` is None iff no model is loaded or neither estimate recorded an error; each mean is present iff its errors are, and n is the larger count |
| MlMonitor.RuleErrorsCover | scripts/ml_monitor.py:67-79 | every recorded rule error comes from some listing, and every qualifying listing records one |
| MlMonitor.PriceAccuracyNonNegative | scripts/ml_monitor.py:94-98 | mean errors are never negative |
| MlMonitor.SquaredDeviations | scripts/ml_monitor.py:128 | one non-negative squared deviation per difference |
| MlMonitor.Variance | scripts/ml_monitor.py:128 | the population variance is never negative |
| MlMonitor.ScoreDrift | scripts/ml_monitor.py:101-134 | corrected drift (rule scorer that reads the sale price): None iff no model is loaded or no difference exists, with a non-negative variance otherwise |
| MlMonitor.TotalDiff | scripts/ml_monitor.py:121-122 | a difference exists exactly when the ML scorer produced a total |
| MlMonitor.DriftOf | scripts/ml_monitor.py:124-128 | no drift is reported iff there are no differences, and its variance is never negative |
| MlMonitor.DiffAsWritten | scripts/ml_monitor.py:117-122 | one sale, as written: the call raises iff `score_listing` raises on it (`entry["price"]`, scorer.py:294) or the model has learned weights (the missing `iconic` sub-score read at ml_predict.py:148); when it returns, it yields no difference |
| MlMonitor.DiffsAsWritten | scripts/ml_monitor.py:117-122 | the loop raises iff some sale's difference raises, and otherwise collects no difference |
| MlMonitor.ScoreDriftAsWritten | scripts/ml_monitor.py:101-134 | `_compute_score_drift` as written raises iff a model is loaded, there are sales, and either the model has learned weights or `score_listing` raises on one of the first 100; when it returns, the drift is None |
| MlMonitor.DriftAsWrittenIgnoresTail | scripts/ml_monitor.py:117 | sales past the first 100 never change the as-written drift either |
| MlMonitor.DiffsFromFirstHundred | scripts/ml_monitor.py:117-122 | corrected drift: each difference comes from one of the first 100 listings, so there are at most 100 |
| MlMonitor.DriftIgnoresTail | scripts/ml_monitor.py:117 | corrected drift: listings past the first 100 never change the drift |
| MlMonitor.DriftOfConstant | scripts/ml_monitor.py:127-128 | identical differences drift by exactly that amount with no spread |
| MlMonitor.MlWon | scripts/ml_monitor.py:216-221 | a day counts iff it logged both errors; ML wins it only with a strictly lower error |
| MlMonitor.Recommend | scripts/ml_monitor.py:199-228 | no data iff no logs; collecting iff logs but fewer than 50 samples; ML outperforming iff enough samples and five ML wins in the last seven logs |
| MlMonitor.WinsDisjoint | scripts/ml_monitor.py:215-221 | days won by ML and by the rules together are at most the days counted |
| MlMonitor.UnderperformingMeans | scripts/ml_monitor.py:223-226 | the underperforming verdict means at least 50 samples, at least three rule wins and fewer than five ML wins in the last seven logs |
| MlMonitor.VerdictsExclusive | scripts/ml_monitor.py:223-226 | a week with five ML wins cannot also hold three rule wins, so the order of the two checks never matters |
| MlMonitor.RecommendUsesLastWeek | scripts/ml_monitor.py:212 | logs older than the last seven never change the recommendation |
| MlMonitor.TieGoesToRules | scripts/ml_monitor.py:218-221 | a tie between the two errors counts for the rules |
| MlMonitor.UpdateLogs | scripts/ml_monitor.py:277-295 | the new entry is last, every other kept entry is from another day and from the old log, and at most 90 remain |
| MlMonitor.UpdateLogsOrder | scripts/ml_monitor.py:277-295 | the kept entries are the newest 89 of the other days' entries, in their original order, then the new one |
| MlMonitor.UpdateLogsRerun | scripts/ml_monitor.py:277-281 | a second run on the same day leaves what that run alone would: reruns are idempotent |
| MlMonitor.RunMonitor | scripts/ml_monitor.py:231-301 | corrected monitor (drift from MlMonitor.ScoreDrift): nothing is written iff no model is loaded or there are no sales; otherwise today's entry is last, carries the sample count, and replaces any earlier entry of the day |
| MlMonitor.RunMonitorAsWritten | scripts/ml_monitor.py:231-301 | `run_monitor` as written raises exactly when its drift computation does, and when it returns a log the newest entry carries no drift |
| MlMonitor.MonitorCrashesOnReverbData | scripts/ml_monitor.py:264 | with a model loaded and at least one sale whose record has no `price` key (as every record built at reverb_sold.py:148-161), `run_monitor` raises before writing its log |
| MlMonitor.DailyEntry | scripts/ml_monitor.py:283-290 | corrected monitor: today's entry carries today's date and the number of sales, and no recommendation yet |
| MlMonitor.Stamp | scripts/ml_monitor.py:298-299 | the recommendation is set on the last entry only |
| ReverbSold.KeyQuery | scripts/reverb_sold.py:84-87 | a snapshot key gives a query iff it holds a bar |
| ReverbSold.KeyQuerySplit | scripts/reverb_sold.py:84-87 | the key splits at its first bar into the stripped brand and model; the model keeps any later bar |
| ReverbSold.ModelQueries | scripts/reverb_sold.py:68-89 | there are no more queries than snapshot keys |
| ReverbSold.ModelQueriesFrom | scripts/reverb_sold.py:83-87 | every query comes from a key holding a bar, in key order |
| ReverbSold.ModelQueriesKeeps | scripts/reverb_sold.py:83-87 | every key holding a bar gives a query |
| ReverbSold.FirstYearTokenFrom | scripts/reverb_sold.py:134 | the leftmost standalone year at or after a position, none before it |
| ReverbSold.TitleYear | scripts/reverb_sold.py:132-136 | the year is "" iff the title has no standalone 19xx or 20[0-2]x, and otherwise the first such token |
| ReverbSold.TitleYearAlone | scripts/reverb_sold.py:134-136 | a title that is just a year in range gives that year |
| ReverbSold.TitleYearNeedsBoundary | scripts/reverb_sold.py:134 | a title that is a run of five or more digits, such as "19650", holds no standalone year, since `\b` refuses a digit on either side |
| ReverbSold.TitleYearRange | scripts/reverb_sold.py:134 | 2030 lies beyond the pattern's last decade |
| ReverbSold.CategoryKind | scripts/reverb_sold.py:142-146 | one category names "Acoustic" (tested first) or "Bass", or nothing |
| ReverbSold.GuitarType | scripts/reverb_sold.py:139-146 | the type is Electric, Acoustic or Bass |
| ReverbSold.GuitarTypeLastWins | scripts/reverb_sold.py:139-146 | the last category naming a type decides it, and it is "Electric" when none does |
| ReverbSold.RecordId | scripts/reverb_sold.py:149 | the record id starts with "reverb_" |
| ReverbSold.ListedPrice | scripts/reverb_sold.py:118-124 | no price for an empty price object; 0.0 for an object without an amount |
| ReverbSold.TitleCase | scripts/reverb_sold.py:150-151 | `str.title()` keeps the length |
| ReverbSold.LowerTitleCase | scripts/reverb_sold.py:150-151 | lower-casing forgets title-casing, so the history key of a title-cased brand is its lower-case form |
| ReverbSold.ItemRecord | scripts/reverb_sold.py:112-161 | an item gives a record iff its id is truthy; the id is "reverb_" plus it, the sold price is the listed price, no range is set yet, and the source is "reverb_sold" |
| ReverbSold.FetchedRecords | scripts/reverb_sold.py:111-163 | no more records than items |
| ReverbSold.FetchedRecordsFrom | scripts/reverb_sold.py:112-161 | every record comes from an item with an id, in order, and sells at its listed price |
| ReverbSold.FetchedRecordsKeeps | scripts/reverb_sold.py:112-116 | every item with an id gives a record |
| ReverbSold.Enrich | scripts/reverb_sold.py:170-175 | enriching changes only the Reverb low and high |
| ReverbSold.EnrichAll | scripts/reverb_sold.py:166-175 | every record of the page is enriched, each changing only its range |
| ReverbSold.EnrichLatest | scripts/reverb_sold.py:171-175 | with a non-empty history under the key the range is the latest snapshot's; otherwise the record is unchanged |
| ReverbSold.EnrichIdempotent | scripts/reverb_sold.py:166-175 | enriching twice is enriching once |
| ReverbSold.HistoryKeyOfQuery | scripts/reverb_sold.py:150-151 | the key of a fetched record is the query's brand and model, lower-cased |
| ReverbSold.CollectBatch | scripts/reverb_sold.py:222-227 | the training list only grows at its end, by fetched records with ids not yet present; the ids become the old ones plus the fetched ones, and ids stay unique |
| ReverbSold.AppendFreshUnique | scripts/reverb_sold.py:224-226 | appending records with new, distinct ids keeps the ids unique |
| ReverbSold.Collect | scripts/reverb_sold.py:208-231 | over all queries the training list only grows at its end and keeps its ids unique |
| ReverbSold.CollectCovers | scripts/reverb_sold.py:208-231 | every fetched id ends up in the training list, and no other id is added |
| Currency.EurToUsd | scripts/currency.py:14-18 | a conversion exists iff an amount is given |
| Currency.UsdToEur | scripts/currency.py:21-25 | a conversion exists iff an amount is given |
| Currency.EurUsdRoundTrip | scripts/currency.py:10-25 | converting to dollars and back, or to euros and back, gives the original amount |
| Currency.ConversionKeepsOrder | scripts/currency.py:14-25 | both conversions keep the sign of an amount and the order of two amounts |
| Currency.CurrencyCodeIgnoresCase | scripts/currency.py:42 | the currency code ignores letter case |
| Currency.NormalizeToUsd | scripts/currency.py:28-49 | euros are multiplied by 1.09, every other code (USD, unknown, missing) is taken as dollars, and no amount stays none |
| Currency.NormalizeTwice | scripts/currency.py:28-49 | a normalised amount normalises to itself as USD |
| Currency.FormatPrice | scripts/currency.py:52-85 | "N/A" without an amount, otherwise a text that starts with the currency's symbol |
| Currency.FormatPriceSuffix | scripts/currency.py:77-85 | showing the currency only appends " EUR" or " USD" |
| Currency.FormatPriceSymbol | scripts/currency.py:74-85 | the symbol is "€" exactly for euros |
| Currency.FormatWithConversion | scripts/currency.py:88-98 | "N/A" without an amount |
| Currency.FormatWithConversionFromEur | scripts/currency.py:106-108 | for euros: the plain euro price, then the converted dollar price in parentheses |
| Currency.FormatWithConversionFromUsd | scripts/currency.py:109-111 | for any other code: the plain dollar price, then the converted euro price in parentheses |
| Woodstore.ParsePrice | scripts/scrapers/woodstore.py:42-53 | no text gives no price |
| Woodstore.ParsePriceExample | scripts/scrapers/woodstore.py:43-46 | "9 490,00 €" reads as 9490 |
| Woodstore.ParsePriceDotGrouped | scripts/scrapers/woodstore.py:50-53 | a dot-grouped amount such as "1.234,56" leaves two points after cleaning and is not a price |
| Woodstore.ParsePriceDotGroupedExample | scripts/scrapers/woodstore.py:50-53 | "1.234,56" is not a price |
| Woodstore.FrenchCleanPunctuation | scripts/scrapers/woodstore.py:50 | cleaning turns a comma into a point, keeps a point, and drops spaces and the euro sign |
| Woodstore.FrenchCleanDigits | scripts/scrapers/woodstore.py:50 | cleaning leaves digits as they are |
| Woodstore.FrenchCleanAppend | scripts/scrapers/woodstore.py:50 | cleaning works piece by piece |
| Woodstore.ParsePriceFrench | scripts/scrapers/woodstore.py:48-51 | euros and cents written the French way, with the euro sign after a space, read as the same number written with a decimal point |
| Woodstore.ParsePriceGrouped | scripts/scrapers/woodstore.py:48-51 | a space between thousands and units is dropped as well |
| Woodstore.Lines | scripts/scrapers/woodstore.py:78-79 | no line is empty |
| Woodstore.Classify | scripts/scrapers/woodstore.py:83-99 | a card without lines is an unsold "Unknown" at "N/A" |
| Woodstore.ClassifyLastWins | scripts/scrapers/woodstore.py:87-99 | the last price line is the price text, the last title line the title ("N/A" and "Unknown" when none), and the card is sold iff some line is a sold mark |
| Woodstore.PreviewLineIgnored | scripts/scrapers/woodstore.py:95-98 | the "Aperçu" label is neither price, sold mark nor title |
| Woodstore.AmountLineIsPrice | scripts/scrapers/woodstore.py:89 | any amount holding a digit followed by " €", such as "9 490,00 €", is a price line |
| Woodstore.SlugOf | scripts/scrapers/woodstore.py:74-75 | the captured slug is a non-empty run of characters other than "/" and "?" right after "/guitares/p/" |
| Woodstore.FirstSlugFrom | scripts/scrapers/woodstore.py:74 | the leftmost match at or after a position, none before it |
| Woodstore.ProductIdSlug | scripts/scrapers/woodstore.py:74-75 | without a match the id is the URL; with one it is a non-empty slug that follows "/guitares/p/" in the URL |
| Woodstore.ProductIdOfPath | scripts/scrapers/woodstore.py:69-75 | a product path under the site address yields its slug as the id, whatever path or query follows it |
| Woodstore.FullUrl | scripts/scrapers/woodstore.py:69-71 | an "http" link is kept, any other is put under the site address |
| Woodstore.DisplayPrice | scripts/scrapers/woodstore.py:110 | the raw price line is shown when the amount is missing or zero, otherwise a text starting with "€" |
| Woodstore.ParseLink | scripts/scrapers/woodstore.py:68-115 | a link gives no record iff a line marks it sold; a record is neither sold nor on hold |
| Woodstore.ParseLinkFields | scripts/scrapers/woodstore.py:69-112 | the record's URL, id, title and euro amount come from the link as classified |
| Woodstore.LinkRecords | scripts/scrapers/woodstore.py:67-119 | each link's outcome is its record when it is a product link, and nothing otherwise |
| Woodstore.ParseListingsUnsold | scripts/scrapers/woodstore.py:101-115 | no returned record is sold or on hold |
| Woodstore.ParseListingsFrom | scripts/scrapers/woodstore.py:67-115 | every record comes from a product link of the page that is not sold |
| Woodstore.ParseListingsKeeps | scripts/scrapers/woodstore.py:67-115 | every product link that is not sold gives a record |
| Woodstore.ScrapeAll | scripts/scrapers/woodstore.py:143-160 | one record per id, every id of the fetched pages present, every record taken from the pages |
| Woodstore.ScrapeAllKeepsFirst | scripts/scrapers/woodstore.py:157-158 | the record kept for an id is the first one seen (`setdefault`) |
| GenerateDashboard.ParsePrice | scripts/generate_dashboard.py:40-51 | an empty, zero or date cell has no price, a number is its own price, and text is read as a decimal once "$", "," and "€" are removed and the ends stripped |
| GenerateDashboard.ParsePriceDollars | scripts/generate_dashboard.py:46-48 | "$" followed by a whole number reads as that many dollars, "$0" as 0 |
| GenerateDashboard.ParsePriceGrouped | scripts/generate_dashboard.py:46-48 | a comma-grouped dollar amount such as "$12,500" reads as the number without its comma |
| GenerateDashboard.LayoutOf | scripts/generate_dashboard.py:64-65 | the newer layout is chosen iff some header cell is "Source" |
| GenerateDashboard.LayoutsAgree | scripts/generate_dashboard.py:73-110 | the newer layout is the older one with a source column after the date: a row read either way gives the same listing, except that the newer one takes its source from that column (defaulting to "retrofret.com") |
| GenerateDashboard.ReadRow | scripts/generate_dashboard.py:68-112 | a row is kept iff it is wide enough and its URL cell is truthy; it fails (an `IndexError`) iff it is non-empty and too short for the URL, or has a URL and is too short for the status columns; a kept listing carries that URL |
| GenerateDashboard.LoadRows | scripts/generate_dashboard.py:68-115 | loading fails iff some row fails; otherwise there is at most one listing per row |
| GenerateDashboard.LoadRowsKeeps | scripts/generate_dashboard.py:68-115 | a successful load holds exactly one listing per kept row, each with a truthy URL |
| GenerateDashboard.Prices | scripts/generate_dashboard.py:126-137 | one non-zero price per listing whose price is truthy |
| GenerateDashboard.PricesOfListings | scripts/generate_dashboard.py:126-131 | each truthy price shows up in the price list |
| GenerateDashboard.PriceBucket | scripts/generate_dashboard.py:161-171 | every price lands in one of the five named buckets |
| GenerateDashboard.PriceBucketBands | scripts/generate_dashboard.py:161-171 | a price lands in a bucket exactly when it is at least that bucket's floor and below the next bucket's floor |
| GenerateDashboard.PriceBucketMonotone | scripts/generate_dashboard.py:161-171 | a dearer price never lands in a cheaper bucket |
| GenerateDashboard.Decade | scripts/generate_dashboard.py:151-156 | the decade is "Unknown" iff `str(year)` has no run of four digits |
| GenerateDashboard.DecadeOfYear | scripts/generate_dashboard.py:151-155 | a year after digit-free text gives its decade, so "c. 1965" is "1960s" |
| GenerateDashboard.Brands | scripts/generate_dashboard.py:144 | only brands that are set are counted |
| GenerateDashboard.ComputeStats | scripts/generate_dashboard.py:118-187 | the total is the number of listings, the active, on-hold and sold counts are at most it, and at most eight top brands are kept |
| GenerateDashboard.ActivePartition | scripts/generate_dashboard.py:120-123 | active and inactive listings partition the listings, and the inactive ones are at most the on-hold plus the sold ones |
| GenerateDashboard.PriceSummary | scripts/generate_dashboard.py:139-141 | the price figures are 0 without prices; otherwise the average lies between the smallest and the largest price, which bound every price |
| GenerateDashboard.StatsPrices | scripts/generate_dashboard.py:126-141 | the average, minimum and maximum are taken over exactly the truthy prices of the listings |
| GenerateDashboard.StatsCounts | scripts/generate_dashboard.py:148-173 | every listing is counted once among the types and once among the decades, and every priced listing once among the price buckets |
| GenerateDashboard.TopBrands | scripts/generate_dashboard.py:144-145 | the top brands are set brands with their true counts, largest first, and no brand left out is more frequent than one shown |
| GenerateDashboard.TopPicks | scripts/generate_dashboard.py:380-381 | at most ten picks, a prefix of the eligible listings sorted dearest first |
| GenerateDashboard.TopPicksEligible | scripts/generate_dashboard.py:380-381 | every pick is an active, priced listing, and there are ten picks unless fewer are eligible |
| GenerateDashboard.TopPicksDearest | scripts/generate_dashboard.py:380-381 | the picks run from dearest to cheapest, and no eligible listing left out is dearer than a pick |
| GenerateDashboard.Recommendations | scripts/generate_dashboard.py:383-397 | one row per top pick, ranked 1, 2, … in pick order |
| GenerateDashboard.RecMarks | scripts/generate_dashboard.py:395-396 | for a positive price the marks are the whole parts of 110% and 120% of it, so the first never exceeds the second |
| GenerateDashboard.Dashes | scripts/generate_dashboard.py:277 | the substitution writes only `[a-z0-9-]`, never two dashes in a row, and keeps a leading letter or digit |
| GenerateDashboard.StripDashed | scripts/generate_dashboard.py:277 | stripping the end dashes keeps the text dashed and leaves no dash at either end |
| GenerateDashboard.SlugShape | scripts/generate_dashboard.py:277-278 | a brand slug holds only `[a-z0-9-]`, never starts or ends with a dash, and never has two in a row |
| GenerateDashboard.DashesKeep | scripts/generate_dashboard.py:277 | the substitution keeps the letters and digits, in order |
| GenerateDashboard.StripDashesKeep | scripts/generate_dashboard.py:277 | stripping dashes loses no letter or digit |
| GenerateDashboard.SlugKeepsLetters | scripts/generate_dashboard.py:277 | the slug keeps exactly the letters and digits of the lower-cased brand, in order |
| Dashboard.RowRecord | scripts/dashboard.py:55-57 | the record has exactly the header cells as keys |
| Dashboard.RowRecordValue | scripts/dashboard.py:56-57 | each header holds the cell under its last occurrence, `None` past the row's end |
| Dashboard.SheetRecords | scripts/dashboard.py:36-61 | no records for an empty sheet; otherwise one record per row after the header, keyed by the header row |
| Dashboard.GetStats | scripts/dashboard.py:136-153 | the counts are the number of listings and of listings neither sold nor on hold; the remaining budget is 0 without a budget; the call fails (a `TypeError`) iff the budget is non-empty and its total or spent has no numeric value |
| Dashboard.UpdateWith | scripts/dashboard.py:318-346 | an accepted update came from a JSON body, and the saved budget holds its total and spent, both passing the type test |
| Dashboard.UpdateBudgetAsWritten | scripts/dashboard.py:318-346 | as written, an accepted budget holds the body's total and spent, each a number or a boolean |
| Dashboard.UpdateBudget | scripts/dashboard.py:318-346 | corrected handler (see Findings): an accepted budget holds the body's total and spent, both JSON numbers |
| Dashboard.UpdateBudgetAccepts | scripts/dashboard.py:320-339 | corrected handler (see Findings): an update is accepted iff the body is JSON whose total and spent are numbers with `0 <= spent <= total`; a body that is not JSON is rejected as such, and non-numbers as non-numbers |
| Dashboard.UpdateBudgetKeepsOthers | scripts/dashboard.py:341-346 | an accepted update sets the two figures and leaves every other budget key as it was |
| Dashboard.RemainingAfterUpdate | scripts/dashboard.py:136-153 | after an accepted update the overview shows `total - spent`, never negative |
| Dashboard.BooleanBudgetAccepted | scripts/dashboard.py:330-333 | as written, `{"total": true, "spent": false}` is saved as a budget; the corrected handler rejects it as not numbers |
| Dashboard.LearnedRates | scripts/dashboard.py:197-208 | there are no more learned rates than models |
| Dashboard.LearnedNeedsSnapshots | scripts/dashboard.py:194-206 | every learned rate rests on at least two snapshots, so twice the learned count is at most the snapshot total |
| Dashboard.LearnedOfIsoDates | scripts/dashboard.py:200-206 | for dates written by `date.isoformat()`, a model counts exactly when its first and last days are 30 or more days apart |
| Dashboard.LearnedWhen | scripts/dashboard.py:200-206 | once both end dates read as `%Y-%m-%d`, a model counts exactly when they are 30 or more days apart |
| Dashboard.LexLessTrans | scripts/dashboard.py:291 | Python's string order is transitive |
| Dashboard.LexLessIrreflexive | scripts/dashboard.py:291 | no string is below itself |
| Dashboard.LexLessTotal | scripts/dashboard.py:291 | any two different strings are ordered one way or the other |
| Dashboard.LatestFrom | scripts/dashboard.py:290-292 | the running maximum is absent iff it started absent and no model names a time, and otherwise is its start or some model's time |
| Dashboard.LatestFromBound | scripts/dashboard.py:290-292 | no time seen is later than the running maximum |
| Dashboard.LastTrainedIsMax | scripts/dashboard.py:275-292 | `last_trained` is None iff no model names a time, and otherwise one of the times with none later |
| Dashboard.GetMlStatus | scripts/dashboard.py:264-308 | the active count is the number of models whose file exists, the sample count and days of data are passed through |
| Dashboard.GetMlPerformance | scripts/dashboard.py:310-316 | `logs[-30:]`: the last `min(30, n)` logs |
| Dashboard.PerformanceWindowSlides | scripts/dashboard.py:316 | a new day's log is shown last and pushes out the oldest one once 30 are shown |
| Dashboard.Lookup | scripts/dashboard.py:375-378 | the snapshots found are stored under the key; none are found iff no series has the key |
| Dashboard.ViewOf | scripts/dashboard.py:367-391 | a view copies brand, model, golden era and boost, and keeps the first three artists |
| Dashboard.GetIconicModels | scripts/dashboard.py:353-395 | one view per model |
| Dashboard.IconicOrder | scripts/dashboard.py:393-394 | the views are sorted by boost, largest first, each model shown exactly once, and models with equal boost stay in file order |
| Dashboard.IconicValueIsLatest | scripts/dashboard.py:378-381 | a model with snapshots shows the range of its most recent one |
| Watchdog.DigitsAt | scripts/watchdog.py:130 | the captured group is a non-empty run of digits right after `ProductID=` and it is not followed by another digit (`\d+` is greedy) |
| Watchdog.FirstIdFrom | scripts/watchdog.py:130 | the search finds the leftmost match at or after the start, and none means there is no match there |
| Watchdog.ProductIdOf | scripts/watchdog.py:130-132 | there is no id iff the URL has no `ProductID=` followed by a digit; otherwise the id is a non-empty run of digits |
| Watchdog.ProductIdOfUrl | scripts/watchdog.py:130 | for a product URL, the id is exactly the whole digit run after `ProductID=`, whatever follows it |
| Watchdog.ArrivalOf | scripts/watchdog.py:133-142 | a date cell gives its date, an empty cell gives none, and any other date read from text is a valid calendar date |
| Watchdog.EntriesOfRows | scripts/watchdog.py:127-158 | every row with a product id gives one entry, so the entry count equals the count of such rows, and each entry comes from one of the rows |
| Watchdog.ReadEntryFields | scripts/watchdog.py:129-157 | an entry's id appears after `ProductID=` in its URL, it is on hold or sold exactly when column K or L is not empty, and a date cell in column A is its arrival date |
| Watchdog.Seed | scripts/watchdog.py:278-294 | a file that exists is kept as loaded; a missing one is seeded with every current id, with the on-hold ids or with the sold ids |
| Watchdog.ClassifySeen | scripts/watchdog.py:311-316 | the loop only adds ids of rows it reads to `notified`, and afterwards every row is either seen or pending as new |
| Watchdog.ClassifyNews | scripts/watchdog.py:312-314 | a row is pending as new only if it was not yet announced and it arrived today |
| Watchdog.ClassifyHold | scripts/watchdog.py:317-318 | a row is pending as on hold iff it is on hold and its id is not yet announced as on hold |
| Watchdog.ClassifySold | scripts/watchdog.py:319-320 | a row is pending as sold iff it is sold and its id is not yet announced as sold |
| Watchdog.ClassifyFacts | scripts/watchdog.py:307-321 | everything the change-detection loop guarantees, taken together |
| Watchdog.Cycle | scripts/watchdog.py:307-398 | a poll never forgets an id, and every announced row's id ends up in the set of its category |
| Watchdog.CycleAnnounces | scripts/watchdog.py:311-320 | a poll announces as new only unannounced rows that arrived today, and as on hold or as sold exactly the rows in that state not yet announced so |
| Watchdog.ClassifyFresh | scripts/watchdog.py:311-316 | with one row per id, the new rows are exactly the unannounced ones that arrived today, and the other unannounced rows are marked as seen without a message |
| Watchdog.CycleFresh | scripts/watchdog.py:311-316 | with one row per id, a poll announces as new exactly the unannounced rows that arrived today |
| Watchdog.CycleCovers | scripts/watchdog.py:311-368 | after a poll, every row's id is seen, and it is in the hold or sold set when the row is on hold or sold |
| Watchdog.ClassifyQuietNews | scripts/watchdog.py:312-316 | rows that were all announced give no new announcement and leave `notified` as it was |
| Watchdog.ClassifyQuietHold | scripts/watchdog.py:317-318 | on-hold rows that were all announced give no hold announcement |
| Watchdog.ClassifyQuietSold | scripts/watchdog.py:319-320 | sold rows that were all announced give no sale announcement |
| Watchdog.CycleQuiet | scripts/watchdog.py:307-398 | a category whose rows are all known announces nothing, and when all three are known the sets do not change |
| Watchdog.CycleSettles | scripts/watchdog.py:298-398 | polling the same rows again, on any day, announces nothing and changes nothing |
| Watchdog.AnnouncedOnce | scripts/watchdog.py:361-368 | an id announced by one poll is never announced again in the same category by the next poll |
| Watchdog.SeedSilences | scripts/watchdog.py:277-296 | after first-run seeding, the first poll over the same rows announces nothing in a category whose file was missing |

## Left out

- Network and HTML: page fetching, BeautifulSoup walking, Reverb HTTP calls, Telegram and SMTP messages. Their results are parameters of the model.
- File and spreadsheet I/O: loading and saving JSON, joblib and xlsx files, the styling of workbooks, and the HTML text the dashboard generator writes. File contents are input values.
- Process plumbing: the dashboard HTTP handler dispatch, `get_agent_status` (it runs `ps`), the watchdog's `launch_searcher` restart loop, and the ThreadPoolExecutor fan-out.
- scikit-learn: fitting, `predict` and `predict_proba` are foreign calls. They are modelled as function parameters that may fail (an `Option` result).
- `_brand_tier` and `_score_iconic` are called by `scripts/ml_features.py` and `scripts/ml_train.py` but are not defined in the repository. The brand tier and the guitarist score are inputs of `MlFeatures.ExtractFeatures`.
- `snapshot_prices` and `compute_learned_rates` (called from `scripts/learn.py`) are not defined in the repository; no learned-rate store is modelled.
- `scripts/scorer.py:232` passes a `model=` keyword that `appreciation_rate` (`scripts/valuation.py:63`) does not accept. `Valuation.AppreciationRate` follows the function as defined, with brand and year only.
- The blend of ML and rule scores is described only in the module docstring of `scripts/ml_predict.py`; no function implements it, so it is not modelled.
- Floating point: every quantity is an exact real. `valuation.py`'s `round(x, 2)` is modelled as `Numbers.Round2`; other rounding and number formatting are not modelled.
- Scorer.ScoreListing: the total and sub-scores are exact reals, not rounded to one decimal as at `scripts/scorer.py:315-320`.
- Scorer.ScoreListing: requires `HasCoreWeights`, that the `value`, `appreciate` and `fit` weights are present; the `KeyError` that `score_listing` raises when `budget["weights"]` or one of those weights is missing (`scripts/scorer.py:293`, `scripts/scorer.py:302-312`) is not modelled.
- MlPredict.MlScoreListing: the ML fields are exact reals, not rounded as at `scripts/ml_predict.py:150-178`.
- MlFeatures.ExtractFeatures: the two price gaps are exact reals, not rounded to four decimals as at `scripts/ml_features.py:130-131`.
- MlMonitor.ScoreDrift: the drift figure is the variance of the score differences; the square root taken for the standard deviation is not modelled.
- MlMonitor.ScoreDrift: models the corrected drift (see Findings), whose rule scorer reads the sale price and never raises; `_compute_score_drift` as written raises instead, and that behaviour is `MlMonitor.ScoreDriftAsWritten`.
- MlMonitor.DiffsFromFirstHundred: is about the corrected drift, with a rule scorer that never raises; the as-written loop is `MlMonitor.DiffsAsWritten`.
- MlMonitor.DriftIgnoresTail: is about the corrected drift, with a rule scorer that never raises; the as-written counterpart is `MlMonitor.DriftAsWrittenIgnoresTail`.
- MlMonitor.RunMonitor: models the corrected monitor, which writes its log where `run_monitor` as written raises (see Findings); the as-written monitor is `MlMonitor.RunMonitorAsWritten`.
- MlMonitor.DailyEntry: builds the entry of the corrected monitor; as written, `run_monitor` raises before reaching it whenever a model is loaded and a sale record lacks `price`.
- Scorer.ScoreListing: the condition sub-score is the corrected `Scorer.ScoreCondition` (see Findings), so a condition made only of spaces scores 50 where `scripts/scorer.py:297` gives 100; the two agree on every other condition.
- MlFeatures.ExtractFeatures: the condition feature is the corrected `Scorer.ScoreCondition` (see Findings), so a condition made only of spaces gives 50 where `scripts/ml_features.py:133` gives 100; the two agree on every other condition.
- Scorer.ScoreValue: requires that the input is not the one case where Python raises `ZeroDivisionError`. That case is a high of 0 with a price above the low, the midpoint and the high.
- Searcher.BrandVariants: requires `BrandSplittable`. `brand.split()[-1]` raises `IndexError` on a blank, non-empty brand. `Searcher.ExtractedBrandSplittable` proves that brands read from titles never trigger it.
- Text: case mapping covers ASCII and Latin-1 letters only; Python's full Unicode `lower()`/`upper()` is not modelled.
- Text: the digit, word and whitespace classes (`Text.IsDigit`, `Text.IsWordChar`, `Text.IsSpace`) are ASCII. Python's `str.strip`/`str.split` and the regex classes `\s`, `\d` and `\w` are Unicode-aware (U+00A0, U+2009 and U+001C to U+001F are whitespace there, and Arabic-Indic digits match `\d`); those characters are not modelled.
- Numbers: `float()` parsing covers an optional sign, digits and an optional fraction; exponents, `inf`, `nan` and underscores are not modelled.
- Dates: `fromisoformat`/`strptime` are modelled for `YYYY-MM-DD` dates only.
- Dashboard: request bodies are modelled as JSON objects or a parse failure; a body that parses to a non-object is not modelled.
- Dashboard.GetStats: the budget file is modelled as a JSON object or missing; a budget file holding a non-empty JSON list, on which `budget.get(...)` raises `AttributeError` at `scripts/dashboard.py:150-152`, is not modelled.
- Dashboard.UpdateBudget: models the corrected handler, which accepts JSON numbers only; `update_budget` as written also accepts booleans (see Findings), and that handler is `Dashboard.UpdateBudgetAsWritten`.
- Dashboard.UpdateBudgetAccepts: states the accept condition of the corrected handler; the as-written handler also accepts `{"total": true, "spent": false}`, as `Dashboard.BooleanBudgetAccepted` shows.
- Woodstore: `parse_condition` works on a fetched product page and is not modelled.
- Watchdog: the spreadsheet is read as rows of cells. Only the columns the decisions read are modelled: A (arrival date), J (URL), K (on hold) and L (sold). The display columns, `fmt_price`, `_build_msg`, `_build_sold_msg` and `fetch_listing_image` only format messages and are not modelled.
- The tests `scripts/test_watchdog.py`, `scripts/test_multisite_integration.py` and `scripts/test_telegram.py` only print live I/O results; they state no property to model.

## Findings

| source | as written | input that shows it | evidently intended | confidence | as-written member | corrected member |
|---|---|---|---|---|---|---|
| scripts/scorer.py:83-94 | a non-empty condition made only of spaces strips to `""`, which is a substring of the first key, so it scores as mint | `"  "` scores 100 | an unrecognised condition scores the neutral 50 | not executed | Scorer.BlankConditionScoresMint | Scorer.ScoreCondition |
| scripts/ml_monitor.py:117-122 | the drift loop calls `score_listing`, which reads `entry["price"]` (`scripts/scorer.py:294`), but the sale records `reverb_sold` writes carry only `listed_price` and `sold_price` (`scripts/reverb_sold.py:148-161`), so the call raises `KeyError`; with learned weights `ml_score_listing` also reads the `iconic` sub-score that `score_listing` never returns (`scripts/ml_predict.py:148`). `run_monitor` therefore raises before writing its log | a loaded model and one sale record written by `reverb_sold` | the drift between ML and rule totals is logged | not executed | MlMonitor.MonitorCrashesOnReverbData | MlMonitor.RunMonitor |
| scripts/dashboard.py:331-333 | `isinstance(x, (int, float))` accepts booleans, because `bool` is a subclass of `int` | `{"total": true, "spent": false}` is saved as a budget | only numbers are accepted as a budget | not executed | Dashboard.BooleanBudgetAccepted | Dashboard.UpdateBudgetAccepts |

=== FILE: cells.dfy ===
/**
 * Spreadsheet cell values as openpyxl hands them to the scripts, with the
 * Python operations the scripts apply to them: truthiness, `str(v)`,
 * `v or default` and indexing into a row.
 */
module Cells {
  import opened Wrappers
  import opened Numbers
  import Dates

  /**
   * An empty cell (`None`), an integer, a float together with the text
   * Python prints for it, a string, or a date/datetime cell together with
   * its printed form.
   */
  datatype Cell =
    | Blank
    | Int(i: int)
    | Real(r: real, text: string)
    | Text(s: string)
    | When(date: Dates.Date, text: string)

  /** `bool(v)`: `None`, `0`, `0.0` and `""` are false; every date is true. */
  predicate Truthy(c: Cell) {
    match c
    case Blank => false
    case Int(i) => i != 0
    case Real(r, _) => r != 0.0
    case Text(s) => s != ""
    case When(_, _) => true
  }

  /** `str(v)` */
  function Str(c: Cell): string {
    match c
    case Blank => "None"
    case Int(i) => IntToString(i)
    case Real(_, text) => text
    case Text(s) => s
    case When(_, text) => text
  }

  /** `v or default` */
  function Or(c: Cell, default: Cell): (r: Cell)
    ensures Truthy(c) ==> r == c
    ensures !Truthy(c) ==> r == default
  {
    if Truthy(c) then c else default
  }

  /** `v or ""` seen as a string, as the scripts use it for text columns. */
  function OrEmpty(c: Cell): (r: string)
    ensures !Truthy(c) ==> r == ""
    ensures Truthy(c) ==> r == Str(c)
  {
    Str(Or(c, Text("")))
  }

  /**
   * Column `i` of a row read with a fixed column count: cells past the end
   * of the stored row read as empty.
   */
  function At(row: seq<Cell>, i: nat): (c: Cell)
    ensures i < |row| ==> c == row[i]
    ensures i >= |row| ==> c == Blank
  {
    if i < |row| then row[i] else Blank
  }
}

=== FILE: counters.dfy ===
/**
 * `collections.Counter` over a list of keys: the distinct keys in the order
 * they first appear, each with its number of occurrences, and
 * `most_common(n)`.
 */
module Counters {
  import opened Seqs

  /** `xs.count(k)` */
  function Occurrences<K(==)>(xs: seq<K>, k: K): (n: nat)
    ensures n <= |xs|
    ensures n > 0 <==> k in xs
    decreases |xs|
  {
    if xs == [] then 0
    else
      var init := xs[..|xs| - 1];
      assert xs == init + [xs[|xs| - 1]];
      Occurrences(init, k) + (if xs[|xs| - 1] == k then 1 else 0)
  }

  /** No key appears twice. */
  predicate Distinct<K(==)>(ks: seq<K>) {
    forall i, j :: 0 <= i < j < |ks| ==> ks[i] != ks[j]
  }

  /** The keys of `xs`, each once, in the order of their first appearance. */
  function Keys<K(==)>(xs: seq<K>): (r: seq<K>)
    ensures Distinct(r)
    ensures forall i :: 0 <= i < |r| ==> r[i] in xs
    ensures forall i :: 0 <= i < |xs| ==> xs[i] in r
    decreases |xs|
  {
    if xs == [] then []
    else
      var init := xs[..|xs| - 1];
      var x := xs[|xs| - 1];
      assert xs == init + [x];
      var d := Keys(init);
      if x in d then d else d + [x]
  }

  /** Each label paired with its number of occurrences in `xs`. */
  function Tally<K(==)>(labels: seq<K>, xs: seq<K>): (r: seq<(K, nat)>)
    ensures |r| == |labels|
    ensures forall i :: 0 <= i < |r| ==> r[i] == (labels[i], Occurrences(xs, labels[i]))
    decreases |labels|
  {
    if labels == [] then []
    else
      var n := |labels| - 1;
      Tally(labels[..n], xs) + [(labels[n], Occurrences(xs, labels[n]))]
  }

  /** `sum(counter.values())` */
  function Counts<K>(c: seq<(K, nat)>): nat
    decreases |c|
  {
    if c == [] then 0 else Counts(c[..|c| - 1]) + c[|c| - 1].1
  }

  /** `Counter(xs)`, as its items in insertion order. */
  function Counter<K(==)>(xs: seq<K>): (r: seq<(K, nat)>)
    ensures forall i :: 0 <= i < |r| ==> r[i].0 in xs && r[i].1 == Occurrences(xs, r[i].0) && r[i].1 > 0
    ensures forall i, j :: 0 <= i < j < |r| ==> r[i].0 != r[j].0
    ensures forall j :: 0 <= j < |xs| ==> exists i :: 0 <= i < |r| && r[i].0 == xs[j]
  {
    var ks := Keys(xs);
    var r := Tally(ks, xs);
    assert forall j :: 0 <= j < |xs| ==> exists i :: 0 <= i < |ks| && ks[i] == xs[j];
    r
  }

  /** Nothing has been counted yet. */
  lemma {:induction false} TallyOfNothing<K>(labels: seq<K>)
    ensures Counts(Tally(labels, [])) == 0
    decreases |labels|
  {
    if labels != [] {
      var n := |labels| - 1;
      TallyOfNothing(labels[..n]);
      assert Tally(labels, [])[..n] == Tally(labels[..n], []);
    }
  }

  /** One more key adds one to the total for each label equal to it. */
  lemma {:induction false} TallySnoc<K>(labels: seq<K>, xs: seq<K>, x: K)
    ensures Counts(Tally(labels, xs + [x])) == Counts(Tally(labels, xs)) + Occurrences(labels, x)
    decreases |labels|
  {
    if labels != [] {
      var n := |labels| - 1;
      TallySnoc(labels[..n], xs, x);
      assert (xs + [x])[..|xs|] == xs;
      assert Tally(labels, xs + [x])[..n] == Tally(labels[..n], xs + [x]);
      assert Tally(labels, xs)[..n] == Tally(labels[..n], xs);
      assert labels == labels[..n] + [labels[n]];
    }
  }

  /** A key occurs exactly once in a list of distinct keys that holds it. */
  lemma {:induction false} OccursOnce<K>(ks: seq<K>, k: K)
    requires Distinct(ks) && k in ks
    ensures Occurrences(ks, k) == 1
    decreases |ks|
  {
    var n := |ks| - 1;
    assert ks == ks[..n] + [ks[n]];
    if ks[n] == k {
      assert k !in ks[..n];
    } else {
      OccursOnce(ks[..n], k);
    }
  }

  /** Counting against distinct labels that cover every key accounts for every key once. */
  lemma {:induction false} TallyTotal<K>(labels: seq<K>, xs: seq<K>)
    requires Distinct(labels)
    requires forall j :: 0 <= j < |xs| ==> xs[j] in labels
    ensures Counts(Tally(labels, xs)) == |xs|
    decreases |xs|
  {
    if xs == [] {
      TallyOfNothing(labels);
    } else {
      var n := |xs| - 1;
      assert xs == xs[..n] + [xs[n]];
      TallyTotal(labels, xs[..n]);
      TallySnoc(labels, xs[..n], xs[n]);
      OccursOnce(labels, xs[n]);
    }
  }

  /** The counts of a `Counter` add up to the number of keys counted. */
  lemma CounterTotal<K>(xs: seq<K>)
    ensures Counts(Counter(xs)) == |xs|
  {
    TallyTotal(Keys(xs), xs);
  }

  /** `counter.most_common(n)`: items by count, largest first, ties in insertion order. */
  function MostCommon<K(==)>(c: seq<(K, nat)>, n: nat): (r: seq<(K, nat)>)
    ensures |r| <= n && |r| <= |c|
    ensures r == SortDesc(c, CountKey)[..|r|]
  {
    PyTake(SortDesc(c, CountKey), n)
  }

  function CountKey<K>(p: (K, nat)): real {
    p.1 as real
  }

  /**
   * `most_common(n)` is ordered by count, holds only counted items, and
   * every item it leaves out has a count no larger than any item it keeps.
   */
  lemma MostCommonOrder<K>(c: seq<(K, nat)>, n: nat)
    ensures SortedDesc(MostCommon(c, n), CountKey)
    ensures forall p :: p in MostCommon(c, n) ==> p in c
    ensures forall p, q :: p in c && p !in MostCommon(c, n) && q in MostCommon(c, n) ==> p.1 <= q.1
  {
    var r := MostCommon(c, n);
    TopOfSorted(c, CountKey, n);
    forall p | p in r ensures p in c {
      assert p in multiset(r);
    }
    forall p, q | p in c && p !in r && q in r ensures p.1 <= q.1 {
      assert CountKey(q) >= CountKey(p);
    }
  }
}

=== FILE: currency.dfy ===
/**
 * Fixed-rate EUR/USD conversion, normalisation of an amount to USD, and the
 * currency prefix/suffix choice of the price formatters.
 */
module Currency {
  import opened Wrappers
  import opened Text

  /** Dollars per euro. */
  const EurToUsdRate: real := 1.09

  /** Euros per dollar: the exact reciprocal of `EurToUsdRate`. */
  const UsdToEurRate: real := 1.0 / EurToUsdRate

  /** `eur_to_usd` */
  function EurToUsd(amount: Option<real>): (r: Option<real>)
    ensures r.None? <==> amount.None?
  {
    match amount
    case None => None
    case Some(a) => Some(a * EurToUsdRate)
  }

  /** `usd_to_eur` */
  function UsdToEur(amount: Option<real>): (r: Option<real>)
    ensures r.None? <==> amount.None?
  {
    match amount
    case None => None
    case Some(a) => Some(a * UsdToEurRate)
  }

  /** Converting to dollars and back gives the original amount. */
  lemma EurUsdRoundTrip(amount: Option<real>)
    ensures UsdToEur(EurToUsd(amount)) == amount
    ensures EurToUsd(UsdToEur(amount)) == amount
  {
    assert EurToUsdRate * UsdToEurRate == 1.0;
    if amount.Some? {
      var a := amount.value;
      assert a * EurToUsdRate * UsdToEurRate == a * (EurToUsdRate * UsdToEurRate);
      assert a * UsdToEurRate * EurToUsdRate == a * (EurToUsdRate * UsdToEurRate);
    }
  }

  /** Both conversions keep the sign of the amount and the order of two amounts. */
  lemma ConversionKeepsOrder(x: real, y: real)
    ensures x > 0.0 ==> EurToUsd(Some(x)).value > 0.0 && UsdToEur(Some(x)).value > 0.0
    ensures x < 0.0 ==> EurToUsd(Some(x)).value < 0.0 && UsdToEur(Some(x)).value < 0.0
    ensures x <= y ==> EurToUsd(Some(x)).value <= EurToUsd(Some(y)).value
    ensures x <= y ==> UsdToEur(Some(x)).value <= UsdToEur(Some(y)).value
  {
    assert UsdToEurRate > 0.0;
    assert (y - x) * EurToUsdRate == y * EurToUsdRate - x * EurToUsdRate;
    assert (y - x) * UsdToEurRate == y * UsdToEurRate - x * UsdToEurRate;
  }

  /** `(currency or "USD").upper()`: a missing or empty code means USD. */
  function CurrencyCode(currency: Option<string>): string {
    match currency
    case Some(c) => if c == "" then "USD" else Upper(c)
    case None => "USD"
  }

  /** The currency names euros, in any letter case. */
  predicate IsEur(currency: Option<string>) {
    CurrencyCode(currency) == "EUR"
  }

  /** The currency code ignores letter case. */
  lemma CurrencyCodeIgnoresCase(c: string)
    ensures CurrencyCode(Some(Lower(c))) == CurrencyCode(Some(c))
    ensures CurrencyCode(Some(Upper(c))) == CurrencyCode(Some(c))
  {
    UpperOfLower(c);
  }

  /**
   * `normalize_to_usd`: euros are converted, and every other code (USD, unknown,
   * missing) is taken as dollars already.
   */
  function NormalizeToUsd(amount: Option<real>, currency: Option<string>): (r: Option<real>)
    ensures amount.None? ==> r.None?
    ensures amount.Some? && IsEur(currency) ==> r == Some(amount.value * 1.09)
    ensures amount.Some? && !IsEur(currency) ==> r == amount
  {
    match amount
    case None => None
    case Some(a) =>
      var code := CurrencyCode(currency);
      if code == "USD" then Some(a)
      else if code == "EUR" then EurToUsd(Some(a))
      else Some(a)
  }

  /** Normalising is idempotent on dollar amounts: a USD result normalises to itself. */
  lemma NormalizeTwice(amount: Option<real>, currency: Option<string>)
    ensures NormalizeToUsd(NormalizeToUsd(amount, currency), Some("USD")) == NormalizeToUsd(amount, currency)
  {
    PlainCodes();
  }

  /** `f"{amount:,.2f}"`: the grouped two-decimal rendering, left to the caller. */
  type Render = real -> string

  /** "€" for euros, "$" for everything else. */
  function Symbol(currency: Option<string>): string {
    if IsEur(currency) then "€" else "$"
  }

  /** " EUR" or " USD" after the amount. */
  function CodeSuffix(currency: Option<string>): string {
    if IsEur(currency) then " EUR" else " USD"
  }

  /** `format_price`: "N/A" for no amount, else symbol, rendered amount, and optionally the code. */
  function FormatPrice(amount: Option<real>, currency: Option<string>, showCurrency: bool, render: Render): (r: string)
    ensures amount.None? ==> r == "N/A"
    ensures amount.Some? ==> StartsWith(r, Symbol(currency))
  {
    match amount
    case None => "N/A"
    case Some(a) =>
      var formatted := Symbol(currency) + render(a);
      if showCurrency then formatted + CodeSuffix(currency) else formatted
  }

  /** Showing the currency only appends " EUR" or " USD" to the plain rendering. */
  lemma FormatPriceSuffix(amount: real, currency: Option<string>, render: Render)
    ensures FormatPrice(Some(amount), currency, true, render)
         == FormatPrice(Some(amount), currency, false, render) + CodeSuffix(currency)
  {
  }

  /** The symbol is "€" exactly for euros. */
  lemma FormatPriceSymbol(amount: real, currency: Option<string>, show: bool, render: Render)
    ensures FormatPrice(Some(amount), currency, show, render)[0] == '€' <==> IsEur(currency)
  {
    assert FormatPrice(Some(amount), currency, show, render)[0] == Symbol(currency)[0];
  }

  /** `format_with_conversion`: the amount in its currency, then the other currency in parentheses. */
  function FormatWithConversion(amount: Option<real>, currency: Option<string>, render: Render): (r: string)
    ensures amount.None? ==> r == "N/A"
  {
    match amount
    case None => "N/A"
    case Some(a) =>
      if IsEur(currency) then "€" + render(a) + " ($" + render(EurToUsd(Some(a)).value) + ")"
      else "$" + render(a) + " (€" + render(UsdToEur(Some(a)).value) + ")"
  }

  /** The code names of the two currencies as the formatters see them. */
  lemma PlainCodes()
    ensures !IsEur(Some("USD")) && IsEur(Some("EUR"))
  {
    assert Upper("USD") == "USD" && Upper("EUR") == "EUR";
  }

  /**
   * For euros, the converted form is the plain euro price followed by the
   * dollar amount, formatted as a dollar price, in parentheses.
   */
  lemma FormatWithConversionFromEur(amount: real, currency: Option<string>, render: Render)
    requires IsEur(currency)
    ensures FormatWithConversion(Some(amount), currency, render)
         == FormatPrice(Some(amount), currency, false, render) + " ("
            + FormatPrice(EurToUsd(Some(amount)), Some("USD"), false, render) + ")"
  {
    PlainCodes();
  }

  /** For any other currency, the dollar price is followed by the euro price in parentheses. */
  lemma FormatWithConversionFromUsd(amount: real, currency: Option<string>, render: Render)
    requires !IsEur(currency)
    ensures FormatWithConversion(Some(amount), currency, render)
         == FormatPrice(Some(amount), currency, false, render) + " ("
            + FormatPrice(UsdToEur(Some(amount)), Some("EUR"), false, render) + ")"
  {
    PlainCodes();
  }
}

=== FILE: dashboard.dfy ===
/**
 * The JSON endpoints of the local dashboard server: sheet rows as records,
 * the overview figures, the budget update, the scorer's learned-rate count,
 * the ML status and performance window, and the iconic-model list.
 */
module Dashboard {
  import opened Wrappers
  import opened Text
  import opened Seqs
  import opened Cells
  import Dates

  // ── sheets as records ─────────────────────────────────────────

  /** A data row as a record keyed by the header cells; a later duplicate header wins. */
  function RowRecord(headers: seq<Cell>, row: seq<Cell>): (m: map<Cell, Cell>)
    ensures forall i :: 0 <= i < |headers| ==> headers[i] in m
    ensures forall h :: h in m ==> h in headers
    decreases |headers|
  {
    if headers == [] then map[]
    else
      var n := |headers| - 1;
      RowRecord(headers[..n], row)[headers[n] := At(row, n)]
  }

  /** The record holds, for each header, the cell under its last occurrence (`None` past the row's end). */
  lemma {:induction false} RowRecordValue(headers: seq<Cell>, row: seq<Cell>, i: nat)
    requires i < |headers|
    requires forall j :: i < j < |headers| ==> headers[j] != headers[i]
    ensures RowRecord(headers, row)[headers[i]] == At(row, i)
    decreases |headers|
  {
    var n := |headers| - 1;
    var init := headers[..n];
    assert RowRecord(headers, row) == RowRecord(init, row)[headers[n] := At(row, n)];
    if i < n {
      assert init[i] == headers[i];
      forall j | i < j < |init| ensures init[j] != init[i] {
        assert init[j] == headers[j];
      }
      RowRecordValue(init, row, i);
      assert headers[n] != headers[i];
    }
  }

  /** `xlsx_to_json`: the first row names the columns, every later row becomes a record. */
  function SheetRecords(rows: seq<seq<Cell>>): (r: seq<map<Cell, Cell>>)
    ensures |r| == if rows == [] then 0 else |rows| - 1
    ensures forall k :: 0 <= k < |r| ==> r[k] == RowRecord(rows[0], rows[k + 1])
  {
    if rows == [] then []
    else seq(|rows| - 1, k requires 0 <= k < |rows| - 1 => RowRecord(rows[0], rows[k + 1]))
  }

  /** `record.get(key)` */
  function Get(m: map<Cell, Cell>, key: Cell): Cell {
    if key in m then m[key] else Blank
  }

  // ── JSON values ───────────────────────────────────────────────

  /** The JSON values the endpoints look at; arrays and objects are `JOther`. */
  datatype Json = JNull | JBool(b: bool) | JNum(x: real) | JStr(s: string) | JOther

  /** Python's arithmetic value of a JSON scalar that has one (`True` is 1). */
  function Arith(j: Json): Option<real> {
    match j
    case JNum(x) => Some(x)
    case JBool(b) => Some(if b then 1.0 else 0.0)
    case _ => None
  }

  /** `d.get(key, default)` */
  function GetJson(d: map<string, Json>, key: string, default: Json): Json {
    if key in d then d[key] else default
  }

  // ── overview figures ──────────────────────────────────────────

  /** Neither the "Sold" nor the "On Hold" column is set. */
  predicate IsActiveRecord(m: map<Cell, Cell>) {
    !Truthy(Get(m, Text("Sold"))) && !Truthy(Get(m, Text("On Hold")))
  }

  datatype Overview = Overview(
    totalListings: nat, activeListings: nat, recommendations: nat, collectionSize: nat,
    budgetTotal: Json, budgetSpent: Json, budgetRemaining: real)

  /**
   * `get_stats`. The budget file is `None` when missing or unreadable; an
   * empty budget counts as none. `None` is the `TypeError` of subtracting
   * values that are not numbers.
   */
  function GetStats(listings: seq<map<Cell, Cell>>, recommendations: nat, collectionSize: nat,
                    budget: Option<map<string, Json>>): (r: Option<Overview>)
    ensures var b := budget.Some? && budget.value != map[];
      r.None? <==> b && (Arith(GetJson(budget.value, "total", JNum(0.0))).None?
                         || Arith(GetJson(budget.value, "spent", JNum(0.0))).None?)
    ensures r.Some? ==> (r.value.totalListings == |listings|
      && r.value.activeListings == CountIf(listings, IsActiveRecord)
      && r.value.activeListings <= r.value.totalListings)
    ensures r.Some? && (budget.None? || budget.value == map[]) ==> r.value.budgetRemaining == 0.0
  {
    if budget.None? || budget.value == map[] then
      Some(Overview(|listings|, CountIf(listings, IsActiveRecord), recommendations, collectionSize,
                    JNum(0.0), JNum(0.0), 0.0))
    else
      var total := GetJson(budget.value, "total", JNum(0.0));
      var spent := GetJson(budget.value, "spent", JNum(0.0));
      match (Arith(total), Arith(spent))
      case (Some(t), Some(s)) =>
        Some(Overview(|listings|, CountIf(listings, IsActiveRecord), recommendations, collectionSize,
                      total, spent, t - s))
      case _ => None
  }

  // ── budget update ─────────────────────────────────────────────

  datatype Rejection = InvalidJson | NotNumbers | Negative | Overspent

  /** The answer to a budget update: a 400 error, or the budget that was saved. */
  datatype Update = Rejected(why: Rejection) | Accepted(budget: map<string, Json>)

  /** `isinstance(v, (int, float))` as written: a JSON boolean passes, since `bool` is an `int`. */
  predicate NumberAsWritten(j: Json) { j.JNum? || j.JBool? }

  /** A JSON number, and nothing else. */
  predicate Number(j: Json) { j.JNum? }

  /**
   * `update_budget`: `body` is the parsed request (`None` when it is not
   * JSON) and `existing` the saved budget (`None` when missing, unreadable
   * or a list). `isNumber` is the type test applied to both fields.
   */
  function UpdateWith(isNumber: Json -> bool, body: Option<map<string, Json>>,
                      existing: Option<map<string, Json>>): (u: Update)
    requires forall j :: isNumber(j) ==> Arith(j).Some?
    ensures u.Accepted? ==> (body.Some? && "total" in u.budget && "spent" in u.budget
      && u.budget["total"] == GetJson(body.value, "total", JNull) && isNumber(u.budget["total"])
      && u.budget["spent"] == GetJson(body.value, "spent", JNull) && isNumber(u.budget["spent"]))
  {
    if body.None? then Rejected(InvalidJson)
    else
      var total := GetJson(body.value, "total", JNull);
      var spent := GetJson(body.value, "spent", JNull);
      if !isNumber(total) || !isNumber(spent) then Rejected(NotNumbers)
      else if Arith(total).value < 0.0 || Arith(spent).value < 0.0 then Rejected(Negative)
      else if Arith(spent).value > Arith(total).value then Rejected(Overspent)
      else Accepted(existing.GetOr(map[])["total" := total]["spent" := spent])
  }

  /** The handler as written. */
  function UpdateBudgetAsWritten(body: Option<map<string, Json>>, existing: Option<map<string, Json>>): (u: Update)
    ensures u.Accepted? ==> ("total" in u.budget && "spent" in u.budget
      && NumberAsWritten(u.budget["total"]) && NumberAsWritten(u.budget["spent"]))
  {
    UpdateWith(NumberAsWritten, body, existing)
  }

  /** The handler with the type test its comment states: both fields must be JSON numbers. */
  function UpdateBudget(body: Option<map<string, Json>>, existing: Option<map<string, Json>>): (u: Update)
    ensures u.Accepted? ==> ("total" in u.budget && "spent" in u.budget
      && u.budget["total"].JNum? && u.budget["spent"].JNum?)
  {
    UpdateWith(Number, body, existing)
  }

  /**
   * An update is accepted exactly when the body is JSON whose total and
   * spent are numbers with `0 <= spent <= total`; otherwise the first
   * failing check names the rejection.
   */
  lemma UpdateBudgetAccepts(body: Option<map<string, Json>>, existing: Option<map<string, Json>>)
    ensures var u := UpdateBudget(body, existing);
      u.Accepted? <==> (body.Some?
        && GetJson(body.value, "total", JNull).JNum? && GetJson(body.value, "spent", JNull).JNum?
        && 0.0 <= GetJson(body.value, "spent", JNull).x <= GetJson(body.value, "total", JNull).x)
    ensures UpdateBudget(body, existing) == Rejected(InvalidJson) <==> body.None?
    ensures var u := UpdateBudget(body, existing);
      u == Rejected(NotNumbers) <==> (body.Some?
        && !(GetJson(body.value, "total", JNull).JNum? && GetJson(body.value, "spent", JNull).JNum?))
  {
  }

  /** An accepted update sets the two figures and leaves every other budget key as it was. */
  lemma UpdateBudgetKeepsOthers(body: Option<map<string, Json>>, existing: Option<map<string, Json>>, k: string)
    requires UpdateBudget(body, existing).Accepted?
    ensures var b := UpdateBudget(body, existing).budget;
      b["total"] == body.value["total"] && b["spent"] == body.value["spent"]
    ensures var b := UpdateBudget(body, existing).budget;
      k != "total" && k != "spent" ==>
        (k in b <==> existing.Some? && k in existing.value)
        && (k in b ==> b[k] == existing.value[k])
  {
  }

  /** After an accepted update the overview shows a remaining budget of `total - spent`, never negative. */
  lemma RemainingAfterUpdate(body: Option<map<string, Json>>, existing: Option<map<string, Json>>,
                             listings: seq<map<Cell, Cell>>, recommendations: nat, collectionSize: nat)
    requires UpdateBudget(body, existing).Accepted?
    ensures var b := UpdateBudget(body, existing).budget;
      var o := GetStats(listings, recommendations, collectionSize, Some(b));
      o.Some? && o.value.budgetRemaining == b["total"].x - b["spent"].x && o.value.budgetRemaining >= 0.0
  {
    var b := UpdateBudget(body, existing).budget;
    assert "total" in b;
  }

  /** The handler as written saves booleans as a budget. */
  lemma BooleanBudgetAccepted()
    ensures UpdateBudgetAsWritten(Some(map["total" := JBool(true), "spent" := JBool(false)]), None).Accepted?
    ensures UpdateBudget(Some(map["total" := JBool(true), "spent" := JBool(false)]), None) == Rejected(NotNumbers)
  {
    var body := map["total" := JBool(true), "spent" := JBool(false)];
    assert GetJson(body, "total", JNull) == JBool(true);
    assert GetJson(body, "spent", JNull) == JBool(false);
  }

  // ── scorer knowledge: learned rates ───────────────────────────

  /** One price-history snapshot; `date` is `None` when the key is missing. */
  datatype Snapshot = Snapshot(date: Option<string>, reverbLo: Option<real>, reverbHi: Option<real>)

  /** The snapshots of one model, under its `"brand|model"` key. */
  datatype Series = Series(key: string, entries: seq<Snapshot>)

  /**
   * A model has a learned rate when it has two or more snapshots and the
   * first and last dates both read as `%Y-%m-%d` and lie 30 or more days
   * apart; a missing or malformed date just leaves it out.
   */
  predicate Learned(s: Series) {
    var ends := EndDates(s);
    ends.Some? && Dates.DaysBetween(ends.value.0, ends.value.1) >= 30
  }

  /** The first and last snapshot dates, when there are two or more snapshots and both dates read. */
  function EndDates(s: Series): (r: Option<(Dates.Date, Dates.Date)>)
    ensures r.Some? ==> Dates.Valid(r.value.0) && Dates.Valid(r.value.1)
  {
    EndDatesBy(s, Dates.ParseYmd)
  }

  /** The first and last snapshot dates as `parse` reads them. */
  function EndDatesBy(s: Series, parse: string -> Option<Dates.Date>): Option<(Dates.Date, Dates.Date)> {
    var es := s.entries;
    if |es| < 2 || es[0].date.None? || es[|es| - 1].date.None? then None
    else
      var first := parse(es[0].date.value);
      var last := parse(es[|es| - 1].date.value);
      if first.Some? && last.Some? then Some((first.value, last.value)) else None
  }

  /** `learned_rates` */
  function LearnedRates(snapshots: seq<Series>): (n: nat)
    ensures n <= |snapshots|
  {
    CountIf(snapshots, Learned)
  }

  /** `price_snapshots`: the number of snapshots over all models. */
  function TotalSnapshots(snapshots: seq<Series>): nat
    decreases |snapshots|
  {
    if snapshots == [] then 0 else |snapshots[0].entries| + TotalSnapshots(snapshots[1..])
  }

  /** Every learned rate rests on at least two snapshots. */
  lemma {:induction false} LearnedNeedsSnapshots(snapshots: seq<Series>)
    ensures 2 * LearnedRates(snapshots) <= TotalSnapshots(snapshots)
    decreases |snapshots|
  {
    if snapshots != [] {
      LearnedNeedsSnapshots(snapshots[1..]);
    }
  }

  /**
   * For snapshots dated the way `date.isoformat()` writes dates, a model
   * counts exactly when its first and last days are 30 or more days apart.
   */
  lemma LearnedOfIsoDates(s: Series, a: Dates.Date, b: Dates.Date)
    requires Dates.Valid(a) && Dates.Valid(b) && |s.entries| >= 2
    requires s.entries[0].date == Some(Dates.Format(a))
    requires s.entries[|s.entries| - 1].date == Some(Dates.Format(b))
    ensures Learned(s) <==> Dates.DaysBetween(a, b) >= 30
  {
    Dates.ParseYmdFormat(a);
    Dates.ParseYmdFormat(b);
    LearnedWhen(s, a, b);
  }

  /** Once both end dates read, the count only asks how far apart they are. */
  lemma LearnedWhen(s: Series, a: Dates.Date, b: Dates.Date)
    requires |s.entries| >= 2
    requires s.entries[0].date.Some? && Dates.ParseYmd(s.entries[0].date.value) == Some(a)
    requires s.entries[|s.entries| - 1].date.Some? && Dates.ParseYmd(s.entries[|s.entries| - 1].date.value) == Some(b)
    ensures Learned(s) <==> Dates.DaysBetween(a, b) >= 30
  {
    EndDatesOf(s, s.entries[0].date.value, s.entries[|s.entries| - 1].date.value, a, b);
  }

  lemma EndDatesOf(s: Series, x: string, y: string, a: Dates.Date, b: Dates.Date)
    requires |s.entries| >= 2
    requires s.entries[0].date == Some(x) && s.entries[|s.entries| - 1].date == Some(y)
    requires Dates.ParseYmd(x) == Some(a) && Dates.ParseYmd(y) == Some(b)
    ensures EndDates(s) == Some((a, b))
  {
    EndDatesByOf(s, Dates.ParseYmd, x, y, a, b);
  }

  lemma EndDatesByOf(s: Series, parse: string -> Option<Dates.Date>, x: string, y: string, a: Dates.Date, b: Dates.Date)
    requires |s.entries| >= 2
    requires s.entries[0].date == Some(x) && s.entries[|s.entries| - 1].date == Some(y)
    requires parse(x) == Some(a) && parse(y) == Some(b)
    ensures EndDatesBy(s, parse) == Some((a, b))
  {
  }


  // ── ML status and performance ─────────────────────────────────

  /** Python's `a < b` on strings: code point by code point, a proper prefix first. */
  predicate LexLess(a: string, b: string)
    decreases |a|
  {
    if a == [] then b != []
    else if b == [] then false
    else if a[0] != b[0] then a[0] < b[0]
    else LexLess(a[1..], b[1..])
  }

  lemma {:induction false} LexLessTrans(a: string, b: string, c: string)
    requires LexLess(a, b) && LexLess(b, c)
    ensures LexLess(a, c)
    decreases |a|
  {
    if a != [] && b != [] && c != [] && a[0] == b[0] && b[0] == c[0] {
      LexLessTrans(a[1..], b[1..], c[1..]);
    }
  }

  lemma {:induction false} LexLessIrreflexive(a: string)
    ensures !LexLess(a, a)
    decreases |a|
  {
    if a != [] {
      LexLessIrreflexive(a[1..]);
    }
  }

  lemma {:induction false} LexLessTotal(a: string, b: string)
    ensures a == b || LexLess(a, b) || LexLess(b, a)
    decreases |a|
  {
    if a != [] && b != [] && a[0] == b[0] {
      LexLessTotal(a[1..], b[1..]);
      if a[1..] == b[1..] {
        assert a == [a[0]] + a[1..] && b == [b[0]] + b[1..];
      }
    }
  }

  /** What the dashboard reads about one model: whether it is saved and when it was trained. */
  datatype ModelMeta = ModelMeta(available: bool, trainedAt: Option<string>)

  /** The metadata names a training time (`if meta.get("trained_at"):`). */
  predicate Stamped(m: ModelMeta) { m.trainedAt.Some? && m.trainedAt.value != "" }

  /** The running maximum of the training times from `acc` on. */
  function LatestFrom(metas: seq<ModelMeta>, acc: Option<string>): (r: Option<string>)
    ensures r.None? <==> acc.None? && forall i :: 0 <= i < |metas| ==> !Stamped(metas[i])
    ensures r.Some? ==> r == acc || exists i :: 0 <= i < |metas| && Stamped(metas[i]) && metas[i].trainedAt == r
    decreases |metas|
  {
    if metas == [] then acc
    else
      var m := metas[0];
      var acc' := if Stamped(m) && (acc.None? || LexLess(acc.value, m.trainedAt.value)) then m.trainedAt else acc;
      var r := LatestFrom(metas[1..], acc');
      assert forall i :: 1 <= i < |metas| ==> metas[i] == metas[1..][i - 1];
      r
  }

  /** No stamp seen is later than the running maximum. */
  lemma {:induction false} LatestFromBound(metas: seq<ModelMeta>, acc: Option<string>)
    requires LatestFrom(metas, acc).Some?
    ensures acc.Some? ==> !LexLess(LatestFrom(metas, acc).value, acc.value)
    ensures forall i :: 0 <= i < |metas| && Stamped(metas[i]) ==>
      !LexLess(LatestFrom(metas, acc).value, metas[i].trainedAt.value)
    decreases |metas|
  {
    if metas == [] {
      LexLessIrreflexive(acc.value);
    } else {
      var m := metas[0];
      var acc' := if Stamped(m) && (acc.None? || LexLess(acc.value, m.trainedAt.value)) then m.trainedAt else acc;
      LatestFromBound(metas[1..], acc');
      var r := LatestFrom(metas, acc).value;
      assert r == LatestFrom(metas[1..], acc').value;
      if acc.Some? && LexLess(r, acc.value) {
        if acc' != acc {
          LexLessTrans(r, acc.value, acc'.value);
        }
      }
      forall i | 0 <= i < |metas| && Stamped(metas[i])
        ensures !LexLess(r, metas[i].trainedAt.value)
      {
        if i > 0 {
          assert metas[i] == metas[1..][i - 1];
        } else if LexLess(r, m.trainedAt.value) && acc' != m.trainedAt {
          LexLessTotal(acc.value, m.trainedAt.value);
          if acc.value != m.trainedAt.value {
            LexLessTrans(r, m.trainedAt.value, acc.value);
          }
        }
      }
    }
  }

  /** `last_trained`: the latest training time among the models, or `None` when none has one. */
  function LastTrained(metas: seq<ModelMeta>): Option<string> {
    LatestFrom(metas, None)
  }

  /**
   * `last_trained` is the largest training time as Python orders strings:
   * it is one of them, and none is larger; it is `None` only when no model
   * names one.
   */
  lemma LastTrainedIsMax(metas: seq<ModelMeta>)
    ensures LastTrained(metas).None? <==> forall i :: 0 <= i < |metas| ==> !Stamped(metas[i])
    ensures LastTrained(metas).Some? ==>
      exists i :: 0 <= i < |metas| && Stamped(metas[i]) && metas[i].trainedAt == LastTrained(metas)
    ensures LastTrained(metas).Some? ==> forall i :: 0 <= i < |metas| && Stamped(metas[i]) ==>
      !LexLess(LastTrained(metas).value, metas[i].trainedAt.value)
  {
    if LastTrained(metas).Some? {
      LatestFromBound(metas, None);
    }
  }

  predicate Available(m: ModelMeta) { m.available }

  datatype MlStatus = MlStatus(modelsActive: nat, trainingSamples: nat, daysOfData: nat, lastTrained: Option<string>)

  /** `get_ml_status` from the four models' metadata, the sample count and the number of daily logs. */
  function GetMlStatus(metas: seq<ModelMeta>, soldListings: nat, dailyLogs: nat): (s: MlStatus)
    ensures s.modelsActive == CountIf(metas, Available) && s.modelsActive <= |metas|
    ensures s.trainingSamples == soldListings && s.daysOfData == dailyLogs
  {
    MlStatus(CountIf(metas, Available), soldListings, dailyLogs, LastTrained(metas))
  }

  /** `get_ml_performance`: the last 30 daily logs. */
  function GetMlPerformance<T>(logs: seq<T>): (r: seq<T>)
    ensures |r| == if |logs| <= 30 then |logs| else 30
    ensures r == logs[|logs| - |r|..]
  {
    LastN(logs, 30)
  }

  /** The window slides: a new day's log pushes out the oldest one once 30 are shown. */
  lemma PerformanceWindowSlides<T>(logs: seq<T>, today: T)
    ensures GetMlPerformance(logs + [today]) == LastN(GetMlPerformance(logs) + [today], 30)
    ensures GetMlPerformance(logs + [today])[|GetMlPerformance(logs + [today])| - 1] == today
  {
    LastNSnoc(logs, today, 30);
  }

  // ── iconic models ─────────────────────────────────────────────

  /** An entry of the iconic-models knowledge file. */
  datatype Iconic = Iconic(brand: string, model: string, goldenEra: seq<int>, artists: seq<string>, boost: real)

  /** An iconic model as the dashboard shows it, with the value range of its latest snapshot. */
  datatype IconicView = IconicView(
    brand: string, model: string, goldenEra: seq<int>, boost: real, artists: seq<string>,
    valueLo: Option<real>, valueHi: Option<real>)

  /** The price-history key of a model. */
  function HistoryKey(brand: string, model: string): string {
    Lower(brand) + "|" + Lower(model)
  }

  /** The snapshots under `key` (the first series with that key). */
  function Lookup(snapshots: seq<Series>, key: string): (r: Option<seq<Snapshot>>)
    ensures r.Some? ==> exists i :: 0 <= i < |snapshots| && snapshots[i] == Series(key, r.value)
    ensures r.None? <==> forall i :: 0 <= i < |snapshots| ==> snapshots[i].key != key
    decreases |snapshots|
  {
    if snapshots == [] then None
    else if snapshots[0].key == key then Some(snapshots[0].entries)
    else
      var r := Lookup(snapshots[1..], key);
      assert forall i :: 1 <= i < |snapshots| ==> snapshots[i] == snapshots[1..][i - 1];
      r
  }

  /** One iconic model with at most three artists and the range of its latest snapshot. */
  function ViewOf(m: Iconic, snapshots: seq<Series>): (v: IconicView)
    ensures v.brand == m.brand && v.model == m.model && v.boost == m.boost && v.goldenEra == m.goldenEra
    ensures |v.artists| <= 3 && |v.artists| <= |m.artists| && v.artists == m.artists[..|v.artists|]
    ensures |v.artists| == if |m.artists| < 3 then |m.artists| else 3
  {
    var es := Lookup(snapshots, HistoryKey(m.brand, m.model));
    var latest := if es.Some? && es.value != [] then Some(es.value[|es.value| - 1]) else None;
    IconicView(m.brand, m.model, m.goldenEra, m.boost, PyTake(m.artists, 3),
               if latest.Some? then latest.value.reverbLo else None,
               if latest.Some? then latest.value.reverbHi else None)
  }

  function BoostKey(v: IconicView): real { v.boost }

  /** `get_iconic_models`: the views, largest boost first, ties in file order. */
  function GetIconicModels(models: seq<Iconic>, snapshots: seq<Series>): (r: seq<IconicView>)
    ensures |r| == |models|
  {
    SortDesc(seq(|models|, i requires 0 <= i < |models| => ViewOf(models[i], snapshots)), BoostKey)
  }

  /**
   * The list is ordered by boost, keeps models with equal boost in file
   * order, and shows every model exactly once.
   */
  lemma IconicOrder(models: seq<Iconic>, snapshots: seq<Series>, boost: real)
    ensures SortedDesc(GetIconicModels(models, snapshots), BoostKey)
    ensures var views := seq(|models|, i requires 0 <= i < |models| => ViewOf(models[i], snapshots));
      multiset(GetIconicModels(models, snapshots)) == multiset(views)
      && WithKey(GetIconicModels(models, snapshots), BoostKey, boost) == WithKey(views, BoostKey, boost)
  {
    var views := seq(|models|, i requires 0 <= i < |models| => ViewOf(models[i], snapshots));
    SortDescSorted(views, BoostKey);
    SortDescStable(views, BoostKey, boost);
  }

  /** A model with snapshots shows the range of its most recent one. */
  lemma IconicValueIsLatest(m: Iconic, snapshots: seq<Series>, es: seq<Snapshot>)
    requires Lookup(snapshots, HistoryKey(m.brand, m.model)) == Some(es) && es != []
    ensures ViewOf(m, snapshots).valueLo == es[|es| - 1].reverbLo
    ensures ViewOf(m, snapshots).valueHi == es[|es| - 1].reverbHi
  {
  }
}

=== FILE: dates.dfy ===
/**
 * Calendar dates as Python's `datetime.date` sees them: validity, the two
 * parsers the scripts use (`date.fromisoformat` and
 * `datetime.strptime(s, "%Y-%m-%d")`), and day ordinals for differences.
 */
module Dates {
  import opened Wrappers
  import opened Text
  import opened Numbers

  datatype Date = Date(year: int, month: int, day: int)

  predicate IsLeap(y: int) {
    y % 4 == 0 && (y % 100 != 0 || y % 400 == 0)
  }

  function DaysInMonth(y: int, m: int): (n: int)
    requires 1 <= m <= 12
    ensures 28 <= n <= 31
  {
    if m == 2 then (if IsLeap(y) then 29 else 28)
    else if m == 4 || m == 6 || m == 9 || m == 11 then 30
    else 31
  }

  /** A date `datetime.date` accepts: years 1 to 9999 and a day that exists in its month. */
  predicate Valid(d: Date) {
    1 <= d.year <= 9999 && 1 <= d.month <= 12 && 1 <= d.day <= DaysInMonth(d.year, d.month)
  }

  // ── parsing ───────────────────────────────────────────────────

  /** `date.fromisoformat(s)` for the `YYYY-MM-DD` form; `None` is the `ValueError`. */
  function ParseIso(s: string): (r: Option<Date>)
    ensures r.Some? ==> Valid(r.value)
    ensures r.Some? ==> |s| == 10 && s[4] == '-' && s[7] == '-'
  {
    if |s| == 10 && s[4] == '-' && s[7] == '-' && AllDigits(s[..4]) && AllDigits(s[5..7]) && AllDigits(s[8..]) then
      var d := Date(DigitsValue(s[..4]), DigitsValue(s[5..7]), DigitsValue(s[8..]));
      if Valid(d) then Some(d) else None
    else None
  }

  /** The `%m` field of `strptime`: `1[0-2]`, `0[1-9]` or `[1-9]`. */
  function MonthField(t: string): (r: Option<int>)
    ensures r.Some? ==> 1 <= r.value <= 12
  {
    if |t| == 1 && IsDigit(t[0]) && t[0] != '0' then Some(DigitVal(t[0]))
    else if |t| == 2 && t[0] == '1' && '0' <= t[1] <= '2' then Some(10 + DigitVal(t[1]))
    else if |t| == 2 && t[0] == '0' && IsDigit(t[1]) && t[1] != '0' then Some(DigitVal(t[1]))
    else None
  }

  /** The `%d` field of `strptime`: `3[01]`, `[12]\d`, `0[1-9]`, `[1-9]` or a space and `[1-9]`. */
  function DayField(t: string): (r: Option<int>)
    ensures r.Some? ==> 1 <= r.value <= 31
  {
    if |t| == 1 && IsDigit(t[0]) && t[0] != '0' then Some(DigitVal(t[0]))
    else if |t| == 2 && t[0] == '3' && (t[1] == '0' || t[1] == '1') then Some(30 + DigitVal(t[1]))
    else if |t| == 2 && (t[0] == '1' || t[0] == '2') && IsDigit(t[1]) then Some(10 * DigitVal(t[0]) + DigitVal(t[1]))
    else if |t| == 2 && (t[0] == '0' || t[0] == ' ') && IsDigit(t[1]) && t[1] != '0' then Some(DigitVal(t[1]))
    else None
  }

  /**
   * `datetime.strptime(s, "%Y-%m-%d").date()`: four digits, a dash, the
   * month field, a dash, the day field and nothing after it, naming a
   * valid date; `None` is the `ValueError`.
   */
  function ParseYmd(s: string): (r: Option<Date>)
    ensures r.Some? ==> Valid(r.value)
  {
    if |s| < 5 || s[4] != '-' || !AllDigits(s[..4]) then None
    else
      match SplitFirst(s[5..], '-')
      case None => None
      case Some((m, d)) =>
        match (MonthField(m), DayField(d))
        case (Some(mv), Some(dv)) =>
          var date := Date(DigitsValue(s[..4]), mv, dv);
          if Valid(date) then Some(date) else None
        case _ => None
  }

  /** Two-digit fields read by `fromisoformat` are read the same way by `strptime`. */
  lemma TwoDigitFields(t: string)
    requires |t| == 2 && AllDigits(t) && 1 <= DigitsValue(t) <= 31
    ensures 1 <= DigitsValue(t) <= 12 ==> MonthField(t) == Some(DigitsValue(t))
    ensures DayField(t) == Some(DigitsValue(t))
  {
    assert t[..1] == [t[0]];
    assert DigitsValue(t) == 10 * DigitVal(t[0]) + DigitVal(t[1]);
  }

  /** Every date `fromisoformat` accepts, `strptime` with `%Y-%m-%d` accepts as the same date. */
  lemma ParseYmdAcceptsIso(s: string)
    requires ParseIso(s).Some?
    ensures ParseYmd(s) == ParseIso(s)
  {
    var d := ParseIso(s).value;
    var m := s[5..7];
    var dd := s[8..];
    assert d == Date(DigitsValue(s[..4]), DigitsValue(m), DigitsValue(dd));
    assert s[5..] == m + "-" + dd;
    assert m[0] != '-' && m[1] != '-';
    IndexOfCharAfter(m, "-" + dd, '-');
    assert (m + "-" + dd)[..2] == m && (m + "-" + dd)[3..] == dd;
    assert SplitFirst(s[5..], '-') == Some((m, dd));
    TwoDigitFields(m);
    TwoDigitFields(dd);
    assert MonthField(m) == Some(d.month) && DayField(dd) == Some(d.day);
  }

  // ── formatting ────────────────────────────────────────────────

  /** `date.isoformat()` */
  function Format(d: Date): (s: string)
    requires Valid(d)
    ensures |s| == 10 && s[4] == '-' && s[7] == '-'
  {
    Year4(d.year) + "-" + PadDigits(d.month, 2) + "-" + PadDigits(d.day, 2)
  }

  /** `fromisoformat` reads back what `isoformat` writes. */
  lemma ParseFormat(d: Date)
    requires Valid(d)
    ensures ParseIso(Format(d)) == Some(d)
  {
    var s := Format(d);
    assert s[..4] == Year4(d.year);
    assert s[5..7] == PadDigits(d.month, 2);
    assert s[8..] == PadDigits(d.day, 2);
    Year4Value(d.year);
    assert Pow10(2) == 100;
    PadDigitsValue(d.month, 2);
    PadDigitsValue(d.day, 2);
  }

  /** `strptime` with `%Y-%m-%d` reads back what `isoformat` writes. */
  lemma ParseYmdFormat(d: Date)
    requires Valid(d)
    ensures ParseYmd(Format(d)) == Some(d)
  {
    ParseFormat(d);
    ParseYmdAcceptsIso(Format(d));
  }

  // ── ordinals ──────────────────────────────────────────────────

  /** Days in the months of year `y` before month `m`. */
  function DaysBeforeMonth(y: int, m: int): (n: int)
    requires 1 <= m <= 13
    ensures n >= 0
    decreases m
  {
    if m == 1 then 0 else DaysBeforeMonth(y, m - 1) + DaysInMonth(y, m - 1)
  }

  /** Days in the years before year `y` (from year 1). */
  function DaysBeforeYear(y: int): int {
    var p := y - 1;
    365 * p + p / 4 - p / 100 + p / 400
  }

  /** `date.toordinal()`: 1 for 0001-01-01, one more for each following day. */
  function Ordinal(d: Date): int
    requires Valid(d)
  {
    DaysBeforeYear(d.year) + DaysBeforeMonth(d.year, d.month) + d.day
  }

  /** `(b - a).days` */
  function DaysBetween(a: Date, b: Date): int
    requires Valid(a) && Valid(b)
  {
    Ordinal(b) - Ordinal(a)
  }

  lemma FirstOrdinal()
    ensures Ordinal(Date(1, 1, 1)) == 1
  {
  }

  /** The next day within a month is one ordinal later. */
  lemma NextDayInMonth(d: Date)
    requires Valid(d) && d.day < DaysInMonth(d.year, d.month)
    ensures Valid(d.(day := d.day + 1)) && Ordinal(d.(day := d.day + 1)) == Ordinal(d) + 1
  {
  }

  /** The first of the next month is one ordinal after the last of this one. */
  lemma NextMonth(y: int, m: int)
    requires 1 <= y <= 9999 && 1 <= m < 12
    ensures Valid(Date(y, m, DaysInMonth(y, m))) && Valid(Date(y, m + 1, 1))
    ensures Ordinal(Date(y, m + 1, 1)) == Ordinal(Date(y, m, DaysInMonth(y, m))) + 1
  {
  }

  /** The twelve months of a year add up to 366 days when leap, 365 otherwise. */
  lemma YearDays(y: int)
    ensures DaysBeforeMonth(y, 13) == if IsLeap(y) then 366 else 365
  {
    assert DaysBeforeMonth(y, 3) == 31 + DaysInMonth(y, 2);
    assert DaysBeforeMonth(y, 7) == DaysBeforeMonth(y, 3) + 31 + 30 + 31 + 30;
    assert DaysBeforeMonth(y, 13) == DaysBeforeMonth(y, 7) + 31 + 31 + 30 + 31 + 30 + 31;
  }

  /** `(p + 1) / k` exceeds `p / k` by one exactly when `k` divides `p + 1`, for the leap-year divisors. */
  lemma DivStep(p: int, k: int)
    requires p >= 0 && (k == 4 || k == 100 || k == 400)
    ensures (p + 1) / k - p / k == if (p + 1) % k == 0 then 1 else 0
  {
    if k == 4 {
      assert p == 4 * (p / 4) + p % 4;
    } else if k == 100 {
      assert p == 100 * (p / 100) + p % 100;
    } else {
      assert p == 400 * (p / 400) + p % 400;
    }
  }

  /** The years before `y + 1` count 366 more days than those before `y` when `y` is leap, 365 otherwise. */
  lemma YearLength(y: int)
    requires 1 <= y
    ensures DaysBeforeYear(y + 1) - DaysBeforeYear(y) == if IsLeap(y) then 366 else 365
  {
    var p := y - 1;
    DivStep(p, 4);
    DivStep(p, 100);
    DivStep(p, 400);
    var a := (p + 1) / 4 - p / 4;
    var b := (p + 1) / 100 - p / 100;
    var c := (p + 1) / 400 - p / 400;
    assert DaysBeforeYear(y + 1) - DaysBeforeYear(y) == 365 + a - b + c;
    ModChain(y);
  }

  /** A multiple of 400 is a multiple of 100, and a multiple of 100 one of 4. */
  lemma ModChain(y: int)
    ensures y % 400 == 0 ==> y % 100 == 0
    ensures y % 100 == 0 ==> y % 4 == 0
  {
    if y % 400 == 0 {
      var q := y / 400;
      assert y == 100 * (4 * q);
    }
    if y % 100 == 0 {
      var q := y / 100;
      assert y == 4 * (25 * q);
    }
  }

  /** New Year's Day is one ordinal after the last day of the previous year. */
  lemma NextYear(y: int)
    requires 1 <= y < 9999
    ensures Valid(Date(y, 12, 31)) && Valid(Date(y + 1, 1, 1))
    ensures Ordinal(Date(y + 1, 1, 1)) == Ordinal(Date(y, 12, 31)) + 1
  {
    YearDays(y);
    YearLength(y);
  }
}

=== FILE: generate_dashboard.dfy ===
/**
 * The data side of the static dashboard generator: reading listing rows in
 * either spreadsheet layout, the overview statistics, the top picks and the
 * file-name slug of a brand page.
 */
module GenerateDashboard {
  import opened Wrappers
  import opened Text
  import opened Numbers
  import opened Seqs
  import opened Cells
  import opened Counters

  // ── prices ────────────────────────────────────────────────────

  /** A price cell's text without the dollar sign, the thousands commas and the euro sign. */
  function PriceText(s: string): string {
    RemoveChar(RemoveChar(RemoveChar(s, '$'), ','), '€')
  }

  /**
   * `parse_price`: an empty or zero cell has no price, a number is its own
   * price, text is read as a decimal once currency marks are removed, and
   * anything else (a date) has no price.
   */
  function ParsePrice(c: Cell): (r: Option<real>)
    ensures !Truthy(c) || c.When? ==> r.None?
    ensures c.Int? && c.i != 0 ==> r == Some(c.i as real)
    ensures c.Real? && c.r != 0.0 ==> r == Some(c.r)
    ensures c.Text? && c.s != "" ==> r == ParseDecimal(Strip(PriceText(c.s)))
  {
    if !Truthy(c) then None
    else
      match c
      case Int(i) => Some(i as real)
      case Real(x, _) => Some(x)
      case Text(s) => ParseDecimal(Strip(PriceText(s)))
      case _ => None
  }

  /** A digit string holds no other character. */
  lemma DigitsLack(d: string, c: char)
    requires AllDigits(d) && !IsDigit(c)
    ensures c !in d
  {
    assert forall i :: 0 <= i < |d| ==> d[i] != c;
  }

  /** Digits carry none of the marks a price text loses. */
  lemma PriceTextOfDigits(d: string)
    requires AllDigits(d)
    ensures PriceText(d) == d
  {
    DigitsLack(d, '$');
    DigitsLack(d, ',');
    DigitsLack(d, '€');
    RemoveCharAbsent(d, '$');
    RemoveCharAbsent(d, ',');
    RemoveCharAbsent(d, '€');
  }

  /** A dollar amount such as "$2500" is read as that many dollars (even "$0", as 0). */
  lemma ParsePriceDollars(n: nat)
    ensures ParsePrice(Text("$" + NatToString(n))) == Some(n as real)
  {
    var d := NatToString(n);
    RemoveCharAppend("$", d, '$');
    assert RemoveChar("$", '$') == "";
    assert RemoveChar("$" + d, '$') == RemoveChar(d, '$');
    PriceTextOfDigits(d);
    assert PriceText("$" + d) == d;
    StripDigits(d);
    ParseDecimalOfNat(n);
  }

  /** Removing a character absent from both ends only touches the middle. */
  lemma RemoveInMiddle(a: string, m: string, b: string, c: char)
    requires c !in a && c !in b
    ensures RemoveChar(a + m + b, c) == a + RemoveChar(m, c) + b
  {
    RemoveCharAppend(a + m, b, c);
    RemoveCharAppend(a, m, c);
    RemoveCharAbsent(a, c);
    RemoveCharAbsent(b, c);
  }

  /** Taking the marks out of "$" + digits + "," + digits leaves the digits. */
  lemma PriceTextGrouped(d: string, u: string)
    requires AllDigits(d) && AllDigits(u)
    ensures PriceText("$" + d + "," + u) == d + u
  {
    DigitsLack(d, '$');
    DigitsLack(u, '$');
    DigitsLack(d, ',');
    DigitsLack(u, ',');
    RemoveInMiddle(d, ",", u, '$');
    assert RemoveChar(",", '$') == ",";
    RemoveCharAppend("$", d + "," + u, '$');
    assert RemoveChar("$", '$') == "";
    assert "$" + d + "," + u == "$" + (d + "," + u);
    var x1 := RemoveChar("$" + d + "," + u, '$');
    assert x1 == d + "," + u;
    RemoveInMiddle(d, ",", u, ',');
    assert RemoveChar(",", ',') == "";
    assert RemoveChar(x1, ',') == d + u;
    DigitsValueAppend(d, u);
    DigitsLack(d + u, '€');
    RemoveCharAbsent(d + u, '€');
  }

  /** A grouped dollar amount such as "$12,500" is read as the number without its comma. */
  lemma ParsePriceGrouped(thousands: nat, units: nat)
    requires units < 1000
    ensures ParsePrice(Text("$" + NatToString(thousands) + "," + PadDigits(units, 3)))
         == Some((thousands * 1000 + units) as real)
  {
    var d := NatToString(thousands);
    var u := PadDigits(units, 3);
    PriceTextGrouped(d, u);
    GroupedDigitsValue(thousands, units);
  }

  /** The digits of the thousands followed by three digits of the units read as one number. */
  lemma GroupedDigitsValue(thousands: nat, units: nat)
    requires units < 1000
    ensures var s := NatToString(thousands) + PadDigits(units, 3);
      ParseDecimal(Strip(s)) == Some((thousands * 1000 + units) as real)
  {
    var d := NatToString(thousands);
    var u := PadDigits(units, 3);
    DigitsValueAppend(d, u);
    StripDigits(d + u);
    ParseDecimalOfDigits(d + u);
    DigitsRoundTrip(thousands);
    assert Pow10(3) == 1000;
    PadDigitsValue(units, 3);
  }

  // ── rows ──────────────────────────────────────────────────────

  /** One listing as the generator reads it from a spreadsheet row. */
  datatype Listing = Listing(
    date: Cell, source: Cell, brand: Cell, model: Cell, gtype: Cell, year: Cell,
    price: Option<real>, reverbLo: Option<real>, reverbHi: Option<real>,
    condition: Cell, url: Cell, onHold: Cell, sold: Cell)

  /** The newer layout has a "Source" column after the date; the older one has none. */
  datatype Layout = Layout(hasSource: bool) {
    /** Index of the URL column. */
    function UrlColumn(): nat { if hasSource then 10 else 9 }
    /** Number of columns a listing row is read from. */
    function Width(): nat { if hasSource then 13 else 12 }
  }

  /** The layout the header row announces. */
  function LayoutOf(headers: seq<Cell>): (l: Layout)
    ensures l.hasSource <==> Text("Source") in headers
  {
    Layout(Text("Source") in headers)
  }

  /** The listing held by a row wide enough for its layout. */
  function ReadListing(layout: Layout, row: seq<Cell>): Listing
    requires |row| >= layout.Width()
  {
    var o := if layout.hasSource then 1 else 0;
    Listing(
      row[0],
      if layout.hasSource then Or(row[1], Text("retrofret.com")) else Text("retrofret.com"),
      Or(row[1 + o], Text("")), Or(row[2 + o], Text("")), Or(row[3 + o], Text("Unknown")),
      Or(row[4 + o], Text("")),
      ParsePrice(row[5 + o]), ParsePrice(row[6 + o]), ParsePrice(row[7 + o]),
      Or(row[8 + o], Text("unknown")), Or(row[9 + o], Text("")), row[10 + o], row[11 + o])
  }

  /**
   * The newer layout is the older one with a source column inserted after
   * the date: the same row read either way gives the same listing, except
   * that the newer one takes its source from that column.
   */
  lemma LayoutsAgree(row: seq<Cell>, source: Cell)
    requires |row| >= Layout(false).Width()
    ensures var wide := row[..1] + [source] + row[1..];
      |wide| >= Layout(true).Width()
      && ReadListing(Layout(true), wide)
         == ReadListing(Layout(false), row).(source := Or(source, Text("retrofret.com")))
      && wide[Layout(true).UrlColumn()] == row[Layout(false).UrlColumn()]
  {
    var wide := row[..1] + [source] + row[1..];
    assert forall i :: 1 <= i < |row| ==> wide[i + 1] == row[i];
  }

  /** What the loop does with one row: skip it, fail on a short row, or keep a listing. */
  datatype RowOutcome = Skip | Crash | Keep(listing: Listing)

  /**
   * An empty row is skipped; a row too short to hold the URL column fails
   * with an `IndexError`; a row without a URL is skipped; a row with a URL
   * but too short for the status columns fails; any other row is kept.
   */
  function ReadRow(layout: Layout, row: seq<Cell>): (r: RowOutcome)
    ensures r.Keep? <==> |row| >= layout.Width() && Truthy(row[layout.UrlColumn()])
    ensures r.Crash? <==> (row != [] && (|row| <= layout.UrlColumn()
      || (Truthy(row[layout.UrlColumn()]) && |row| < layout.Width())))
    ensures r.Keep? ==> r.listing.url == row[layout.UrlColumn()] && Truthy(r.listing.url)
  {
    if row == [] then Skip
    else if |row| <= layout.UrlColumn() then Crash
    else if !Truthy(row[layout.UrlColumn()]) then Skip
    else if |row| < layout.Width() then Crash
    else Keep(ReadListing(layout, row))
  }

  /**
   * `load_listings` over the data rows: the listings of the kept rows in
   * order, or `None` when some row makes the loop fail.
   */
  function LoadRows(layout: Layout, rows: seq<seq<Cell>>): (r: Option<seq<Listing>>)
    ensures r.None? <==> exists i :: 0 <= i < |rows| && ReadRow(layout, rows[i]).Crash?
    ensures r.Some? ==> |r.value| <= |rows|
    decreases |rows|
  {
    if rows == [] then Some([])
    else
      var rest := LoadRows(layout, rows[1..]);
      assert forall i :: 1 <= i < |rows| ==> rows[i] == rows[1..][i - 1];
      match ReadRow(layout, rows[0])
      case Crash => None
      case Skip => rest
      case Keep(l) => if rest.None? then None else Some([l] + rest.value)
  }

  /** `load_listings`: the header row picks the layout for the data rows. */
  function LoadListings(headers: seq<Cell>, rows: seq<seq<Cell>>): Option<seq<Listing>> {
    LoadRows(LayoutOf(headers), rows)
  }

  /** A row keeps a listing. */
  predicate Kept(layout: Layout, row: seq<Cell>) {
    ReadRow(layout, row).Keep?
  }

  /**
   * When loading succeeds, the listings are exactly those of the kept rows,
   * in row order, so each carries a URL.
   */
  lemma {:induction false} LoadRowsKeeps(layout: Layout, rows: seq<seq<Cell>>)
    requires LoadRows(layout, rows).Some?
    ensures |LoadRows(layout, rows).value| == CountIf(rows, row => Kept(layout, row))
    ensures forall k :: 0 <= k < |LoadRows(layout, rows).value| ==>
      Truthy(LoadRows(layout, rows).value[k].url)
    decreases |rows|
  {
    if rows != [] {
      LoadRowsKeeps(layout, rows[1..]);
    }
  }

  // ── statistics ────────────────────────────────────────────────

  predicate IsOnHold(l: Listing) { Truthy(l.onHold) }
  predicate IsSold(l: Listing) { Truthy(l.sold) }

  /** Neither on hold nor sold. */
  predicate IsActive(l: Listing) { !IsOnHold(l) && !IsSold(l) }

  predicate IsInactive(l: Listing) { IsOnHold(l) || IsSold(l) }

  /** The listing has a price that counts (`if p:` — a zero price does not). */
  predicate HasPrice(l: Listing) { l.price.Some? && l.price.value != 0.0 }

  /** The counted prices, in listing order. */
  function Prices(ls: seq<Listing>): (r: seq<real>)
    ensures |r| == CountIf(ls, HasPrice)
    ensures forall k :: 0 <= k < |r| ==> r[k] != 0.0
    decreases |ls|
  {
    if ls == [] then []
    else (if HasPrice(ls[0]) then [ls[0].price.value] else []) + Prices(ls[1..])
  }

  /** Each counted price, and only those, shows up in the price list. */
  lemma {:induction false} PricesOfListings(ls: seq<Listing>, k: nat)
    requires k < |ls| && HasPrice(ls[k])
    ensures ls[k].price.value in Prices(ls)
    decreases k
  {
    if k > 0 {
      PricesOfListings(ls[1..], k - 1);
    }
  }

  /** `price_bucket` */
  function PriceBucket(p: real): (r: string)
    ensures r in BucketOrder
  {
    if p < 1000.0 then "$0-1k"
    else if p < 2000.0 then "$1k-2k"
    else if p < 5000.0 then "$2k-5k"
    else if p < 10000.0 then "$5k-10k"
    else "$10k+"
  }

  /** The buckets from cheapest to dearest, as the dashboard lists them. */
  const BucketOrder: seq<string> := ["$0-1k", "$1k-2k", "$2k-5k", "$5k-10k", "$10k+"]

  /** Lower bounds of the buckets after the first. */
  const BucketFloors: seq<real> := [1000.0, 2000.0, 5000.0, 10000.0]

  /**
   * The buckets are half-open bands: a price lands in bucket `k` exactly
   * when it is at least the floor of bucket `k` and below the floor of
   * bucket `k + 1`, so a dearer price never lands in a cheaper bucket.
   */
  lemma PriceBucketBands(p: real, k: nat)
    requires k < |BucketOrder|
    ensures PriceBucket(p) == BucketOrder[k] <==>
      (k == 0 || BucketFloors[k - 1] <= p) && (k == 4 || p < BucketFloors[k])
  {
  }

  lemma PriceBucketMonotone(p: real, q: real)
    requires p <= q
    ensures IndexOf(BucketOrder, PriceBucket(p)).value <= IndexOf(BucketOrder, PriceBucket(q)).value
  {
  }

  /** `get_decade`: the decade of the first four-digit run of `str(year)`. */
  function Decade(year: Cell): (r: string)
    ensures r == "Unknown" <==> FirstFourDigits(Str(year)).None?
  {
    match FirstFourDigits(Str(year))
    case None => "Unknown"
    case Some(y) =>
      var r := NatToString(y / 10 * 10) + "s";
      assert r[|r| - 1] != "Unknown"[6];
      r
  }

  /** A year written after digit-free text gives its decade ("c. 1965" is "1960s"). */
  lemma DecadeOfYear(prefix: string, y: nat, suffix: string)
    requires y <= 9999
    requires forall i :: 0 <= i < |prefix| ==> !IsDigit(prefix[i])
    ensures Decade(Text(prefix + Year4(y) + suffix)) == NatToString(y / 10 * 10) + "s"
  {
    FirstFourDigitsOfYear(prefix, y, suffix);
  }

  /** The dashboard figures computed from the listings. */
  datatype Stats = Stats(
    total: nat, active: nat, onHold: nat, sold: nat,
    avgPrice: real, minPrice: real, maxPrice: real,
    brands: seq<(Cell, nat)>, types: seq<(Cell, nat)>,
    decades: seq<(string, nat)>, priceBuckets: seq<(string, nat)>)

  function Types(ls: seq<Listing>): seq<Cell> {
    seq(|ls|, i requires 0 <= i < |ls| => ls[i].gtype)
  }

  function Decades(ls: seq<Listing>): seq<string> {
    seq(|ls|, i requires 0 <= i < |ls| => Decade(ls[i].year))
  }

  /** The brands that are set, in listing order. */
  function Brands(ls: seq<Listing>): (r: seq<Cell>)
    ensures forall k :: 0 <= k < |r| ==> Truthy(r[k])
    decreases |ls|
  {
    if ls == [] then []
    else (if Truthy(ls[0].brand) then [ls[0].brand] else []) + Brands(ls[1..])
  }

  function Buckets(prices: seq<real>): seq<string> {
    seq(|prices|, i requires 0 <= i < |prices| => PriceBucket(prices[i]))
  }

  /** `sum(prices) / len(prices) if prices else 0` */
  function AvgPrice(prices: seq<real>): real {
    if prices == [] then 0.0 else Mean(prices)
  }

  /** `min(prices) if prices else 0` */
  function MinPrice(prices: seq<real>): real {
    if prices == [] then 0.0 else MinOf(prices)
  }

  /** `max(prices) if prices else 0` */
  function MaxPrice(prices: seq<real>): real {
    if prices == [] then 0.0 else MaxOf(prices)
  }

  /** `compute_stats` */
  function ComputeStats(ls: seq<Listing>): (s: Stats)
    ensures s.total == |ls|
    ensures s.active <= s.total && s.onHold <= s.total && s.sold <= s.total
    ensures |s.brands| <= 8
  {
    var prices := Prices(ls);
    Stats(
      |ls|, CountIf(ls, IsActive), CountIf(ls, IsOnHold), CountIf(ls, IsSold),
      AvgPrice(prices), MinPrice(prices), MaxPrice(prices),
      MostCommon(Counter(Brands(ls)), 8),
      Counter(Types(ls)), Counter(Decades(ls)), Counter(Buckets(prices)))
  }

  /** Active listings and inactive ones partition the listings. */
  lemma {:induction false} ActivePartition(ls: seq<Listing>)
    ensures CountIf(ls, IsActive) + CountIf(ls, IsInactive) == |ls|
    ensures CountIf(ls, IsInactive) <= CountIf(ls, IsOnHold) + CountIf(ls, IsSold)
    decreases |ls|
  {
    if ls != [] {
      ActivePartition(ls[1..]);
    }
  }

  /**
   * The price figures are 0 without prices; otherwise the average lies
   * between the smallest and the largest price, which bound every price.
   */
  lemma PriceSummary(prices: seq<real>)
    ensures prices == [] ==> AvgPrice(prices) == 0.0 && MinPrice(prices) == 0.0 && MaxPrice(prices) == 0.0
    ensures prices != [] ==> MinPrice(prices) <= AvgPrice(prices) <= MaxPrice(prices)
    ensures forall k :: 0 <= k < |prices| ==> MinPrice(prices) <= prices[k] <= MaxPrice(prices)
  {
    if prices != [] {
      MeanBetween(prices, MinOf(prices), MaxOf(prices));
    }
  }

  /** The summary covers exactly the counted prices of the listings. */
  lemma StatsPrices(ls: seq<Listing>)
    ensures var s := ComputeStats(ls);
      s.avgPrice == AvgPrice(Prices(ls)) && s.minPrice == MinPrice(Prices(ls)) && s.maxPrice == MaxPrice(Prices(ls))
    ensures Prices(ls) == [] <==> CountIf(ls, HasPrice) == 0
    ensures forall k :: 0 <= k < |ls| && HasPrice(ls[k]) ==> ls[k].price.value in Prices(ls)
  {
    forall k | 0 <= k < |ls| && HasPrice(ls[k]) ensures ls[k].price.value in Prices(ls) {
      PricesOfListings(ls, k);
    }
  }

  /**
   * Every listing is counted once among the types and once among the
   * decades, and every priced listing once among the price buckets.
   */
  lemma StatsCounts(ls: seq<Listing>)
    ensures Counts(ComputeStats(ls).types) == |ls|
    ensures Counts(ComputeStats(ls).decades) == |ls|
    ensures Counts(ComputeStats(ls).priceBuckets) == CountIf(ls, HasPrice)
  {
    CounterTotal(Types(ls));
    CounterTotal(Decades(ls));
    CounterTotal(Buckets(Prices(ls)));
  }

  /**
   * The top brands are the most frequent set brands with their counts,
   * largest first; no brand left out is more frequent than one shown.
   */
  lemma TopBrands(ls: seq<Listing>)
    ensures var top := ComputeStats(ls).brands;
      forall k :: 0 <= k < |top| ==> Truthy(top[k].0) && top[k].1 == Occurrences(Brands(ls), top[k].0)
    ensures SortedDesc(ComputeStats(ls).brands, CountKey)
    ensures var top := ComputeStats(ls).brands;
      forall p, q :: p in Counter(Brands(ls)) && p !in top && q in top ==> p.1 <= q.1
  {
    MostCommonOrder(Counter(Brands(ls)), 8);
    var top := ComputeStats(ls).brands;
    forall k | 0 <= k < |top|
      ensures Truthy(top[k].0) && top[k].1 == Occurrences(Brands(ls), top[k].0)
    {
      assert top[k] in Counter(Brands(ls));
    }
  }

  // ── top picks ─────────────────────────────────────────────────

  /** Active and priced: eligible as a top pick. */
  predicate IsPick(l: Listing) { IsActive(l) && HasPrice(l) }

  /** The sort key of a pick (`x["price"]`). */
  function PriceKey(l: Listing): real {
    if l.price.Some? then l.price.value else 0.0
  }

  /** The eligible listings, dearest first, ties in listing order. */
  function Ranked(ls: seq<Listing>): seq<Listing> {
    SortDesc(Filter(ls, IsPick), PriceKey)
  }

  /** `sorted(active, key=lambda x: x["price"], reverse=True)[:10]` */
  function TopPicks(ls: seq<Listing>): (r: seq<Listing>)
    ensures |r| <= 10
    ensures |r| <= |Ranked(ls)| && r == Ranked(ls)[..|r|]
  {
    PyTake(Ranked(ls), 10)
  }

  /** Every pick is an eligible listing, and there are ten picks unless fewer are eligible. */
  lemma TopPicksEligible(ls: seq<Listing>)
    ensures forall k :: 0 <= k < |TopPicks(ls)| ==> IsPick(TopPicks(ls)[k]) && TopPicks(ls)[k] in ls
    ensures |TopPicks(ls)| == if CountIf(ls, IsPick) < 10 then CountIf(ls, IsPick) else 10
  {
    var r := TopPicks(ls);
    var s := Ranked(ls);
    forall k | 0 <= k < |r| ensures IsPick(r[k]) && r[k] in ls {
      assert r[k] == s[k];
      assert s[k] in multiset(Filter(ls, IsPick));
    }
  }

  /**
   * The picks run from dearest to cheapest, and no eligible listing left out
   * is dearer than any pick.
   */
  lemma TopPicksDearest(ls: seq<Listing>)
    ensures SortedDesc(TopPicks(ls), PriceKey)
    ensures forall l, q :: l in ls && IsPick(l) && l !in TopPicks(ls) && q in TopPicks(ls) ==>
      PriceKey(l) <= PriceKey(q)
  {
    var s := Ranked(ls);
    var r := TopPicks(ls);
    SortDescSorted(Filter(ls, IsPick), PriceKey);
    forall l, q | l in ls && IsPick(l) && l !in r && q in r ensures PriceKey(l) <= PriceKey(q) {
      FilterKeeps(ls, IsPick, l);
      assert l in multiset(s);
      var j :| 0 <= j < |s| && s[j] == l;
      var i :| 0 <= i < |r| && r[i] == q;
      assert s[i] == q;
    }
  }

  /** A row of the recommendations table: rank from 1, the listing, and two value marks. */
  datatype Rec = Rec(rank: nat, listing: Listing, v1: int, v2: int)

  function RecOf(rank: nat, l: Listing): Rec {
    Rec(rank, l, TruncToInt(PriceKey(l) * 1.1), TruncToInt(PriceKey(l) * 1.2))
  }

  /** The recommendations table of the dashboard, one row per top pick. */
  function Recommendations(ls: seq<Listing>): (r: seq<Rec>)
    ensures |r| == |TopPicks(ls)|
    ensures forall k :: 0 <= k < |r| ==> r[k].rank == k + 1 && r[k].listing == TopPicks(ls)[k]
  {
    Numbered(TopPicks(ls))
  }

  /** The picks numbered from 1 in their order, each with its two price marks. */
  function Numbered(picks: seq<Listing>): (r: seq<Rec>)
    ensures |r| == |picks|
    ensures forall k :: 0 <= k < |r| ==> r[k] == RecOf(k + 1, picks[k])
  {
    seq(|picks|, i requires 0 <= i < |picks| => RecOf(i + 1, picks[i]))
  }

  /**
   * For a positive price the marks are the whole parts of 110% and 120% of
   * it, so the first never exceeds the second.
   */
  lemma RecMarks(rank: nat, l: Listing)
    requires PriceKey(l) > 0.0
    ensures var r := RecOf(rank, l);
      r.v1 as real <= PriceKey(l) * 1.1 < r.v1 as real + 1.0
      && r.v2 as real <= PriceKey(l) * 1.2 < r.v2 as real + 1.0
      && r.v1 <= r.v2
  {
  }

  // ── brand pages ───────────────────────────────────────────────

  /** A character kept in a slug: `[a-z0-9]`. */
  predicate SlugChar(c: char) { 'a' <= c <= 'z' || '0' <= c <= '9' }

  predicate Separator(c: char) { !SlugChar(c) }

  predicate IsDash(c: char) { c == '-' }

  /** `re.sub(r"[^a-z0-9]+", "-", s)`: each run of other characters becomes one dash. */
  function Dashes(s: string): (r: string)
    ensures forall k :: 0 <= k < |r| ==> SlugChar(r[k]) || r[k] == '-'
    ensures forall k :: 0 <= k < |r| - 1 ==> !(r[k] == '-' && r[k + 1] == '-')
    ensures s != [] && SlugChar(s[0]) ==> r != [] && r[0] == s[0]
    decreases |s|
  {
    if s == [] then []
    else if SlugChar(s[0]) then [s[0]] + Dashes(s[1..])
    else "-" + Dashes(s[RunLength(s, Separator)..])
  }

  /** The file-name slug of a brand page: `brand-{slug}.html`. */
  function BrandSlug(brand: string): string {
    StripBy(Dashes(Lower(brand)), IsDash)
  }

  /** Text made of `[a-z0-9-]` without two dashes in a row (what the substitution writes). */
  predicate Dashed(d: string) {
    && (forall k :: 0 <= k < |d| ==> SlugChar(d[k]) || d[k] == '-')
    && (forall k :: 0 <= k < |d| - 1 ==> !(d[k] == '-' && d[k + 1] == '-'))
  }

  /** Stripping the dashes at the ends keeps the text dashed and leaves no dash at either end. */
  lemma StripDashed(d: string)
    requires Dashed(d)
    ensures Dashed(StripBy(d, IsDash))
    ensures var t := StripBy(d, IsDash); t == [] || (t[0] != '-' && t[|t| - 1] != '-')
  {
    var t := StripBy(d, IsDash);
    var x := |d| - |StripLeft(d, IsDash)|;
    StripBySlice(d, IsDash);
    DashedSlice(d, x, x + |t|);
    assert t == [] || (!IsDash(t[0]) && !IsDash(t[|t| - 1]));
  }

  /** Any slice of dashed text is dashed. */
  lemma DashedSlice(d: string, i: nat, j: nat)
    requires Dashed(d) && i <= j <= |d|
    ensures Dashed(d[i..j])
  {
    var t := d[i..j];
    forall k | 0 <= k < |t| ensures SlugChar(t[k]) || t[k] == '-' {
      assert t[k] == d[i + k];
    }
    forall k | 0 <= k < |t| - 1 ensures !(t[k] == '-' && t[k + 1] == '-') {
      assert t[k] == d[i + k] && t[k + 1] == d[i + k + 1];
    }
  }

  /** A slug holds only `[a-z0-9-]`, never starts or ends with a dash, and never has two in a row. */
  lemma SlugShape(brand: string)
    ensures Dashed(BrandSlug(brand))
    ensures var slug := BrandSlug(brand);
      slug == [] || (slug[0] != '-' && slug[|slug| - 1] != '-')
  {
    StripDashed(Dashes(Lower(brand)));
  }

  /** The substitution keeps the letters and digits, in order. */
  lemma {:induction false} DashesKeep(s: string)
    ensures Filter(Dashes(s), SlugChar) == Filter(s, SlugChar)
    decreases |s|
  {
    if s != [] {
      if SlugChar(s[0]) {
        DashesKeep(s[1..]);
        assert ([s[0]] + Dashes(s[1..]))[1..] == Dashes(s[1..]);
      } else {
        var k := RunLength(s, Separator);
        DashesKeep(s[k..]);
        assert ("-" + Dashes(s[k..]))[1..] == Dashes(s[k..]);
        assert s == s[..k] + s[k..];
        FilterAppend(s[..k], s[k..], SlugChar);
        FilterNone(s[..k], SlugChar);
      }
    }
  }

  /** Stripping dashes loses no letter or digit. */
  lemma StripDashesKeep(d: string)
    ensures Filter(StripBy(d, IsDash), SlugChar) == Filter(d, SlugChar)
  {
    StripLeftKeeps(d, IsDash, SlugChar);
    StripRightKeeps(StripLeft(d, IsDash), IsDash, SlugChar);
  }

  /** Stripping characters the filter drops anyway from the left changes nothing it keeps. */
  lemma {:induction false} StripLeftKeeps(s: string, drop: char -> bool, p: char -> bool)
    requires forall c :: drop(c) ==> !p(c)
    ensures Filter(StripLeft(s, drop), p) == Filter(s, p)
    decreases |s|
  {
    if |s| > 0 && drop(s[0]) {
      StripLeftKeeps(s[1..], drop, p);
    }
  }

  /** Stripping characters the filter drops anyway from the right changes nothing it keeps. */
  lemma {:induction false} StripRightKeeps(s: string, drop: char -> bool, p: char -> bool)
    requires forall c :: drop(c) ==> !p(c)
    ensures Filter(StripRight(s, drop), p) == Filter(s, p)
    decreases |s|
  {
    if |s| > 0 && drop(s[|s| - 1]) {
      var n := |s| - 1;
      StripRightKeeps(s[..n], drop, p);
      assert s == s[..n] + [s[n]];
      FilterAppend(s[..n], [s[n]], p);
      assert Filter([s[n]], p) == [] by {
        assert [s[n]][1..] == [];
      }
    }
  }

  /**
   * The slug keeps the letters and digits of the lower-cased brand, in
   * order, and drops everything else.
   */
  lemma SlugKeepsLetters(brand: string)
    ensures Filter(BrandSlug(brand), SlugChar) == Filter(Lower(brand), SlugChar)
  {
    StripDashesKeep(Dashes(Lower(brand)));
    DashesKeep(Lower(brand));
  }
}

=== FILE: ml_features.dfy ===
/**
 * The ML feature vector of a listing: nineteen named numbers built from the
 * listing, the iconic-model knowledge base and the owned collection, the
 * canonical feature order and its two sub-lists, and the dict-to-array step.
 *
 * `_brand_tier` and `_score_iconic` are not defined by the code this models,
 * so the brand tier name and the guitarist score enter as inputs.
 */
module MlFeatures {
  import opened Wrappers
  import opened Text
  import opened Seqs
  import Valuation
  import Scorer

  /** The canonical feature order the models depend on. */
  const FeatureOrder: seq<string> := [
    "year_numeric", "age", "price", "reverb_lo", "reverb_hi",
    "reverb_mid", "reverb_spread", "price_vs_reverb_mid", "price_vs_reverb_lo", "brand_tier",
    "condition_score", "is_golden_era", "iconic_boost", "guitarist_score", "type_electric",
    "type_acoustic", "type_bass", "era_bucket", "collection_has_brand"
  ]

  /** The features derived from the asking price, withheld from the price predictor. */
  const PriceDerived: set<string> := {"price", "price_vs_reverb_mid", "price_vs_reverb_lo"}

  /** Every feature that reads the asking price or the Reverb range. */
  const MarketFields: set<string> := PriceDerived +
    {"reverb_lo", "reverb_hi", "reverb_mid", "reverb_spread"}

  predicate NotPriceDerived(f: string) { f !in PriceDerived }

  /** The price predictor's features: the canonical order without the price-derived ones. */
  const PriceFeatures: seq<string> := Filter(FeatureOrder, NotPriceDerived)

  /** The appreciation predictor's structural features. */
  const AppreciationFeatures: seq<string> := [
    "year_numeric", "age", "brand_tier", "is_golden_era", "iconic_boost",
    "guitarist_score", "type_electric", "type_acoustic", "type_bass",
    "era_bucket", "condition_score"
  ]

  /** The current year the age is measured from. */
  const CurrentYear: int := 2026

  /** The nineteen names are pairwise different. */
  lemma FeatureOrderDistinct()
    ensures |FeatureOrder| == 19
    ensures forall i, j :: 0 <= i < j < |FeatureOrder| ==> FeatureOrder[i] != FeatureOrder[j]
  {
  }

  /** The price features are the canonical order with positions 2, 7 and 8 cut out. */
  lemma PriceFeaturesLayout()
    ensures PriceFeatures == FeatureOrder[..2] + FeatureOrder[3..7] + FeatureOrder[9..]
  {
    PriceDerivedPositions(FeatureOrder);
    CutThreePositions(FeatureOrder, NotPriceDerived);
  }

  /** Exactly positions 2, 7 and 8 of the canonical order hold price-derived names. */
  lemma PriceDerivedPositions(order: seq<string>)
    requires order == FeatureOrder
    ensures |order| == 19
    ensures forall k :: 0 <= k < 2 ==> NotPriceDerived(order[k])
    ensures !NotPriceDerived(order[2])
    ensures forall k :: 3 <= k < 7 ==> NotPriceDerived(order[k])
    ensures !NotPriceDerived(order[7]) && !NotPriceDerived(order[8])
    ensures forall k :: 9 <= k < 19 ==> NotPriceDerived(order[k])
  {
  }

  /** A filter that fails exactly at positions 2, 7 and 8 of nineteen cuts those three out. */
  lemma CutThreePositions<T>(s: seq<T>, p: T -> bool)
    requires |s| == 19
    requires forall k :: 0 <= k < 2 ==> p(s[k])
    requires !p(s[2])
    requires forall k :: 3 <= k < 7 ==> p(s[k])
    requires !p(s[7]) && !p(s[8])
    requires forall k :: 9 <= k < 19 ==> p(s[k])
    ensures Filter(s, p) == s[..2] + s[3..7] + s[9..]
  {
    CutHead(s, p);
    CutMiddle(s, p);
    CutTail(s, p);
    assert s[..2] + (s[3..7] + s[9..]) == s[..2] + s[3..7] + s[9..];
  }

  lemma CutHead<T>(s: seq<T>, p: T -> bool)
    requires |s| == 19
    requires forall k :: 0 <= k < 2 ==> p(s[k])
    requires !p(s[2])
    ensures Filter(s, p) == s[..2] + Filter(s[3..], p)
  {
    FilterRunKept(s, 0, 2, p);
    FilterRunDropped(s, 2, 3, p);
    assert s[0..] == s && s[0..2] == s[..2];
  }

  lemma CutMiddle<T>(s: seq<T>, p: T -> bool)
    requires |s| == 19
    requires forall k :: 3 <= k < 7 ==> p(s[k])
    requires !p(s[7]) && !p(s[8])
    ensures Filter(s[3..], p) == s[3..7] + Filter(s[9..], p)
  {
    FilterRunKept(s, 3, 7, p);
    FilterRunDropped(s, 7, 9, p);
  }

  lemma CutTail<T>(s: seq<T>, p: T -> bool)
    requires |s| == 19
    requires forall k :: 9 <= k < 19 ==> p(s[k])
    ensures Filter(s[9..], p) == s[9..]
  {
    FilterRunKept(s, 9, 19, p);
    assert s[19..] == [] && s[9..19] == s[9..];
  }

  /** Sixteen features remain. */
  lemma PriceFeaturesCount()
    ensures |PriceFeatures| == 16
  {
    var a, c, e := FeatureOrder[..2], FeatureOrder[3..7], FeatureOrder[9..];
    assert |a| == 2 && |c| == 4 && |e| == 10;
    PriceFeaturesLayout();
  }

  /** Every price feature is a canonical name that is not price-derived. */
  lemma PriceFeaturesMembers()
    ensures forall i :: 0 <= i < |PriceFeatures| ==> PriceFeatures[i] in FeatureOrder && PriceFeatures[i] !in PriceDerived
  {
    var r := Filter(FeatureOrder, NotPriceDerived);
    forall i | 0 <= i < |r|
      ensures r[i] in FeatureOrder && r[i] !in PriceDerived
    {
      assert NotPriceDerived(r[i]);
    }
  }

  /** The appreciation features are eleven distinct canonical names, none of them a market field. */
  lemma AppreciationFeaturesStructural()
    ensures |AppreciationFeatures| == 11
    ensures forall i :: 0 <= i < |AppreciationFeatures| ==>
      AppreciationFeatures[i] in FeatureOrder && AppreciationFeatures[i] !in MarketFields
    ensures forall i, j :: 0 <= i < j < |AppreciationFeatures| ==> AppreciationFeatures[i] != AppreciationFeatures[j]
  {
    AppreciationFeaturesCanonical();
    AppreciationFeaturesDistinct();
  }

  lemma AppreciationFeaturesCanonical()
    ensures forall i :: 0 <= i < |AppreciationFeatures| ==>
      AppreciationFeatures[i] in FeatureOrder && AppreciationFeatures[i] !in MarketFields
  {
  }

  lemma AppreciationFeaturesDistinct()
    ensures forall i, j :: 0 <= i < j < |AppreciationFeatures| ==> AppreciationFeatures[i] != AppreciationFeatures[j]
  {
  }

  // ── era and tier ───────────────────────────────────────────────

  /** `_era_bucket`: 0 before 1950, then one step at each of 1950, 1965, 1980 and 2000. */
  function EraBucket(year: int): (b: nat)
    ensures b <= 4
  {
    if year < 1950 then 0
    else if year < 1965 then 1
    else if year < 1980 then 2
    else if year < 2000 then 3
    else 4
  }

  /** The years at which the bucket steps up, lower bound included. */
  const EraStarts: seq<int> := [1950, 1965, 1980, 2000]

  /** The bucket counts the era starts the year has reached. */
  lemma {:induction false} EraBucketCountsStarts(year: int)
    ensures EraBucket(year) == CountIf(EraStarts, (s: int) => s <= year)
  {
    var reached := (s: int) => s <= year;
    assert EraStarts[1..] == [1965, 1980, 2000];
    assert EraStarts[1..][1..] == [1980, 2000];
    assert EraStarts[1..][1..][1..] == [2000];
    assert EraStarts[1..][1..][1..][1..] == [];
    assert CountIf([2000], reached) == (if 2000 <= year then 1 else 0) + CountIf([], reached);
  }

  /** A later year never falls in an earlier bucket. */
  lemma EraBucketMonotone(y1: int, y2: int)
    requires y1 <= y2
    ensures EraBucket(y1) <= EraBucket(y2)
  {
  }

  /** On the valuation table's range the bucket is the index of the year's appreciation era. */
  lemma {:induction false} EraBucketIsEraIndex(year: int)
    ensures 0 <= year < 9999 ==> Valuation.EraIndex(year) == Some(EraBucket(year))
    ensures year < 0 ==> Valuation.EraIndex(year) == None && EraBucket(year) == 0
  {
    var b := EraBucket(year);
    if 0 <= year < 9999 {
      assert Valuation.EraRates[b].start <= year < Valuation.EraRates[b].end;
      Valuation.EraTableTiles(b, year);
    }
  }

  /** The tier names by numeric tier. */
  const TierNames: seq<string> := ["minor", "major", "premium"]

  /** `_brand_tier_numeric` given the tier name: 2 premium, 1 major, 0 for anything else. */
  function BrandTierNumeric(tier: string): (n: nat)
    ensures n < |TierNames|
    ensures tier in TierNames ==> TierNames[n] == tier
    ensures tier !in TierNames ==> n == 0
  {
    if tier == "premium" then 2 else if tier == "major" then 1 else 0
  }

  /** A higher numeric tier names a higher tier: the mapping inverts on its three names. */
  lemma BrandTierRoundTrip(n: nat)
    requires n < |TierNames|
    ensures BrandTierNumeric(TierNames[n]) == n
  {
  }

  // ── extraction ─────────────────────────────────────────────────

  /** The feature dict as a record, one field per canonical name. */
  datatype Features = Features(
    yearNumeric: real,
    age: real,
    price: real,
    reverbLo: real,
    reverbHi: real,
    reverbMid: real,
    reverbSpread: real,
    priceVsReverbMid: real,
    priceVsReverbLo: real,
    brandTier: real,
    conditionScore: real,
    isGoldenEra: real,
    iconicBoost: real,
    guitaristScore: real,
    typeElectric: real,
    typeAcoustic: real,
    typeBass: real,
    eraBucket: real,
    collectionHasBrand: real)

  /** `x or 0.0` for an optional number: missing and zero both read as 0. */
  function OrZero(x: Option<real>): real {
    match x
    case Some(v) => v
    case None => 0.0
  }

  function Flag(b: bool): real { if b then 1.0 else 0.0 }

  /** The matched entry's golden era contains the (defaulted) year, bounds included. */
  predicate GoldenAt(iconic: Option<Scorer.IconicEntry>, year: int) {
    iconic.Some? && iconic.value.goldenEra.Some?
    && iconic.value.goldenEra.value.0 <= year <= iconic.value.goldenEra.value.1
  }

  /** The lowercase brand is one of the owned guitars' lowercase brands. */
  predicate OwnsBrand(collection: seq<Scorer.Guitar>, brand: string) {
    Lower(brand) in (set g | g in collection :: Lower(g.brand))
  }

  /** The middle of the Reverb range, 0 unless both ends are non-zero. */
  function Midpoint(lo: real, hi: real): (mid: real)
    ensures lo == 0.0 || hi == 0.0 ==> mid == 0.0
    ensures lo != 0.0 && hi != 0.0 ==> mid - lo == hi - mid
  {
    if lo != 0.0 && hi != 0.0 then (lo + hi) / 2.0 else 0.0
  }

  /** The width of the Reverb range, 0 unless both ends are non-zero. */
  function Spread(lo: real, hi: real): (w: real)
    ensures lo == 0.0 || hi == 0.0 ==> w == 0.0
    ensures lo != 0.0 && hi != 0.0 ==> lo + w == hi
  {
    if lo != 0.0 && hi != 0.0 then hi - lo else 0.0
  }

  /** The price's distance from `base` relative to `base`, 0 unless `base` is positive. */
  function Gap(price: real, base: real): (g: real)
    ensures base <= 0.0 ==> g == 0.0
    ensures base > 0.0 ==> price == base * (1.0 + g)
  {
    if base > 0.0 then
      var g := (price - base) / base;
      assert g * base == price - base;
      g
    else 0.0
  }

  /**
   * `extract_features`: the year (1970 when unreadable) and its age, the
   * price and Reverb range with their midpoint, spread and relative gaps,
   * the brand tier, condition, iconic and guitarist scores, the three type
   * flags, the era bucket and whether the brand is already owned.
   */
  function ExtractFeatures(kb: seq<Scorer.IconicEntry>, listing: Scorer.Listing, collection: seq<Scorer.Guitar>,
                           tier: string, guitaristScore: real): (f: Features)
    ensures f.yearNumeric + f.age == CurrentYear as real
  {
    var year := Valuation.YearOrDefault(listing.year);
    var price := OrZero(listing.price);
    var lo := OrZero(listing.reverbLo);
    var hi := OrZero(listing.reverbHi);
    var mid := Midpoint(lo, hi);
    var iconic := Scorer.MatchIconic(kb, listing.brand, listing.model);
    var gtype := Lower(listing.gtype);
    Features(
      year as real,
      (CurrentYear - year) as real,
      price,
      lo,
      hi,
      mid,
      Spread(lo, hi),
      Gap(price, mid),
      Gap(price, lo),
      BrandTierNumeric(tier) as real,
      Scorer.ScoreCondition(listing.condition),
      Flag(GoldenAt(iconic, year)),
      if iconic.Some? then iconic.value.boost else 0.0,
      guitaristScore,
      Flag(Contains(gtype, "electric")),
      Flag(Contains(gtype, "acoustic")),
      Flag(Contains(gtype, "bass")),
      EraBucket(year) as real,
      Flag(collection != [] && OwnsBrand(collection, listing.brand)))
  }

  /** An unreadable year counts as 1970, 56 years old, in the 1965–80 bucket. */
  lemma {:induction false} ExtractFeaturesDefaultYear(kb: seq<Scorer.IconicEntry>, listing: Scorer.Listing,
                                                       collection: seq<Scorer.Guitar>, tier: string, guitaristScore: real)
    requires Valuation.ParseYear(listing.year).None?
    ensures var f := ExtractFeatures(kb, listing, collection, tier, guitaristScore);
      f.yearNumeric == 1970.0 && f.age == 56.0 && f.eraBucket == 2.0
  {
  }

  /** Year and age always add up to the current year; the bucket is the year's. */
  lemma {:induction false} ExtractFeaturesAge(kb: seq<Scorer.IconicEntry>, listing: Scorer.Listing,
                                              collection: seq<Scorer.Guitar>, tier: string, guitaristScore: real)
    ensures var f := ExtractFeatures(kb, listing, collection, tier, guitaristScore);
      f.yearNumeric + f.age == CurrentYear as real
      && f.yearNumeric == Valuation.YearOrDefault(listing.year) as real
      && f.eraBucket == EraBucket(Valuation.YearOrDefault(listing.year)) as real
  {
  }

  /**
   * Midpoint and spread are 0 unless both ends of the range are non-zero;
   * each price gap is 0 unless its denominator is positive, and otherwise
   * it is the relative distance that recovers the price.
   */
  lemma {:induction false} ExtractFeaturesMarket(kb: seq<Scorer.IconicEntry>, listing: Scorer.Listing,
                                                 collection: seq<Scorer.Guitar>, tier: string, guitaristScore: real)
    ensures MarketConsistent(ExtractFeatures(kb, listing, collection, tier, guitaristScore))
  {
    var f := ExtractFeatures(kb, listing, collection, tier, guitaristScore);
    ExtractFeaturesRange(kb, listing, collection, tier, guitaristScore);
    MarketShape(f);
  }

  /** How the derived market fields relate to the price and the range ends. */
  predicate MarketConsistent(f: Features) {
    (f.reverbLo == 0.0 || f.reverbHi == 0.0 ==> f.reverbMid == 0.0 && f.reverbSpread == 0.0)
    && (f.reverbLo != 0.0 && f.reverbHi != 0.0 ==>
          f.reverbMid - f.reverbLo == f.reverbHi - f.reverbMid && f.reverbLo + f.reverbSpread == f.reverbHi)
    && (f.reverbMid <= 0.0 ==> f.priceVsReverbMid == 0.0)
    && (f.reverbMid > 0.0 ==> f.price == f.reverbMid * (1.0 + f.priceVsReverbMid))
    && (f.reverbLo <= 0.0 ==> f.priceVsReverbLo == 0.0)
    && (f.reverbLo > 0.0 ==> f.price == f.reverbLo * (1.0 + f.priceVsReverbLo))
  }

  /** The market fields of a record are computed from its price and range ends alone. */
  lemma ExtractFeaturesRange(kb: seq<Scorer.IconicEntry>, listing: Scorer.Listing,
                             collection: seq<Scorer.Guitar>, tier: string, guitaristScore: real)
    ensures var f := ExtractFeatures(kb, listing, collection, tier, guitaristScore);
      f.reverbMid == Midpoint(f.reverbLo, f.reverbHi) && f.reverbSpread == Spread(f.reverbLo, f.reverbHi)
      && f.priceVsReverbMid == Gap(f.price, f.reverbMid) && f.priceVsReverbLo == Gap(f.price, f.reverbLo)
  {
  }

  lemma MarketShape(f: Features)
    requires f.reverbMid == Midpoint(f.reverbLo, f.reverbHi) && f.reverbSpread == Spread(f.reverbLo, f.reverbHi)
    requires f.priceVsReverbMid == Gap(f.price, f.reverbMid) && f.priceVsReverbLo == Gap(f.price, f.reverbLo)
    ensures MarketConsistent(f)
  {
  }

  /** A missing price and a zero price give the same features. */
  lemma {:induction false} ExtractFeaturesMissingPrice(kb: seq<Scorer.IconicEntry>, listing: Scorer.Listing,
                                                       collection: seq<Scorer.Guitar>, tier: string, guitaristScore: real)
    ensures ExtractFeatures(kb, listing.(price := None), collection, tier, guitaristScore)
         == ExtractFeatures(kb, listing.(price := Some(0.0)), collection, tier, guitaristScore)
  {
  }

  /**
   * The type flags are independent substring tests on the lowercase type;
   * the golden-era flag needs a match whose era holds the year; the brand
   * flag needs an owned guitar of the same lowercase brand.
   */
  lemma {:induction false} ExtractFeaturesFlags(kb: seq<Scorer.IconicEntry>, listing: Scorer.Listing,
                                                collection: seq<Scorer.Guitar>, tier: string, guitaristScore: real)
    ensures var f := ExtractFeatures(kb, listing, collection, tier, guitaristScore);
      var t := Lower(listing.gtype);
      (f.typeElectric == 1.0 <==> Contains(t, "electric"))
      && (f.typeAcoustic == 1.0 <==> Contains(t, "acoustic"))
      && (f.typeBass == 1.0 <==> Contains(t, "bass"))
      && (f.collectionHasBrand == 1.0 <==> exists g :: g in collection && Lower(g.brand) == Lower(listing.brand))
      && (f.isGoldenEra == 1.0 <==>
            GoldenAt(Scorer.MatchIconic(kb, listing.brand, listing.model), Valuation.YearOrDefault(listing.year)))
      && (Scorer.MatchIconic(kb, listing.brand, listing.model).None? ==> f.isGoldenEra == 0.0 && f.iconicBoost == 0.0)
  {
    var f := ExtractFeatures(kb, listing, collection, tier, guitaristScore);
    if f.collectionHasBrand == 1.0 {
      var g :| g in collection && Lower(g.brand) == Lower(listing.brand);
    }
  }

  /** Every flag is 0 or 1. */
  lemma {:induction false} ExtractFeaturesFlagsBinary(kb: seq<Scorer.IconicEntry>, listing: Scorer.Listing,
                                                      collection: seq<Scorer.Guitar>, tier: string, guitaristScore: real)
    ensures var f := ExtractFeatures(kb, listing, collection, tier, guitaristScore);
      f.typeElectric in {0.0, 1.0} && f.typeAcoustic in {0.0, 1.0} && f.typeBass in {0.0, 1.0}
      && f.isGoldenEra in {0.0, 1.0} && f.collectionHasBrand in {0.0, 1.0}
  {
  }

  // ── dict and array ─────────────────────────────────────────────

  /** The values in canonical order. */
  function Values(f: Features): seq<real> {
    [f.yearNumeric, f.age, f.price, f.reverbLo, f.reverbHi, f.reverbMid, f.reverbSpread,
     f.priceVsReverbMid, f.priceVsReverbLo, f.brandTier, f.conditionScore, f.isGoldenEra,
     f.iconicBoost, f.guitaristScore, f.typeElectric, f.typeAcoustic, f.typeBass,
     f.eraBucket, f.collectionHasBrand]
  }

  /** The record as the name-to-value dict `extract_features` returns: each canonical name to its value. */
  function AsDict(f: Features): (d: map<string, real>)
    ensures forall k :: k in d <==> k in FeatureOrder
  {
    assert FeatureOrder[..ZipLen(FeatureOrder, Values(f))] == FeatureOrder;
    ZipMap(FeatureOrder, Values(f))
  }

  /** The order a feature list resolves to: the canonical one when none or an empty one is given. */
  function OrderOf(featureList: Option<seq<string>>): (order: seq<string>)
    ensures featureList.None? ==> order == FeatureOrder
    ensures featureList.Some? && featureList.value != [] ==> order == featureList.value
    ensures |order| > 0
  {
    match featureList
    case Some(l) => if l == [] then FeatureOrder else l
    case None => FeatureOrder
  }

  /** `features_to_array`: one value per name of the order, 0 for a name the dict lacks. */
  function FeaturesToArray(features: map<string, real>, featureList: Option<seq<string>>): (r: seq<real>)
    ensures |r| == |OrderOf(featureList)|
  {
    var order := OrderOf(featureList);
    seq(|order|, i requires 0 <= i < |order| => if order[i] in features then features[order[i]] else 0.0)
  }

  /** Each array slot reads its name from the dict, or 0 when the name is missing. */
  lemma FeaturesToArraySlots(features: map<string, real>, featureList: Option<seq<string>>, i: nat)
    requires i < |OrderOf(featureList)|
    ensures var name := OrderOf(featureList)[i];
      FeaturesToArray(features, featureList)[i] == (if name in features then features[name] else 0.0)
  {
  }

  /** The canonical array of an extracted record is its nineteen values in order, none defaulted. */
  lemma FeaturesToArrayCanonical(f: Features)
    ensures FeaturesToArray(AsDict(f), None) == Values(f)
  {
    FeatureOrderDistinct();
    assert FeaturesToArray(AsDict(f), None) == FeaturesToArray(AsDict(f), Some(FeatureOrder));
    FeaturesToArrayZip(FeatureOrder, Values(f));
  }

  /** Reading a zipped dict back in the order of its distinct keys gives the values zipped in. */
  lemma FeaturesToArrayZip(keys: seq<string>, vals: seq<real>)
    requires |keys| == |vals| && keys != []
    requires forall a, b :: 0 <= a < b < |keys| ==> keys[a] != keys[b]
    ensures FeaturesToArray(ZipMap(keys, vals), Some(keys)) == vals
  {
    var r := FeaturesToArray(ZipMap(keys, vals), Some(keys));
    forall i | 0 <= i < |keys|
      ensures r[i] == vals[i]
    {
      ZipMapAt(keys, vals, i);
    }
  }

  /** Each canonical name reads back the record's value at its position. */
  lemma AsDictAt(f: Features, i: nat)
    requires i < |FeatureOrder|
    ensures AsDict(f)[FeatureOrder[i]] == Values(f)[i]
  {
    FeatureOrderDistinct();
    ZipMapAt(FeatureOrder, Values(f), i);
  }
}

=== FILE: ml_monitor.dfy ===
/**
 * The daily comparison of ML and rule-based scoring (`ml_monitor`): price
 * error against actual sale prices, drift between the two totals, buy/skip
 * precision and recall, the recommendation drawn from the last week of logs,
 * and the rolling 90-entry performance log.
 *
 * `ml_score_listing` enters as a function from a sold listing and its rule
 * sub-scores to the ML result (feature extraction bound in), and
 * `score_listing` as a function giving the rule total and sub-scores.
 */
module MlMonitor {
  import opened Wrappers
  import opened Seqs
  import MlPredict
  import MlTrain
  import MlFeatures

  type SoldListing = MlTrain.SoldListing

  /** `ml_score_listing(listing, collection, budget, rule_scores)` with everything but the listing and sub-scores fixed. */
  type MlScorer = (SoldListing, MlPredict.RuleScores) -> Option<MlPredict.MlResult>

  /** `score_listing(listing, collection, budget)`: the rule total and its breakdown. */
  type RuleScorer = SoldListing -> (real, MlPredict.RuleScores)

  const GoodSaleRatio: real := 0.95
  const BuyThreshold: real := 50.0
  const DriftCap: nat := 100
  const RecentDays: nat := 7
  const MinSamples: nat := 50
  const MlBetterDays: nat := 5
  const RuleBetterDays: nat := 3
  const KeptLogs: nat := 90

  /** The neutral sub-scores (50 each) used when only the ML fields are wanted. */
  const Neutral: MlPredict.RuleScores := MlPredict.RuleScores(50.0, 50.0, 50.0, 50.0, 50.0)

  /** `abs(x)` */
  function AbsReal(x: real): (r: real)
    ensures r >= 0.0 && (r == x || r == -x)
  {
    if x < 0.0 then -x else x
  }

  /** `abs(estimate - actual) / actual * 100` */
  function ErrorPct(estimate: real, actual: real): (e: real)
    requires actual > 0.0
    ensures e >= 0.0
    ensures e * actual == 100.0 * AbsReal(estimate - actual)
    ensures e == 0.0 <==> estimate == actual
  {
    MlTrain.RatioFacts(AbsReal(estimate - actual), actual);
    AbsReal(estimate - actual) / actual * 100.0
  }

  /** `a / d >= t` is `a >= t * d` for a positive divisor. */
  lemma RatioAtLeast(a: real, d: real, t: real)
    requires d > 0.0
    ensures a / d >= t <==> a >= t * d
  {
    MlTrain.RatioFacts(a, d);
    if a / d >= t {
      assert (a / d) * d >= t * d;
    } else {
      assert (a / d) * d < t * d;
    }
  }

  // ── buy/skip accuracy ─────────────────────────────────────────

  /** One listing's evaluation: skipped, or the predicted and actual buy. */
  datatype Outcome = Skipped | Counted(predicted: bool, actual: bool)

  /** The buy probability the ML scorer gives a listing with neutral sub-scores, if any. */
  function BuyProbOf(s: SoldListing, ml: MlScorer): Option<real> {
    match ml(s, Neutral)
    case None => None
    case Some(res) => res.mlBuyProb
  }

  /**
   * One pass of the buy/skip loop: a missing price counts as 0, a listing
   * without a positive asking price or without a buy probability is
   * skipped; the actual buy is a sale at 95% of asking or more, the
   * predicted buy a probability strictly above 50.
   */
  function Evaluate(s: SoldListing, ml: MlScorer): (o: Outcome)
    ensures o.Counted? <==> MlTrain.PriceOrZero(s.listedPrice) > 0.0 && BuyProbOf(s, ml).Some?
    ensures o.Counted? ==> (o.predicted <==> BuyProbOf(s, ml).value > BuyThreshold)
    ensures o.Counted? ==> (o.actual <==> MlTrain.PriceOrZero(s.soldPrice) >= GoodSaleRatio * MlTrain.PriceOrZero(s.listedPrice))
  {
    var lp := MlTrain.PriceOrZero(s.listedPrice);
    var sp := MlTrain.PriceOrZero(s.soldPrice);
    if lp <= 0.0 then Skipped
    else
      match BuyProbOf(s, ml)
      case None => Skipped
      case Some(p) =>
        RatioAtLeast(sp, lp, GoodSaleRatio);
        Counted(p > BuyThreshold, sp / lp >= GoodSaleRatio)
  }

  /** The four cells of the confusion matrix. */
  datatype Confusion = Confusion(tp: nat, fp: nat, fn: nat, tn: nat) {
    function Total(): nat { tp + fp + fn + tn }
  }

  /** Adds one outcome to its cell. */
  function Record(c: Confusion, o: Outcome): Confusion {
    match o
    case Skipped => c
    case Counted(p, a) =>
      if p && a then c.(tp := c.tp + 1)
      else if p then c.(fp := c.fp + 1)
      else if a then c.(fn := c.fn + 1)
      else c.(tn := c.tn + 1)
  }

  /** The outcome of every sold listing, in order. */
  function Outcomes(sold: seq<SoldListing>, ml: MlScorer): (os: seq<Outcome>)
    ensures |os| == |sold| && forall i :: 0 <= i < |sold| ==> os[i] == Evaluate(sold[i], ml)
  {
    seq(|sold|, i requires 0 <= i < |sold| => Evaluate(sold[i], ml))
  }

  predicate IsCounted(o: Outcome) { o.Counted? }

  /** The confusion matrix of a run; its cells add up to the number of outcomes counted. */
  function Tally(os: seq<Outcome>): (c: Confusion)
    ensures c.Total() == CountIf(os, IsCounted)
    decreases |os|
  {
    if os == [] then Confusion(0, 0, 0, 0)
    else
      var init := os[..|os| - 1];
      var last := os[|os| - 1];
      assert CountIf(os, IsCounted) == CountIf(init, IsCounted) + (if IsCounted(last) then 1 else 0) by {
        CountIfSnoc(init, last, IsCounted);
        assert init + [last] == os;
      }
      Record(Tally(init), last)
  }

  /** Counting over a list extended by one element. */
  lemma {:induction false} CountIfSnoc<T>(xs: seq<T>, x: T, p: T -> bool)
    ensures CountIf(xs + [x], p) == CountIf(xs, p) + (if p(x) then 1 else 0)
    decreases |xs|
  {
    if xs == [] {
      assert xs + [x] == [x];
    } else {
      assert (xs + [x])[1..] == xs[1..] + [x];
      CountIfSnoc(xs[1..], x, p);
    }
  }

  predicate TruePositive(o: Outcome) { o == Counted(true, true) }
  predicate FalsePositive(o: Outcome) { o == Counted(true, false) }
  predicate FalseNegative(o: Outcome) { o == Counted(false, true) }

  /** Recording an outcome adds one to its own cell and leaves the others alone. */
  lemma RecordCells(c: Confusion, o: Outcome)
    ensures Record(c, o).tp == c.tp + (if TruePositive(o) then 1 else 0)
    ensures Record(c, o).fp == c.fp + (if FalsePositive(o) then 1 else 0)
    ensures Record(c, o).fn == c.fn + (if FalseNegative(o) then 1 else 0)
  {
  }

  /** The step shared by the cell lemmas below: `Tally` of a non-empty list records its last outcome. */
  lemma TallySnoc(os: seq<Outcome>)
    requires os != []
    ensures Tally(os) == Record(Tally(os[..|os| - 1]), os[|os| - 1])
  {
  }

  /** A non-empty list is its front followed by its last element. */
  lemma SplitLast<T>(xs: seq<T>)
    requires xs != []
    ensures xs[..|xs| - 1] + [xs[|xs| - 1]] == xs
  {
  }

  /** The true positives are the outcomes predicted and actually a good buy. */
  lemma {:induction false} TallyTruePositives(os: seq<Outcome>)
    ensures Tally(os).tp == CountIf(os, TruePositive)
    decreases |os|
  {
    if os != [] {
      var init := os[..|os| - 1];
      var last := os[|os| - 1];
      TallyTruePositives(init);
      TallySnoc(os);
      SplitLast(os);
      RecordCells(Tally(init), last);
      CountIfSnoc(init, last, TruePositive);
    }
  }

  /** The false positives are the outcomes predicted a buy that sold below 95% of asking. */
  lemma {:induction false} TallyFalsePositives(os: seq<Outcome>)
    ensures Tally(os).fp == CountIf(os, FalsePositive)
    decreases |os|
  {
    if os != [] {
      var init := os[..|os| - 1];
      var last := os[|os| - 1];
      TallyFalsePositives(init);
      TallySnoc(os);
      SplitLast(os);
      RecordCells(Tally(init), last);
      CountIfSnoc(init, last, FalsePositive);
    }
  }

  /** The false negatives are the outcomes predicted a skip that sold at 95% of asking or more. */
  lemma {:induction false} TallyFalseNegatives(os: seq<Outcome>)
    ensures Tally(os).fn == CountIf(os, FalseNegative)
    decreases |os|
  {
    if os != [] {
      var init := os[..|os| - 1];
      var last := os[|os| - 1];
      TallyFalseNegatives(init);
      TallySnoc(os);
      SplitLast(os);
      RecordCells(Tally(init), last);
      CountIfSnoc(init, last, FalseNegative);
    }
  }

  /** `x / d`, or 0 for a zero denominator. */
  function Share(x: nat, d: nat): (r: real)
    requires x <= d
    ensures 0.0 <= r <= 1.0
    ensures d == 0 ==> r == 0.0
    ensures d > 0 ==> r * d as real == x as real
  {
    if d > 0 then
      MlTrain.RatioFacts(x as real, d as real);
      x as real / d as real
    else 0.0
  }

  /** The harmonic mean of two shares lies between 0 and 1. */
  lemma F1Bounds(p: real, r: real)
    requires 0.0 <= p <= 1.0 && 0.0 <= r <= 1.0 && p + r > 0.0
    ensures 0.0 <= 2.0 * p * r / (p + r) <= 1.0
  {
    var s := p + r;
    var a := 2.0 * p * r;
    MulNonNegative(p, 1.0 - r);
    MulNonNegative(1.0 - p, r);
    assert a <= s by {
      assert p * (1.0 - r) == p - p * r;
      assert (1.0 - p) * r == r - p * r;
    }
    MulNonNegative(p, r);
    MlTrain.DivLe(a, s, s);
    MlTrain.RatioFacts(s, s);
    MlTrain.RatioFacts(a, s);
  }

  lemma MulNonNegative(a: real, b: real)
    requires a >= 0.0 && b >= 0.0
    ensures a * b >= 0.0
  {
  }

  /** `2 * p * r / (p + r)`, or 0 when both are 0. */
  function F1(p: real, r: real): (f: real)
    requires 0.0 <= p <= 1.0 && 0.0 <= r <= 1.0
    ensures 0.0 <= f <= 1.0
    ensures f == 0.0 <==> p == 0.0 || r == 0.0
  {
    if p + r > 0.0 then
      F1Bounds(p, r);
      assert p > 0.0 && r > 0.0 ==> p * r > 0.0;
      2.0 * p * r / (p + r)
    else 0.0
  }

  datatype BuySkip = BuySkip(precision: real, recall: real, f1: real, n: nat)

  /** Precision, recall and F1 of a confusion matrix, or `None` for an empty one. */
  function Metrics(c: Confusion): (r: Option<BuySkip>)
    ensures r.None? <==> c.Total() == 0
    ensures r.Some? ==> r.value.n == c.Total()
    ensures r.Some? ==> 0.0 <= r.value.precision <= 1.0 && 0.0 <= r.value.recall <= 1.0 && 0.0 <= r.value.f1 <= 1.0
    ensures r.Some? ==> (c.tp + c.fp == 0 ==> r.value.precision == 0.0) && (c.tp + c.fn == 0 ==> r.value.recall == 0.0)
    ensures r.Some? && c.tp + c.fp > 0 ==> r.value.precision * (c.tp + c.fp) as real == c.tp as real
    ensures r.Some? && c.tp + c.fn > 0 ==> r.value.recall * (c.tp + c.fn) as real == c.tp as real
  {
    if c.Total() == 0 then None
    else
      var precision := Share(c.tp, c.tp + c.fp);
      var recall := Share(c.tp, c.tp + c.fn);
      Some(BuySkip(precision, recall, F1(precision, recall), c.Total()))
  }

  /** `_compute_buy_skip_accuracy`: `None` without models or without any evaluated listing. */
  function BuySkipAccuracy(sold: seq<SoldListing>, available: bool, ml: MlScorer): (r: Option<BuySkip>)
    ensures r.None? <==> !available || CountIf(Outcomes(sold, ml), IsCounted) == 0
    ensures r.Some? ==> r.value.n == CountIf(Outcomes(sold, ml), IsCounted) && r.value.n <= |sold|
  {
    if !available then None else Metrics(Tally(Outcomes(sold, ml)))
  }

  /** An outcome whose prediction, if any, matched the sale. */
  predicate Correct(o: Outcome) { o.Counted? ==> o.predicted == o.actual }

  /** A run in which every prediction is right has no false positives or negatives. */
  lemma PerfectPredictions(os: seq<Outcome>)
    requires forall i :: 0 <= i < |os| ==> Correct(os[i])
    ensures Tally(os).fp == 0 && Tally(os).fn == 0
  {
    TallyFalsePositives(os);
    TallyFalseNegatives(os);
    NoWrongOutcomes(os);
  }

  lemma NoWrongOutcomes(os: seq<Outcome>)
    requires forall i :: 0 <= i < |os| ==> Correct(os[i])
    ensures CountIf(os, FalsePositive) == 0 && CountIf(os, FalseNegative) == 0
  {
    FilterNone(os, FalsePositive);
    FilterNone(os, FalseNegative);
  }

  // ── price accuracy ────────────────────────────────────────────

  /** A listing enters price accuracy only with a truthy, positive sale price. */
  predicate PriceEvaluated(s: SoldListing) {
    MlTrain.Truthy(s.soldPrice) && s.soldPrice.value > 0.0
  }

  /** The rule estimate's error: with truthy low and high and a positive low, the midpoint's error against the sale. */
  function RuleError(s: SoldListing): (e: Option<real>)
    ensures e.Some? <==> (PriceEvaluated(s) && MlTrain.Truthy(s.listing.reverbLo)
                          && MlTrain.Truthy(s.listing.reverbHi) && s.listing.reverbLo.value > 0.0)
    ensures e.Some? ==> (e.value >= 0.0
                         && e.value * s.soldPrice.value
                            == 100.0 * AbsReal((s.listing.reverbLo.value + s.listing.reverbHi.value) / 2.0 - s.soldPrice.value))
  {
    if !PriceEvaluated(s) then None
    else
      var lo := s.listing.reverbLo;
      var hi := s.listing.reverbHi;
      if MlTrain.Truthy(lo) && MlTrain.Truthy(hi) && lo.value > 0.0
      then Some(ErrorPct((lo.value + hi.value) / 2.0, s.soldPrice.value))
      else None
  }

  /** The ML estimate's error: with a truthy predicted price, its error against the sale. */
  function MlError(s: SoldListing, ml: MlScorer): (e: Option<real>)
    ensures e.Some? <==> PriceEvaluated(s) && ml(s, Neutral).Some? && MlTrain.Truthy(ml(s, Neutral).value.mlPrice)
    ensures e.Some? ==> (e.value >= 0.0
                         && e.value * s.soldPrice.value == 100.0 * AbsReal(ml(s, Neutral).value.mlPrice.value - s.soldPrice.value))
  {
    if !PriceEvaluated(s) then None
    else
      match ml(s, Neutral)
      case None => None
      case Some(res) =>
        if MlTrain.Truthy(res.mlPrice) then Some(ErrorPct(res.mlPrice.value, s.soldPrice.value)) else None
  }

  function RuleErrors(sold: seq<SoldListing>): seq<real> {
    Somes(seq(|sold|, i requires 0 <= i < |sold| => RuleError(sold[i])))
  }

  function MlErrors(sold: seq<SoldListing>, ml: MlScorer): seq<real> {
    Somes(seq(|sold|, i requires 0 <= i < |sold| => MlError(sold[i], ml)))
  }

  datatype PriceAccuracy = PriceAccuracy(mlMaePct: Option<real>, ruleMaePct: Option<real>, n: nat)

  /** The mean of a list, `None` for an empty one. */
  function MeanOrNone(xs: seq<real>): (r: Option<real>)
    ensures r.None? <==> xs == []
  {
    if xs == [] then None else Some(Mean(xs))
  }

  /** `_compute_price_accuracy`: mean absolute percentage errors of both estimates, and the larger count. */
  function PriceAccuracyOf(sold: seq<SoldListing>, available: bool, ml: MlScorer): (r: Option<PriceAccuracy>)
    ensures r.None? <==> !available || (MlErrors(sold, ml) == [] && RuleErrors(sold) == [])
    ensures r.Some? ==> ((r.value.mlMaePct.Some? <==> MlErrors(sold, ml) != [])
                         && (r.value.ruleMaePct.Some? <==> RuleErrors(sold) != [])
                         && r.value.n >= |MlErrors(sold, ml)| && r.value.n >= |RuleErrors(sold)|
                         && (r.value.n == |MlErrors(sold, ml)| || r.value.n == |RuleErrors(sold)|))
  {
    var mlErrors := MlErrors(sold, ml);
    var ruleErrors := RuleErrors(sold);
    if !available || (mlErrors == [] && ruleErrors == []) then None
    else Some(PriceAccuracy(
      MeanOrNone(mlErrors),
      MeanOrNone(ruleErrors),
      if |mlErrors| >= |ruleErrors| then |mlErrors| else |ruleErrors|))
  }

  /** Every recorded rule error comes from some listing, and every qualifying listing records one. */
  lemma RuleErrorsCover(sold: seq<SoldListing>, e: real)
    ensures e in RuleErrors(sold) <==> exists i :: 0 <= i < |sold| && RuleError(sold[i]) == Some(e)
  {
    var xs := seq(|sold|, i requires 0 <= i < |sold| => RuleError(sold[i]));
    if e in RuleErrors(sold) {
      var k :| 0 <= k < |Somes(xs)| && Somes(xs)[k] == e;
      var j := SomesFrom(xs, k);
      assert RuleError(sold[j]) == Some(e);
    }
    if exists i :: 0 <= i < |sold| && RuleError(sold[i]) == Some(e) {
      var i :| 0 <= i < |sold| && RuleError(sold[i]) == Some(e);
      assert xs[i] == Some(e);
      SomesKeeps(xs, i);
    }
  }

  /** Mean errors are never negative. */
  lemma PriceAccuracyNonNegative(sold: seq<SoldListing>, available: bool, ml: MlScorer)
    requires PriceAccuracyOf(sold, available, ml).Some?
    ensures var r := PriceAccuracyOf(sold, available, ml).value;
      (r.ruleMaePct.Some? ==> r.ruleMaePct.value >= 0.0) && (r.mlMaePct.Some? ==> r.mlMaePct.value >= 0.0)
  {
    var rule := RuleErrors(sold);
    var xs := seq(|sold|, i requires 0 <= i < |sold| => RuleError(sold[i]));
    forall k | 0 <= k < |rule| ensures rule[k] >= 0.0 {
      var j := SomesFrom(xs, k);
    }
    var mls := MlErrors(sold, ml);
    var ys := seq(|sold|, i requires 0 <= i < |sold| => MlError(sold[i], ml));
    forall k | 0 <= k < |mls| ensures mls[k] >= 0.0 {
      var j := SomesFrom(ys, k);
    }
    if rule != [] {
      MeanBetween(rule, 0.0, MaxOf(rule));
    }
    if mls != [] {
      MeanBetween(mls, 0.0, MaxOf(mls));
    }
  }

  // ── score drift ───────────────────────────────────────────────

  /** The ML total minus the rule total, when the ML total exists. */
  function TotalDiff(res: MlPredict.MlResult, total: real): (d: Option<real>)
    ensures d.Some? <==> res.mlTotal.Some?
  {
    match res.mlTotal
    case Some(t) => Some(t - total)
    case None => None
  }

  /** The ML total minus the rule total for one listing, when the ML total exists. */
  function Diff(s: SoldListing, ml: MlScorer, rule: RuleScorer): Option<real> {
    var (total, breakdown) := rule(s);
    match ml(s, breakdown)
    case None => None
    case Some(res) => TotalDiff(res, total)
  }

  /** The differences over the first 100 listings. */
  function Diffs(sold: seq<SoldListing>, ml: MlScorer, rule: RuleScorer): seq<real> {
    var capped := PyTake(sold, DriftCap);
    Somes(seq(|capped|, i requires 0 <= i < |capped| => Diff(capped[i], ml, rule)))
  }

  /** The squared deviations from `m`. */
  function SquaredDeviations(ds: seq<real>, m: real): (r: seq<real>)
    ensures |r| == |ds|
    ensures forall i :: 0 <= i < |r| ==> r[i] == (ds[i] - m) * (ds[i] - m) && r[i] >= 0.0
  {
    seq(|ds|, i requires 0 <= i < |ds| => (ds[i] - m) * (ds[i] - m))
  }

  /** Population variance. */
  function Variance(ds: seq<real>): (v: real)
    requires ds != []
    ensures v >= 0.0
  {
    var sq := SquaredDeviations(ds, Mean(ds));
    SumNonNegative(sq);
    Sum(sq) / |ds| as real
  }

  /** The mean difference and its spread; the standard deviation is the variance's square root. */
  datatype Drift = Drift(meanDiff: real, variance: real)

  /** The drift of a list of differences: none for an empty list. */
  function DriftOf(ds: seq<real>): (r: Option<Drift>)
    ensures r.None? <==> ds == []
    ensures r.Some? ==> r.value.variance >= 0.0
  {
    if ds == [] then None else Some(Drift(Mean(ds), Variance(ds)))
  }

  /** `_compute_score_drift`: `None` without models or without any difference. */
  function ScoreDrift(sold: seq<SoldListing>, available: bool, ml: MlScorer, rule: RuleScorer): (r: Option<Drift>)
    ensures r.None? <==> !available || Diffs(sold, ml, rule) == []
    ensures r.Some? ==> r.value.variance >= 0.0
  {
    if !available then None else DriftOf(Diffs(sold, ml, rule))
  }

  /** Only the first 100 listings contribute: each difference comes from one of them, so there are at most 100. */
  lemma DiffsFromFirstHundred(sold: seq<SoldListing>, ml: MlScorer, rule: RuleScorer, k: nat)
    requires k < |Diffs(sold, ml, rule)|
    ensures |Diffs(sold, ml, rule)| <= DriftCap
    ensures exists j :: 0 <= j < |sold| && j < DriftCap && Diff(sold[j], ml, rule) == Some(Diffs(sold, ml, rule)[k])
  {
    var capped := PyTake(sold, DriftCap);
    var xs := seq(|capped|, i requires 0 <= i < |capped| => Diff(capped[i], ml, rule));
    var j := SomesFrom(xs, k);
    assert capped[j] == sold[j];
  }

  /** Listings past the first 100 never change the drift. */
  lemma DriftIgnoresTail(sold: seq<SoldListing>, more: seq<SoldListing>, ml: MlScorer, rule: RuleScorer)
    requires |sold| >= DriftCap
    ensures Diffs(sold + more, ml, rule) == Diffs(sold, ml, rule)
  {
    assert PyTake(sold + more, DriftCap) == PyTake(sold, DriftCap);
  }

  /** Identical differences drift by exactly that amount with no spread. */
  lemma DriftOfConstant(ds: seq<real>, d: real)
    requires ds != [] && forall i :: 0 <= i < |ds| ==> ds[i] == d
    ensures Mean(ds) == d && Variance(ds) == 0.0
  {
    MeanBetween(ds, d, d);
    var sq := SquaredDeviations(ds, d);
    SumBetween(sq, 0.0, 0.0);
  }

  // ── recommendation ────────────────────────────────────────────

  datatype Recommendation =
    | NoData            // "No performance data yet. Collect more training data."
    | Collecting(samples: nat) // "Collecting data (N samples). ML not yet reliable."
    | MlOutperforming   // "ML outperforming rules for 5+ days. Consider increasing ml_blend."
    | MlUnderperforming // "ML underperforming rules. Consider reducing ml_blend or retraining."
    | InProgress        // "Performance tracking in progress. More data needed for recommendation."

  /** One entry of the performance log. */
  datatype LogEntry = LogEntry(
    date: string,
    modelsActive: seq<string>,
    trainingSamples: nat,
    pricePrediction: Option<PriceAccuracy>,
    scoreDrift: Option<Drift>,
    buySkip: Option<BuySkip>,
    recommendation: Option<Recommendation>)

  /** A day's comparison: `Some(true)` when ML's error was strictly lower, `Some(false)` otherwise (ties go to the rules), `None` without both errors. */
  function MlWon(l: LogEntry): (r: Option<bool>)
    ensures r.Some? <==> l.pricePrediction.Some? && l.pricePrediction.value.mlMaePct.Some? && l.pricePrediction.value.ruleMaePct.Some?
    ensures r == Some(true) ==> l.pricePrediction.value.mlMaePct.value < l.pricePrediction.value.ruleMaePct.value
    ensures r == Some(false) ==> l.pricePrediction.value.mlMaePct.value >= l.pricePrediction.value.ruleMaePct.value
  {
    match l.pricePrediction
    case None => None
    case Some(p) =>
      if p.mlMaePct.Some? && p.ruleMaePct.Some? then Some(p.mlMaePct.value < p.ruleMaePct.value) else None
  }

  predicate MlBetterDay(l: LogEntry) { MlWon(l) == Some(true) }
  predicate RuleBetterDay(l: LogEntry) { MlWon(l) == Some(false) }

  /** `_generate_recommendation`, with `samples` the number of sold listings in the training data. */
  function Recommend(logs: seq<LogEntry>, samples: nat): (r: Recommendation)
    ensures r == NoData <==> logs == []
    ensures r.Collecting? <==> logs != [] && samples < MinSamples
    ensures r.Collecting? ==> r.samples == samples
    ensures r == MlOutperforming <==> logs != [] && samples >= MinSamples && CountIf(LastN(logs, RecentDays), MlBetterDay) >= MlBetterDays
  {
    if logs == [] then NoData
    else if samples < MinSamples then Collecting(samples)
    else
      var recent := LastN(logs, RecentDays);
      if CountIf(recent, MlBetterDay) >= MlBetterDays then MlOutperforming
      else if CountIf(recent, RuleBetterDay) >= RuleBetterDays then MlUnderperforming
      else InProgress
  }

  /** Days won by ML and by the rules are disjoint, so together they are at most the days counted. */
  lemma {:induction false} WinsDisjoint(xs: seq<LogEntry>)
    ensures CountIf(xs, MlBetterDay) + CountIf(xs, RuleBetterDay) <= |xs|
    decreases |xs|
  {
    if xs != [] {
      WinsDisjoint(xs[1..]);
    }
  }

  /**
   * Within one week ML winning five days leaves the rules at most two, so
   * the "underperforming" verdict needs at least three rule wins and at
   * most four ML wins among the last seven logs.
   */
  lemma UnderperformingMeans(logs: seq<LogEntry>, samples: nat)
    requires Recommend(logs, samples) == MlUnderperforming
    ensures samples >= MinSamples
    ensures CountIf(LastN(logs, RecentDays), RuleBetterDay) >= RuleBetterDays
    ensures CountIf(LastN(logs, RecentDays), MlBetterDay) < MlBetterDays
  {
  }

  /** A week with five ML wins cannot also hold three rule wins: the order of the two checks never matters. */
  lemma VerdictsExclusive(logs: seq<LogEntry>)
    requires CountIf(LastN(logs, RecentDays), MlBetterDay) >= MlBetterDays
    ensures CountIf(LastN(logs, RecentDays), RuleBetterDay) < RuleBetterDays
  {
    WinsDisjoint(LastN(logs, RecentDays));
  }

  /** Logs older than the last seven never change the recommendation. */
  lemma RecommendUsesLastWeek(older: seq<LogEntry>, logs: seq<LogEntry>, samples: nat)
    requires |logs| >= RecentDays
    ensures Recommend(older + logs, samples) == Recommend(logs, samples)
  {
    assert LastN(older + logs, RecentDays) == LastN(logs, RecentDays);
  }

  /** A tie between the two errors counts for the rules. */
  lemma TieGoesToRules(l: LogEntry)
    requires l.pricePrediction.Some? && l.pricePrediction.value.mlMaePct.Some?
    requires l.pricePrediction.value.mlMaePct == l.pricePrediction.value.ruleMaePct
    ensures RuleBetterDay(l)
  {
  }

  // ── the daily log ─────────────────────────────────────────────

  /** Drops every entry dated `entry.date`, appends `entry`, keeps the last 90. */
  function UpdateLogs(logs: seq<LogEntry>, entry: LogEntry): (r: seq<LogEntry>)
    ensures 1 <= |r| <= KeptLogs
    ensures r[|r| - 1] == entry
    ensures forall i :: 0 <= i < |r| - 1 ==> r[i].date != entry.date && r[i] in logs
  {
    LastN(Filter(logs, (l: LogEntry) => l.date != entry.date) + [entry], KeptLogs)
  }

  /** The kept entries are the newest of the other days' entries, in their original order. */
  lemma UpdateLogsOrder(logs: seq<LogEntry>, entry: LogEntry)
    ensures var kept := Filter(logs, (l: LogEntry) => l.date != entry.date);
      UpdateLogs(logs, entry) == LastN(kept, KeptLogs - 1) + [entry]
  {
    var kept := Filter(logs, (l: LogEntry) => l.date != entry.date);
    if |kept| + 1 > KeptLogs {
      assert (kept + [entry])[|kept| + 1 - KeptLogs..] == kept[|kept| - (KeptLogs - 1)..] + [entry];
    } else {
      assert LastN(kept, KeptLogs - 1) == kept;
    }
  }

  /** Running the update twice on one day leaves what the second run alone would. */
  lemma UpdateLogsRerun(logs: seq<LogEntry>, first: LogEntry, second: LogEntry)
    requires first.date == second.date
    ensures UpdateLogs(UpdateLogs(logs, first), second) == UpdateLogs(logs, second)
  {
    var p := (l: LogEntry) => l.date != second.date;
    var kept := Filter(logs, p);
    var tail := LastN(kept, KeptLogs - 1);
    UpdateLogsOrder(logs, first);
    assert UpdateLogs(logs, first) == tail + [first];
    forall i | 0 <= i < |tail| ensures p(tail[i]) {
      assert tail[i] == kept[|kept| - |tail| + i];
    }
    FilterAll(tail, p);
    FilterNone([first], p);
    FilterAppend(tail, [first], p);
    assert Filter(tail + [first], p) == tail;
    UpdateLogsOrder(logs, second);
    assert LastN(tail, KeptLogs - 1) == tail;
    UpdateLogsOrder(tail + [first], second);
  }

  /**
   * The daily-log step of `run_monitor`: nothing is written without models
   * or without sold data; otherwise today's entry replaces any earlier one,
   * the log keeps its last 90 entries, and the new entry carries the
   * recommendation computed from the updated log.
   */
  function RunMonitor(
    logs: seq<LogEntry>, today: string, available: bool, modelsActive: seq<string>,
    sold: seq<SoldListing>, ml: MlScorer, rule: RuleScorer): (r: Option<seq<LogEntry>>)
    ensures r.None? <==> !available || sold == []
    ensures r.Some? ==> (1 <= |r.value| <= KeptLogs && r.value[|r.value| - 1].date == today
                         && r.value[|r.value| - 1].trainingSamples == |sold|
                         && (forall i :: 0 <= i < |r.value| - 1 ==> r.value[i].date != today && r.value[i] in logs))
  {
    if !available || sold == [] then None
    else
      var entry := DailyEntry(today, modelsActive, sold, ml, rule);
      var updated := UpdateLogs(logs, entry);
      Some(Stamp(updated, Recommend(updated, |sold|)))
  }

  /** Today's log entry, before its recommendation is known. */
  function DailyEntry(today: string, modelsActive: seq<string>, sold: seq<SoldListing>, ml: MlScorer, rule: RuleScorer): (e: LogEntry)
    ensures e.date == today && e.trainingSamples == |sold| && e.recommendation.None?
  {
    LogEntry(today, modelsActive, |sold|,
      PriceAccuracyOf(sold, true, ml), ScoreDrift(sold, true, ml, rule), BuySkipAccuracy(sold, true, ml), None)
  }

  /** Sets the recommendation of the last entry; the others are unchanged. */
  function Stamp(logs: seq<LogEntry>, rec: Recommendation): (r: seq<LogEntry>)
    requires logs != []
    ensures |r| == |logs| && r[..|r| - 1] == logs[..|logs| - 1]
    ensures r[|r| - 1] == logs[|logs| - 1].(recommendation := Some(rec))
  {
    logs[..|logs| - 1] + [logs[|logs| - 1].(recommendation := Some(rec))]
  }

  // ── score drift as written ────────────────────────────────────

  /** How a call ended: with an exception, or returning a value. */
  datatype Call<T> = Raised | Returned(value: T)

  /** The breakdown `score_listing` returns: four sub-scores and no "iconic" key. */
  datatype Breakdown = Breakdown(value: real, appreciation: real, fit: real, condition: real)

  /**
   * `score_listing(listing, collection, budget)` on a training record, `None`
   * when it raises, as `entry["price"]` does on a record without a `price`
   * key (the records `reverb_sold` writes carry `listed_price` instead).
   */
  type FallibleRuleScorer = SoldListing -> Option<(real, Breakdown)>

  /**
   * One listing of the drift loop as written: `score_listing`, then
   * `ml_score_listing` on the loaded cache with that breakdown. With learned
   * weights the ML total reads `rule_scores["iconic"]`, which the breakdown
   * lacks; on the other paths the iconic sub-score is never read.
   */
  function DiffAsWritten(s: SoldListing, c: MlPredict.Cache, feats: SoldListing -> MlFeatures.Features,
                         rule: FallibleRuleScorer): (r: Call<Option<real>>)
    ensures r.Raised? <==> rule(s).None? || (MlPredict.IsMlAvailable(c) && MlPredict.UsableWeights(c).Some?)
    ensures r.Returned? ==> r.value.None?
  {
    match rule(s)
    case None => Raised
    case Some((total, b)) =>
      if MlPredict.IsMlAvailable(c) && MlPredict.UsableWeights(c).Some? then Raised
      else
        var rs := MlPredict.RuleScores(b.value, b.appreciation, b.fit, b.condition, 0.0);
        match MlPredict.MlScoreListing(c, feats(s), rs)
        case None => Returned(None)
        case Some(res) =>
          MlPredict.MlTotalPresence(c, feats(s), rs);
          Returned(TotalDiff(res, total))
  }

  /** The drift loop as written: the differences in order, or the first exception. */
  function DiffsAsWritten(xs: seq<SoldListing>, c: MlPredict.Cache, feats: SoldListing -> MlFeatures.Features,
                          rule: FallibleRuleScorer): (r: Call<seq<real>>)
    ensures r.Raised? <==> exists i :: 0 <= i < |xs| && DiffAsWritten(xs[i], c, feats, rule).Raised?
    ensures r.Returned? ==> r.value == []
    decreases |xs|
  {
    if xs == [] then Returned([])
    else
      var rest := DiffsAsWritten(xs[1..], c, feats, rule);
      assert forall i :: 1 <= i < |xs| ==> xs[i] == xs[1..][i - 1];
      match DiffAsWritten(xs[0], c, feats, rule)
      case Raised => Raised
      case Returned(d) =>
        match rest
        case Raised => Raised
        case Returned(ds) => Returned(Somes([d]) + ds)
  }

  /**
   * `_compute_score_drift` as written: with a model loaded it raises as soon
   * as one of the first 100 records cannot be scored by the rules, or at the
   * first record when learned weights make the ML total read the missing
   * "iconic" sub-score; otherwise no ML total exists and the result is `None`.
   */
  function ScoreDriftAsWritten(sold: seq<SoldListing>, c: MlPredict.Cache, feats: SoldListing -> MlFeatures.Features,
                               rule: FallibleRuleScorer): (r: Call<Option<Drift>>)
    ensures r.Returned? ==> r.value.None?
    ensures r.Raised? <==> MlPredict.IsMlAvailable(c) && sold != []
                           && (MlPredict.UsableWeights(c).Some?
                               || exists i :: 0 <= i < |sold| && i < DriftCap && rule(sold[i]).None?)
  {
    var capped := PyTake(sold, DriftCap);
    assert forall i :: 0 <= i < |capped| ==> capped[i] == sold[i];
    assert sold != [] ==> capped != [] && capped[0] == sold[0];
    if !MlPredict.IsMlAvailable(c) then Returned(None)
    else
      match DiffsAsWritten(capped, c, feats, rule)
      case Raised => Raised
      case Returned(ds) => Returned(DriftOf(ds))
  }

  /** Listings past the first 100 never change the drift as written either. */
  lemma DriftAsWrittenIgnoresTail(sold: seq<SoldListing>, more: seq<SoldListing>, c: MlPredict.Cache,
                                  feats: SoldListing -> MlFeatures.Features, rule: FallibleRuleScorer)
    requires |sold| >= DriftCap
    ensures ScoreDriftAsWritten(sold + more, c, feats, rule) == ScoreDriftAsWritten(sold, c, feats, rule)
  {
    assert PyTake(sold + more, DriftCap) == PyTake(sold, DriftCap);
  }

  /**
   * `run_monitor` as written: the log step of `RunMonitor`, except that the
   * drift is computed as written and its exception ends the run before
   * anything is saved. The ML scorer of the other metrics is
   * `ml_score_listing` on the same cache.
   */
  function RunMonitorAsWritten(
    logs: seq<LogEntry>, today: string, c: MlPredict.Cache, modelsActive: seq<string>,
    sold: seq<SoldListing>, feats: SoldListing -> MlFeatures.Features, rule: FallibleRuleScorer): (r: Call<Option<seq<LogEntry>>>)
    ensures r.Raised? <==> MlPredict.IsMlAvailable(c) && sold != []
                           && (MlPredict.UsableWeights(c).Some?
                               || exists i :: 0 <= i < |sold| && i < DriftCap && rule(sold[i]).None?)
    ensures r.Returned? && r.value.Some? ==> r.value.value != [] && r.value.value[|r.value.value| - 1].scoreDrift.None?
  {
    if !MlPredict.IsMlAvailable(c) || sold == [] then Returned(None)
    else
      var ml := (s: SoldListing, rs: MlPredict.RuleScores) => MlPredict.MlScoreListing(c, feats(s), rs);
      match ScoreDriftAsWritten(sold, c, feats, rule)
      case Raised => Raised
      case Returned(drift) =>
        var entry := LogEntry(today, modelsActive, |sold|,
          PriceAccuracyOf(sold, true, ml), drift, BuySkipAccuracy(sold, true, ml), None);
        var updated := UpdateLogs(logs, entry);
        Returned(Some(Stamp(updated, Recommend(updated, |sold|))))
  }

  /**
   * On the training records `reverb_sold` writes, which `score_listing`
   * cannot score, `run_monitor` as written raises whenever a model is loaded
   * and there is a sale, so the daily log is never written.
   */
  lemma MonitorCrashesOnReverbData(
    logs: seq<LogEntry>, today: string, c: MlPredict.Cache, modelsActive: seq<string>,
    sold: seq<SoldListing>, feats: SoldListing -> MlFeatures.Features, rule: FallibleRuleScorer)
    requires forall s :: rule(s).None?
    requires MlPredict.IsMlAvailable(c) && sold != []
    ensures RunMonitorAsWritten(logs, today, c, modelsActive, sold, feats, rule).Raised?
  {
    assert rule(sold[0]).None?;
  }
}

=== FILE: ml_predict.dfy ===
/**
 * ML inference: the once-only model loader, model availability and status,
 * and `ml_score_listing`, which combines up to four trained models into an
 * optional ML total, predicted price, predicted appreciation and buy
 * probability.
 *
 * A trained model is opaque: its `predict` and `predict_proba` are
 * functions given with the model, and `None` from them stands for the
 * exception `ml_score_listing` catches. Files on disk are an input value.
 */
module MlPredict {
  import opened Wrappers
  import opened Seqs
  import MlFeatures
  import Scorer

  const WeightOptimizer: string := "weight_optimizer"
  const PricePredictor: string := "price_predictor"
  const AppreciationPredictor: string := "appreciation_predictor"
  const BuyClassifier: string := "buy_classifier"

  /** The models looked for, in loading order. */
  const ModelNames: seq<string> := [WeightOptimizer, PricePredictor, AppreciationPredictor, BuyClassifier]

  /** The learned-weight names, in the weight optimiser's coefficient order. */
  const DimensionNames: seq<string> := ["value", "appreciate", "fit", "condition", "iconic"]

  /** Weight used for a dimension the learned weights do not name. */
  const DefaultWeight: real := 0.2

  /** A loaded model; `None` from either function is a raised exception. */
  datatype Model = Model(
    predict: seq<real> -> Option<real>,
    predictProba: seq<real> -> Option<seq<real>>)

  /** A model's metadata file; absent keys are `None`. */
  datatype Meta = Meta(
    trainedAt: Option<string>,
    samples: Option<int>,
    metrics: map<string, real>,
    learnedWeights: Option<map<string, real>>)

  /** The metadata used when a model has none (`{}`). */
  const NoMeta: Meta := Meta(None, None, map[], None)

  /**
   * What loading finds: whether the model library imports, and per model
   * name the model and metadata files present (`None` when present but
   * unreadable).
   */
  datatype Disk = Disk(
    libraryAvailable: bool,
    modelFiles: map<string, Option<Model>>,
    metaFiles: map<string, Option<Meta>>)

  /** The module-level caches and the once-only flag. */
  datatype Cache = Cache(attempted: bool, models: map<string, Model>, metas: map<string, Meta>)

  /** The state at import time. */
  const Initial: Cache := Cache(false, map[], map[])

  /** One cache's side of the loading loop: each listed name whose file reads is added. */
  function LoadFiles<V>(names: seq<string>, files: map<string, Option<V>>, acc: map<string, V>): (r: map<string, V>)
    decreases |names|
  {
    if names == [] then acc
    else
      var n := names[0];
      LoadFiles(names[1..], files, if n in files && files[n].Some? then acc[n := files[n].value] else acc)
  }

  /** A name ends up cached iff it was cached before or is a listed name whose file reads, and then with that file's content. */
  lemma {:induction false} LoadFilesSpec<V>(names: seq<string>, files: map<string, Option<V>>, acc: map<string, V>)
    ensures var r := LoadFiles(names, files, acc);
      (forall n :: n in r <==> n in acc || (n in names && n in files && files[n].Some?))
      && (forall n :: n in names && n in files && files[n].Some? ==> r[n] == files[n].value)
      && (forall n :: n in acc && n !in names ==> r[n] == acc[n])
    decreases |names|
  {
    if names != [] {
      var n := names[0];
      var acc' := if n in files && files[n].Some? then acc[n := files[n].value] else acc;
      LoadFilesSpec(names[1..], files, acc');
      var r := LoadFiles(names, files, acc);
      forall m | m in names
        ensures m == n || m in names[1..]
      {
      }
      forall m | m in names && m in files && files[m].Some?
        ensures r[m] == files[m].value
      {
        if m !in names[1..] {
          assert m == n;
        }
      }
    }
  }

  /** `_ensure_loaded`: the first call sets the flag and loads what it can; later calls do nothing. */
  function EnsureLoaded(c: Cache, disk: Disk): (r: Cache)
    ensures r.attempted
    ensures c.attempted ==> r == c
  {
    if c.attempted then c
    else if !disk.libraryAvailable then c.(attempted := true)
    else
      Cache(true, LoadFiles(ModelNames, disk.modelFiles, c.models), LoadFiles(ModelNames, disk.metaFiles, c.metas))
  }

  /** Loading happens at most once: whatever the disk holds later, a second call changes nothing. */
  lemma EnsureLoadedOnce(c: Cache, disk1: Disk, disk2: Disk)
    ensures EnsureLoaded(EnsureLoaded(c, disk1), disk2) == EnsureLoaded(c, disk1)
  {
  }

  /** After the first load a model is cached iff the library imports and its file loads. */
  lemma {:induction false} FirstLoadModels(disk: Disk, n: string)
    ensures var c := EnsureLoaded(Initial, disk);
      (n in c.models <==> disk.libraryAvailable && n in ModelNames && n in disk.modelFiles && disk.modelFiles[n].Some?)
      && (n in c.metas <==> disk.libraryAvailable && n in ModelNames && n in disk.metaFiles && disk.metaFiles[n].Some?)
  {
    if disk.libraryAvailable {
      LoadFilesSpec(ModelNames, disk.modelFiles, map[]);
      LoadFilesSpec(ModelNames, disk.metaFiles, map[]);
    }
  }

  // ── availability and status ────────────────────────────────────

  /** `is_ml_available`: at least one model is cached. */
  function IsMlAvailable(c: Cache): (b: bool)
    ensures b <==> exists n :: n in c.models
  {
    assert |c.models| > 0 ==> exists n :: n in c.models by {
      if |c.models| > 0 {
        var n :| n in c.models.Keys;
      }
    }
    |c.models| > 0
  }

  /** `active_model_count`: the number of cached models. */
  function ActiveModelCount(c: Cache): (n: nat)
    ensures n == 0 <==> !IsMlAvailable(c)
  {
    |c.models|
  }

  /** One model's status entry. */
  datatype Status = Status(available: bool, trainedAt: Option<string>, samples: int, metrics: map<string, real>)

  /** A model's metadata, `{}` when it has none. */
  function MetaOf(c: Cache, name: string): Meta {
    if name in c.metas then c.metas[name] else NoMeta
  }

  /** `get_model_status`: one entry per model name; samples default to 0, metrics to `{}`. */
  function ModelStatus(c: Cache): (r: map<string, Status>)
    ensures forall n :: n in r <==> n in ModelNames
  {
    map n | n in ModelNames :: Status(
      n in c.models,
      MetaOf(c, n).trainedAt,
      MetaOf(c, n).samples.GetOr(0),
      MetaOf(c, n).metrics)
  }

  /** A status entry is available iff its model is cached; without metadata it reports 0 samples and no metrics. */
  lemma ModelStatusEntry(c: Cache, n: string)
    requires n in ModelNames
    ensures var s := ModelStatus(c)[n];
      (s.available <==> n in c.models)
      && (n !in c.metas ==> s.samples == 0 && s.trainedAt.None? && s.metrics == map[])
      && (n in c.metas && c.metas[n].samples.Some? ==> s.samples == c.metas[n].samples.value)
  {
  }

  /** `get_learned_weights`: the weight optimiser's learned weights, when its metadata has them. */
  function LearnedWeights(c: Cache): (w: Option<map<string, real>>)
    ensures WeightOptimizer !in c.metas ==> w.None?
  {
    MetaOf(c, WeightOptimizer).learnedWeights
  }

  /** The metadata's sample counts, in model-name order (absent metadata contributes nothing). */
  function SampleCounts(c: Cache, names: seq<string>): (r: seq<real>)
    ensures |r| <= |names|
    decreases |names|
  {
    if names == [] then []
    else if names[0] in c.metas then [c.metas[names[0]].samples.GetOr(0) as real] + SampleCounts(c, names[1..])
    else SampleCounts(c, names[1..])
  }

  /** `total_training_samples`, for a cache whose metadata keys are model names (the loader's). */
  function TotalTrainingSamples(c: Cache): real {
    Sum(SampleCounts(c, ModelNames))
  }

  /** With non-negative sample counts the total is non-negative; with no metadata it is 0. */
  lemma {:induction false} TotalTrainingSamplesBounds(c: Cache)
    requires forall n :: n in c.metas ==> c.metas[n].samples.GetOr(0) >= 0
    ensures TotalTrainingSamples(c) >= 0.0
    ensures c.metas == map[] ==> TotalTrainingSamples(c) == 0.0
  {
    SampleCountsNonNegative(c, ModelNames);
    SumNonNegative(SampleCounts(c, ModelNames));
    if c.metas == map[] {
      SampleCountsEmpty(c, ModelNames);
    }
  }

  lemma {:induction false} SampleCountsNonNegative(c: Cache, names: seq<string>)
    requires forall n :: n in c.metas ==> c.metas[n].samples.GetOr(0) >= 0
    ensures forall i :: 0 <= i < |SampleCounts(c, names)| ==> SampleCounts(c, names)[i] >= 0.0
    decreases |names|
  {
    if names != [] {
      SampleCountsNonNegative(c, names[1..]);
    }
  }

  lemma {:induction false} SampleCountsEmpty(c: Cache, names: seq<string>)
    requires c.metas == map[]
    ensures SampleCounts(c, names) == []
    decreases |names|
  {
    if names != [] {
      SampleCountsEmpty(c, names[1..]);
    }
  }

  // ── scoring ────────────────────────────────────────────────────

  /** The five rule-based sub-scores handed to the ML scorer. */
  datatype RuleScores = RuleScores(value: real, appreciation: real, fit: real, condition: real, iconic: real)

  /** What `ml_score_listing` returns when some model is loaded. */
  datatype MlResult = MlResult(
    mlTotal: Option<real>,
    mlWeights: Option<map<string, real>>,
    mlPrice: Option<real>,
    mlAppreciation: Option<real>,
    mlBuyProb: Option<real>)

  /** `w.get(k, 0.2)` */
  function WeightOr(w: map<string, real>, k: string): real {
    if k in w then w[k] else DefaultWeight
  }

  /** The learned-weight combination of the five sub-scores. */
  function MlTotal(w: map<string, real>, s: RuleScores): real {
    WeightOr(w, "value") * s.value
      + WeightOr(w, "appreciate") * s.appreciation
      + WeightOr(w, "fit") * s.fit
      + WeightOr(w, "condition") * s.condition
      + WeightOr(w, "iconic") * s.iconic
  }

  /** Weights that name none of the five dimensions weigh each sub-score equally at 0.2. */
  lemma MlTotalDefaults(w: map<string, real>, s: RuleScores)
    requires forall k :: k in w ==> k !in DimensionNames
    ensures MlTotal(w, s) == (s.value + s.appreciation + s.fit + s.condition + s.iconic) / 5.0
  {
    assert "value" in DimensionNames && "appreciate" in DimensionNames && "fit" in DimensionNames;
    assert "condition" in DimensionNames && "iconic" in DimensionNames;
  }

  /** The learned weights name all five dimensions. */
  predicate NamesAllDimensions(w: map<string, real>) {
    "value" in w && "appreciate" in w && "fit" in w && "condition" in w && "iconic" in w
  }

  /** Non-negative weights summing to 1 (as training produces) keep sub-scores on 0..100 on 0..100. */
  lemma {:induction false} MlTotalBounds(w: map<string, real>, s: RuleScores)
    requires NamesAllDimensions(w)
    requires w["value"] >= 0.0 && w["appreciate"] >= 0.0 && w["fit"] >= 0.0 && w["condition"] >= 0.0 && w["iconic"] >= 0.0
    requires w["value"] + w["appreciate"] + w["fit"] + w["condition"] + w["iconic"] == 1.0
    requires 0.0 <= s.value <= 100.0 && 0.0 <= s.appreciation <= 100.0 && 0.0 <= s.fit <= 100.0
    requires 0.0 <= s.condition <= 100.0 && 0.0 <= s.iconic <= 100.0
    ensures 0.0 <= MlTotal(w, s) <= 100.0
  {
    var t := MlTotal(w, s);
    assert t == w["value"] * s.value + w["appreciate"] * s.appreciation + w["fit"] * s.fit
      + w["condition"] * s.condition + w["iconic"] * s.iconic;
    Dot5Bounds(w["value"], w["appreciate"], w["fit"], w["condition"], w["iconic"],
               s.value, s.appreciation, s.fit, s.condition, s.iconic);
  }

  lemma Dot5Bounds(w1: real, w2: real, w3: real, w4: real, w5: real, s1: real, s2: real, s3: real, s4: real, s5: real)
    requires w1 >= 0.0 && w2 >= 0.0 && w3 >= 0.0 && w4 >= 0.0 && w5 >= 0.0
    requires w1 + w2 + w3 + w4 + w5 == 1.0
    requires 0.0 <= s1 <= 100.0 && 0.0 <= s2 <= 100.0 && 0.0 <= s3 <= 100.0 && 0.0 <= s4 <= 100.0 && 0.0 <= s5 <= 100.0
    ensures 0.0 <= w1 * s1 + w2 * s2 + w3 * s3 + w4 * s4 + w5 * s5 <= 100.0
  {
    var p1, p2, p3, p4, p5 := w1 * s1, w2 * s2, w3 * s3, w4 * s4, w5 * s5;
    Scorer.MulBounds(w1, s1);
    Scorer.MulBounds(w2, s2);
    Scorer.MulBounds(w3, s3);
    Scorer.MulBounds(w4, s4);
    Scorer.MulBounds(w5, s5);
    assert 0.0 <= p1 <= 100.0 * w1;
    assert 0.0 <= p2 <= 100.0 * w2;
    Sum5Bounds(p1, p2, p3, p4, p5, w1, w2, w3, w4, w5);
  }

  lemma Sum5Bounds(p1: real, p2: real, p3: real, p4: real, p5: real, w1: real, w2: real, w3: real, w4: real, w5: real)
    requires 0.0 <= p1 <= 100.0 * w1 && 0.0 <= p2 <= 100.0 * w2 && 0.0 <= p3 <= 100.0 * w3
    requires 0.0 <= p4 <= 100.0 * w4 && 0.0 <= p5 <= 100.0 * w5
    requires w1 + w2 + w3 + w4 + w5 == 1.0
    ensures 0.0 <= p1 + p2 + p3 + p4 + p5 <= 100.0
  {
  }

  /** `max(0, x)` */
  function NonNegative(x: real): (r: real)
    ensures r >= 0.0 && r >= x
    ensures x >= 0.0 ==> r == x
  {
    if x > 0.0 then x else 0.0
  }

  /** `prob[1] if len(prob) > 1 else prob[0]`, with an empty vector raising. */
  function BuyProbability(prob: seq<real>): (r: Option<real>)
    ensures r.None? <==> prob == []
    ensures |prob| > 1 ==> r == Some(prob[1])
    ensures |prob| == 1 ==> r == Some(prob[0])
  {
    if |prob| > 1 then Some(prob[1]) else if |prob| == 1 then Some(prob[0]) else None
  }

  /** The learned weights the ML total is computed from: present and non-empty. */
  function UsableWeights(c: Cache): Option<map<string, real>> {
    if WeightOptimizer in c.models && LearnedWeights(c).Some? && LearnedWeights(c).value != map[]
    then LearnedWeights(c) else None
  }

  /** The price predictor's output, floored at 0, or `None` when absent or failing. */
  function PriceField(c: Cache, feats: map<string, real>): Option<real> {
    if PricePredictor !in c.models then None
    else match c.models[PricePredictor].predict(MlFeatures.FeaturesToArray(feats, Some(MlFeatures.PriceFeatures)))
      case Some(p) => Some(NonNegative(p))
      case None => None
  }

  /** The appreciation predictor's output, or `None` when absent or failing. */
  function AppreciationField(c: Cache, feats: map<string, real>): Option<real> {
    if AppreciationPredictor !in c.models then None
    else c.models[AppreciationPredictor].predict(MlFeatures.FeaturesToArray(feats, Some(MlFeatures.AppreciationFeatures)))
  }

  /** The classifier's buy probability as a percentage, or `None` when absent or failing. */
  function BuyField(c: Cache, feats: map<string, real>): Option<real> {
    if BuyClassifier !in c.models then None
    else match c.models[BuyClassifier].predictProba(MlFeatures.FeaturesToArray(feats, Some(MlFeatures.FeatureOrder)))
      case Some(prob) =>
        (match BuyProbability(prob)
         case Some(p) => Some(p * 100.0)
         case None => None)
      case None => None
  }

  /**
   * `ml_score_listing` on the loaded cache and the listing's extracted
   * features: `None` without any model, otherwise each field filled by its
   * own model alone.
   */
  function MlScoreListing(c: Cache, feats: MlFeatures.Features, rules: RuleScores): (r: Option<MlResult>)
    ensures r.None? <==> !IsMlAvailable(c)
  {
    if |c.models| == 0 then None
    else
      var d := MlFeatures.AsDict(feats);
      var w := UsableWeights(c);
      Some(MlResult(
        if w.Some? then Some(MlTotal(w.value, rules)) else None,
        w,
        PriceField(c, d),
        AppreciationField(c, d),
        BuyField(c, d)))
  }

  /** The ML total is set iff the optimiser is loaded with non-empty learned weights, and is their combination. */
  lemma MlTotalPresence(c: Cache, feats: MlFeatures.Features, rules: RuleScores)
    requires IsMlAvailable(c)
    ensures var r := MlScoreListing(c, feats, rules).value;
      (r.mlTotal.Some? <==> WeightOptimizer in c.models && LearnedWeights(c).Some? && LearnedWeights(c).value != map[])
      && (r.mlTotal.Some? ==> r.mlWeights == LearnedWeights(c) && r.mlTotal.value == MlTotal(LearnedWeights(c).value, rules))
      && (r.mlTotal.None? ==> r.mlWeights.None?)
  {
  }

  /** The predicted price is never negative. */
  lemma MlPriceNonNegative(c: Cache, feats: MlFeatures.Features, rules: RuleScores)
    requires IsMlAvailable(c)
    ensures var r := MlScoreListing(c, feats, rules).value;
      r.mlPrice.Some? ==> r.mlPrice.value >= 0.0
  {
  }

  /** The buy probability is 100 times the class-1 entry, or the only entry of a one-element vector. */
  lemma MlBuyProbSpec(c: Cache, feats: MlFeatures.Features, rules: RuleScores, prob: seq<real>)
    requires IsMlAvailable(c) && BuyClassifier in c.models
    requires c.models[BuyClassifier].predictProba(MlFeatures.FeaturesToArray(MlFeatures.AsDict(feats), Some(MlFeatures.FeatureOrder))) == Some(prob)
    ensures var r := MlScoreListing(c, feats, rules).value;
      (|prob| > 1 ==> r.mlBuyProb == Some(100.0 * prob[1]))
      && (|prob| == 1 ==> r.mlBuyProb == Some(100.0 * prob[0]))
      && (prob == [] ==> r.mlBuyProb.None?)
  {
  }

  /** The four model names are different from one another. */
  lemma ModelNamesDistinct()
    ensures WeightOptimizer != PricePredictor && WeightOptimizer != AppreciationPredictor
    ensures WeightOptimizer != BuyClassifier && PricePredictor != AppreciationPredictor
    ensures PricePredictor != BuyClassifier && AppreciationPredictor != BuyClassifier
  {
    assert WeightOptimizer[0] == 'w' && PricePredictor[0] == 'p';
    assert AppreciationPredictor[0] == 'a' && BuyClassifier[0] == 'b';
  }

  /** Replacing the model under `k` keeps the weights unless `k` is the weight optimiser. */
  lemma ReplaceKeepsWeights(c: Cache, k: string, m: Model)
    requires k != WeightOptimizer
    ensures UsableWeights(c.(models := c.models[k := m])) == UsableWeights(c)
  {
    var c' := c.(models := c.models[k := m]);
    assert (WeightOptimizer in c'.models) == (WeightOptimizer in c.models);
  }

  /** Replacing the model under `k` keeps the price field unless `k` is the price predictor. */
  lemma ReplaceKeepsPrice(c: Cache, k: string, m: Model, d: map<string, real>)
    requires k != PricePredictor
    ensures PriceField(c.(models := c.models[k := m]), d) == PriceField(c, d)
  {
    var c' := c.(models := c.models[k := m]);
    assert (PricePredictor in c'.models) == (PricePredictor in c.models);
    if PricePredictor in c.models {
      assert c'.models[PricePredictor] == c.models[PricePredictor];
    }
  }

  /** Replacing the model under `k` keeps the appreciation field unless `k` is the appreciation predictor. */
  lemma ReplaceKeepsAppreciation(c: Cache, k: string, m: Model, d: map<string, real>)
    requires k != AppreciationPredictor
    ensures AppreciationField(c.(models := c.models[k := m]), d) == AppreciationField(c, d)
  {
    var c' := c.(models := c.models[k := m]);
    assert (AppreciationPredictor in c'.models) == (AppreciationPredictor in c.models);
    if AppreciationPredictor in c.models {
      assert c'.models[AppreciationPredictor] == c.models[AppreciationPredictor];
    }
  }

  /** Replacing the model under `k` keeps the buy probability unless `k` is the classifier. */
  lemma ReplaceKeepsBuy(c: Cache, k: string, m: Model, d: map<string, real>)
    requires k != BuyClassifier
    ensures BuyField(c.(models := c.models[k := m]), d) == BuyField(c, d)
  {
    var c' := c.(models := c.models[k := m]);
    assert (BuyClassifier in c'.models) == (BuyClassifier in c.models);
    if BuyClassifier in c.models {
      assert c'.models[BuyClassifier] == c.models[BuyClassifier];
    }
  }

  /**
   * Models are independent: replacing the price predictor (by a failing one,
   * say) changes the price field and nothing else.
   */
  lemma PriceModelIsolated(c: Cache, m: Model, feats: MlFeatures.Features, rules: RuleScores)
    requires IsMlAvailable(c)
    ensures var c' := c.(models := c.models[PricePredictor := m]);
      var r := MlScoreListing(c, feats, rules).value;
      var r' := MlScoreListing(c', feats, rules).value;
      r'.mlTotal == r.mlTotal && r'.mlWeights == r.mlWeights
      && r'.mlAppreciation == r.mlAppreciation && r'.mlBuyProb == r.mlBuyProb
  {
    var d := MlFeatures.AsDict(feats);
    ModelNamesDistinct();
    ReplaceKeepsWeights(c, PricePredictor, m);
    ReplaceKeepsAppreciation(c, PricePredictor, m, d);
    ReplaceKeepsBuy(c, PricePredictor, m, d);
  }

  /** A classifier that always raises gives no buy probability. */
  lemma FailingClassifierNoBuy(c: Cache, d: map<string, real>)
    requires BuyClassifier in c.models
    requires forall x :: c.models[BuyClassifier].predictProba(x).None?
    ensures BuyField(c, d).None?
  {
  }

  /** A failing model leaves only its own field empty. */
  lemma FailingClassifierIsolated(c: Cache, feats: MlFeatures.Features, rules: RuleScores)
    requires IsMlAvailable(c)
    ensures var failing := Model((x: seq<real>) => None, (x: seq<real>) => None);
      var c' := c.(models := c.models[BuyClassifier := failing]);
      var r := MlScoreListing(c, feats, rules).value;
      var r' := MlScoreListing(c', feats, rules).value;
      r'.mlBuyProb.None?
      && r'.mlTotal == r.mlTotal && r'.mlWeights == r.mlWeights
      && r'.mlPrice == r.mlPrice && r'.mlAppreciation == r.mlAppreciation
  {
    var failing := Model((x: seq<real>) => None, (x: seq<real>) => None);
    var c' := c.(models := c.models[BuyClassifier := failing]);
    var d := MlFeatures.AsDict(feats);
    ModelNamesDistinct();
    ReplaceKeepsWeights(c, BuyClassifier, failing);
    ReplaceKeepsPrice(c, BuyClassifier, failing, d);
    ReplaceKeepsAppreciation(c, BuyClassifier, failing, d);
    FailingClassifierNoBuy(c', d);
  }
}

=== FILE: ml_train.dfy ===
/**
 * What ML training decides before any model is fitted: which samples each
 * of the four models may use, the minimum sample counts, the weight
 * optimiser's desirability target and the clip-and-normalise step applied
 * to its coefficients, the appreciation samples drawn from learned rates,
 * and the buy/skip labelling. Fitting itself is left to the model library.
 */
module MlTrain {
  import opened Wrappers
  import opened Text
  import opened Numbers
  import opened Seqs
  import Scorer
  import MlPredict

  const MinWeightOpt: nat := 30
  const MinPricePred: nat := 50
  const MinAppreciation: nat := 20
  const MinBuySkip: nat := 30
  const MinPerClass: nat := 10

  /** The ratio of sold to listed price at or above which a sale counts as a "buy". */
  const BuyRatio: real := 0.95

  /** The prices of one sold listing; a missing price is `None`. */
  datatype SoldListing = SoldListing(listedPrice: Option<real>, soldPrice: Option<real>, listing: Scorer.Listing)

  /** A Python number is truthy iff present and non-zero. */
  predicate Truthy(x: Option<real>) { x.Some? && x.value != 0.0 }

  // ── weight optimiser ───────────────────────────────────────────

  /** Both prices truthy and the listed price positive. */
  predicate WeightSample(s: SoldListing) {
    Truthy(s.listedPrice) && Truthy(s.soldPrice) && s.listedPrice.value > 0.0
  }

  /** The weight optimiser's samples, in the order given. */
  function WeightSamples(sold: seq<SoldListing>): (r: seq<SoldListing>)
    ensures forall i :: 0 <= i < |r| ==> r[i] in sold && r[i].listedPrice.Some? && r[i].listedPrice.value > 0.0
  {
    Filter(sold, WeightSample)
  }

  /** The optimiser trains only on at least 30 samples. */
  predicate WeightOptimizerTrains(sold: seq<SoldListing>) {
    |WeightSamples(sold)| >= MinWeightOpt
  }

  /** `min(1, sold / listed) * 100`: how close to the asking price the guitar sold. */
  function Desirability(listed: real, sold: real): (d: real)
    requires listed > 0.0
    ensures d <= 100.0
    ensures sold >= 0.0 ==> d >= 0.0
    ensures sold >= listed ==> d == 100.0
    ensures sold < listed ==> d * listed == 100.0 * sold
  {
    RatioFacts(sold, listed);
    MinReal(1.0, sold / listed) * 100.0
  }

  lemma RatioFacts(a: real, d: real)
    requires d > 0.0
    ensures a >= d ==> a / d >= 1.0
    ensures a < d ==> a / d < 1.0
    ensures (a / d) * d == a
  {
  }

  /** Selling for more never lowers the desirability. */
  lemma DesirabilityMonotone(listed: real, s1: real, s2: real)
    requires listed > 0.0 && s1 <= s2
    ensures Desirability(listed, s1) <= Desirability(listed, s2)
  {
    assert s1 / listed <= s2 / listed by {
      DivLe(s1, s2, listed);
    }
  }

  lemma DivLe(a: real, b: real, d: real)
    requires d > 0.0 && a <= b
    ensures a / d <= b / d
  {
  }

  /** `[max(0, w) for w in ws]` */
  function Clip(ws: seq<real>): (r: seq<real>)
    ensures |r| == |ws|
    ensures forall i :: 0 <= i < |r| ==> r[i] >= 0.0 && r[i] == MaxReal(0.0, ws[i])
    decreases |ws|
  {
    if ws == [] then [] else [MaxReal(0.0, ws[0])] + Clip(ws[1..])
  }

  /** Each element divided by `t`. */
  function Scale(ws: seq<real>, t: real): (r: seq<real>)
    requires t != 0.0
    ensures |r| == |ws|
    decreases |ws|
  {
    if ws == [] then [] else [ws[0] / t] + Scale(ws[1..], t)
  }

  lemma {:induction false} ScaleAt(ws: seq<real>, t: real, i: nat)
    requires t != 0.0 && i < |ws|
    ensures Scale(ws, t)[i] == ws[i] / t
    decreases |ws|
  {
    if i > 0 {
      ScaleAt(ws[1..], t, i - 1);
    }
  }

  lemma {:induction false} SumScale(ws: seq<real>, t: real)
    requires t != 0.0
    ensures Sum(Scale(ws, t)) == Sum(ws) / t
    decreases |ws|
  {
    if ws != [] {
      var r := Scale(ws, t);
      assert r[1..] == Scale(ws[1..], t);
      SumScale(ws[1..], t);
      assert Sum(r) == ws[0] / t + Sum(ws[1..]) / t;
    }
  }

  /** The five equal weights used when every coefficient is clipped to 0. */
  const EqualWeights: seq<real> := [0.2, 0.2, 0.2, 0.2, 0.2]

  /**
   * The post-processing of the optimiser's coefficients: clip negatives to
   * 0 and divide by the clipped total, or fall back to five equal weights
   * when that total is 0.
   */
  function NormalizeWeights(raw: seq<real>): (r: seq<real>)
    ensures forall i :: 0 <= i < |r| ==> r[i] >= 0.0
  {
    var clipped := Clip(raw);
    var total := Sum(clipped);
    SumNonNegative(clipped);
    if total > 0.0 then
      NormalizedNonNegative(clipped, total);
      Scale(clipped, total)
    else EqualWeights
  }

  lemma NormalizedNonNegative(clipped: seq<real>, total: real)
    requires total > 0.0 && forall i :: 0 <= i < |clipped| ==> clipped[i] >= 0.0
    ensures forall i :: 0 <= i < |Scale(clipped, total)| ==> Scale(clipped, total)[i] >= 0.0
  {
    forall i | 0 <= i < |clipped|
      ensures Scale(clipped, total)[i] >= 0.0
    {
      ScaleAt(clipped, total, i);
    }
  }

  /** The clipped coefficients sum to 0 exactly when none is positive. */
  lemma ClipSumZero(raw: seq<real>)
    ensures Sum(Clip(raw)) == 0.0 <==> forall i :: 0 <= i < |raw| ==> raw[i] <= 0.0
  {
    var clipped := Clip(raw);
    if forall i :: 0 <= i < |raw| ==> raw[i] <= 0.0 {
      SumBetween(clipped, 0.0, 0.0);
    } else {
      var k :| 0 <= k < |raw| && raw[k] > 0.0;
      SumAtLeast(clipped, k);
    }
  }

  /** With some positive coefficient the normalised weights sum to 1, one per coefficient. */
  lemma {:induction false} NormalizeWeightsSumOne(raw: seq<real>)
    requires exists i :: 0 <= i < |raw| && raw[i] > 0.0
    ensures |NormalizeWeights(raw)| == |raw| && Sum(NormalizeWeights(raw)) == 1.0
  {
    var clipped := Clip(raw);
    var total := Sum(clipped);
    ClipSumZero(raw);
    SumNonNegative(clipped);
    var k :| 0 <= k < |raw| && raw[k] > 0.0;
    assert total > 0.0;
    SumScale(clipped, total);
    RatioFacts(total, total);
  }

  /** With some positive coefficient each weight is its clipped coefficient's share of the clipped total. */
  lemma {:induction false} NormalizeWeightsProportional(raw: seq<real>, i: nat)
    requires exists k :: 0 <= k < |raw| && raw[k] > 0.0
    requires i < |raw|
    ensures Sum(Clip(raw)) > 0.0 && i < |NormalizeWeights(raw)|
      && NormalizeWeights(raw)[i] == MaxReal(0.0, raw[i]) / Sum(Clip(raw))
  {
    var clipped := Clip(raw);
    var total := Sum(clipped);
    ClipSumZero(raw);
    SumNonNegative(clipped);
    var k :| 0 <= k < |raw| && raw[k] > 0.0;
    assert total > 0.0;
    assert NormalizeWeights(raw) == Scale(clipped, total);
    ScaleAt(clipped, total, i);
    assert clipped[i] == MaxReal(0.0, raw[i]);
  }

  /** With no positive coefficient the weights are five times 0.2. */
  lemma NormalizeWeightsAllZero(raw: seq<real>)
    requires forall i :: 0 <= i < |raw| ==> raw[i] <= 0.0
    ensures NormalizeWeights(raw) == EqualWeights
  {
    ClipSumZero(raw);
  }

  /** Five weights become the five named learned weights, in coefficient order. */
  lemma LearnedWeightNames(ws: seq<real>)
    requires |ws| == 5
    ensures var d := ZipMap(MlPredict.DimensionNames, ws);
      MlPredict.NamesAllDimensions(d)
      && d["value"] == ws[0] && d["appreciate"] == ws[1] && d["fit"] == ws[2]
      && d["condition"] == ws[3] && d["iconic"] == ws[4]
  {
    var n := MlPredict.DimensionNames;
    assert n[..ZipLen(n, ws)] == n;
    assert forall a, b :: 0 <= a < b < |n| ==> n[a] != n[b];
    ZipMapAt(n, ws, 0);
    ZipMapAt(n, ws, 1);
    ZipMapAt(n, ws, 2);
    ZipMapAt(n, ws, 3);
    ZipMapAt(n, ws, 4);
  }

  lemma {:induction false} Sum5(ws: seq<real>)
    requires |ws| == 5
    ensures Sum(ws) == ws[0] + ws[1] + ws[2] + ws[3] + ws[4]
  {
    assert ws[1..][1..] == ws[2..];
    assert ws[2..][1..] == ws[3..];
    assert ws[3..][1..] == ws[4..];
    assert ws[4..][1..] == [];
    assert Sum(ws[4..]) == ws[4];
    assert Sum(ws[3..]) == ws[3] + ws[4];
    assert Sum(ws[2..]) == ws[2] + ws[3] + ws[4];
    assert Sum(ws[1..]) == ws[1] + ws[2] + ws[3] + ws[4];
  }

  /**
   * Weights learned from five coefficients, used by the ML scorer, keep a
   * total of in-range sub-scores in `[0, 100]`.
   */
  lemma {:induction false} LearnedWeightsKeepTotalInRange(raw: seq<real>, s: MlPredict.RuleScores)
    requires |raw| == 5
    requires 0.0 <= s.value <= 100.0 && 0.0 <= s.appreciation <= 100.0 && 0.0 <= s.fit <= 100.0
    requires 0.0 <= s.condition <= 100.0 && 0.0 <= s.iconic <= 100.0
    ensures 0.0 <= MlPredict.MlTotal(ZipMap(MlPredict.DimensionNames, NormalizeWeights(raw)), s) <= 100.0
  {
    var ws := NormalizeWeights(raw);
    if forall i :: 0 <= i < |raw| ==> raw[i] <= 0.0 {
      NormalizeWeightsAllZero(raw);
    } else {
      var k :| 0 <= k < |raw| && raw[k] > 0.0;
      NormalizeWeightsSumOne(raw);
    }
    assert |ws| == 5 && Sum(ws) == 1.0;
    Sum5(ws);
    LearnedWeightNames(ws);
    MlPredict.MlTotalBounds(ZipMap(MlPredict.DimensionNames, ws), s);
  }

  // ── price predictor ────────────────────────────────────────────

  predicate PriceSample(s: SoldListing) {
    Truthy(s.soldPrice) && s.soldPrice.value > 0.0
  }

  /** The price predictor's samples: a positive sold price. */
  function PriceSamples(sold: seq<SoldListing>): (r: seq<SoldListing>)
    ensures forall i :: 0 <= i < |r| ==> r[i] in sold && r[i].soldPrice.Some? && r[i].soldPrice.value > 0.0
  {
    Filter(sold, PriceSample)
  }

  predicate PricePredictorTrains(sold: seq<SoldListing>) {
    |PriceSamples(sold)| >= MinPricePred
  }

  /** Every weight-optimiser sample with a positive sold price is also a price sample. */
  lemma WeightSampleIsPriceSample(sold: seq<SoldListing>, s: SoldListing)
    requires s in sold && WeightSample(s) && s.soldPrice.value > 0.0
    ensures s in PriceSamples(sold)
  {
    FilterKeeps(sold, PriceSample, s);
  }

  // ── appreciation predictor ─────────────────────────────────────

  /** One appreciation training row: the minimal listing built from the key, and the rate in percent. */
  datatype RateSample = RateSample(listing: Scorer.Listing, target: real)

  /** The listing built for a learned rate: brand and model from the key, no year, electric. */
  function RateListing(brand: string, model: string): Scorer.Listing {
    Scorer.Listing(brand, model, "Electric", "", None, None, None, "")
  }

  /** A `"brand|model"` key split at its first bar, with the rate as a percentage; other keys give nothing. */
  function RateSampleOf(key: string, rate: real): (r: Option<RateSample>)
    ensures r.None? <==> '|' !in key
  {
    match SplitFirst(key, '|')
    case Some(parts) => Some(RateSample(RateListing(parts.0, parts.1), rate * 100.0))
    case None => None
  }

  /** The split is at the first bar: the brand never holds one, the model may. */
  lemma {:induction false} RateSampleSplit(brand: string, model: string, rate: real)
    requires '|' !in brand
    ensures RateSampleOf(brand + "|" + model, rate)
         == Some(RateSample(RateListing(brand, model), rate * 100.0))
  {
    IndexOfCharAfter(brand, "|" + model, '|');
    assert brand + "|" + model == brand + ("|" + model);
    assert (brand + "|" + model)[|brand| + 1..] == model;
  }

  /** The learned rates in the dict's order, one row per usable key. */
  function RateSamples(learned: seq<(string, real)>): (r: seq<RateSample>)
    ensures |r| <= |learned|
  {
    Somes(seq(|learned|, i requires 0 <= i < |learned| => RateSampleOf(learned[i].0, learned[i].1)))
  }

  /** Every row comes from a key with a bar, its target a hundred times that key's rate. */
  lemma RateSamplesFrom(learned: seq<(string, real)>, i: nat) returns (j: nat)
    requires i < |RateSamples(learned)|
    ensures j < |learned| && '|' in learned[j].0
    ensures RateSamples(learned)[i].target == 100.0 * learned[j].1
  {
    var xs := seq(|learned|, k requires 0 <= k < |learned| => RateSampleOf(learned[k].0, learned[k].1));
    j := SomesFrom(xs, i);
  }

  /** Every key with a bar yields a row. */
  lemma RateSamplesKeep(learned: seq<(string, real)>, j: nat)
    requires j < |learned| && '|' in learned[j].0
    ensures RateSampleOf(learned[j].0, learned[j].1).value in RateSamples(learned)
  {
    var xs := seq(|learned|, k requires 0 <= k < |learned| => RateSampleOf(learned[k].0, learned[k].1));
    SomesKeeps(xs, j);
  }

  /** The threshold counts every learned key, usable or not. */
  predicate AppreciationPredictorTrains(learned: seq<(string, real)>) {
    |learned| >= MinAppreciation
  }

  // ── buy/skip classifier ────────────────────────────────────────

  /** An owned guitar; a missing brand or model is "". */
  datatype Owned = Owned(brand: string, model: string)

  /** A user decision; a missing action is `None`. */
  datatype Decision = Decision(action: Option<string>, listing: Scorer.Listing)

  /** A labelled training example and where it came from. */
  datatype Example = FromCollection(g: Owned) | FromSale(s: SoldListing) | FromDecision(d: Decision)

  predicate OwnedExample(g: Owned) { g.brand != "" && g.model != "" }

  /** `listing.get(k) or 0` */
  function PriceOrZero(x: Option<real>): real {
    if x.Some? then x.value else 0.0
  }

  /** Both prices positive: the sale can be labelled. */
  predicate Labelled(s: SoldListing) {
    PriceOrZero(s.listedPrice) > 0.0 && PriceOrZero(s.soldPrice) > 0.0
  }

  /** Sold at 95% of the asking price or more. */
  predicate SoldNearAsking(s: SoldListing)
    requires Labelled(s)
  {
    PriceOrZero(s.soldPrice) / PriceOrZero(s.listedPrice) >= BuyRatio
  }

  predicate PositiveSale(s: SoldListing) { Labelled(s) && SoldNearAsking(s) }
  predicate NegativeSale(s: SoldListing) { Labelled(s) && !SoldNearAsking(s) }
  predicate BuyDecision(d: Decision) { d.action == Some("buy") }
  predicate SkipDecision(d: Decision) { d.action == Some("skip") }

  function AsOwned(gs: seq<Owned>): (r: seq<Example>)
    ensures |r| == |gs| && forall i :: 0 <= i < |r| ==> r[i] == FromCollection(gs[i])
  {
    seq(|gs|, i requires 0 <= i < |gs| => FromCollection(gs[i]))
  }

  function AsSales(ss: seq<SoldListing>): (r: seq<Example>)
    ensures |r| == |ss| && forall i :: 0 <= i < |r| ==> r[i] == FromSale(ss[i])
  {
    seq(|ss|, i requires 0 <= i < |ss| => FromSale(ss[i]))
  }

  function AsDecisions(ds: seq<Decision>): (r: seq<Example>)
    ensures |r| == |ds| && forall i :: 0 <= i < |r| ==> r[i] == FromDecision(ds[i])
  {
    seq(|ds|, i requires 0 <= i < |ds| => FromDecision(ds[i]))
  }

  /** The "buy" examples in the order they are appended: owned guitars, near-asking sales, buy decisions. */
  function Positives(collection: seq<Owned>, sold: seq<SoldListing>, decisions: seq<Decision>): seq<Example> {
    AsOwned(Filter(collection, OwnedExample)) + AsSales(Filter(sold, PositiveSale)) + AsDecisions(Filter(decisions, BuyDecision))
  }

  /** The "skip" examples: cheap sales, then skip decisions. */
  function Negatives(sold: seq<SoldListing>, decisions: seq<Decision>): seq<Example> {
    AsSales(Filter(sold, NegativeSale)) + AsDecisions(Filter(decisions, SkipDecision))
  }

  /**
   * The labels: every example is positive or negative by its origin's rule,
   * and a sale without two positive prices, an owned guitar without brand
   * or model, or a decision that is neither buy nor skip gives no example.
   */
  lemma {:induction false} LabelsByOrigin(collection: seq<Owned>, sold: seq<SoldListing>, decisions: seq<Decision>)
    ensures forall e :: e in Positives(collection, sold, decisions) ==>
      (e.FromCollection? && e.g in collection && OwnedExample(e.g))
      || (e.FromSale? && e.s in sold && Labelled(e.s) && SoldNearAsking(e.s))
      || (e.FromDecision? && e.d in decisions && BuyDecision(e.d))
    ensures forall e :: e in Negatives(sold, decisions) ==>
      (e.FromSale? && e.s in sold && Labelled(e.s) && !SoldNearAsking(e.s))
      || (e.FromDecision? && e.d in decisions && SkipDecision(e.d))
  {
    var a, b, c := AsOwned(Filter(collection, OwnedExample)), AsSales(Filter(sold, PositiveSale)), AsDecisions(Filter(decisions, BuyDecision));
    forall e | e in Positives(collection, sold, decisions)
      ensures (e.FromCollection? && e.g in collection && OwnedExample(e.g))
        || (e.FromSale? && e.s in sold && Labelled(e.s) && SoldNearAsking(e.s))
        || (e.FromDecision? && e.d in decisions && BuyDecision(e.d))
    {
      assert e in a || e in b || e in c;
    }
    var d, f := AsSales(Filter(sold, NegativeSale)), AsDecisions(Filter(decisions, SkipDecision));
    forall e | e in Negatives(sold, decisions)
      ensures (e.FromSale? && e.s in sold && Labelled(e.s) && !SoldNearAsking(e.s))
        || (e.FromDecision? && e.d in decisions && SkipDecision(e.d))
    {
      assert e in d || e in f;
    }
  }

  /** Every sale with two positive prices is labelled, on the side its price ratio decides. */
  lemma LabelledSaleLands(collection: seq<Owned>, sold: seq<SoldListing>, decisions: seq<Decision>, s: SoldListing)
    requires s in sold && Labelled(s)
    ensures SoldNearAsking(s) ==> FromSale(s) in Positives(collection, sold, decisions)
    ensures !SoldNearAsking(s) ==> FromSale(s) in Negatives(sold, decisions)
  {
    if SoldNearAsking(s) {
      FilterKeeps(sold, PositiveSale, s);
      var k :| 0 <= k < |Filter(sold, PositiveSale)| && Filter(sold, PositiveSale)[k] == s;
      assert AsSales(Filter(sold, PositiveSale))[k] == FromSale(s);
    } else {
      FilterKeeps(sold, NegativeSale, s);
      var k :| 0 <= k < |Filter(sold, NegativeSale)| && Filter(sold, NegativeSale)[k] == s;
      assert AsSales(Filter(sold, NegativeSale))[k] == FromSale(s);
    }
  }

  /** The classifier trains on at least 30 examples with at least 10 of each label. */
  predicate ClassifierTrains(positives: nat, negatives: nat) {
    !(positives + negatives < MinBuySkip || positives < MinPerClass || negatives < MinPerClass)
  }

  /** Ten of each label is not enough: the total threshold binds too. */
  lemma ClassifierNeedsTotal()
    ensures !ClassifierTrains(10, 19) && ClassifierTrains(10, 20) && !ClassifierTrains(9, 100)
  {
  }

  /**
   * The gate over all label counts: fewer than ten of either label never
   * trains, and with ten of each it trains iff the total reaches 30.
   */
  lemma ClassifierTrainsWhen(positives: nat, negatives: nat)
    ensures positives < MinPerClass || negatives < MinPerClass ==> !ClassifierTrains(positives, negatives)
    ensures positives >= MinPerClass && negatives >= MinPerClass ==>
      (ClassifierTrains(positives, negatives) <==> positives + negatives >= MinBuySkip)
  {
  }
}

=== FILE: numbers.dfy ===
/**
 * Decimal text <-> numbers: the part of Python's `float(text)` and `str(n)`
 * the scripts rely on, the "first four digits" year regex, powers and
 * truncation toward zero.
 */
module Numbers {
  import opened Wrappers
  import opened Text

  predicate AllDigits(s: string) {
    forall i :: 0 <= i < |s| ==> IsDigit(s[i])
  }

  function DigitVal(c: char): (d: nat)
    requires IsDigit(c)
    ensures d < 10
  {
    c as int - '0' as int
  }

  function DigitChar(d: nat): (c: char)
    requires d < 10
    ensures IsDigit(c) && DigitVal(c) == d
  {
    ('0' as int + d) as char
  }

  function Pow10(n: nat): (r: nat)
    ensures r >= 1
  {
    if n == 0 then 1 else 10 * Pow10(n - 1)
  }

  /** The value of a string of decimal digits (the empty string is 0). */
  function DigitsValue(s: string): (v: nat)
    requires AllDigits(s)
    decreases |s|
  {
    if s == [] then 0 else 10 * DigitsValue(s[..|s| - 1]) + DigitVal(s[|s| - 1])
  }

  /** `k` digits never exceed `10^k - 1`. */
  lemma {:induction false} DigitsValueBound(s: string)
    requires AllDigits(s)
    ensures DigitsValue(s) < Pow10(|s|)
    decreases |s|
  {
    if s != [] {
      DigitsValueBound(s[..|s| - 1]);
    }
  }

  /** Digits written after other digits shift them left by one decimal place each. */
  lemma {:induction false} DigitsValueAppend(a: string, b: string)
    requires AllDigits(a) && AllDigits(b)
    ensures AllDigits(a + b)
    ensures DigitsValue(a + b) == DigitsValue(a) * Pow10(|b|) + DigitsValue(b)
    decreases |b|
  {
    assert AllDigits(a + b) by {
      forall i | 0 <= i < |a + b| ensures IsDigit((a + b)[i]) {
        if i >= |a| {
          assert (a + b)[i] == b[i - |a|];
        }
      }
    }
    if b == [] {
      assert a + b == a;
    } else {
      var n := |b| - 1;
      var bn := b[..n];
      assert (a + b)[..|a + b| - 1] == a + bn;
      assert (a + b)[|a + b| - 1] == b[n];
      DigitsValueAppend(a, bn);
      assert DigitsValue(a + b) == 10 * DigitsValue(a + bn) + DigitVal(b[n]);
      assert DigitsValue(b) == 10 * DigitsValue(bn) + DigitVal(b[n]);
      assert Pow10(|b|) == 10 * Pow10(n);
      ShiftStep(DigitsValue(a), Pow10(n), DigitsValue(bn), DigitVal(b[n]));
    }
  }

  /** One more digit on the right: the arithmetic behind `DigitsValueAppend`. */
  lemma ShiftStep(va: int, p: int, vb: int, d: int)
    ensures 10 * (va * p + vb) + d == va * (10 * p) + (10 * vb + d)
  {
  }

  /** `str(n)` for a natural number: no sign, no leading zero. */
  function NatToString(n: nat): (r: string)
    ensures |r| > 0 && AllDigits(r)
    decreases n
  {
    if n < 10 then [DigitChar(n)] else NatToString(n / 10) + [DigitChar(n % 10)]
  }

  /** `str(i)` for any integer. */
  function IntToString(i: int): string {
    if i < 0 then "-" + NatToString(-i) else NatToString(i)
  }

  /** Reading back the digits of `str(n)` gives `n`. */
  lemma {:induction false} DigitsRoundTrip(n: nat)
    ensures DigitsValue(NatToString(n)) == n
    decreases n
  {
    if n >= 10 {
      var s := NatToString(n);
      assert s[..|s| - 1] == NatToString(n / 10);
      DigitsRoundTrip(n / 10);
    }
  }

  /** `[+|-] digits [. digits]` with at least one digit, no surrounding text. */
  function ParseUnsignedDecimal(t: string): (r: Option<real>)
    ensures r.Some? ==> r.value >= 0.0
  {
    match IndexOfChar(t, '.')
    case None =>
      if |t| > 0 && AllDigits(t) then Some(DigitsValue(t) as real) else None
    case Some(k) =>
      var whole := t[..k];
      var frac := t[k + 1..];
      if AllDigits(whole) && AllDigits(frac) && |whole| + |frac| > 0 then
        Some(PointValue(whole, frac))
      else None
  }

  /** The value of `whole.frac` written in decimal digits. */
  function PointValue(whole: string, frac: string): (v: real)
    requires AllDigits(whole) && AllDigits(frac)
    ensures v >= DigitsValue(whole) as real
  {
    DigitsValue(whole) as real + DigitsValue(frac) as real / Pow10(|frac|) as real
  }

  /**
   * Python's `float(text)` for plain decimal notation: surrounding whitespace
   * is ignored, an optional sign, digits with at most one decimal point.
   * Anything else is the `ValueError` path (`None`).
   */
  function ParseDecimal(text: string): (r: Option<real>)
  {
    var t := Strip(text);
    if |t| > 0 && (t[0] == '+' || t[0] == '-') then
      match ParseUnsignedDecimal(t[1..])
      case None => None
      case Some(v) => Some(if t[0] == '-' then -v else v)
    else ParseUnsignedDecimal(t)
  }

  /** Digit strings carry no surrounding whitespace. */
  lemma StripDigits(s: string)
    requires |s| > 0 && AllDigits(s)
    ensures Strip(s) == s
  {
    assert IsDigit(s[0]) && IsDigit(s[|s| - 1]);
    StripByNoop(s, IsSpace);
  }

  lemma IndexOfCharAbsent(s: string, c: char)
    requires forall i :: 0 <= i < |s| ==> s[i] != c
    ensures IndexOfChar(s, c) == None
  {
  }

  /** Stripped, unsigned text parses as its unsigned reading. */
  lemma ParseDecimalUnsigned(s: string)
    requires |s| > 0 && Strip(s) == s && s[0] != '+' && s[0] != '-'
    ensures ParseDecimal(s) == ParseUnsignedDecimal(s)
  {
  }

  lemma ParseUnsignedOfDigits(s: string)
    requires |s| > 0 && AllDigits(s)
    ensures ParseUnsignedDecimal(s) == Some(DigitsValue(s) as real)
  {
    IndexOfCharAbsent(s, '.');
  }

  lemma DigitsUnsigned(s: string)
    requires |s| > 0 && AllDigits(s)
    ensures s[0] != '+' && s[0] != '-'
  {
    assert IsDigit(s[0]);
  }

  lemma ParseDecimalOfDigitsAsUnsigned(s: string)
    requires |s| > 0 && AllDigits(s)
    ensures ParseDecimal(s) == ParseUnsignedDecimal(s)
  {
    StripDigits(s);
    DigitsUnsigned(s);
    ParseDecimalUnsigned(s);
  }

  /** A bare digit string parses to its value. */
  lemma ParseDecimalOfDigits(s: string)
    requires |s| > 0 && AllDigits(s)
    ensures ParseDecimal(s) == Some(DigitsValue(s) as real)
  {
    ParseDecimalOfDigitsAsUnsigned(s);
    ParseUnsignedOfDigits(s);
  }

  /** `float(str(n)) == n` */
  lemma ParseDecimalOfNat(n: nat)
    ensures ParseDecimal(NatToString(n)) == Some(n as real)
  {
    ParseDecimalOfDigits(NatToString(n));
    DigitsRoundTrip(n);
  }

  /** `float(str(n) + ".00") == n`: a zero fraction adds nothing. */
  lemma ParseDecimalOfCents(n: nat)
    ensures ParseDecimal(NatToString(n) + ".00") == Some(n as real)
  {
    var d := NatToString(n);
    DoubleZero();
    assert ".00"[1..] == "00";
    ParseDecimalPointTail(d, ".00");
    DigitsRoundTrip(n);
    PointValueWhole(d, "00");
  }

  /** A zero fraction adds nothing to the whole part. */
  lemma PointValueWhole(whole: string, frac: string)
    requires AllDigits(whole) && AllDigits(frac) && DigitsValue(frac) == 0
    ensures PointValue(whole, frac) == DigitsValue(whole) as real
  {
  }

  lemma DoubleZero()
    ensures AllDigits("00") && DigitsValue("00") == 0
  {
    assert "00"[..1] == "0";
    assert "0"[..0] == "";
  }

  /** Text that starts with a digit and ends with a digit or a point is parsed unsigned. */
  lemma ParseDecimalDigitEnds(s: string)
    requires |s| > 0 && IsDigit(s[0]) && (IsDigit(s[|s| - 1]) || s[|s| - 1] == '.')
    ensures ParseDecimal(s) == ParseUnsignedDecimal(s)
  {
    assert !IsSpace(s[0]) && !IsSpace(s[|s| - 1]);
    StripByNoop(s, IsSpace);
    assert Strip(s) == s;
    ParseDecimalUnsigned(s);
  }

  /** The first point of `a + tail`, where `tail` starts with one, splits off `a`. */
  lemma PointAfterTail(a: string, tail: string)
    requires AllDigits(a) && |tail| > 0 && tail[0] == '.'
    ensures IndexOfChar(a + tail, '.') == Some(|a|)
    ensures (a + tail)[..|a|] == a && (a + tail)[|a| + 1..] == tail[1..]
  {
    assert forall i :: 0 <= i < |a| ==> IsDigit(a[i]);
    IndexOfCharAfter(a, tail, '.');
  }

  /** The first point of `a + "." + rest` splits off `a`. */
  lemma PointAfterDigits(a: string, rest: string)
    requires AllDigits(a)
    ensures IndexOfChar(a + "." + rest, '.') == Some(|a|)
    ensures (a + "." + rest)[..|a|] == a && (a + "." + rest)[|a| + 1..] == rest
  {
    assert forall i :: 0 <= i < |a| ==> IsDigit(a[i]);
    assert a + "." + rest == a + ("." + rest);
    IndexOfCharAfter(a, "." + rest, '.');
  }

  /** `float(a + tail)` where `tail` is a point and digits. */
  lemma ParseDecimalPointTail(a: string, tail: string)
    requires |a| > 0 && AllDigits(a) && |tail| > 0 && tail[0] == '.' && AllDigits(tail[1..])
    ensures ParseDecimal(a + tail) == Some(PointValue(a, tail[1..]))
  {
    var s := a + tail;
    assert s[0] == a[0] && IsDigit(a[0]);
    assert s[|s| - 1] == tail[|tail| - 1];
    assert |tail| > 1 ==> tail[|tail| - 1] == tail[1..][|tail| - 2];
    ParseDecimalDigitEnds(s);
    PointAfterTail(a, tail);
  }

  /** `float(a + "." + b)` for digit strings: whole part plus fraction. */
  lemma ParseDecimalPoint(a: string, b: string)
    requires |a| > 0 && AllDigits(a) && AllDigits(b)
    ensures ParseDecimal(a + "." + b) == Some(PointValue(a, b))
  {
    assert ("." + b)[1..] == b;
    ParseDecimalPointTail(a, "." + b);
    assert a + "." + b == a + ("." + b);
  }

  /** Two decimal points never parse. */
  lemma ParseDecimalTwoPoints(a: string, b: string, c: string)
    requires |a| > 0 && AllDigits(a) && AllDigits(b) && AllDigits(c)
    ensures ParseDecimal(a + "." + b + "." + c) == None
  {
    var rest := b + "." + c;
    var s := a + "." + rest;
    assert s == a + "." + b + "." + c;
    assert s[0] == a[0] && IsDigit(a[0]);
    assert s[|s| - 1] == (if c == [] then '.' else c[|c| - 1]);
    ParseDecimalDigitEnds(s);
    PointAfterDigits(a, rest);
    assert rest[|b|] == '.';
  }

  /** Text with no digit at all never parses. */
  lemma ParseDecimalNeedsDigit(text: string)
    requires forall i :: 0 <= i < |text| ==> !IsDigit(text[i])
    ensures ParseDecimal(text) == None
  {
    var t := Strip(text);
    assert forall i :: 0 <= i < |t| ==> !IsDigit(t[i]) by {
      assert t == StripRight(StripLeft(text, IsSpace), IsSpace);
      var l := StripLeft(text, IsSpace);
      assert forall i :: 0 <= i < |l| ==> l[i] == text[|text| - |l| + i];
      assert forall i :: 0 <= i < |t| ==> t[i] == l[i];
    }
    UnsignedNeedsDigit(t);
    if |t| > 0 {
      assert forall i :: 0 <= i < |t| - 1 ==> t[1..][i] == t[i + 1];
      UnsignedNeedsDigit(t[1..]);
    }
  }

  lemma UnsignedNeedsDigit(t: string)
    requires forall i :: 0 <= i < |t| ==> !IsDigit(t[i])
    ensures ParseUnsignedDecimal(t) == None
  {
    match IndexOfChar(t, '.')
    case None =>
      if |t| > 0 {
        assert !IsDigit(t[0]);
      }
    case Some(k) =>
      if |t[..k]| > 0 {
        assert !IsDigit(t[..k][0]);
      } else if |t[k + 1..]| > 0 {
        assert !IsDigit(t[k + 1..][0]);
      }
  }

  /** Four decimal digits start at index `i` of `s` (regex `\d{4}`). */
  predicate FourDigitsAt(s: string, i: int) {
    0 <= i && i + 4 <= |s| && AllDigits(s[i..i + 4])
  }

  /** Index of the first match of `\d{4}` at or after `from`. */
  function FirstFourDigitsFrom(s: string, from: nat): (r: Option<nat>)
    ensures r.Some? ==> from <= r.value && FourDigitsAt(s, r.value)
    ensures r.Some? ==> forall j :: from <= j < r.value ==> !FourDigitsAt(s, j)
    ensures r.None? ==> forall j :: from <= j ==> !FourDigitsAt(s, j)
    decreases |s| - from
  {
    if from + 4 > |s| then None
    else if FourDigitsAt(s, from) then Some(from)
    else FirstFourDigitsFrom(s, from + 1)
  }

  /**
   * `int(re.search(r"\d{4}", s).group())`, or `None` when there is no match:
   * the value of the leftmost run of four digits.
   */
  function FirstFourDigits(s: string): (r: Option<nat>)
    ensures r.None? <==> forall j :: 0 <= j ==> !FourDigitsAt(s, j)
    ensures r.Some? ==> r.value <= 9999
  {
    match FirstFourDigitsFrom(s, 0)
    case None => None
    case Some(i) =>
      DigitsValueBound(s[i..i + 4]);
      assert Pow10(4) == 10000;
      Some(DigitsValue(s[i..i + 4]))
  }

  /** The last `k` decimal digits of `n`, zero-padded (`f"{n:0{k}d}"` when `n < 10^k`). */
  function PadDigits(n: nat, k: nat): (r: string)
    ensures |r| == k && AllDigits(r)
  {
    if k == 0 then [] else PadDigits(n / 10, k - 1) + [DigitChar(n % 10)]
  }

  /** Zero-padded four-digit rendering of a year. */
  function Year4(y: nat): (r: string)
    requires y <= 9999
    ensures |r| == 4 && AllDigits(r)
  {
    PadDigits(y, 4)
  }

  /** Padded digits read back as the number they render. */
  lemma {:induction false} PadDigitsValue(n: nat, k: nat)
    requires n < Pow10(k)
    ensures DigitsValue(PadDigits(n, k)) == n
  {
    if k > 0 {
      var r := PadDigits(n, k);
      assert r[..|r| - 1] == PadDigits(n / 10, k - 1);
      PadDigitsValue(n / 10, k - 1);
    }
  }

  /** The digits of `Year4(y)` read back as `y`. */
  lemma Year4Value(y: nat)
    requires y <= 9999
    ensures DigitsValue(Year4(y)) == y
  {
    assert Pow10(4) == 10000;
    PadDigitsValue(y, 4);
  }

  /** A four-digit year written anywhere after digit-free text is read back exactly. */
  lemma FirstFourDigitsOfYear(prefix: string, y: nat, suffix: string)
    requires y <= 9999
    requires forall i :: 0 <= i < |prefix| ==> !IsDigit(prefix[i])
    ensures FirstFourDigits(prefix + Year4(y) + suffix) == Some(y)
  {
    var s := prefix + Year4(y) + suffix;
    var p := |prefix|;
    assert s[p..p + 4] == Year4(y);
    assert FourDigitsAt(s, p);
    forall j | 0 <= j < p ensures !FourDigitsAt(s, j) {
      assert s[j] == prefix[j];
      if j + 4 <= |s| {
        assert s[j..j + 4][0] == s[j];
      }
    }
    var r := FirstFourDigitsFrom(s, 0);
    assert r == Some(p);
    Year4Value(y);
  }

  /** `x ** n` for a natural exponent. */
  function Pow(x: real, n: nat): real {
    if n == 0 then 1.0 else x * Pow(x, n - 1)
  }

  /** Growth never shrinks: `(1 + r) ** n >= 1` for `r >= 0`. */
  lemma {:induction false} PowAtLeastOne(x: real, n: nat)
    requires x >= 1.0
    ensures Pow(x, n) >= 1.0
  {
    if n > 0 {
      PowAtLeastOne(x, n - 1);
    }
  }

  /** Python's `int(x)`: truncation toward zero. */
  function TruncToInt(x: real): (r: int)
    ensures x >= 0.0 ==> r as real <= x < r as real + 1.0
    ensures x < 0.0 ==> r as real - 1.0 < x <= r as real
  {
    if x >= 0.0 then x.Floor else -((-x).Floor)
  }

  function MinReal(a: real, b: real): (r: real)
    ensures r <= a && r <= b && (r == a || r == b)
  {
    if a <= b then a else b
  }

  function MaxReal(a: real, b: real): (r: real)
    ensures r >= a && r >= b && (r == a || r == b)
  {
    if a >= b then a else b
  }

  /** A power of a base of at least one does not shrink as the exponent grows. */
  lemma {:induction false} PowMonotone(x: real, m: nat, n: nat)
    requires x >= 1.0 && m <= n
    ensures Pow(x, m) <= Pow(x, n)
    decreases n
  {
    if m < n {
      PowMonotone(x, m, n - 1);
      PowAtLeastOne(x, n - 1);
      var p := Pow(x, n - 1);
      assert x * p - p == (x - 1.0) * p;
      assert (x - 1.0) * p >= 0.0;
    }
  }

  /** Python's `round(x)`: the nearest integer, ties to the even one. */
  function RoundHalfEven(x: real): (n: int)
    ensures x - 0.5 <= n as real <= x + 0.5
  {
    var f := x.Floor;
    var frac := x - f as real;
    if frac < 0.5 then f
    else if frac > 0.5 then f + 1
    else if f % 2 == 0 then f
    else f + 1
  }

  /** Rounding an integer gives it back. */
  lemma RoundHalfEvenOfInt(n: int)
    ensures RoundHalfEven(n as real) == n
  {
    assert (n as real).Floor == n;
  }

  /** Rounding is monotone. */
  lemma RoundHalfEvenMonotone(x: real, y: real)
    requires x <= y
    ensures RoundHalfEven(x) <= RoundHalfEven(y)
  {
    var fx := x.Floor;
    var fy := y.Floor;
    assert fx <= fy;
    if fx < fy {
      assert RoundHalfEven(x) <= fx + 1 <= fy <= RoundHalfEven(y);
    }
  }

  /** Python's `round(x, 2)` on an exact value: the nearest cent, ties to the even cent. */
  function Round2(x: real): (r: real)
    ensures x - 0.005 <= r <= x + 0.005
  {
    RoundHalfEven(x * 100.0) as real / 100.0
  }

  /** Rounding to cents twice is rounding once. */
  lemma Round2Idempotent(x: real)
    ensures Round2(Round2(x)) == Round2(x)
  {
    var n := RoundHalfEven(x * 100.0);
    assert Round2(x) * 100.0 == n as real;
    RoundHalfEvenOfInt(n);
  }

  /** Rounding to cents is monotone. */
  lemma Round2Monotone(x: real, y: real)
    requires x <= y
    ensures Round2(x) <= Round2(y)
  {
    RoundHalfEvenMonotone(x * 100.0, y * 100.0);
  }
}

=== FILE: reverb_sold.dfy ===
/**
 * The sold-listing collector: the (brand, model) queries taken from the
 * price-history keys, the record built from each sold item the marketplace
 * returns, enrichment with the latest price-guide range, and the
 * append-only, id-de-duplicated training list.
 */
module ReverbSold {
  import opened Wrappers
  import opened Text
  import opened Numbers
  import opened Seqs

  // ---------------------------------------------------------------------
  // Queries from the price-history keys
  // ---------------------------------------------------------------------

  /** `key.split("|", 1)` with two parts gives the stripped (brand, model); other keys give nothing. */
  function KeyQuery(key: string): (r: Option<(string, string)>)
    ensures r.None? <==> '|' !in key
  {
    match SplitFirst(key, '|')
    case None => None
    case Some((brand, model)) => Some((Strip(brand), Strip(model)))
  }

  /** The split is at the first "|" only: the model keeps any later one. */
  lemma KeyQuerySplit(brand: string, model: string)
    requires '|' !in brand
    ensures KeyQuery(brand + "|" + model) == Some((Strip(brand), Strip(model)))
  {
    var key := brand + "|" + model;
    assert key == brand + ("|" + model);
    IndexOfCharAfter(brand, "|" + model, '|');
    assert key[..|brand|] == brand && key[|brand| + 1..] == model;
  }

  /** `_get_model_queries` over the snapshot keys, in key order. */
  function ModelQueries(keys: seq<string>): (r: seq<(string, string)>)
    ensures |r| <= |keys|
  {
    Somes(seq(|keys|, i requires 0 <= i < |keys| => KeyQuery(keys[i])))
  }

  /** Every query comes from a key holding "|". */
  lemma ModelQueriesFrom(keys: seq<string>, i: nat) returns (j: nat)
    requires i < |ModelQueries(keys)|
    ensures j < |keys| && '|' in keys[j] && KeyQuery(keys[j]) == Some(ModelQueries(keys)[i])
  {
    j := SomesFrom(seq(|keys|, i requires 0 <= i < |keys| => KeyQuery(keys[i])), i);
  }

  /** Every key holding "|" gives a query. */
  lemma ModelQueriesKeeps(keys: seq<string>, j: nat)
    requires j < |keys| && '|' in keys[j]
    ensures KeyQuery(keys[j]).value in ModelQueries(keys)
  {
    SomesKeeps(seq(|keys|, i requires 0 <= i < |keys| => KeyQuery(keys[i])), j);
  }

  // ---------------------------------------------------------------------
  // The year in a title: regex \b(19\d{2}|20[0-2]\d)\b
  // ---------------------------------------------------------------------

  /** 1900-1999 or 2000-2029 written with four digits. */
  predicate YearText(y: string) {
    && |y| == 4 && AllDigits(y)
    && ((y[0] == '1' && y[1] == '9') || (y[0] == '2' && y[1] == '0' && '0' <= y[2] <= '2'))
  }

  /** A year token stands alone at `i`: no word character touches it on either side. */
  predicate YearTokenAt(t: string, i: int) {
    && 0 <= i && i + 4 <= |t|
    && YearText(t[i..i + 4])
    && (i == 0 || !IsWordChar(t[i - 1]))
    && (i + 4 == |t| || !IsWordChar(t[i + 4]))
  }

  function FirstYearTokenFrom(t: string, from: nat): (r: Option<nat>)
    ensures r.Some? ==> from <= r.value && YearTokenAt(t, r.value)
    ensures r.Some? ==> forall j :: from <= j < r.value ==> !YearTokenAt(t, j)
    ensures r.None? ==> forall j :: from <= j ==> !YearTokenAt(t, j)
    decreases |t| - from
  {
    if from + 4 > |t| then None
    else if YearTokenAt(t, from) then Some(from)
    else FirstYearTokenFrom(t, from + 1)
  }

  /** The leftmost standalone year of the title, or "" when there is none. */
  function TitleYear(title: string): (r: string)
    ensures r == "" <==> forall j :: !YearTokenAt(title, j)
    ensures r != "" ==> exists i :: YearTokenAt(title, i) && r == title[i..i + 4]
                                    && forall j :: 0 <= j < i ==> !YearTokenAt(title, j)
  {
    match FirstYearTokenFrom(title, 0)
    case None => ""
    case Some(i) => title[i..i + 4]
  }

  /** A title that is just a year in range gives that year. */
  lemma TitleYearAlone(y: string)
    requires YearText(y)
    ensures TitleYear(y) == y
  {
    assert y[0..4] == y;
    assert YearTokenAt(y, 0);
  }

  /**
   * A run of five or more digits holds no standalone year: every four digits
   * in it touch a further digit, so "19650" gives no year.
   */
  lemma TitleYearNeedsBoundary(t: string)
    requires AllDigits(t) && |t| >= 5
    ensures TitleYear(t) == ""
  {
  }

  /** 2030 lies beyond the pattern's last decade. */
  lemma TitleYearRange()
    ensures TitleYear("2030") == ""
  {
    forall j ensures !YearTokenAt("2030", j) {
      if j == 0 {
        assert "2030"[0..4] == "2030";
      }
    }
  }

  // ---------------------------------------------------------------------
  // The guitar type from the item's categories
  // ---------------------------------------------------------------------

  /** A category: a dict with a full name ("" when absent), or any other value. */
  datatype Category = CategoryDict(fullName: string) | CategoryOther

  /** What one category says about the type: "acoustic" is tested before "bass". */
  function CategoryKind(c: Category): (r: Option<string>)
    ensures r.Some? ==> r.value == "Acoustic" || r.value == "Bass"
  {
    match c
    case CategoryOther => None
    case CategoryDict(name) =>
      var n := Lower(name);
      if Contains(n, "acoustic") then Some("Acoustic")
      else if Contains(n, "bass") then Some("Bass")
      else None
  }

  /** The loop over the categories, in order, starting from "Electric". */
  function GuitarType(cats: seq<Category>): (r: string)
    ensures r == "Electric" || r == "Acoustic" || r == "Bass"
    decreases |cats|
  {
    if cats == [] then "Electric"
    else
      match CategoryKind(cats[|cats| - 1])
      case Some(k) => k
      case None => GuitarType(cats[..|cats| - 1])
  }

  /**
   * The type is the one named by the last category that names any, and
   * "Electric" when none does: a later category overrides an earlier one.
   */
  lemma {:induction false} GuitarTypeLastWins(cats: seq<Category>)
    ensures (forall i :: 0 <= i < |cats| ==> CategoryKind(cats[i]).None?) ==> GuitarType(cats) == "Electric"
    ensures forall i :: 0 <= i < |cats| && CategoryKind(cats[i]).Some?
                        && (forall j :: i < j < |cats| ==> CategoryKind(cats[j]).None?)
                        ==> GuitarType(cats) == CategoryKind(cats[i]).value
    decreases |cats|
  {
    if cats != [] {
      var front := cats[..|cats| - 1];
      GuitarTypeLastWins(front);
      assert forall i :: 0 <= i < |front| ==> front[i] == cats[i];
    }
  }

  // ---------------------------------------------------------------------
  // Records built from the returned items
  // ---------------------------------------------------------------------

  /** The item's `id` value: absent, a number, or text. */
  datatype IdValue = NoId | IdNumber(n: int) | IdText(s: string)

  /** Python truthiness of the id: absent, 0 and "" are false. */
  predicate IdPresent(id: IdValue) {
    match id
    case NoId => false
    case IdNumber(n) => n != 0
    case IdText(s) => s != ""
  }

  /** `f"reverb_{id}"` */
  function RecordId(id: IdValue): (r: string)
    ensures StartsWith(r, "reverb_")
  {
    var shown := match id
      case NoId => "None"
      case IdNumber(n) => IntToString(n)
      case IdText(s) => s;
    "reverb_" + shown
  }

  /** The `amount` of a price object. */
  datatype Amount = NoAmount | AmountNumber(x: real) | AmountText(s: string)

  /** The `price` of an item: missing or empty, or a non-empty object. */
  datatype PriceField = NoPrice | PriceObject(amount: Amount)

  /** `float(price.get("amount", 0))` for a non-empty price object; `None` otherwise or on `ValueError`. */
  function ListedPrice(p: PriceField): (r: Option<real>)
    ensures p.NoPrice? ==> r.None?
    ensures p.PriceObject? && p.amount.NoAmount? ==> r == Some(0.0)
  {
    match p
    case NoPrice => None
    case PriceObject(a) =>
      match a
      case NoAmount => Some(0.0)
      case AmountNumber(x) => Some(x)
      case AmountText(s) => ParseDecimal(s)
  }

  /** The `condition` of an item: a dict with a display name ("" when absent), or its `str()`. */
  datatype ConditionField = ConditionDict(displayName: string) | ConditionText(s: string)

  function ConditionName(c: ConditionField): string {
    match c
    case ConditionDict(n) => n
    case ConditionText(s) => s
  }

  /** One listing as the marketplace returns it. */
  datatype Item = Item(
    id: IdValue,
    price: PriceField,
    condition: ConditionField,
    title: string,
    categories: seq<Category>,
    createdAt: string)

  /** One training record of a sold guitar. */
  datatype SoldRecord = SoldRecord(
    id: string,
    brand: string,
    model: string,
    year: string,
    gtype: string,
    condition: string,
    listedPrice: Option<real>,
    soldPrice: Option<real>,
    reverbLo: Option<real>,
    reverbHi: Option<real>,
    soldDate: string,
    source: string)

  /** A letter with an upper- and a lower-case form (ASCII and Latin-1). */
  predicate IsCased(c: char) {
    IsLatinUpper(c) || IsLatinLower(c)
  }

  /** `str.title()`: a letter after a non-letter is upper-cased, a letter after a letter lower-cased. */
  function TitleCase(s: string): (r: string)
    ensures |r| == |s|
  {
    seq(|s|, i requires 0 <= i < |s| =>
      if i > 0 && IsCased(s[i - 1]) then LowerChar(s[i]) else UpperChar(s[i]))
  }

  /** Lower-casing forgets the title-casing. */
  lemma LowerTitleCase(s: string)
    ensures Lower(TitleCase(s)) == Lower(s)
  {
    forall i | 0 <= i < |s|
      ensures Lower(TitleCase(s))[i] == Lower(s)[i]
    {
      LowerOfUpper([s[i]]);
      assert Lower(Upper([s[i]]))[0] == LowerChar(UpperChar(s[i]));
    }
  }

  /**
   * The record for one item, or `None` when the item has no id. The sold
   * price is the listed price, since the marketplace does not report the
   * final one.
   */
  function ItemRecord(brand: string, model: string, item: Item): (r: Option<SoldRecord>)
    ensures r.None? <==> !IdPresent(item.id)
    ensures r.Some? ==> r.value.id == RecordId(item.id) && r.value.soldPrice == r.value.listedPrice
    ensures r.Some? ==> r.value.reverbLo.None? && r.value.reverbHi.None? && r.value.source == "reverb_sold"
  {
    if !IdPresent(item.id) then None
    else
      Some(SoldRecord(
        RecordId(item.id),
        TitleCase(brand),
        TitleCase(model),
        TitleYear(item.title),
        GuitarType(item.categories),
        ConditionName(item.condition),
        ListedPrice(item.price),
        ListedPrice(item.price),
        None,
        None,
        PyTake(item.createdAt, 10),
        "reverb_sold"))
  }

  function ItemRecords(brand: string, model: string, items: seq<Item>): seq<Option<SoldRecord>> {
    seq(|items|, i requires 0 <= i < |items| => ItemRecord(brand, model, items[i]))
  }

  /** The records of one page of sold items, in page order, items without id skipped. */
  function FetchedRecords(brand: string, model: string, items: seq<Item>): (r: seq<SoldRecord>)
    ensures |r| <= |items|
  {
    Somes(ItemRecords(brand, model, items))
  }

  /** Every record comes from an item with an id, and is "reverb_" plus that id. */
  lemma FetchedRecordsFrom(brand: string, model: string, items: seq<Item>, i: nat) returns (j: nat)
    requires i < |FetchedRecords(brand, model, items)|
    ensures j < |items| && IdPresent(items[j].id)
    ensures FetchedRecords(brand, model, items)[i].id == RecordId(items[j].id)
    ensures FetchedRecords(brand, model, items)[i].soldPrice == FetchedRecords(brand, model, items)[i].listedPrice
  {
    j := SomesFrom(ItemRecords(brand, model, items), i);
  }

  /** Every item with an id gives a record. */
  lemma FetchedRecordsKeeps(brand: string, model: string, items: seq<Item>, j: nat)
    requires j < |items| && IdPresent(items[j].id)
    ensures ItemRecord(brand, model, items[j]).value in FetchedRecords(brand, model, items)
  {
    SomesKeeps(ItemRecords(brand, model, items), j);
  }

  // ---------------------------------------------------------------------
  // Enrichment with the latest price-guide range
  // ---------------------------------------------------------------------

  /** One price-history snapshot: the guide's range at that time. */
  datatype Snapshot = Snapshot(reverbLo: Option<real>, reverbHi: Option<real>)

  /** The price-history key of a record: lower-case "brand|model". */
  function HistoryKey(r: SoldRecord): string {
    Lower(r.brand) + "|" + Lower(r.model)
  }

  /** The range of the latest snapshot under the record's key, if the key has any. */
  function Enrich(r: SoldRecord, snapshots: map<string, seq<Snapshot>>): (e: SoldRecord)
    ensures e.(reverbLo := r.reverbLo, reverbHi := r.reverbHi) == r
  {
    var key := HistoryKey(r);
    if key in snapshots && |snapshots[key]| > 0 then
      var latest := snapshots[key][|snapshots[key]| - 1];
      r.(reverbLo := latest.reverbLo, reverbHi := latest.reverbHi)
    else r
  }

  /** `_enrich_with_reverb_range` over a page of records. */
  function EnrichAll(rs: seq<SoldRecord>, snapshots: map<string, seq<Snapshot>>): (es: seq<SoldRecord>)
    ensures |es| == |rs|
    ensures forall i :: 0 <= i < |rs| ==> es[i].(reverbLo := rs[i].reverbLo, reverbHi := rs[i].reverbHi) == rs[i]
  {
    seq(|rs|, i requires 0 <= i < |rs| => Enrich(rs[i], snapshots))
  }

  /**
   * With a non-empty history the range is the latest snapshot's; without one
   * the record is unchanged.
   */
  lemma EnrichLatest(r: SoldRecord, snapshots: map<string, seq<Snapshot>>)
    ensures HistoryKey(r) in snapshots && |snapshots[HistoryKey(r)]| > 0 ==>
      var hist := snapshots[HistoryKey(r)];
      Enrich(r, snapshots).reverbLo == hist[|hist| - 1].reverbLo
      && Enrich(r, snapshots).reverbHi == hist[|hist| - 1].reverbHi
    ensures !(HistoryKey(r) in snapshots && |snapshots[HistoryKey(r)]| > 0) ==> Enrich(r, snapshots) == r
  {
  }

  /** Enriching twice is enriching once: the key does not depend on the range. */
  lemma EnrichIdempotent(r: SoldRecord, snapshots: map<string, seq<Snapshot>>)
    ensures Enrich(Enrich(r, snapshots), snapshots) == Enrich(r, snapshots)
  {
    assert HistoryKey(Enrich(r, snapshots)) == HistoryKey(r);
  }

  /** The key of a fetched record is the query's brand and model, lower-cased. */
  lemma HistoryKeyOfQuery(brand: string, model: string, item: Item)
    requires IdPresent(item.id)
    ensures HistoryKey(ItemRecord(brand, model, item).value) == Lower(brand) + "|" + Lower(model)
  {
    LowerTitleCase(brand);
    LowerTitleCase(model);
  }

  // ---------------------------------------------------------------------
  // Append-only collection
  // ---------------------------------------------------------------------

  function IdOf(r: SoldRecord): string {
    r.id
  }

  /**
   * One query's turn in `collect`: the fetched records whose id is not yet in
   * the training list are appended, in order, each id once.
   */
  function CollectBatch(data: seq<SoldRecord>, fetched: seq<SoldRecord>): (r: seq<SoldRecord>)
    ensures |r| >= |data| && r[..|data|] == data
    ensures forall i :: |data| <= i < |r| ==> r[i] in fetched && r[i].id !in Ids(data, IdOf)
    ensures Ids(r, IdOf) == Ids(data, IdOf) + Ids(fetched, IdOf)
    ensures UniqueBy(data, IdOf) ==> UniqueBy(r, IdOf)
  {
    var added := KeepFirst(fetched, IdOf, Ids(data, IdOf));
    KeepFirstCovers(fetched, IdOf, Ids(data, IdOf));
    IdsAppend(data, added, IdOf);
    AppendFreshUnique(data, added);
    assert forall i :: |data| <= i < |data + added| ==> (data + added)[i] == added[i - |data|];
    data + added
  }

  /** Appending key-unique records with fresh ids keeps a key-unique list key-unique. */
  lemma AppendFreshUnique(data: seq<SoldRecord>, added: seq<SoldRecord>)
    requires UniqueBy(added, IdOf)
    requires forall j :: 0 <= j < |added| ==> IdOf(added[j]) !in Ids(data, IdOf)
    ensures UniqueBy(data, IdOf) ==> UniqueBy(data + added, IdOf)
  {
    if UniqueBy(data, IdOf) {
      UniqueByAppend(data, added, IdOf);
    }
  }

  /** `collect` over the pages fetched for each query, in query order. */
  function Collect(data: seq<SoldRecord>, pages: seq<seq<SoldRecord>>): (r: seq<SoldRecord>)
    ensures |r| >= |data| && r[..|data|] == data
    ensures UniqueBy(data, IdOf) ==> UniqueBy(r, IdOf)
    decreases |pages|
  {
    if pages == [] then data
    else
      var next := CollectBatch(data, pages[0]);
      var r := Collect(next, pages[1..]);
      assert r[..|data|] == r[..|next|][..|data|];
      r
  }

  /** Every fetched id ends up in the training list, and no other id is added. */
  lemma {:induction false} CollectCovers(data: seq<SoldRecord>, pages: seq<seq<SoldRecord>>)
    ensures Ids(Collect(data, pages), IdOf) == Ids(data, IdOf) + FetchedIds(pages)
    decreases |pages|
  {
    if pages != [] {
      CollectCovers(CollectBatch(data, pages[0]), pages[1..]);
    }
  }

  function FetchedIds(pages: seq<seq<SoldRecord>>): set<string>
    decreases |pages|
  {
    if pages == [] then {} else Ids(pages[0], IdOf) + FetchedIds(pages[1..])
  }
}

=== FILE: scorer.dfy ===
/**
 * The rule-based scorer: condition, value, appreciation and collection-fit
 * sub-scores on 0..100, the iconic-model knowledge-base match, the weighted
 * composite and the top-N ranking.
 */
module Scorer {
  import opened Wrappers
  import opened Text
  import opened Numbers
  import opened Seqs
  import Valuation

  const NeutralScore: real := 50.0

  /** Clamp a score into `[0, 100]` (`max(0, min(100, s))`). */
  function Clamp100(s: real): (r: real)
    ensures 0.0 <= r <= 100.0
    ensures 0.0 <= s <= 100.0 ==> r == s
  {
    if s > 100.0 then 100.0 else if s < 0.0 then 0.0 else s
  }

  // ── condition ──────────────────────────────────────────────────

  /** The condition table in its insertion order: key and score. */
  const ConditionScores: seq<(string, real)> := [
    ("mint", 100.0), ("near mint", 95.0), ("excellent+", 90.0), ("excellent", 85.0),
    ("excellent-", 80.0), ("very good+", 70.0), ("very good", 60.0), ("very good-", 50.0),
    ("good+", 40.0), ("good", 30.0), ("good-", 20.0), ("fair", 10.0), ("poor", 0.0)
  ]

  lemma ConditionScoresInRange()
    ensures forall i :: 0 <= i < |ConditionScores| ==> 0.0 <= ConditionScores[i].1 <= 100.0
  {
  }

  /** Dictionary lookup of an exact key (the keys are distinct). */
  function ExactScoreFrom(key: string, i: nat): (r: Option<real>)
    requires i <= |ConditionScores|
    ensures r.Some? ==> exists j :: i <= j < |ConditionScores| && ConditionScores[j] == (key, r.value)
    ensures r.None? <==> forall j :: i <= j < |ConditionScores| ==> ConditionScores[j].0 != key
    decreases |ConditionScores| - i
  {
    if i == |ConditionScores| then None
    else if ConditionScores[i].0 == key then Some(ConditionScores[i].1)
    else ExactScoreFrom(key, i + 1)
  }

  /** `"+"` read as `" plus"` and `"-"` as `" minus"`, so "excellent+" becomes "excellent plus". */
  function SpelledOut(key: string): string {
    ReplaceChar(ReplaceChar(key, '+', " plus"), '-', " minus")
  }

  /** The partial-match test applied to one table key. */
  predicate PartialMatch(key: string, normalized: string) {
    Contains(normalized, SpelledOut(key)) || Contains(key, normalized) || Contains(normalized, key)
  }

  /** Score of the first key of `table` (in table order) that partially matches. */
  function FirstPartialFrom(table: seq<(string, real)>, normalized: string, i: nat): (r: Option<real>)
    requires i <= |table|
    ensures r.Some? ==> (exists j :: (i <= j < |table|
      && PartialMatch(table[j].0, normalized) && r.value == table[j].1))
    ensures r.None? <==> forall j :: i <= j < |table| ==> !PartialMatch(table[j].0, normalized)
    decreases |table| - i
  {
    if i == |table| then None
    else if PartialMatch(table[i].0, normalized) then Some(table[i].1)
    else FirstPartialFrom(table, normalized, i + 1)
  }

  /** The lookup shared by both versions below, on the stripped lowercase text. */
  function LookupCondition(normalized: string): (r: real)
    ensures 0.0 <= r <= 100.0
  {
    ConditionScoresInRange();
    match ExactScoreFrom(normalized, 0)
    case Some(s) => s
    case None => FirstPartialFrom(ConditionScores, normalized, 0).GetOr(NeutralScore)
  }

  /**
   * `_score_condition` exactly as written: only the empty string is neutral,
   * so a whitespace-only condition strips to "" — which every key contains.
   */
  function ScoreConditionAsWritten(condition: string): (r: real)
    ensures 0.0 <= r <= 100.0
    ensures condition == "" ==> r == NeutralScore
  {
    if condition == "" then NeutralScore else LookupCondition(Lower(Strip(condition)))
  }

  /** The as-written scorer rates a blank condition as mint. */
  lemma BlankConditionScoresMint()
    ensures ScoreConditionAsWritten("  ") == 100.0
  {
    var n := Lower(Strip("  "));
    assert StripLeft("  ", IsSpace) == "";
    assert n == "";
    assert ExactScoreFrom("", 0) == None;
    ContainsEmpty("mint");
    assert PartialMatch("mint", "");
  }

  /**
   * `_score_condition` with blank text treated like missing text: 50 for a
   * blank or unknown condition, the table score for an exact or partial key.
   */
  function ScoreCondition(condition: string): (r: real)
    ensures 0.0 <= r <= 100.0
    ensures Strip(condition) == "" ==> r == NeutralScore
    ensures Strip(condition) != "" ==> r == ScoreConditionAsWritten(condition)
  {
    if Strip(condition) == "" then NeutralScore else LookupCondition(Lower(Strip(condition)))
  }

  /** No two table entries share a key. */
  lemma ConditionKeysDistinct()
    ensures forall i, j :: 0 <= i < j < |ConditionScores| ==> ConditionScores[i].0 != ConditionScores[j].0
  {
  }

  /** An exact key is found by the lookup with its own score. */
  lemma {:induction false} ExactScoreFromHit(key: string, i: nat, j: nat)
    requires i <= j < |ConditionScores| && ConditionScores[j].0 == key
    requires forall k :: i <= k < j ==> ConditionScores[k].0 != key
    ensures ExactScoreFrom(key, i) == Some(ConditionScores[j].1)
    decreases j - i
  {
    if i < j {
      ExactScoreFromHit(key, i + 1, j);
    }
  }

  /** A condition that is exactly a table key (after strip and lower) gets that key's score. */
  lemma {:induction false} ConditionExactKey(condition: string, i: nat)
    requires i < |ConditionScores| && ConditionScores[i].0 == Lower(Strip(condition))
    ensures ScoreCondition(condition) == ConditionScores[i].1
  {
    ConditionKeysDistinct();
    var n := Lower(Strip(condition));
    assert |n| > 0;
    ExactScoreFromHit(n, 0, i);
  }

  /** A non-blank condition no key matches, even partially, is neutral. */
  lemma {:induction false} ConditionUnmatched(condition: string)
    requires forall i :: 0 <= i < |ConditionScores| ==> !PartialMatch(ConditionScores[i].0, Lower(Strip(condition)))
    ensures ScoreCondition(condition) == NeutralScore
  {
    var n := Lower(Strip(condition));
    ContainsSelf(n);
    assert forall j :: 0 <= j < |ConditionScores| ==> ConditionScores[j].0 != n;
  }

  /** Every condition score is a table score or the neutral 50. */
  lemma {:induction false} ConditionValueInTable(condition: string)
    ensures ScoreCondition(condition) == NeutralScore
      || exists i :: 0 <= i < |ConditionScores| && ScoreCondition(condition) == ConditionScores[i].1
  {
  }

  // ── iconic models ──────────────────────────────────────────────

  /** One knowledge-base entry; a missing or empty golden era is `None`, a missing boost 0. */
  datatype IconicEntry = IconicEntry(
    brand: string,
    model: string,
    goldenEra: Option<(int, int)>,
    boost: real,
    artists: seq<string>)

  /** Listing brand and entry brand share a lowercase letter run. */
  predicate BrandOverlap(brand: string, entryBrand: string) {
    Words(brand) * Words(entryBrand) != {}
  }

  /** Entry model and listing model contain one another, ignoring case. */
  predicate ModelOverlap(model: string, entryModel: string) {
    Contains(Lower(model), Lower(entryModel)) || Contains(Lower(entryModel), Lower(model))
  }

  predicate Candidate(brand: string, model: string, e: IconicEntry) {
    BrandOverlap(brand, e.brand) && ModelOverlap(model, e.model)
  }

  /**
   * Entry `i` is the match: a candidate with a non-empty model, no candidate
   * has a longer model, and every earlier candidate's model is shorter.
   */
  predicate IsBestMatch(kb: seq<IconicEntry>, brand: string, model: string, i: int) {
    0 <= i < |kb| && Candidate(brand, model, kb[i]) && |kb[i].model| > 0
    && (forall j :: 0 <= j < |kb| && Candidate(brand, model, kb[j]) ==> |kb[j].model| <= |kb[i].model|)
    && (forall j :: 0 <= j < i && Candidate(brand, model, kb[j]) ==> |kb[j].model| < |kb[i].model|)
  }

  /** The scan over the knowledge base: replace the best only on a strictly longer model. */
  function BestFrom(kb: seq<IconicEntry>, brand: string, model: string, i: nat, best: Option<nat>, bestLen: nat): Option<nat>
    requires i <= |kb|
    decreases |kb| - i
  {
    if i == |kb| then best
    else if Candidate(brand, model, kb[i]) && |kb[i].model| > bestLen then
      BestFrom(kb, brand, model, i + 1, Some(i), |kb[i].model|)
    else BestFrom(kb, brand, model, i + 1, best, bestLen)
  }

  /** What the scan knows after looking at `kb[..i]`. */
  predicate ScanInvariant(kb: seq<IconicEntry>, brand: string, model: string, i: nat, best: Option<nat>, bestLen: nat)
    requires i <= |kb|
  {
    (best.None? ==> (bestLen == 0
      && forall j :: 0 <= j < i && Candidate(brand, model, kb[j]) ==> |kb[j].model| == 0))
    && (best.Some? ==> (best.value < i && Candidate(brand, model, kb[best.value])
      && bestLen == |kb[best.value].model| > 0
      && (forall j :: 0 <= j < i && Candidate(brand, model, kb[j]) ==> |kb[j].model| <= bestLen)
      && (forall j :: 0 <= j < best.value && Candidate(brand, model, kb[j]) ==> |kb[j].model| < bestLen)))
  }

  lemma {:induction false} BestFromCorrect(kb: seq<IconicEntry>, brand: string, model: string, i: nat, best: Option<nat>, bestLen: nat)
    requires i <= |kb|
    requires ScanInvariant(kb, brand, model, i, best, bestLen)
    ensures var r := BestFrom(kb, brand, model, i, best, bestLen);
      (r.Some? ==> IsBestMatch(kb, brand, model, r.value))
      && (r.None? ==> forall j :: 0 <= j < |kb| && Candidate(brand, model, kb[j]) ==> |kb[j].model| == 0)
    decreases |kb| - i
  {
    if i < |kb| {
      if Candidate(brand, model, kb[i]) && |kb[i].model| > bestLen {
        ScanTake(kb, brand, model, i, best, bestLen);
        BestFromCorrect(kb, brand, model, i + 1, Some(i), |kb[i].model|);
      } else {
        ScanKeep(kb, brand, model, i, best, bestLen);
        BestFromCorrect(kb, brand, model, i + 1, best, bestLen);
      }
    } else {
      ScanDone(kb, brand, model, best, bestLen);
    }
  }

  /** A strictly longer candidate becomes the new best. */
  lemma ScanTake(kb: seq<IconicEntry>, brand: string, model: string, i: nat, best: Option<nat>, bestLen: nat)
    requires i < |kb| && ScanInvariant(kb, brand, model, i, best, bestLen)
    requires Candidate(brand, model, kb[i]) && |kb[i].model| > bestLen
    ensures ScanInvariant(kb, brand, model, i + 1, Some(i), |kb[i].model|)
  {
  }

  /** Any other entry leaves the best as it was. */
  lemma ScanKeep(kb: seq<IconicEntry>, brand: string, model: string, i: nat, best: Option<nat>, bestLen: nat)
    requires i < |kb| && ScanInvariant(kb, brand, model, i, best, bestLen)
    requires !(Candidate(brand, model, kb[i]) && |kb[i].model| > bestLen)
    ensures ScanInvariant(kb, brand, model, i + 1, best, bestLen)
  {
  }

  /** At the end of the scan the best is the match. */
  lemma ScanDone(kb: seq<IconicEntry>, brand: string, model: string, best: Option<nat>, bestLen: nat)
    requires ScanInvariant(kb, brand, model, |kb|, best, bestLen)
    ensures best.Some? ==> IsBestMatch(kb, brand, model, best.value)
    ensures best.None? ==> forall j :: 0 <= j < |kb| && Candidate(brand, model, kb[j]) ==> |kb[j].model| == 0
  {
  }

  /** Index of the `_match_iconic_model` result. */
  function MatchIconicIndex(kb: seq<IconicEntry>, brand: string, model: string): (r: Option<nat>)
    ensures r.Some? ==> IsBestMatch(kb, brand, model, r.value)
    ensures r.None? <==> forall j :: 0 <= j < |kb| && Candidate(brand, model, kb[j]) ==> |kb[j].model| == 0
  {
    BestFromCorrect(kb, brand, model, 0, None, 0);
    BestFrom(kb, brand, model, 0, None, 0)
  }

  /**
   * `_match_iconic_model` with the knowledge base passed in: the candidate
   * with the strictly longest model, ties going to the earliest entry.
   */
  function MatchIconic(kb: seq<IconicEntry>, brand: string, model: string): (r: Option<IconicEntry>)
    ensures kb == [] ==> r.None?
    ensures r.Some? ==> r.value in kb && Candidate(brand, model, r.value) && |r.value.model| > 0
  {
    match MatchIconicIndex(kb, brand, model)
    case Some(i) => Some(kb[i])
    case None => None
  }

  /** The match has the longest model among all candidates; none means no candidate has a model. */
  lemma {:induction false} MatchIconicLongest(kb: seq<IconicEntry>, brand: string, model: string)
    ensures var r := MatchIconic(kb, brand, model);
      (r.Some? ==> forall j :: 0 <= j < |kb| && Candidate(brand, model, kb[j]) ==> |kb[j].model| <= |r.value.model|)
      && (r.None? <==> forall j :: 0 <= j < |kb| && Candidate(brand, model, kb[j]) ==> |kb[j].model| == 0)
  {
  }

  /** Ties go to the entry listed first. */
  lemma MatchIconicFirstOfTies(kb: seq<IconicEntry>, brand: string, model: string, i: nat, j: nat)
    requires i < j < |kb| && Candidate(brand, model, kb[i]) && Candidate(brand, model, kb[j])
    requires |kb[i].model| == |kb[j].model| > 0
    ensures MatchIconicIndex(kb, brand, model) != Some(j)
  {
  }

  /** `iconic.get("boost", 0)` when there is a match, else 0. */
  function IconicBoost(kb: seq<IconicEntry>, brand: string, model: string): real {
    match MatchIconic(kb, brand, model)
    case Some(e) => e.boost
    case None => 0.0
  }

  // ── value ──────────────────────────────────────────────────────

  /** The one input on which `_score_value` divides by zero: a price above a zero high. */
  predicate ValueDividesByZero(price: Option<real>, lo: Option<real>, hi: Option<real>) {
    price.Some? && lo.Some? && hi.Some? && hi.value == 0.0
    && price.value > lo.value && price.value > (lo.value + hi.value) / 2.0 && price.value > hi.value
  }

  /**
   * `_score_value`: 100 at or below the Reverb low, 75 at the midpoint, 50 at
   * the high, falling linearly to 0 at twice the high; 50 without data.
   */
  function ScoreValue(price: Option<real>, lo: Option<real>, hi: Option<real>): (r: real)
    requires !ValueDividesByZero(price, lo, hi)
    ensures r >= 0.0
    ensures hi.None? || hi.value >= 0.0 ==> r <= 100.0
    ensures price.None? || lo.None? || hi.None? ==> r == NeutralScore
    ensures price.Some? && lo.Some? && hi.Some? && price.value <= lo.value ==> r == 100.0
  {
    if price.None? || lo.None? || hi.None? then NeutralScore
    else
      var p := price.value;
      var l := lo.value;
      var h := hi.value;
      var mid := (l + h) / 2.0;
      if p <= l then 100.0
      else if p <= mid then
        QuarterStep(p - l, mid - l);
        100.0 - 25.0 * (p - l) / (mid - l)
      else if p <= h then
        QuarterStep(p - mid, h - mid);
        75.0 - 25.0 * (p - mid) / (h - mid)
      else
        var overshoot := (p - h) / h;
        OvershootSign(p, h);
        if 50.0 - 50.0 * overshoot > 0.0 then 50.0 - 50.0 * overshoot else 0.0
  }

  /** A part of a positive span, scaled to 25 points, stays between 0 and 25. */
  lemma QuarterStep(x: real, d: real)
    requires 0.0 < x <= d
    ensures 0.0 <= 25.0 * x / d <= 25.0
  {
    DivMonotone(25.0 * x, 25.0 * d, d);
    assert 25.0 * d / d == 25.0;
  }

  lemma OvershootSign(p: real, h: real)
    requires h != 0.0 && p > h
    ensures h > 0.0 ==> (p - h) / h > 0.0
  {
  }

  lemma DivSelf(a: real, d: real)
    requires d != 0.0
    ensures a * d / d == a
  {
  }

  lemma {:induction false} ScoreValueAtMidpoint(lo: real, hi: real)
    requires lo < hi
    ensures ScoreValue(Some((lo + hi) / 2.0), Some(lo), Some(hi)) == 75.0
  {
    var mid := (lo + hi) / 2.0;
    DivSelf(25.0, mid - lo);
  }

  lemma {:induction false} ScoreValueAtHigh(lo: real, hi: real)
    requires lo < hi
    ensures ScoreValue(Some(hi), Some(lo), Some(hi)) == 50.0
  {
    var mid := (lo + hi) / 2.0;
    DivSelf(25.0, hi - mid);
  }

  /** Up to the high the deal score is at least 50. */
  lemma {:induction false} ScoreValueUpToHigh(price: real, lo: real, hi: real)
    requires lo < hi && price <= hi
    ensures ScoreValue(Some(price), Some(lo), Some(hi)) >= 50.0
  {
    var mid := (lo + hi) / 2.0;
    if price > mid {
      DivMonotone(25.0 * (price - mid), 25.0 * (hi - mid), hi - mid);
      DivSelf(25.0, hi - mid);
    } else if price > lo {
      DivMonotone(25.0 * (price - lo), 25.0 * (mid - lo), mid - lo);
      DivSelf(25.0, mid - lo);
    }
  }

  /** Above the high (and the low): `max(0, 50 - 50 * (price - high) / high)`. */
  lemma {:induction false} ScoreValueAboveHigh(price: real, lo: real, hi: real)
    requires hi > 0.0 && price > hi && price > lo
    ensures ScoreValue(Some(price), Some(lo), Some(hi))
         == MaxReal(0.0, 50.0 - 50.0 * ((price - hi) / hi))
  {
  }

  /** At twice the high or more the deal score is 0. */
  lemma {:induction false} ScoreValueZeroPastDouble(price: real, lo: real, hi: real)
    requires hi > 0.0 && price >= 2.0 * hi && price > lo
    ensures ScoreValue(Some(price), Some(lo), Some(hi)) == 0.0
  {
    ScoreValueAboveHigh(price, lo, hi);
    assert (price - hi) / hi >= 1.0 by {
      assert price - hi >= hi;
      DivAtLeastOne(price - hi, hi);
    }
  }

  lemma DivAtLeastOne(a: real, b: real)
    requires b > 0.0 && a >= b
    ensures a / b >= 1.0
  {
  }

  lemma DivNonNegative(a: real, d: real)
    requires d > 0.0 && a >= 0.0
    ensures a / d >= 0.0
  {
  }

  lemma DivMonotone(a: real, b: real, d: real)
    requires d > 0.0 && a <= b
    ensures a / d <= b / d
  {
    assert b / d - a / d == (b - a) / d;
  }

  /** A dearer listing is never a better deal (for a proper range `0 <= lo < hi`). */
  lemma {:induction false} ScoreValueMonotone(p1: real, p2: real, lo: real, hi: real)
    requires 0.0 <= lo < hi && p1 <= p2
    ensures ScoreValue(Some(p2), Some(lo), Some(hi)) <= ScoreValue(Some(p1), Some(lo), Some(hi))
  {
    var mid := (lo + hi) / 2.0;
    if p2 <= lo {
    } else if p2 <= mid {
      if p1 > lo {
        DivMonotone(25.0 * (p1 - lo), 25.0 * (p2 - lo), mid - lo);
      }
    } else if p2 <= hi {
      if p1 > mid {
        DivMonotone(25.0 * (p1 - mid), 25.0 * (p2 - mid), hi - mid);
      } else {
        DivNonNegative(25.0 * (p2 - mid), hi - mid);
        assert ScoreValue(Some(p1), Some(lo), Some(hi)) >= 75.0 by {
          if p1 > lo {
            DivMonotone(25.0 * (p1 - lo), 25.0 * (mid - lo), mid - lo);
            DivSelf(25.0, mid - lo);
          }
        }
      }
    } else {
      ScoreValueAboveHigh(p2, lo, hi);
      if p1 > hi {
        ScoreValueAboveHigh(p1, lo, hi);
        DivMonotone(p1 - hi, p2 - hi, hi);
      } else {
        ScoreValueUpToHigh(p1, lo, hi);
      }
    }
  }

  // ── appreciation ───────────────────────────────────────────────

  /**
   * The listing's year lies inside the matched entry's golden era, bounds
   * included; a missing or zero year never does.
   */
  predicate InGoldenEra(iconic: Option<IconicEntry>, year: string) {
    iconic.Some? && iconic.value.goldenEra.Some?
    && var y := Valuation.ParseYear(year);
       y.Some? && y.value != 0
       && iconic.value.goldenEra.value.0 <= y.value <= iconic.value.goldenEra.value.1
  }

  /**
   * `_score_appreciation`: the 0..12% rate mapped linearly onto 0..100, plus
   * 20 (capped at 100) inside the matched entry's golden era.
   */
  function ScoreAppreciation(kb: seq<IconicEntry>, brand: string, year: string, model: string): (r: real)
    ensures 0.0 <= r <= 100.0
  {
    var rate := Valuation.AppreciationRate(brand, year);
    var score := MinReal(100.0, rate / 0.12 * 100.0);
    if InGoldenEra(MatchIconic(kb, brand, model), year) then MinReal(100.0, score + 20.0) else score
  }

  /** The rate scaled to 0..100 (10% is the highest rate, so the cap never binds), plus 20 capped in the golden era. */
  lemma {:induction false} ScoreAppreciationSpec(kb: seq<IconicEntry>, brand: string, year: string, model: string)
    ensures var base := Valuation.AppreciationRate(brand, year) / 0.12 * 100.0;
      var r := ScoreAppreciation(kb, brand, year, model);
      if InGoldenEra(MatchIconic(kb, brand, model), year) then r == MinReal(100.0, base + 20.0)
      else r == base
  {
  }

  /** Without a golden-era bonus the score stays below 84: the best rate is 10%. */
  lemma ScoreAppreciationCeiling(kb: seq<IconicEntry>, brand: string, year: string, model: string)
    requires !InGoldenEra(MatchIconic(kb, brand, model), year)
    ensures ScoreAppreciation(kb, brand, year, model) < 84.0
  {
  }

  /** The golden-era bonus never lowers the score. */
  lemma GoldenEraRaises(kb: seq<IconicEntry>, brand: string, year: string, model: string)
    requires InGoldenEra(MatchIconic(kb, brand, model), year)
    ensures ScoreAppreciation(kb, brand, year, model)
         >= Valuation.AppreciationRate(brand, year) / 0.12 * 100.0
  {
  }

  // ── collection fit ─────────────────────────────────────────────

  /** A guitar already owned (an item of `collection.json`). */
  datatype Guitar = Guitar(brand: string, model: string, gtype: string)

  /** The fields of an active listing the scorer reads. */
  datatype Listing = Listing(
    brand: string,
    model: string,
    gtype: string,
    year: string,
    price: Option<real>,
    reverbLo: Option<real>,
    reverbHi: Option<real>,
    condition: string)

  /** Fit adjustment for ownership: -25 for an owned brand+model, else +20 for a new brand. */
  function OwnershipAdjustment(collection: seq<Guitar>, brand: string, model: string): real {
    var brandsOwned := set g | g in collection :: Lower(g.brand);
    var modelsOwned := set g | g in collection :: (Lower(g.brand), Lower(g.model));
    if (Lower(brand), Lower(model)) in modelsOwned then -25.0
    else if Lower(brand) !in brandsOwned then 20.0
    else 0.0
  }

  /** Fit adjustment for a type held by under a quarter of the collection. */
  function RareTypeAdjustment(collection: seq<Guitar>, gtype: string): real
    requires collection != []
  {
    var t := Lower(gtype);
    if t != "" && (CountIf(collection, (g: Guitar) => Lower(g.gtype) == t) as real) / (|collection| as real) < 0.25
    then 15.0 else 0.0
  }

  /**
   * `_score_fit`: 50, adjusted for ownership and type rarity (only when there
   * is a collection), plus the iconic boost, clamped into `[0, 100]`.
   */
  function ScoreFit(kb: seq<IconicEntry>, brand: string, model: string, gtype: string, collection: seq<Guitar>): (r: real)
    ensures 0.0 <= r <= 100.0
    ensures collection == [] ==> r == Clamp100(50.0 + IconicBoost(kb, brand, model))
  {
    var boost := IconicBoost(kb, brand, model);
    if collection == [] then Clamp100(50.0 + boost)
    else
      Clamp100(50.0 + OwnershipAdjustment(collection, brand, model)
        + RareTypeAdjustment(collection, gtype) + boost)
  }

  /** Some owned guitar has the listing's brand and model, ignoring case. */
  predicate OwnsModel(collection: seq<Guitar>, brand: string, model: string) {
    exists g :: g in collection && Lower(g.brand) == Lower(brand) && Lower(g.model) == Lower(model)
  }

  /** No owned guitar has the listing's brand, ignoring case. */
  predicate NewBrand(collection: seq<Guitar>, brand: string) {
    forall g :: g in collection ==> Lower(g.brand) != Lower(brand)
  }

  /** Fewer than a quarter of the owned guitars share the listing's non-empty type. */
  predicate RareType(collection: seq<Guitar>, gtype: string) {
    Lower(gtype) != ""
    && 4 * CountIf(collection, (g: Guitar) => Lower(g.gtype) == Lower(gtype)) < |collection|
  }

  /** The owned/new-brand/rare-type rules of `_score_fit`, stated over the collection's items. */
  lemma {:induction false} ScoreFitSpec(kb: seq<IconicEntry>, brand: string, model: string, gtype: string, collection: seq<Guitar>)
    requires collection != []
    ensures ScoreFit(kb, brand, model, gtype, collection) == Clamp100(50.0
        + (if OwnsModel(collection, brand, model) then -25.0
           else if NewBrand(collection, brand) then 20.0 else 0.0)
        + (if RareType(collection, gtype) then 15.0 else 0.0)
        + IconicBoost(kb, brand, model))
  {
    RareShare(collection, Lower(gtype));
    var brandsOwned := set g | g in collection :: Lower(g.brand);
    var modelsOwned := set g | g in collection :: (Lower(g.brand), Lower(g.model));
    if (Lower(brand), Lower(model)) in modelsOwned {
      var g :| g in collection && (Lower(g.brand), Lower(g.model)) == (Lower(brand), Lower(model));
    }
    if Lower(brand) in brandsOwned {
      var g :| g in collection && Lower(g.brand) == Lower(brand);
    }
  }

  /** `count / len < 0.25` is `4 * count < len`. */
  lemma {:induction false} RareShare(collection: seq<Guitar>, t: string)
    requires collection != []
    ensures var c := CountIf(collection, (g: Guitar) => Lower(g.gtype) == t);
      (c as real) / (|collection| as real) < 0.25 <==> 4 * c < |collection|
  {
    var c := CountIf(collection, (g: Guitar) => Lower(g.gtype) == t);
    QuarterShare(c as real, |collection| as real);
  }

  lemma QuarterShare(a: real, n: real)
    requires n > 0.0
    ensures a / n < 0.25 <==> 4.0 * a < n
  {
    var q := a / n;
    assert a == q * n;
    if q < 0.25 {
      assert q * n < 0.25 * n;
    } else {
      assert q * n >= 0.25 * n;
    }
  }

  /** Owning the exact model costs 25 points and forfeits the new-brand bonus. */
  lemma {:induction false} FitOwnedModel(kb: seq<IconicEntry>, brand: string, model: string, gtype: string, collection: seq<Guitar>, g: Guitar)
    requires g in collection
    requires Lower(g.brand) == Lower(brand) && Lower(g.model) == Lower(model)
    ensures ScoreFit(kb, brand, model, gtype, collection) <= Clamp100(40.0 + IconicBoost(kb, brand, model))
  {
    ScoreFitSpec(kb, brand, model, gtype, collection);
  }

  // ── composite ──────────────────────────────────────────────────

  /** The four sub-scores reported with every total. */
  datatype Breakdown = Breakdown(value: real, appreciation: real, fit: real, condition: real)

  /** The weights `score_listing` cannot do without. */
  predicate HasCoreWeights(w: map<string, real>) {
    "value" in w && "appreciate" in w && "fit" in w
  }

  /** Sum of the weights the total uses: condition's only when present. */
  function UsedWeight(w: map<string, real>): real
    requires HasCoreWeights(w)
  {
    w["value"] + w["appreciate"] + w["fit"] + (if "condition" in w then w["condition"] else 0.0)
  }

  predicate SubScoresInRange(b: Breakdown) {
    0.0 <= b.value <= 100.0 && 0.0 <= b.appreciation <= 100.0
    && 0.0 <= b.fit <= 100.0 && 0.0 <= b.condition <= 100.0
  }

  /**
   * The weighted sum of value, appreciation and fit, plus condition only when
   * the weights name it. With non-negative weights and sub-scores in range it
   * lies between 0 and 100 times the weights used.
   */
  function WeightedTotal(w: map<string, real>, b: Breakdown): real
    requires HasCoreWeights(w)
  {
    w["value"] * b.value + w["appreciate"] * b.appreciation + w["fit"] * b.fit
      + (if "condition" in w then w["condition"] * b.condition else 0.0)
  }

  /** With non-negative weights and sub-scores in range the total lies between 0 and 100 times the weights used. */
  lemma {:induction false} WeightedTotalBounds(w: map<string, real>, b: Breakdown)
    requires HasCoreWeights(w) && SubScoresInRange(b)
    requires forall k :: k in w ==> w[k] >= 0.0
    ensures 0.0 <= WeightedTotal(w, b) <= 100.0 * UsedWeight(w)
  {
    var c := if "condition" in w then w["condition"] else 0.0;
    assert w["value"] >= 0.0 && w["appreciate"] >= 0.0 && w["fit"] >= 0.0 && c >= 0.0;
    Dot4Bounds(w["value"], w["appreciate"], w["fit"], c, b.value, b.appreciation, b.fit, b.condition);
    assert WeightedTotal(w, b) == w["value"] * b.value + w["appreciate"] * b.appreciation + w["fit"] * b.fit + c * b.condition;
  }

  lemma Dot4Bounds(w1: real, w2: real, w3: real, w4: real, s1: real, s2: real, s3: real, s4: real)
    requires w1 >= 0.0 && w2 >= 0.0 && w3 >= 0.0 && w4 >= 0.0
    requires 0.0 <= s1 <= 100.0 && 0.0 <= s2 <= 100.0 && 0.0 <= s3 <= 100.0 && 0.0 <= s4 <= 100.0
    ensures 0.0 <= w1 * s1 + w2 * s2 + w3 * s3 + w4 * s4 <= 100.0 * (w1 + w2 + w3 + w4)
  {
    MulBounds(w1, s1);
    MulBounds(w2, s2);
    MulBounds(w3, s3);
    MulBounds(w4, s4);
    SumBounds(w1 * s1, w2 * s2, w3 * s3, w4 * s4, w1, w2, w3, w4);
  }

  lemma SumBounds(p1: real, p2: real, p3: real, p4: real, w1: real, w2: real, w3: real, w4: real)
    requires 0.0 <= p1 <= 100.0 * w1 && 0.0 <= p2 <= 100.0 * w2
    requires 0.0 <= p3 <= 100.0 * w3 && 0.0 <= p4 <= 100.0 * w4
    ensures 0.0 <= p1 + p2 + p3 + p4 <= 100.0 * (w1 + w2 + w3 + w4)
  {
  }

  lemma MulBounds(wt: real, s: real)
    requires wt >= 0.0 && 0.0 <= s <= 100.0
    ensures 0.0 <= wt * s <= 100.0 * wt
  {
  }

  /** Without a condition weight the condition sub-score has no effect on the total. */
  lemma {:induction false} WeightedTotalIgnoresCondition(w: map<string, real>, b: Breakdown, c: real)
    requires HasCoreWeights(w) && "condition" !in w
    ensures WeightedTotal(w, b) == WeightedTotal(w, b.(condition := c))
  {
  }

  /**
   * `score_listing`: the weighted total and the breakdown, which always
   * carries all four sub-scores, each on 0..100 when the high is not negative.
   */
  function ScoreListing(kb: seq<IconicEntry>, entry: Listing, collection: seq<Guitar>, w: map<string, real>): (r: (real, Breakdown))
    requires HasCoreWeights(w)
    requires !ValueDividesByZero(entry.price, entry.reverbLo, entry.reverbHi)
    ensures r.1.value == ScoreValue(entry.price, entry.reverbLo, entry.reverbHi)
    ensures r.1.appreciation == ScoreAppreciation(kb, entry.brand, entry.year, entry.model)
    ensures r.1.fit == ScoreFit(kb, entry.brand, entry.model, entry.gtype, collection)
    ensures r.1.condition == ScoreCondition(entry.condition)
    ensures r.0 == WeightedTotal(w, r.1)
    ensures entry.reverbHi.None? || entry.reverbHi.value >= 0.0 ==> SubScoresInRange(r.1)
  {
    var b := Breakdown(
      ScoreValue(entry.price, entry.reverbLo, entry.reverbHi),
      ScoreAppreciation(kb, entry.brand, entry.year, entry.model),
      ScoreFit(kb, entry.brand, entry.model, entry.gtype, collection),
      ScoreCondition(entry.condition));
    (WeightedTotal(w, b), b)
  }

  /** Three-dimension scoring ignores the condition text altogether. */
  lemma {:induction false} ThreeDimIgnoresCondition(kb: seq<IconicEntry>, entry: Listing, collection: seq<Guitar>, w: map<string, real>, cond: string)
    requires HasCoreWeights(w) && "condition" !in w
    requires !ValueDividesByZero(entry.price, entry.reverbLo, entry.reverbHi)
    ensures ScoreListing(kb, entry, collection, w).0 == ScoreListing(kb, entry.(condition := cond), collection, w).0
  {
    var b1 := ScoreListing(kb, entry, collection, w).1;
    var b2 := ScoreListing(kb, entry.(condition := cond), collection, w).1;
    assert b2 == b1.(condition := b2.condition);
    WeightedTotalIgnoresCondition(w, b1, b2.condition);
  }

  /** With non-negative weights the total lies between 0 and 100 times the weights used. */
  lemma {:induction false} ScoreListingBounds(kb: seq<IconicEntry>, entry: Listing, collection: seq<Guitar>, w: map<string, real>)
    requires HasCoreWeights(w)
    requires !ValueDividesByZero(entry.price, entry.reverbLo, entry.reverbHi)
    requires entry.reverbHi.None? || entry.reverbHi.value >= 0.0
    requires forall k :: k in w ==> w[k] >= 0.0
    ensures 0.0 <= ScoreListing(kb, entry, collection, w).0 <= 100.0 * UsedWeight(w)
  {
    WeightedTotalBounds(w, ScoreListing(kb, entry, collection, w).1);
  }

  // ── ranking ────────────────────────────────────────────────────

  /** A scored listing: the listing, its total and its breakdown. */
  type Scored = (Listing, real, Breakdown)

  function TotalOf(s: Scored): real { s.1 }

  /** The ranking in `run`: sort by total, highest first (stable), then keep `top_n`. */
  function TopPicks(scored: seq<Scored>, topN: int): (r: seq<Scored>)
    ensures topN >= 0 ==> |r| == if topN <= |scored| then topN else |scored|
    ensures SortedDesc(r, TotalOf)
    ensures multiset(r) <= multiset(scored)
    ensures forall x, y :: x in r && y in scored && y !in r ==> TotalOf(x) >= TotalOf(y)
  {
    TopOfSorted(scored, TotalOf, topN);
    PyTake(SortDesc(scored, TotalOf), topN)
  }
}

=== FILE: searcher.dfy ===
/**
 * The crawler's pure parts: grace-period sold detection, the condition scale
 * and filter, title parsing (brand, model, year, type), price parsing, and the
 * Reverb price-guide query list, brand matching and averaging.
 */
module Searcher {
  import opened Wrappers
  import opened Text
  import opened Numbers
  import opened Seqs

  // ── sold detection ─────────────────────────────────────────────

  /** Seconds an id must stay absent before it is confirmed sold. */
  const SoldThreshold: int := 600

  type Pid = string

  /** `pid → first_missed_timestamp` for ids currently in their grace period. */
  type Candidates = map<Pid, int>

  /** An absent id whose grace period has run out. */
  predicate ConfirmedSold(pid: Pid, current: set<Pid>, cands: Candidates, now: int) {
    pid !in current && pid in cands && now - cands[pid] >= SoldThreshold
  }

  /**
   * One iteration of the `check_sold` loop: clear an id that is back, confirm
   * one whose grace period is over, start the grace period of a first miss.
   * The flag says whether the id is confirmed sold.
   */
  function StepId(pid: Pid, current: set<Pid>, cands: Candidates, now: int): (r: (Candidates, bool))
    ensures r.1 <==> ConfirmedSold(pid, current, cands, now)
    ensures forall k :: k != pid ==> (k in r.0 <==> k in cands)
    ensures forall k :: k != pid && k in r.0 ==> r.0[k] == cands[k]
    ensures pid in r.0 <==> pid !in current && !r.1
    ensures pid in r.0 ==> r.0[pid] == if pid in cands then cands[pid] else now
  {
    if pid in current then (cands - {pid}, false)
    else if pid in cands then
      if now - cands[pid] >= SoldThreshold then (cands - {pid}, true) else (cands, false)
    else (cands[pid := now], false)
  }

  /** Whether `pid` has an entry once the ids in `examined` have been stepped. */
  predicate KeptAfter(pid: Pid, examined: set<Pid>, current: set<Pid>, cands: Candidates, now: int) {
    if pid in examined then pid !in current && !ConfirmedSold(pid, current, cands, now)
    else pid in cands
  }

  /**
   * The candidate map after stepping every id of `examined`, stated per id:
   * untouched outside `examined`; inside, cleared when back on the site,
   * dropped when confirmed, otherwise kept or started at `now`.
   */
  function CandidatesAfter(examined: set<Pid>, current: set<Pid>, cands: Candidates, now: int): Candidates {
    map k | k in cands.Keys + examined && KeptAfter(k, examined, current, cands, now)
      :: if k in cands then cands[k] else now
  }

  /** The ids of `examined` confirmed sold by one call. */
  function SoldAfter(examined: set<Pid>, current: set<Pid>, cands: Candidates, now: int): set<Pid> {
    set k | k in examined && ConfirmedSold(k, current, cands, now)
  }

  /** Stepping one more id extends the per-id description by that id. */
  lemma {:induction false} StepExtends(examined: set<Pid>, pid: Pid, current: set<Pid>, cands: Candidates, now: int)
    requires pid !in examined
    ensures StepId(pid, current, CandidatesAfter(examined, current, cands, now), now).0
         == CandidatesAfter(examined + {pid}, current, cands, now)
    ensures StepId(pid, current, CandidatesAfter(examined, current, cands, now), now).1
        <==> ConfirmedSold(pid, current, cands, now)
  {
    var before := CandidatesAfter(examined, current, cands, now);
    var after := CandidatesAfter(examined + {pid}, current, cands, now);
    var stepped := StepId(pid, current, before, now).0;
    assert pid in before <==> pid in cands;
    assert pid in before ==> before[pid] == cands[pid];
    forall k ensures k in stepped <==> k in after {
      if k != pid {
        assert KeptAfter(k, examined, current, cands, now) == KeptAfter(k, examined + {pid}, current, cands, now);
      }
    }
    forall k | k in stepped ensures stepped[k] == after[k] {
    }
  }

  /** Stepping one more id adds it to the confirmed ids exactly when its grace period is over. */
  lemma SoldAfterExtends(examined: set<Pid>, pid: Pid, current: set<Pid>, cands: Candidates, now: int)
    ensures SoldAfter(examined + {pid}, current, cands, now)
         == SoldAfter(examined, current, cands, now)
            + (if ConfirmedSold(pid, current, cands, now) then {pid} else {})
  {
  }

  /**
   * What `check_sold` has done after stepping the ids of `examined`: the map
   * is the per-id description above, and the confirmed ids are listed once each.
   */
  ghost predicate LoopState(examined: set<Pid>, current: set<Pid>, cands: Candidates, now: int,
                            next: Candidates, newlySold: seq<Pid>)
  {
    next == CandidatesAfter(examined, current, cands, now)
    && (forall p :: p in newlySold <==> p in SoldAfter(examined, current, cands, now))
    && (forall i, j :: 0 <= i < j < |newlySold| ==> newlySold[i] != newlySold[j])
  }

  /** Before the loop nothing is examined: the map is the input and nothing is confirmed. */
  lemma LoopStart(current: set<Pid>, cands: Candidates, now: int)
    ensures LoopState({}, current, cands, now, cands, [])
  {
    assert CandidatesAfter({}, current, cands, now) == cands;
  }

  /** One loop iteration keeps `LoopState` for one more examined id. */
  lemma {:induction false} LoopStep(examined: set<Pid>, pid: Pid, current: set<Pid>, cands: Candidates, now: int,
                                    next: Candidates, newlySold: seq<Pid>)
    requires pid !in examined
    requires LoopState(examined, current, cands, now, next, newlySold)
    ensures var step := StepId(pid, current, next, now);
      LoopState(examined + {pid}, current, cands, now, step.0, if step.1 then newlySold + [pid] else newlySold)
  {
    StepExtends(examined, pid, current, cands, now);
    SoldAfterExtends(examined, pid, current, cands, now);
    assert pid !in newlySold;
  }

  /**
   * `check_sold`: one pass over `seen - sold` at time `now`. Returns the
   * updated candidates and the ids newly confirmed sold, each once, in the
   * order the set was walked.
   */
  method CheckSold(seen: set<Pid>, current: set<Pid>, sold: set<Pid>, cands: Candidates, now: int)
    returns (next: Candidates, newlySold: seq<Pid>)
    ensures next == CandidatesAfter(seen - sold, current, cands, now)
    ensures forall p :: p in newlySold <==> p in SoldAfter(seen - sold, current, cands, now)
    ensures forall i, j :: 0 <= i < j < |newlySold| ==> newlySold[i] != newlySold[j]
  {
    next := cands;
    newlySold := [];
    var todo := seen - sold;
    ghost var examined: set<Pid> := {};
    LoopStart(current, cands, now);
    while todo != {}
      invariant todo !! examined && todo + examined == seen - sold
      invariant LoopState(examined, current, cands, now, next, newlySold)
      decreases |todo|
    {
      var pid :| pid in todo;
      MoveOne(todo, examined, seen - sold, pid);
      LoopStep(examined, pid, current, cands, now, next, newlySold);
      var step := StepId(pid, current, next, now);
      next, newlySold := step.0, if step.1 then newlySold + [pid] else newlySold;
      todo := todo - {pid};
      examined := examined + {pid};
    }
    assert examined == seen - sold;
    assert LoopState(seen - sold, current, cands, now, next, newlySold);
  }

  /** Moving one element from the unvisited to the visited part keeps the partition. */
  lemma MoveOne<T>(todo: set<T>, done: set<T>, all: set<T>, x: T)
    requires todo !! done && todo + done == all && x in todo
    ensures (todo - {x}) !! (done + {x}) && (todo - {x}) + (done + {x}) == all
  {
  }

  /** An id already sold is never confirmed again and its entry is left as it was. */
  lemma SoldIdUntouched(seen: set<Pid>, current: set<Pid>, sold: set<Pid>, cands: Candidates, now: int, pid: Pid)
    requires pid in sold
    ensures pid !in SoldAfter(seen - sold, current, cands, now)
    ensures var next := CandidatesAfter(seen - sold, current, cands, now);
      (pid in next <==> pid in cands) && (pid in next ==> next[pid] == cands[pid])
  {
  }

  /** An id back on the site loses its entry and is not confirmed. */
  lemma CurrentIdCleared(seen: set<Pid>, current: set<Pid>, sold: set<Pid>, cands: Candidates, now: int, pid: Pid)
    requires pid in seen && pid !in sold && pid in current
    ensures pid !in CandidatesAfter(seen - sold, current, cands, now)
    ensures pid !in SoldAfter(seen - sold, current, cands, now)
  {
  }

  /** The first miss starts the grace period at `now` and confirms nothing. */
  lemma FirstMissStartsGrace(seen: set<Pid>, current: set<Pid>, sold: set<Pid>, cands: Candidates, now: int, pid: Pid)
    requires pid in seen && pid !in sold && pid !in current && pid !in cands
    ensures var next := CandidatesAfter(seen - sold, current, cands, now);
      pid in next && next[pid] == now
    ensures pid !in SoldAfter(seen - sold, current, cands, now)
  {
  }

  /**
   * A candidate still absent is confirmed (and dropped) exactly when 600
   * seconds have passed since its first miss; otherwise its timestamp stays.
   */
  lemma GraceExpiry(seen: set<Pid>, current: set<Pid>, sold: set<Pid>, cands: Candidates, now: int, pid: Pid)
    requires pid in seen && pid !in sold && pid !in current && pid in cands
    ensures pid in SoldAfter(seen - sold, current, cands, now) <==> now - cands[pid] >= 600
    ensures var next := CandidatesAfter(seen - sold, current, cands, now);
      (pid in next <==> now - cands[pid] < 600) && (pid in next ==> next[pid] == cands[pid])
  {
  }

  /** Confirmed ids were seen, are not yet sold and are absent now. */
  lemma SoldAfterSubset(seen: set<Pid>, current: set<Pid>, sold: set<Pid>, cands: Candidates, now: int)
    ensures SoldAfter(seen - sold, current, cands, now) <= seen - sold - current
  {
  }

  /** One crawl as the main loop sees it: the ids tracked, the ids on the site, the clock. */
  datatype Crawl = Crawl(seen: set<Pid>, current: set<Pid>, now: int)

  /** The state the main loop carries between crawls. */
  datatype SoldState = SoldState(sold: set<Pid>, cands: Candidates)

  /**
   * One crawl: run `check_sold`, then add the confirmed ids to `sold_ids`.
   * A crawl that found nothing is taken for a failed scrape and skipped.
   */
  function Cycle(st: SoldState, c: Crawl): (r: (SoldState, set<Pid>))
    ensures r.1 !! st.sold
    ensures r.0.sold == st.sold + r.1
    ensures c.current == {} ==> r == (st, {})
  {
    if c.current == {} then (st, {})
    else
      var confirmed := SoldAfter(c.seen - st.sold, c.current, st.cands, c.now);
      (SoldState(st.sold + confirmed, CandidatesAfter(c.seen - st.sold, c.current, st.cands, c.now)), confirmed)
  }

  /** The ids confirmed by each crawl of a run, and the final state. */
  function Run(st: SoldState, crawls: seq<Crawl>): (r: (SoldState, seq<set<Pid>>))
    ensures |r.1| == |crawls|
    decreases |crawls|
  {
    if crawls == [] then (st, [])
    else
      var (st', e) := Cycle(st, crawls[0]);
      var (fin, rest) := Run(st', crawls[1..]);
      (fin, [e] + rest)
  }

  /**
   * Across any run of crawls no id is confirmed twice, none that was already
   * sold is confirmed, and the final sold set is the initial one plus every
   * confirmation.
   */
  lemma {:induction false} RunConfirmsOnce(st: SoldState, crawls: seq<Crawl>)
    ensures var (fin, es) := Run(st, crawls);
      (forall i :: 0 <= i < |es| ==> es[i] !! st.sold && es[i] <= fin.sold)
      && (forall i, j :: 0 <= i < j < |es| ==> es[i] !! es[j])
    decreases |crawls|
  {
    if crawls != [] {
      var (st', e) := Cycle(st, crawls[0]);
      RunConfirmsOnce(st', crawls[1..]);
      var (fin, rest) := Run(st', crawls[1..]);
      var es := Run(st, crawls).1;
      assert es == [e] + rest;
      RunSoldGrows(st', crawls[1..]);
      forall i | 0 <= i < |es| ensures es[i] !! st.sold && es[i] <= fin.sold {
        if i > 0 {
          assert es[i] == rest[i - 1];
        }
      }
      forall i, j | 0 <= i < j < |es| ensures es[i] !! es[j] {
        assert es[j] == rest[j - 1];
        if i > 0 {
          assert es[i] == rest[i - 1];
        }
      }
    }
  }

  /** The sold set only grows along a run. */
  lemma {:induction false} RunSoldGrows(st: SoldState, crawls: seq<Crawl>)
    ensures st.sold <= Run(st, crawls).0.sold
    decreases |crawls|
  {
    if crawls != [] {
      RunSoldGrows(Cycle(st, crawls[0]).0, crawls[1..]);
    }
  }

  /** A run of crawls that all found nothing confirms nothing and leaves the state as it was. */
  lemma {:induction false} RunSkipsEmpty(st: SoldState, crawls: seq<Crawl>)
    requires forall i :: 0 <= i < |crawls| ==> crawls[i].current == {}
    ensures Run(st, crawls).0 == st
    ensures forall i :: 0 <= i < |crawls| ==> Run(st, crawls).1[i] == {}
    decreases |crawls|
  {
    if crawls != [] {
      assert Cycle(st, crawls[0]) == (st, {});
      assert forall i :: 0 <= i < |crawls[1..]| ==> crawls[1..][i] == crawls[i + 1];
      RunSkipsEmpty(st, crawls[1..]);
      var es := Run(st, crawls).1;
      assert es == [{}] + Run(st, crawls[1..]).1;
    }
  }

  /** `p` is missing from every crawl from `j` to `k`. */
  predicate AbsentThrough(crawls: seq<Crawl>, j: nat, k: nat, p: Pid)
    requires j <= k < |crawls|
  {
    forall i :: j <= i <= k ==> p !in crawls[i].current
  }

  /**
   * What the main loop keeps true between crawls: `seen_ids` only grows, and
   * every candidate is an id it tracks.
   */
  predicate Tracked(st: SoldState, crawls: seq<Crawl>) {
    (crawls != [] ==> st.cands.Keys <= crawls[0].seen)
    && forall i :: 0 <= i < |crawls| - 1 ==> crawls[i].seen <= crawls[i + 1].seen
  }

  /** One crawl keeps the loop's bookkeeping. */
  lemma CycleTracked(st: SoldState, crawls: seq<Crawl>)
    requires crawls != [] && Tracked(st, crawls)
    ensures Tracked(Cycle(st, crawls[0]).0, crawls[1..])
  {
    var rest := crawls[1..];
    forall i | 0 <= i < |rest| - 1 ensures rest[i].seen <= rest[i + 1].seen {
      assert rest[i] == crawls[i + 1] && rest[i + 1] == crawls[i + 2];
    }
    if rest != [] {
      assert crawls[0].seen <= crawls[1].seen;
    }
  }

  /**
   * The grace period over a whole run: an id confirmed at crawl `k` was
   * missing from every crawl since its grace period began, 600 seconds or
   * more before crawl `k` — at an earlier crawl `j` of the run, or before the
   * run for a candidate carried in from a previous one.
   */
  lemma {:induction false} RunGracePeriod(st: SoldState, crawls: seq<Crawl>, k: nat, p: Pid)
    requires Tracked(st, crawls)
    requires k < |crawls| && p in Run(st, crawls).1[k]
    ensures (exists j :: 0 <= j < k && AbsentThrough(crawls, j, k, p) && crawls[k].now - crawls[j].now >= SoldThreshold)
         || (p in st.cands && AbsentThrough(crawls, 0, k, p) && crawls[k].now - st.cands[p] >= SoldThreshold)
    decreases |crawls|
  {
    var c := crawls[0];
    var rest := crawls[1..];
    var (st', e) := Cycle(st, c);
    assert Run(st, crawls).1 == [e] + Run(st', rest).1;
    if k == 0 {
      assert p in e;
      assert ConfirmedSold(p, c.current, st.cands, c.now);
    } else {
      assert p in Run(st', rest).1[k - 1];
      assert crawls[k] == rest[k - 1];
      CycleTracked(st, crawls);
      RunGracePeriod(st', rest, k - 1, p);
      RunConfirmsOnce(st', rest);
      assert p !in st'.sold;
      if j' :| 0 <= j' < k - 1 && AbsentThrough(rest, j', k - 1, p) && rest[k - 1].now - rest[j'].now >= SoldThreshold {
        forall i | j' + 1 <= i <= k ensures p !in crawls[i].current {
          assert crawls[i] == rest[i - 1];
        }
        assert crawls[j' + 1] == rest[j'];
        assert AbsentThrough(crawls, j' + 1, k, p);
      } else {
        assert p in st'.cands && AbsentThrough(rest, 0, k - 1, p);
        forall i | 1 <= i <= k ensures p !in crawls[i].current {
          assert crawls[i] == rest[i - 1];
        }
        if c.current == {} {
          assert AbsentThrough(crawls, 0, k, p);
        } else {
          var examined := c.seen - st.sold;
          assert p in examined by {
            if p in st.cands {
              assert p in c.seen;
            }
          }
          assert KeptAfter(p, examined, c.current, st.cands, c.now);
          assert AbsentThrough(crawls, 0, k, p);
          if p !in st.cands {
            assert st'.cands[p] == c.now;
            assert AbsentThrough(crawls, 0, k, p) && crawls[k].now - crawls[0].now >= SoldThreshold;
          }
        }
      }
    }
  }

  // ── condition scale ────────────────────────────────────────────

  /** The condition grades from worst to best. */
  const ConditionScale: seq<string> := [
    "poor", "fair",
    "good-", "good", "good+",
    "very good-", "very good", "very good+",
    "excellent-", "excellent", "excellent+",
    "near mint", "mint"
  ]

  /** `CONDITION_SCALE.index("excellent-")` */
  const MinConditionRank: int := 8

  lemma MinConditionRankIsExcellentMinus()
    ensures IndexOf(ConditionScale, "excellent-") == Some(MinConditionRank as nat)
  {
    IndexOfFirst(ConditionScale, "excellent-", MinConditionRank);
  }

  /** `condition_rank`: the index of the lowercase grade on the scale, or -1 for none or unknown. */
  function ConditionRank(cond: Option<string>): (r: int)
    ensures -1 <= r < |ConditionScale|
    ensures r >= 0 ==> cond.Some? && ConditionScale[r] == Lower(cond.value)
    ensures r == -1 <==> cond.None? || Lower(cond.value) !in ConditionScale
  {
    match cond
    case None => -1
    case Some(c) =>
      match IndexOf(ConditionScale, Lower(c))
      case Some(i) => i
      case None => -1
  }

  /** The crawl's filter: keep a listing whose rank reaches "excellent-". */
  predicate PassesConditionFilter(cond: Option<string>) {
    ConditionRank(cond) >= MinConditionRank
  }

  /** The filter keeps exactly the grades "excellent-" and better, in any letter case. */
  lemma ConditionFilterGrades(cond: Option<string>)
    ensures PassesConditionFilter(cond)
        <==> cond.Some? && Lower(cond.value) in ConditionScale[MinConditionRank..]
  {
    if cond.Some? {
      TopGradesDistinct();
      IndexOfAtLeast(ConditionScale, Lower(cond.value), MinConditionRank);
    }
  }

  /** The five top grades do not occur among the eight lower ones. */
  lemma TopGradesDistinct()
    ensures forall i, j :: 0 <= i < MinConditionRank <= j < |ConditionScale| ==> ConditionScale[i] != ConditionScale[j]
  {
  }

  lemma ConditionFilterKeeps(cond: string)
    requires Lower(cond) in ConditionScale[MinConditionRank..]
    ensures ConditionRank(Some(cond)) >= MinConditionRank
  {
    TopGradesDistinct();
    IndexOfAtLeast(ConditionScale, Lower(cond), MinConditionRank);
  }

  // ── title parsing ──────────────────────────────────────────────

  /** `extract_type`: "bass" beats "acoustic" beats "electric", as substrings of the lowercase title. */
  function ExtractType(title: string): (r: string)
    ensures r in {"Bass", "Acoustic", "Electric", "Unknown"}
    ensures r == "Bass" <==> Contains(Lower(title), "bass")
    ensures r == "Acoustic" <==> !Contains(Lower(title), "bass") && Contains(Lower(title), "acoustic")
    ensures r == "Unknown"
        <==> !Contains(Lower(title), "bass") && !Contains(Lower(title), "acoustic") && !Contains(Lower(title), "electric")
  {
    var t := Lower(title);
    if Contains(t, "bass") then "Bass"
    else if Contains(t, "acoustic") then "Acoustic"
    else if Contains(t, "electric") then "Electric"
    else "Unknown"
  }

  /** A title naming both "bass" and "acoustic" is a bass, whatever else it says. */
  lemma {:induction false} BassBeatsAcoustic(p: string, q: string, r: string)
    ensures ExtractType(p + "Acoustic " + q + " Bass" + r) == "Bass"
  {
    var title := p + "Acoustic " + q + " Bass" + r;
    var i := |p| + 9 + |q| + 1;
    LowerAppend(p + "Acoustic " + q + " Bass", r);
    LowerAppend(p + "Acoustic " + q + " ", "Bass");
    assert Lower("Bass") == "bass";
    assert OccursAt(Lower(title), "bass", i);
    ContainsAt(Lower(title), "bass", i);
  }

  /** `extract_price`: `float` of the text with "$" and "," removed; `None` when that fails. */
  function ExtractPrice(priceText: string): Option<real> {
    ParseDecimal(PriceText(priceText))
  }

  /** The price text with every "$" and "," removed. */
  function PriceText(s: string): string {
    RemoveChar(RemoveChar(s, '$'), ',')
  }

  /** A dollar amount in whole dollars reads back as its value. */
  lemma {:induction false} ExtractPriceDollars(n: nat)
    ensures ExtractPrice("$" + NatToString(n)) == Some(n as real)
  {
    var d := NatToString(n);
    RemoveCharAppend("$", d, '$');
    assert RemoveChar("$", '$') == "";
    assert '$' !in d && ',' !in d by {
      assert forall i :: 0 <= i < |d| ==> IsDigit(d[i]);
    }
    RemoveCharAbsent(d, '$');
    assert RemoveChar("$" + d, '$') == d;
    RemoveCharAbsent(d, ',');
    ParseDecimalOfNat(n);
  }

  /** Text without any digit is never a price. */
  lemma ExtractPriceNeedsDigit(priceText: string)
    requires forall i :: 0 <= i < |priceText| ==> !IsDigit(priceText[i])
    ensures ExtractPrice(priceText).None?
  {
    var t := RemoveChar(RemoveChar(priceText, '$'), ',');
    RemoveCharKeepsOnly(priceText, '$');
    RemoveCharKeepsOnly(RemoveChar(priceText, '$'), ',');
    ParseDecimalNeedsDigit(t);
  }

  /** Every character of `RemoveChar(s, c)` comes from `s`. */
  lemma {:induction false} RemoveCharKeepsOnly(s: string, c: char)
    ensures forall i :: 0 <= i < |RemoveChar(s, c)| ==> RemoveChar(s, c)[i] in s
    decreases |s|
  {
    if s != [] {
      RemoveCharKeepsOnly(s[1..], c);
      var head := if s[0] == c then [] else [s[0]];
      var r := RemoveChar(s, c);
      assert r == head + RemoveChar(s[1..], c);
      forall i | 0 <= i < |r| ensures r[i] in s {
        if i < |head| {
          assert r[i] == s[0];
        } else {
          assert r[i] == RemoveChar(s[1..], c)[i - |head|];
          assert RemoveChar(s[1..], c)[i - |head|] in s[1..];
        }
      }
    }
  }

  /** Removing `c` drops one occurrence of `c` between two parts. */
  lemma RemoveCharAt(a: string, x: char, b: string, c: char)
    ensures RemoveChar(a + [x] + b, c)
         == RemoveChar(a, c) + (if x == c then [] else [x]) + RemoveChar(b, c)
  {
    RemoveCharAppend(a + [x], b, c);
    RemoveCharAppend(a, [x], c);
    assert RemoveChar([x], c) == (if x == c then [] else [x]);
  }

  /** Thousands separators and dollar signs, wherever they stand, do not change the price. */
  lemma ExtractPriceIgnoresMarks(a: string, c: char, b: string)
    requires c == ',' || c == '$'
    ensures ExtractPrice(a + [c] + b) == ExtractPrice(a + b)
  {
    PriceTextIgnoresMarks(a, c, b);
  }

  lemma PriceTextIgnoresMarks(a: string, c: char, b: string)
    requires c == ',' || c == '$'
    ensures PriceText(a + [c] + b) == PriceText(a + b)
  {
    var a1 := RemoveChar(a, '$');
    var b1 := RemoveChar(b, '$');
    RemoveCharAt(a, c, b, '$');
    RemoveCharAppend(a, b, '$');
    if c == ',' {
      assert RemoveChar(a + [c] + b, '$') == a1 + [c] + b1;
      RemoveCharAt(a1, c, b1, ',');
      RemoveCharAppend(a1, b1, ',');
      assert RemoveChar(a1, ',') + [] + RemoveChar(b1, ',') == RemoveChar(a1, ',') + RemoveChar(b1, ',');
    } else {
      assert RemoveChar(a + [c] + b, '$') == a1 + [] + b1 == RemoveChar(a + b, '$');
    }
  }

  // ── year ───────────────────────────────────────────────────────

  /** Skip an optional `s` (as in "1960s") at index `k`. */
  function AfterS(t: string, k: nat): (e: nat)
    requires k <= |t|
    ensures k <= e <= |t|
  {
    if k < |t| && t[k] == 's' then k + 1 else k
  }

  /**
   * Where the four digits begin when the year regex `(?:c\.\s*)?\d{4}s?`
   * matches at `i`: after "c." and spaces, or at `i` itself.
   */
  function YearDigitsAt(t: string, i: nat): (r: Option<nat>)
    requires i <= |t|
    ensures r.Some? ==> i <= r.value && FourDigitsAt(t, r.value)
    ensures r.Some? ==> forall k :: i <= k < r.value ==> !IsDigit(t[k])
    ensures FourDigitsAt(t, i) ==> r == Some(i)
  {
    if StartsWith(t[i..], "c.") && FourDigitsAt(t, i + 2 + RunLength(t[i + 2..], IsSpace)) then
      assert t[i] == t[i..][..2][0] == 'c';
      Some(i + 2 + RunLength(t[i + 2..], IsSpace))
    else if FourDigitsAt(t, i) then Some(i)
    else None
  }

  /** The leftmost index at or after `from` where the year regex matches. */
  function FirstYearFrom(t: string, from: nat): (r: Option<nat>)
    requires from <= |t|
    ensures r.Some? ==> from <= r.value <= |t| && YearDigitsAt(t, r.value).Some?
    ensures r.Some? ==> forall k :: from <= k < r.value ==> YearDigitsAt(t, k).None?
    ensures r.None? ==> forall k :: from <= k <= |t| ==> YearDigitsAt(t, k).None?
    decreases |t| - from
  {
    if YearDigitsAt(t, from).Some? then Some(from)
    else if from == |t| then None
    else FirstYearFrom(t, from + 1)
  }

  /** `extract_year`: the leftmost "1965", "1960s", "c. 1965" or "c.1960s" in the title, or "". */
  function ExtractYear(title: string): (r: string)
    ensures r == "" <==> forall j :: 0 <= j ==> !FourDigitsAt(title, j)
    ensures Contains(title, r)
  {
    match FirstYearFrom(title, 0)
    case None =>
      ContainsEmpty(title);
      assert forall j :: 0 <= j ==> !FourDigitsAt(title, j) by {
        forall j | 0 <= j ensures !FourDigitsAt(title, j) {
          if j <= |title| {
            assert YearDigitsAt(title, j).None?;
          }
        }
      }
      ""
    case Some(i) =>
      var d := YearDigitsAt(title, i).value;
      ContainsSlice(title, i, AfterS(title, d + 4));
      title[i..AfterS(title, d + 4)]
  }

  /** A non-digit cannot start a four-digit run. */
  lemma NotDigitNoYear(s: string, j: nat)
    requires j < |s| && !IsDigit(s[j])
    ensures !FourDigitsAt(s, j)
  {
  }

  /** The first four-digit run, once located, is what `FirstFourDigits` reads. */
  lemma FirstFourDigitsAt(s: string, d: nat)
    requires FourDigitsAt(s, d)
    requires forall j :: 0 <= j < d ==> !FourDigitsAt(s, j)
    ensures FirstFourDigits(s) == Some(DigitsValue(s[d..d + 4]))
  {
    assert FirstFourDigitsFrom(s, 0) == Some(d);
  }

  /**
   * The year text read back by the valuation's "first four digits" rule is the
   * title's own first four-digit run: the "c." prefix and "s" suffix are harmless.
   */
  lemma ExtractYearDigits(title: string)
    ensures FirstFourDigits(ExtractYear(title)) == FirstFourDigits(title)
  {
    var y := FirstYearFrom(title, 0);
    if y.None? {
      assert ExtractYear(title) == "";
      assert FirstFourDigits("") == None by {
        assert forall j :: 0 <= j ==> !FourDigitsAt("", j);
      }
      assert FirstFourDigits(title) == None;
    } else {
      var i := y.value;
      var d := YearDigitsAt(title, i).value;
      var e := AfterS(title, d + 4);
      assert ExtractYear(title) == title[i..e];
      YearDigitsFirstInTitle(title, i, d);
      YearDigitsFirstInMatch(title, i, d, e);
    }
  }

  lemma YearDigitsFirstInTitle(title: string, i: nat, d: nat)
    requires FirstYearFrom(title, 0) == Some(i) && YearDigitsAt(title, i) == Some(d)
    ensures FirstFourDigits(title) == Some(DigitsValue(title[d..d + 4]))
  {
    forall j | 0 <= j < d ensures !FourDigitsAt(title, j) {
      if j < i {
        assert YearDigitsAt(title, j).None?;
      } else {
        NotDigitNoYear(title, j);
      }
    }
    FirstFourDigitsAt(title, d);
  }

  lemma YearDigitsFirstInMatch(title: string, i: nat, d: nat, e: nat)
    requires i <= |title| && YearDigitsAt(title, i) == Some(d) && d + 4 <= e <= |title|
    ensures FirstFourDigits(title[i..e]) == Some(DigitsValue(title[d..d + 4]))
  {
    var r := title[i..e];
    SliceOfSlice(title, i, e, d - i, d - i + 4);
    forall j | 0 <= j < d - i ensures !FourDigitsAt(r, j) {
      assert r[j] == title[i + j];
      NotDigitNoYear(r, j);
    }
    FirstFourDigitsAt(r, d - i);
  }

  lemma SliceOfSlice<T>(s: seq<T>, i: nat, e: nat, a: nat, b: nat)
    requires i <= e <= |s| && a <= b <= e - i
    ensures s[i..e][a..b] == s[i + a..i + b]
  {
    var l := s[i..e][a..b];
    forall k | 0 <= k < b - a
      ensures l[k] == s[i + a..i + b][k]
    {
      assert l[k] == s[i..e][a + k];
    }
  }

  // ── brand and model ────────────────────────────────────────────

  /** Brands recognised at the start of a title, tried in this order. */
  const KnownBrands: seq<string> := [
    "C. F. Martin", "C.F. Martin",
    "Kolya Panhuyzen", "Recording King", "Vicente Tatay",
    "Felipe Conde", "Jerry Jones", "Vivi-Tone",
    "D'Angelico", "D\U{2019}Angelico",
    "Gibson", "Fender", "Taylor", "Guild",
    "Epiphone", "Gretsch", "Rickenbacker",
    "Maccaferri", "Wandre", "Mosrite",
    "Ampeg", "Audiovox", "Hohner", "Martin"
  ]

  /**
   * The words that end a model name (`_SPLIT_RE`), lowercase, with the optional
   * hyphen or space of "Semi-Hollow", "12-String" and "Left-Handed" written out.
   */
  const SplitMarkers: seq<string> := [
    "flat top", "arch top", "solid body", "hollow body",
    "semi-hollow body", "semi hollow body",
    "12-string", "12 string", "12string",
    "tenor", "classical", "resophonic", "lap steel", "steel guitar",
    "harp guitar", "jumbo", "piggyback", "tube",
    "acoustic", "electric", "bass guitar",
    "owned", "played", "made by",
    "left-handed", "left handed", "lefthanded",
    "w/"
  ]

  /** `_SPLIT_RE` matches at `i`: a word boundary, then a marker in any letter case. */
  predicate SplitAt(s: string, i: nat)
    requires i <= |s|
  {
    (i == 0 || !IsWordChar(s[i - 1])) && MarkerFrom(Lower(s[i..]), 0)
  }

  /** Some marker at index `k` or later starts the lowercase text. */
  predicate MarkerFrom(ls: string, k: nat)
    decreases |SplitMarkers| - k
  {
    k < |SplitMarkers| && (StartsWith(ls, SplitMarkers[k]) || MarkerFrom(ls, k + 1))
  }

  /** `_SPLIT_RE.search(s)` from `from` on: the leftmost match. */
  function FirstSplitFrom(s: string, from: nat): (r: Option<nat>)
    requires from <= |s|
    ensures r.Some? ==> from <= r.value <= |s| && SplitAt(s, r.value)
    ensures r.Some? ==> forall j :: from <= j < r.value ==> !SplitAt(s, j)
    ensures r.None? ==> forall j :: from <= j <= |s| ==> !SplitAt(s, j)
    decreases |s| - from
  {
    if SplitAt(s, from) then Some(from)
    else if from == |s| then None
    else FirstSplitFrom(s, from + 1)
  }

  /** The characters `strip(" ,")` removes. */
  predicate IsSpaceOrComma(c: char) {
    c == ' ' || c == ','
  }

  /** The text up to the first split word (all of it when there is none). */
  function BeforeSplit(rest: string): (cut: string)
    ensures StartsWith(rest, cut)
    ensures forall j :: 0 <= j < |cut| ==> !SplitAt(rest, j)
  {
    match FirstSplitFrom(rest, 0)
    case Some(i) => rest[..i]
    case None => rest
  }

  /** The model is what precedes the first split word, without edge spaces and commas. */
  function ModelOf(rest: string): (m: string)
    ensures Contains(rest, m)
    ensures m == [] || (!IsSpaceOrComma(m[0]) && !IsSpaceOrComma(m[|m| - 1]))
  {
    var cut := BeforeSplit(rest);
    StripByContained(cut, IsSpaceOrComma);
    ContainsSlice(rest, 0, |cut|);
    assert rest[0..|cut|] == cut;
    ContainsTrans(rest, cut, StripBy(cut, IsSpaceOrComma));
    StripBy(cut, IsSpaceOrComma)
  }

  /**
   * `\s*(?:c\.\s*)?\d{3,4}s?\s*\)?\s*` matches all of `t`, read as a scanner:
   * state 0 leading spaces, 1 after "c", 2 spaces after "c.", 3 in the digits
   * (`n` of them so far), 4 spaces (after the optional "s") before ")", 5 after ")".
   */
  predicate YearTailFrom(t: string, st: nat, n: nat)
    decreases |t|
  {
    if t == [] then st >= 4 || (st == 3 && 3 <= n <= 4)
    else
      var c := t[0];
      match st
      case 0 =>
        if IsSpace(c) then YearTailFrom(t[1..], 0, 0)
        else if c == 'c' then YearTailFrom(t[1..], 1, 0)
        else IsDigit(c) && YearTailFrom(t[1..], 3, 1)
      case 1 => c == '.' && YearTailFrom(t[1..], 2, 0)
      case 2 =>
        if IsSpace(c) then YearTailFrom(t[1..], 2, 0)
        else IsDigit(c) && YearTailFrom(t[1..], 3, 1)
      case 3 =>
        if IsDigit(c) then n < 4 && YearTailFrom(t[1..], 3, n + 1)
        else if !(3 <= n <= 4) then false
        else if c == 's' || IsSpace(c) then YearTailFrom(t[1..], 4, 0)
        else c == ')' && YearTailFrom(t[1..], 5, 0)
      case 4 =>
        if IsSpace(c) then YearTailFrom(t[1..], 4, 0)
        else c == ')' && YearTailFrom(t[1..], 5, 0)
      case _ => IsSpace(c) && YearTailFrom(t[1..], 5, 0)
  }

  /** The whole year-tail regex after the "," or "(". */
  predicate YearTail(t: string) {
    YearTailFrom(t, 0, 0)
  }

  /** A "," or "(" at `i` opens a year tail that runs to the end of the title. */
  predicate TailAt(t: string, i: nat)
    requires i < |t|
  {
    t[i] in ",(" && YearTail(t[i + 1..])
  }

  /** The leftmost year tail at or after `from`. */
  function FirstTailFrom(t: string, from: nat): (r: Option<nat>)
    requires from <= |t|
    ensures r.Some? ==> from <= r.value < |t| && TailAt(t, r.value)
    ensures r.Some? ==> forall j :: from <= j < r.value ==> !TailAt(t, j)
    ensures r.None? ==> forall j :: from <= j < |t| ==> !TailAt(t, j)
    decreases |t| - from
  {
    if from == |t| then None
    else if TailAt(t, from) then Some(from)
    else FirstTailFrom(t, from + 1)
  }

  /** The title up to its year tail, or all of it when there is none. */
  function CutTail(title: string): (cut: string)
    ensures |cut| <= |title| && cut == title[..|cut|]
  {
    match FirstTailFrom(title, 0)
    case Some(i) => title[..i]
    case None => title
  }

  /** The title without a trailing ", 1965" / "(c. 1960s)" year tail, stripped. */
  function CleanTitle(title: string): (r: string)
    ensures Contains(title, r)
    ensures r == [] || (!IsSpace(r[0]) && !IsSpace(r[|r| - 1]))
  {
    var cut := CutTail(title);
    StripByContained(cut, IsSpace);
    ContainsSlice(title, 0, |cut|);
    assert title[0..|cut|] == cut;
    ContainsTrans(title, cut, Strip(cut));
    Strip(cut)
  }

  /** The brand of `brands` (by index) whose lowercase form starts the lowercase text, first in list order. */
  function KnownBrandFrom(brands: seq<string>, lc: string, from: nat): (r: Option<nat>)
    requires from <= |brands|
    ensures r.Some? ==> from <= r.value < |brands| && StartsWith(lc, Lower(brands[r.value]))
    ensures r.Some? ==> forall k :: from <= k < r.value ==> !StartsWith(lc, Lower(brands[k]))
    ensures r.None? ==> forall k :: from <= k < |brands| ==> !StartsWith(lc, Lower(brands[k]))
    decreases |brands| - from
  {
    if from == |brands| then None
    else if StartsWith(lc, Lower(brands[from])) then Some(from)
    else KnownBrandFrom(brands, lc, from + 1)
  }

  /** Some known brand starts the text, ignoring letter case. */
  predicate StartsWithKnownBrand(clean: string) {
    exists k :: 0 <= k < |KnownBrands| && StartsWith(Lower(clean), Lower(KnownBrands[k]))
  }

  /** The first whitespace-delimited word of a stripped text, and what follows it. */
  function FirstWord(clean: string): (r: (string, string))
    ensures clean == [] ==> r == ("", "")
    ensures forall i :: 0 <= i < |r.0| ==> !IsSpace(r.0[i])
    ensures StartsWith(clean, r.0)
    ensures Contains(clean, r.1)
  {
    var n := RunLength(clean, c => !IsSpace(c));
    var rest := StripLeft(clean[n..], IsSpace);
    ContainsSlice(clean, n + (|clean[n..]| - |rest|), |clean|);
    assert clean[n + (|clean[n..]| - |rest|)..|clean|] == rest;
    (clean[..n], rest)
  }

  /** The brand at the head of a cleaned title and the text left for the model. */
  function BrandAndRest(clean: string): (r: (string, string))
    ensures r.0 in KnownBrands <==> StartsWithKnownBrand(clean)
    ensures r.0 == [] || !IsSpace(r.0[0])
    ensures Contains(clean, r.1)
  {
    match KnownBrandFrom(KnownBrands, Lower(clean), 0)
    case Some(k) =>
      KnownBrandHeads(clean, k);
      KnownBrandsNonBlank();
      var tail := clean[|KnownBrands[k]|..];
      StripByContained(tail, IsSpace);
      ContainsSlice(clean, |KnownBrands[k]|, |clean|);
      assert clean[|KnownBrands[k]|..|clean|] == tail;
      ContainsTrans(clean, tail, Strip(tail));
      (KnownBrands[k], Strip(tail))
    case None =>
      var w := FirstWord(clean);
      FallbackNotKnown(clean, w.0);
      w
  }

  /** A first word that is itself a known brand would have been recognised as one. */
  lemma FallbackNotKnown(clean: string, brand: string)
    requires KnownBrandFrom(KnownBrands, Lower(clean), 0).None?
    requires StartsWith(clean, brand)
    ensures brand !in KnownBrands && !StartsWithKnownBrand(clean)
  {
    StartsWithLower(clean, brand);
  }

  /** A recognised brand heads the text. */
  lemma KnownBrandHeads(clean: string, k: nat)
    requires KnownBrandFrom(KnownBrands, Lower(clean), 0) == Some(k)
    ensures StartsWithKnownBrand(clean) && |KnownBrands[k]| <= |clean|
  {
  }

  /**
   * `extract_brand_model`: after cutting a trailing year tail, the first known
   * brand the title starts with (in any letter case) or else its first word;
   * the model is the rest up to the first type word.
   */
  function ExtractBrandModel(title: string): (r: (string, string))
    ensures r.0 in KnownBrands <==> StartsWithKnownBrand(CleanTitle(title))
    ensures r.0 == [] || !IsSpace(r.0[0])
    ensures Contains(title, r.1)
    ensures r.1 == [] || (!IsSpaceOrComma(r.1[0]) && !IsSpaceOrComma(r.1[|r.1| - 1]))
  {
    var clean := CleanTitle(title);
    var br := BrandAndRest(clean);
    var model := ModelOf(br.1);
    ContainsTrans(clean, br.1, model);
    ContainsTrans(title, clean, model);
    (br.0, model)
  }

  /** The first listed brand that starts the cleaned title wins, whatever brands follow it. */
  lemma ExtractBrandFirstKnown(title: string, k: nat)
    requires k < |KnownBrands| && StartsWith(Lower(CleanTitle(title)), Lower(KnownBrands[k]))
    requires forall j :: 0 <= j < k ==> !StartsWith(Lower(CleanTitle(title)), Lower(KnownBrands[j]))
    ensures ExtractBrandModel(title).0 == KnownBrands[k]
  {
    var lc := Lower(CleanTitle(title));
    var r := KnownBrandFrom(KnownBrands, lc, 0);
    assert r.Some?;
    assert r.value == k;
  }

  /** Without a known brand, the brand is the title's first word and carries no space. */
  lemma ExtractBrandFallback(title: string)
    requires !StartsWithKnownBrand(CleanTitle(title))
    ensures ExtractBrandModel(title).0 == FirstWord(CleanTitle(title)).0
    ensures StartsWith(CleanTitle(title), ExtractBrandModel(title).0)
    ensures CleanTitle(title) != [] ==> ExtractBrandModel(title).0 != []
  {
    var clean := CleanTitle(title);
    NoKnownBrandFound(clean);
    assert BrandAndRest(clean) == FirstWord(clean);
    assert ExtractBrandModel(title).0 == BrandAndRest(clean).0;
    if clean != [] {
      FirstWordNonEmpty(clean);
    }
  }

  lemma NoKnownBrandFound(clean: string)
    requires !StartsWithKnownBrand(clean)
    ensures KnownBrandFrom(KnownBrands, Lower(clean), 0).None?
  {
  }

  /** A text that starts with a non-space has a non-empty first word. */
  lemma FirstWordNonEmpty(clean: string)
    requires clean != [] && !IsSpace(clean[0])
    ensures FirstWord(clean).0 != []
  {
  }

  /** The year tail accepts " 1965". */
  lemma YearTailAcceptsYear()
    ensures YearTail(" 1965")
  {
  }

  /** The year tail accepts "c. 1960s)". */
  lemma YearTailAcceptsDecade()
    ensures YearTail("c. 1960s)")
  {
  }

  /** The year tail refuses five digits and two digits. */
  lemma YearTailRefuses()
    ensures !YearTail(" 19650") && !YearTail(" 65")
  {
  }

  /** Inside the digits, having read `n`, the rest of a digit run is accepted iff the run totals 3 or 4. */
  lemma {:induction false} DigitRunFrom(d: string, n: nat)
    requires AllDigits(d) && 1 <= n <= 4
    ensures YearTailFrom(d, 3, n) <==> 3 <= n + |d| <= 4
    decreases |d|
  {
    if d != [] {
      assert IsDigit(d[0]);
      if n < 4 {
        assert AllDigits(d[1..]) by {
          assert forall i :: 0 <= i < |d[1..]| ==> d[1..][i] == d[i + 1];
        }
        DigitRunFrom(d[1..], n + 1);
      }
    }
  }

  /** A space and a run of digits form a year tail iff the run has three or four digits (`\d{3,4}`). */
  lemma YearTailDigitRun(d: string)
    requires AllDigits(d)
    ensures YearTail(" " + d) <==> 3 <= |d| <= 4
  {
    var t := " " + d;
    assert t[0] == ' ' && t[1..] == d;
    assert YearTail(t) == YearTailFrom(d, 0, 0);
    if d != [] {
      assert IsDigit(d[0]) && !IsSpace(d[0]) && d[0] != 'c';
      assert YearTailFrom(d, 0, 0) == YearTailFrom(d[1..], 3, 1);
      assert AllDigits(d[1..]) by {
        assert forall i :: 0 <= i < |d[1..]| ==> d[1..][i] == d[i + 1];
      }
      DigitRunFrom(d[1..], 1);
    }
  }

  // ── Reverb price guide ─────────────────────────────────────────

  /** `re.sub(r"[^a-z]", "", s.lower())`: the lowercase ASCII letters of `s`, in order. */
  function LettersOf(s: string): string {
    Filter(Lower(s), IsAsciiLower)
  }

  /** `_brands_match`: the letter forms are both non-empty and one contains the other. */
  predicate BrandsMatch(queryBrand: string, make: string) {
    var a := LettersOf(queryBrand);
    var b := LettersOf(make);
    a != [] && b != [] && (Contains(b, a) || Contains(a, b))
  }

  /** Brand matching ignores letter case. */
  lemma BrandsMatchIgnoresCase(queryBrand: string, make: string)
    ensures BrandsMatch(Upper(queryBrand), make) == BrandsMatch(queryBrand, make)
    ensures BrandsMatch(queryBrand, Upper(make)) == BrandsMatch(queryBrand, make)
  {
    LowerOfUpper(queryBrand);
    LowerOfUpper(make);
  }

  /** A brand with at least one letter matches itself, and nothing matches a letterless make. */
  lemma BrandsMatchReflexive(queryBrand: string, make: string)
    ensures LettersOf(queryBrand) != [] ==> BrandsMatch(queryBrand, queryBrand)
    ensures LettersOf(make) == [] ==> !BrandsMatch(queryBrand, make)
  {
    ContainsSelf(LettersOf(queryBrand));
  }

  /** Brand matching is symmetric. */
  lemma BrandsMatchSymmetric(a: string, b: string)
    ensures BrandsMatch(a, b) == BrandsMatch(b, a)
  {
  }

  /** Any brand whose letters occur inside the make's letters matches it ("C. F. Martin" and "Martin"). */
  lemma BrandsMatchInside(queryBrand: string, make: string, i: nat)
    requires LettersOf(make) != [] && OccursAt(LettersOf(queryBrand), LettersOf(make), i)
    ensures BrandsMatch(queryBrand, make)
  {
    ContainsAt(LettersOf(queryBrand), LettersOf(make), i);
  }

  predicate IsAsciiAlnum(c: char) {
    IsAsciiUpper(c) || IsAsciiLower(c) || IsDigit(c)
  }

  /** `re.sub(r"^[^a-zA-Z0-9]+", "", model).strip()` */
  function CleanModel(model: string): (m: string)
    ensures m == [] || (!IsSpace(m[0]) && !IsSpace(m[|m| - 1]))
  {
    Strip(StripLeft(model, c => !IsAsciiAlnum(c)))
  }

  /** The full cleaned model, then its first two words when it has more than two. */
  function ModelVariants(model: string): (ms: seq<string>)
    ensures 1 <= |ms| <= 2 && ms[0] == CleanModel(model)
    ensures |ms| == 2 <==> |SplitWs(CleanModel(model))| > 2
  {
    var m := CleanModel(model);
    var ws := SplitWs(m);
    if |ws| > 2 then [m, JoinSpace(ws[..2])] else [m]
  }

  /** `brand.split()[-1] if brand else ""`; a blank, non-empty brand raises `IndexError`. */
  predicate BrandSplittable(brand: string) {
    brand == "" || SplitWs(brand) != []
  }

  /** The brand, then its last word when that differs from it ignoring case. */
  function BrandVariants(brand: string): (bs: seq<string>)
    requires BrandSplittable(brand)
    ensures 1 <= |bs| <= 2 && bs[0] == brand
    ensures |bs| == 2 ==> bs[1] in SplitWs(brand) && Lower(bs[1]) != Lower(brand)
  {
    var short := if brand == "" then "" else SplitWs(brand)[|SplitWs(brand)| - 1];
    if Lower(short) != Lower(brand) then [brand, short] else [brand]
  }

  /** With a year: the year, then none; without one: none. */
  function YearVariants(year: string): (ys: seq<string>)
    ensures 1 <= |ys| <= 2 && ys[|ys| - 1] == ""
    ensures ys[0] == year
  {
    if year != "" then [year, ""] else [""]
  }

  /** `f"{b} {m} {y}".strip()` */
  function Query(b: string, m: string, y: string): string {
    Strip(b + " " + m + " " + y)
  }

  /** The queries for one year: brands outer, models inner. */
  function QueryRow(y: string, bs: seq<string>, ms: seq<string>): (r: seq<string>)
    ensures |r| == |bs| * |ms|
    decreases |bs|
  {
    if bs == [] then []
    else seq(|ms|, k requires 0 <= k < |ms| => Query(bs[0], ms[k], y)) + QueryRow(y, bs[1..], ms)
  }

  /** Every query in nested-loop order: years outermost, then brands, then models. */
  function QueryGrid(ys: seq<string>, bs: seq<string>, ms: seq<string>): (r: seq<string>)
    ensures |r| == |ys| * (|bs| * |ms|)
    decreases |ys|
  {
    if ys == [] then [] else QueryRow(ys[0], bs, ms) + QueryGrid(ys[1..], bs, ms)
  }

  lemma {:induction false} QueryRowHas(y: string, bs: seq<string>, ms: seq<string>, b: string, m: string)
    requires b in bs && m in ms
    ensures Query(b, m, y) in QueryRow(y, bs, ms)
    decreases |bs|
  {
    var head := seq(|ms|, k requires 0 <= k < |ms| => Query(bs[0], ms[k], y));
    if bs[0] == b {
      var k :| 0 <= k < |ms| && ms[k] == m;
      assert head[k] == Query(b, m, y);
      assert QueryRow(y, bs, ms)[k] == head[k];
    } else {
      QueryRowHas(y, bs[1..], ms, b, m);
      assert QueryRow(y, bs, ms) == head + QueryRow(y, bs[1..], ms);
    }
  }

  lemma {:induction false} QueryGridHas(ys: seq<string>, bs: seq<string>, ms: seq<string>, y: string, b: string, m: string)
    requires y in ys && b in bs && m in ms
    ensures Query(b, m, y) in QueryGrid(ys, bs, ms)
    decreases |ys|
  {
    if ys[0] == y {
      QueryRowHas(y, bs, ms, b, m);
    } else {
      QueryGridHas(ys[1..], bs, ms, y, b, m);
    }
  }

  predicate NonEmpty(q: string) {
    q != ""
  }

  function Id(q: string): string {
    q
  }

  /** At most two of each variant: at most eight queries. */
  lemma SmallProduct(a: nat, b: nat, c: nat)
    requires 1 <= a <= 2 && 1 <= b <= 2 && 1 <= c <= 2
    ensures a * (b * c) <= 8
  {
  }

  /** The non-empty queries of the grid, each once, in grid order. */
  function DistinctQueries(grid: seq<string>): (qs: seq<string>)
    ensures forall i :: 0 <= i < |qs| ==> qs[i] != "" && qs[i] in grid
    ensures forall i, j :: 0 <= i < j < |qs| ==> qs[i] != qs[j]
    ensures |qs| <= |grid|
  {
    var kept := Filter(grid, NonEmpty);
    var qs := KeepFirst(kept, Id, {});
    assert forall i :: 0 <= i < |qs| ==> qs[i] in kept;
    assert forall i, j :: 0 <= i < j < |qs| ==> Id(qs[i]) != Id(qs[j]);
    qs
  }

  /** Every non-empty query of the grid survives. */
  lemma DistinctQueriesCover(grid: seq<string>, q: string)
    requires q in grid && q != ""
    ensures q in DistinctQueries(grid)
  {
    FilterKeeps(grid, NonEmpty, q);
    var kept := Filter(grid, NonEmpty);
    KeepFirstCovers(kept, Id, {});
    var i :| 0 <= i < |kept| && kept[i] == q;
    assert Id(kept[i]) in Ids(kept, Id);
    var qs := DistinctQueries(grid);
    assert qs == KeepFirst(kept, Id, {});
    assert q in Ids(qs, Id);
    var j :| 0 <= j < |qs| && Id(qs[j]) == q;
  }

  /** A non-empty first query of the grid stays first. */
  lemma DistinctQueriesFirst(grid: seq<string>)
    requires grid != [] && grid[0] != ""
    ensures DistinctQueries(grid) != [] && DistinctQueries(grid)[0] == grid[0]
  {
    var kept := Filter(grid, NonEmpty);
    assert kept[0] == grid[0];
  }

  /**
   * The Reverb queries, most specific first: every year/brand/model
   * combination, non-empty and without repeats.
   */
  function ReverbQueries(brand: string, model: string, year: string): (qs: seq<string>)
    requires BrandSplittable(brand)
    ensures forall i :: 0 <= i < |qs| ==> qs[i] != ""
    ensures forall i, j :: 0 <= i < j < |qs| ==> qs[i] != qs[j]
    ensures forall i :: 0 <= i < |qs| ==> qs[i] in QueryGrid(YearVariants(year), BrandVariants(brand), ModelVariants(model))
    ensures |qs| <= 8
  {
    var ys := YearVariants(year);
    var bs := BrandVariants(brand);
    var ms := ModelVariants(model);
    SmallProduct(|ys|, |bs|, |ms|);
    DistinctQueries(QueryGrid(ys, bs, ms))
  }

  /** Every non-empty combination of the variants is among the queries. */
  lemma ReverbQueriesCover(brand: string, model: string, year: string, y: string, b: string, m: string)
    requires BrandSplittable(brand)
    requires y in YearVariants(year) && b in BrandVariants(brand) && m in ModelVariants(model)
    requires Query(b, m, y) != ""
    ensures Query(b, m, y) in ReverbQueries(brand, model, year)
  {
    var ys := YearVariants(year);
    var bs := BrandVariants(brand);
    var ms := ModelVariants(model);
    QueryGridHas(ys, bs, ms, y, b, m);
    DistinctQueriesCover(QueryGrid(ys, bs, ms), Query(b, m, y));
  }

  /** The first query is the full brand, model and year, when that is not blank. */
  lemma ReverbQueriesFirst(brand: string, model: string, year: string)
    requires BrandSplittable(brand)
    requires Query(brand, CleanModel(model), year) != ""
    ensures ReverbQueries(brand, model, year) != []
    ensures ReverbQueries(brand, model, year)[0] == Query(brand, CleanModel(model), year)
  {
    var ys := YearVariants(year);
    var bs := BrandVariants(brand);
    var ms := ModelVariants(model);
    var grid := QueryGrid(ys, bs, ms);
    assert QueryRow(ys[0], bs, ms)[0] == Query(brand, CleanModel(model), year);
    assert grid[0] == Query(brand, CleanModel(model), year);
    DistinctQueriesFirst(grid);
  }

  /** One price-guide entry: the make and, when present, the estimated low and high. */
  datatype PriceGuide = PriceGuide(make: string, estimate: Option<(real, real)>)

  /** The estimates of the entries whose make matches the brand, in order. */
  function MatchingEstimates(brand: string, guides: seq<PriceGuide>): (es: seq<(real, real)>)
    ensures |es| <= |guides|
    ensures forall e :: e in es ==> exists g :: g in guides && g.estimate == Some(e) && BrandsMatch(brand, g.make)
    decreases |guides|
  {
    if guides == [] then []
    else
      var g := guides[0];
      var rest := MatchingEstimates(brand, guides[1..]);
      assert forall e :: e in rest ==> exists h :: h in guides && h.estimate == Some(e) && BrandsMatch(brand, h.make) by {
        forall e | e in rest ensures exists h :: h in guides && h.estimate == Some(e) && BrandsMatch(brand, h.make) {
          var h :| h in guides[1..] && h.estimate == Some(e) && BrandsMatch(brand, h.make);
          assert h in guides;
        }
      }
      if g.estimate.Some? && BrandsMatch(brand, g.make) then [g.estimate.value] + rest else rest
  }

  /** An entry with an estimate and a matching make contributes its estimate. */
  lemma {:induction false} MatchingEstimatesKeeps(brand: string, guides: seq<PriceGuide>, g: PriceGuide)
    requires g in guides && g.estimate.Some? && BrandsMatch(brand, g.make)
    ensures g.estimate.value in MatchingEstimates(brand, guides)
    decreases |guides|
  {
    if guides[0] != g {
      MatchingEstimatesKeeps(brand, guides[1..], g);
    }
  }

  function Lows(es: seq<(real, real)>): (r: seq<real>)
    ensures |r| == |es| && forall i :: 0 <= i < |es| ==> r[i] == es[i].0
  {
    seq(|es|, i requires 0 <= i < |es| => es[i].0)
  }

  function Highs(es: seq<(real, real)>): (r: seq<real>)
    ensures |r| == |es| && forall i :: 0 <= i < |es| ==> r[i] == es[i].1
  {
    seq(|es|, i requires 0 <= i < |es| => es[i].1)
  }

  /** The mean low and mean high of the matching estimates, or nothing when none match. */
  function AverageRange(brand: string, guides: seq<PriceGuide>): (r: Option<(real, real)>)
    ensures r.None? <==> MatchingEstimates(brand, guides) == []
  {
    var es := MatchingEstimates(brand, guides);
    if es == [] then None else Some((Mean(Lows(es)), Mean(Highs(es))))
  }

  /** When every estimate has its low at most its high, so do the averages. */
  lemma AverageRangeOrdered(brand: string, guides: seq<PriceGuide>)
    requires forall g :: g in guides && g.estimate.Some? ==> g.estimate.value.0 <= g.estimate.value.1
    ensures AverageRange(brand, guides).Some? ==>
      AverageRange(brand, guides).value.0 <= AverageRange(brand, guides).value.1
  {
    var es := MatchingEstimates(brand, guides);
    if es != [] {
      forall i | 0 <= i < |es| ensures Lows(es)[i] <= Highs(es)[i] {
        assert es[i] in es;
      }
      MeanLe(Lows(es), Highs(es));
    }
  }

  /** The averages lie within any bounds that hold for every matching estimate. */
  lemma AverageRangeBetween(brand: string, guides: seq<PriceGuide>, lo: real, hi: real)
    requires forall g :: g in guides && g.estimate.Some? ==>
      lo <= g.estimate.value.0 <= hi && lo <= g.estimate.value.1 <= hi
    ensures AverageRange(brand, guides).Some? ==>
      lo <= AverageRange(brand, guides).value.0 <= hi && lo <= AverageRange(brand, guides).value.1 <= hi
  {
    var es := MatchingEstimates(brand, guides);
    if es != [] {
      forall i | 0 <= i < |es| ensures lo <= Lows(es)[i] <= hi && lo <= Highs(es)[i] <= hi {
        assert es[i] in es;
      }
      MeanBetween(Lows(es), lo, hi);
      MeanBetween(Highs(es), lo, hi);
    }
  }

  /**
   * What one price-guide request gives: the entries, or `None` when the request
   * or the parsing of its answer failed (the loop then moves on).
   */
  type Lookup = string -> Option<seq<PriceGuide>>

  /** The answer to query `q` yields a matching estimate. */
  predicate Answers(brand: string, lookup: Lookup, q: string) {
    lookup(q).Some? && MatchingEstimates(brand, lookup(q).value) != []
  }

  /** The first query, at or after `from`, whose answer yields a matching estimate. */
  function FirstAnswer(brand: string, qs: seq<string>, lookup: Lookup, from: nat): (r: Option<nat>)
    requires from <= |qs|
    ensures r.Some? ==> from <= r.value < |qs| && Answers(brand, lookup, qs[r.value])
    ensures r.Some? ==> forall j :: from <= j < r.value ==> !Answers(brand, lookup, qs[j])
    ensures r.None? ==> forall j :: from <= j < |qs| ==> !Answers(brand, lookup, qs[j])
    decreases |qs| - from
  {
    if from == |qs| then None
    else if Answers(brand, lookup, qs[from]) then Some(from)
    else FirstAnswer(brand, qs, lookup, from + 1)
  }

  /**
   * `reverb_price` with the HTTP lookup passed in: the averaged estimate of the
   * first query that yields one, or nothing when no query does.
   */
  function ReverbPrice(brand: string, model: string, year: string, lookup: Lookup): (r: Option<(real, real)>)
    requires BrandSplittable(brand)
    ensures r.None? <==> forall q :: q in ReverbQueries(brand, model, year) ==> !Answers(brand, lookup, q)
    ensures r.Some? ==>
      exists i ::
        && 0 <= i < |ReverbQueries(brand, model, year)|
        && Answers(brand, lookup, ReverbQueries(brand, model, year)[i])
        && (forall j :: 0 <= j < i ==> !Answers(brand, lookup, ReverbQueries(brand, model, year)[j]))
        && r == AverageRange(brand, lookup(ReverbQueries(brand, model, year)[i]).value)
  {
    var qs := ReverbQueries(brand, model, year);
    match FirstAnswer(brand, qs, lookup, 0)
    case None => None
    case Some(i) => AverageRange(brand, lookup(qs[i]).value)
  }

  /** A word that starts with a non-space character splits into at least one word. */
  lemma NonBlankSplits(b: string)
    requires b != [] && !IsSpace(b[0])
    ensures SplitWs(b) != []
  {
  }

  /** Every known brand starts with a letter. */
  lemma KnownBrandsNonBlank()
    ensures forall k :: 0 <= k < |KnownBrands| ==> KnownBrands[k] != [] && !IsSpace(KnownBrands[k][0])
  {
  }

  /** A brand read off a title can always be split into words. */
  lemma ExtractedBrandSplittable(title: string)
    ensures BrandSplittable(ExtractBrandModel(title).0)
  {
    var b := ExtractBrandModel(title).0;
    if b != "" {
      NonBlankSplits(b);
    }
  }
}

=== FILE: seqs.dfy ===
/**
 * List helpers with Python's meaning: `sum`, counting, filtering,
 * `sorted(..., reverse=True)` (stable), first-wins de-duplication and slices.
 */
module Seqs {
  import opened Wrappers

  function Sum(xs: seq<real>): real
    decreases |xs|
  {
    if xs == [] then 0.0 else xs[0] + Sum(xs[1..])
  }

  lemma {:induction false} SumAppend(xs: seq<real>, ys: seq<real>)
    ensures Sum(xs + ys) == Sum(xs) + Sum(ys)
    decreases |xs|
  {
    if xs != [] {
      assert (xs + ys)[0] == xs[0];
      assert (xs + ys)[1..] == xs[1..] + ys;
      SumAppend(xs[1..], ys);
    } else {
      assert xs + ys == ys;
    }
  }

  lemma {:induction false} SumNonNegative(xs: seq<real>)
    requires forall i :: 0 <= i < |xs| ==> xs[i] >= 0.0
    ensures Sum(xs) >= 0.0
    decreases |xs|
  {
    if xs != [] {
      SumNonNegative(xs[1..]);
    }
  }

  /** A sum of non-negative elements is at least each of them. */
  lemma {:induction false} SumAtLeast(xs: seq<real>, k: nat)
    requires k < |xs| && forall i :: 0 <= i < |xs| ==> xs[i] >= 0.0
    ensures Sum(xs) >= xs[k]
    decreases k
  {
    SumNonNegative(xs[1..]);
    if k > 0 {
      SumAtLeast(xs[1..], k - 1);
    }
  }

  /** Elements between `lo` and `hi` sum to between `n * lo` and `n * hi`. */
  lemma {:induction false} SumBetween(xs: seq<real>, lo: real, hi: real)
    requires forall i :: 0 <= i < |xs| ==> lo <= xs[i] <= hi
    ensures lo * |xs| as real <= Sum(xs) <= hi * |xs| as real
    decreases |xs|
  {
    if xs != [] {
      SumBetween(xs[1..], lo, hi);
      assert lo * |xs| as real == lo + lo * |xs[1..]| as real;
      assert hi * |xs| as real == hi + hi * |xs[1..]| as real;
    }
  }

  /** Sums respect an elementwise order. */
  lemma {:induction false} SumLe(xs: seq<real>, ys: seq<real>)
    requires |xs| == |ys| && forall i :: 0 <= i < |xs| ==> xs[i] <= ys[i]
    ensures Sum(xs) <= Sum(ys)
    decreases |xs|
  {
    if xs != [] {
      SumLe(xs[1..], ys[1..]);
    }
  }

  /** `sum(xs) / len(xs)` */
  function Mean(xs: seq<real>): real
    requires xs != []
  {
    Sum(xs) / |xs| as real
  }

  /** The mean lies between any lower and upper bound of the elements. */
  lemma MeanBetween(xs: seq<real>, lo: real, hi: real)
    requires xs != [] && forall i :: 0 <= i < |xs| ==> lo <= xs[i] <= hi
    ensures lo <= Mean(xs) <= hi
  {
    SumBetween(xs, lo, hi);
    DivBetween(Sum(xs), |xs| as real, lo, hi);
  }

  /** Dividing by a positive `n` keeps `lo * n <= x <= hi * n` between `lo` and `hi`. */
  lemma DivBetween(x: real, n: real, lo: real, hi: real)
    requires n > 0.0 && lo * n <= x <= hi * n
    ensures lo <= x / n <= hi
  {
    var q := x / n;
    assert (q - lo) * n == x - lo * n;
    assert (hi - q) * n == hi * n - x;
  }

  /** Means respect an elementwise order. */
  lemma MeanLe(xs: seq<real>, ys: seq<real>)
    requires xs != [] && |xs| == |ys| && forall i :: 0 <= i < |xs| ==> xs[i] <= ys[i]
    ensures Mean(xs) <= Mean(ys)
  {
    SumLe(xs, ys);
    var n := |xs| as real;
    assert Mean(ys) - Mean(xs) == (Sum(ys) - Sum(xs)) / n;
  }

  /** `max(xs)` of a non-empty list: an upper bound that is one of the elements. */
  function MaxOf(xs: seq<real>): (m: real)
    requires xs != []
    ensures forall i :: 0 <= i < |xs| ==> xs[i] <= m
    ensures m in xs
    decreases |xs|
  {
    if |xs| == 1 then xs[0]
    else
      var rest := MaxOf(xs[1..]);
      assert forall i :: 1 <= i < |xs| ==> xs[i] == xs[1..][i - 1];
      if xs[0] >= rest then xs[0] else rest
  }

  /** `min(xs)` of a non-empty list: a lower bound that is one of the elements. */
  function MinOf(xs: seq<real>): (m: real)
    requires xs != []
    ensures forall i :: 0 <= i < |xs| ==> m <= xs[i]
    ensures m in xs
    decreases |xs|
  {
    if |xs| == 1 then xs[0]
    else
      var rest := MinOf(xs[1..]);
      assert forall i :: 1 <= i < |xs| ==> xs[i] == xs[1..][i - 1];
      if xs[0] <= rest then xs[0] else rest
  }

  /** `len([x for x in xs if p(x)])` */
  function CountIf<T>(xs: seq<T>, p: T -> bool): (n: nat)
    ensures n <= |xs|
    decreases |xs|
  {
    if xs == [] then 0 else (if p(xs[0]) then 1 else 0) + CountIf(xs[1..], p)
  }

  /** `[x for x in xs if p(x)]` */
  function Filter<T>(xs: seq<T>, p: T -> bool): (r: seq<T>)
    ensures |r| == CountIf(xs, p)
    ensures forall i :: 0 <= i < |r| ==> p(r[i]) && r[i] in xs
    decreases |xs|
  {
    if xs == [] then []
    else if p(xs[0]) then [xs[0]] + Filter(xs[1..], p)
    else Filter(xs[1..], p)
  }

  lemma {:induction false} FilterAppend<T>(xs: seq<T>, ys: seq<T>, p: T -> bool)
    ensures Filter(xs + ys, p) == Filter(xs, p) + Filter(ys, p)
    decreases |xs|
  {
    if xs != [] {
      assert (xs + ys)[0] == xs[0];
      assert (xs + ys)[1..] == xs[1..] + ys;
      FilterAppend(xs[1..], ys, p);
    } else {
      assert xs + ys == ys;
    }
  }

  /** An element satisfying `p` survives the filter. */
  lemma {:induction false} FilterKeeps<T>(xs: seq<T>, p: T -> bool, x: T)
    requires x in xs && p(x)
    ensures x in Filter(xs, p)
    decreases |xs|
  {
    if xs[0] != x {
      FilterKeeps(xs[1..], p, x);
    }
  }

  /** A filter that every element passes keeps the sequence whole. */
  lemma {:induction false} FilterAll<T>(xs: seq<T>, p: T -> bool)
    requires forall i :: 0 <= i < |xs| ==> p(xs[i])
    ensures Filter(xs, p) == xs
    decreases |xs|
  {
    if xs != [] {
      FilterAll(xs[1..], p);
    }
  }

  /** A filter that no element passes leaves nothing. */
  lemma {:induction false} FilterNone<T>(xs: seq<T>, p: T -> bool)
    requires forall i :: 0 <= i < |xs| ==> !p(xs[i])
    ensures Filter(xs, p) == []
    decreases |xs|
  {
    if xs != [] {
      FilterNone(xs[1..], p);
    }
  }

  /** A run the filter keeps whole comes through in front of the filtered rest. */
  lemma FilterRunKept<T>(s: seq<T>, i: nat, j: nat, p: T -> bool)
    requires i <= j <= |s|
    requires forall k :: i <= k < j ==> p(s[k])
    ensures Filter(s[i..], p) == s[i..j] + Filter(s[j..], p)
  {
    var run := s[i..j];
    forall k | 0 <= k < |run| ensures p(run[k]) {
      assert run[k] == s[i + k];
    }
    FilterAll(run, p);
    assert s[i..] == run + s[j..];
    FilterAppend(run, s[j..], p);
  }

  /** A run the filter drops entirely vanishes from the filtered rest. */
  lemma FilterRunDropped<T>(s: seq<T>, i: nat, j: nat, p: T -> bool)
    requires i <= j <= |s|
    requires forall k :: i <= k < j ==> !p(s[k])
    ensures Filter(s[i..], p) == Filter(s[j..], p)
  {
    var run := s[i..j];
    forall k | 0 <= k < |run| ensures !p(run[k]) {
      assert run[k] == s[i + k];
    }
    FilterNone(run, p);
    assert s[i..] == run + s[j..];
    FilterAppend(run, s[j..], p);
  }

  /** `sorted(xs, key=key, reverse=True)` is non-increasing in `key`. */
  predicate SortedDesc<T>(xs: seq<T>, key: T -> real) {
    forall i, j :: 0 <= i < j < |xs| ==> key(xs[i]) >= key(xs[j])
  }

  /**
   * Insert `x` into a non-increasing `s` in front of the first element whose
   * key is not larger: among equal keys, `x` (the earlier element) stays first.
   */
  function InsertDesc<T>(x: T, s: seq<T>, key: T -> real): (r: seq<T>)
    ensures |r| == |s| + 1
    ensures multiset(r) == multiset(s) + multiset{x}
    decreases |s|
  {
    if s == [] || key(s[0]) <= key(x) then [x] + s
    else
      assert s == [s[0]] + s[1..];
      [s[0]] + InsertDesc(x, s[1..], key)
  }

  lemma {:induction false} InsertDescSorted<T>(x: T, s: seq<T>, key: T -> real)
    requires SortedDesc(s, key)
    ensures SortedDesc(InsertDesc(x, s, key), key)
    decreases |s|
  {
    if s != [] && key(s[0]) > key(x) {
      InsertDescSorted(x, s[1..], key);
      var r := InsertDesc(x, s, key);
      var t := InsertDesc(x, s[1..], key);
      assert r == [s[0]] + t;
      forall k | 0 <= k < |t| ensures key(s[0]) >= key(t[k]) {
        assert t[k] in multiset(s[1..]) + multiset{x};
        if t[k] != x {
          assert t[k] in s[1..];
        }
      }
    }
  }

  /** Python's stable descending sort (`sorted(xs, key=key, reverse=True)`). */
  function SortDesc<T>(xs: seq<T>, key: T -> real): (r: seq<T>)
    ensures |r| == |xs|
    ensures multiset(r) == multiset(xs)
    decreases |xs|
  {
    if xs == [] then []
    else
      assert xs == [xs[0]] + xs[1..];
      InsertDesc(xs[0], SortDesc(xs[1..], key), key)
  }

  lemma {:induction false} SortDescSorted<T>(xs: seq<T>, key: T -> real)
    ensures SortedDesc(SortDesc(xs, key), key)
    decreases |xs|
  {
    if xs != [] {
      SortDescSorted(xs[1..], key);
      InsertDescSorted(xs[0], SortDesc(xs[1..], key), key);
    }
  }

  /** Elements whose key is exactly `v`, in order. */
  function WithKey<T>(xs: seq<T>, key: T -> real, v: real): seq<T> {
    Filter(xs, (e: T) => key(e) == v)
  }

  lemma {:induction false} InsertDescWithKey<T>(x: T, s: seq<T>, key: T -> real, v: real)
    requires SortedDesc(s, key)
    ensures WithKey(InsertDesc(x, s, key), key, v)
         == (if key(x) == v then [x] else []) + WithKey(s, key, v)
    decreases |s|
  {
    var p := (e: T) => key(e) == v;
    if s == [] || key(s[0]) <= key(x) {
      assert ([x] + s)[1..] == s;
    } else {
      var r := InsertDesc(x, s, key);
      assert r[1..] == InsertDesc(x, s[1..], key);
      InsertDescWithKey(x, s[1..], key, v);
      if key(x) == v {
        // s[0] has a larger key than x, so it is not kept
        assert !p(s[0]);
      }
    }
  }

  /**
   * Stability: among elements with equal keys the sort keeps the input order.
   */
  lemma {:induction false} SortDescStable<T>(xs: seq<T>, key: T -> real, v: real)
    ensures WithKey(SortDesc(xs, key), key, v) == WithKey(xs, key, v)
    decreases |xs|
  {
    if xs != [] {
      SortDescSorted(xs[1..], key);
      SortDescStable(xs[1..], key, v);
      InsertDescWithKey(xs[0], SortDesc(xs[1..], key), key, v);
    }
  }

  /** Python's `xs[:n]` for any integer `n` (a negative `n` counts from the end). */
  function PyTake<T>(xs: seq<T>, n: int): (r: seq<T>)
    ensures n >= 0 ==> |r| == if n <= |xs| then n else |xs|
    ensures n < 0 ==> |r| == if |xs| + n >= 0 then |xs| + n else 0
    ensures r == xs[..|r|]
  {
    if n >= 0 then (if n <= |xs| then xs[..n] else xs)
    else if |xs| + n >= 0 then xs[..|xs| + n] else []
  }

  /**
   * The first `n` of a descending sort: still sorted, drawn from the input,
   * and no element left out has a larger key than one kept.
   */
  lemma TopOfSorted<T>(xs: seq<T>, key: T -> real, n: int)
    ensures SortedDesc(PyTake(SortDesc(xs, key), n), key)
    ensures multiset(PyTake(SortDesc(xs, key), n)) <= multiset(xs)
    ensures forall x, y :: x in PyTake(SortDesc(xs, key), n) && y in xs && y !in PyTake(SortDesc(xs, key), n) ==>
      key(x) >= key(y)
  {
    var sorted := SortDesc(xs, key);
    SortDescSorted(xs, key);
    var r := PyTake(sorted, n);
    assert sorted == r + sorted[|r|..];
    assert multiset(sorted) == multiset(r) + multiset(sorted[|r|..]);
    forall x, y | x in r && y in xs && y !in r ensures key(x) >= key(y) {
      var i :| 0 <= i < |r| && r[i] == x;
      assert y in multiset(sorted);
      var j :| 0 <= j < |sorted| && sorted[j] == y;
      assert j >= |r| by {
        assert forall k :: 0 <= k < |r| ==> r[k] == sorted[k];
      }
      assert sorted[i] == x;
    }
  }

  /** Python's `xs[-n:]` for `n >= 1`: the last `n` elements, or all of them. */
  function LastN<T>(xs: seq<T>, n: nat): (r: seq<T>)
    requires n >= 1
    ensures |r| == if |xs| <= n then |xs| else n
    ensures r == xs[|xs| - |r|..]
  {
    if |xs| <= n then xs else xs[|xs| - n..]
  }

  /** A window of the last `n` slides by one when an element is appended. */
  lemma LastNSnoc<T>(xs: seq<T>, x: T, n: nat)
    requires n >= 1
    ensures LastN(xs + [x], n) == LastN(LastN(xs, n) + [x], n)
  {
    var w := LastN(xs, n);
    var ys := xs + [x];
    if |xs| >= n {
      assert ys[|ys| - n..] == (w + [x])[|w + [x]| - n..];
    }
  }

  /** `xs.index(x)`, or `None` for the `ValueError` of a missing element. */
  function IndexOf<T(==)>(xs: seq<T>, x: T): (r: Option<nat>)
    ensures r.Some? ==> r.value < |xs| && xs[r.value] == x
    ensures r.Some? ==> forall i :: 0 <= i < r.value ==> xs[i] != x
    ensures r.None? <==> x !in xs
    decreases |xs|
  {
    if xs == [] then None
    else if xs[0] == x then Some(0)
    else match IndexOf(xs[1..], x)
      case None => None
      case Some(k) => Some(k + 1)
  }

  /** An element absent from the first `m` positions is found at index `m` or later. */
  lemma IndexOfAfterPrefix<T>(xs: seq<T>, x: T, m: nat)
    requires m <= |xs| && x in xs[m..]
    requires forall i :: 0 <= i < m ==> xs[i] != x
    ensures IndexOf(xs, x).Some? && IndexOf(xs, x).value >= m
  {
  }

  /** The index of the first occurrence. */
  lemma IndexOfFirst<T>(xs: seq<T>, x: T, m: nat)
    requires m < |xs| && xs[m] == x
    requires forall i :: 0 <= i < m ==> xs[i] != x
    ensures IndexOf(xs, x) == Some(m)
  {
    assert xs[m..][0] == x;
    IndexOfAfterPrefix(xs, x, m);
  }

  /**
   * When no element of the first `m` positions recurs later, `x` is found at
   * index `m` or later exactly when it occurs in `xs[m..]`.
   */
  lemma IndexOfAtLeast<T>(xs: seq<T>, x: T, m: nat)
    requires m <= |xs|
    requires forall i, j :: 0 <= i < m <= j < |xs| ==> xs[i] != xs[j]
    ensures (IndexOf(xs, x).Some? && IndexOf(xs, x).value >= m) <==> x in xs[m..]
  {
    if x in xs[m..] {
      var k :| 0 <= k < |xs[m..]| && xs[m..][k] == x;
      assert xs[m + k] == x;
      IndexOfAfterPrefix(xs, x, m);
    }
    var r := IndexOf(xs, x);
    if r.Some? && r.value >= m {
      assert xs[m..][r.value - m] == xs[r.value];
    }
  }

  /** How many pairs `zip(keys, vals)` yields: the shorter list decides. */
  function ZipLen<K, V>(keys: seq<K>, vals: seq<V>): (n: nat)
    ensures n <= |keys| && n <= |vals| && (n == |keys| || n == |vals|)
  {
    if |keys| <= |vals| then |keys| else |vals|
  }

  /** `dict(zip(keys, vals))`: later keys overwrite earlier ones. */
  function ZipMap<K(==, !new), V>(keys: seq<K>, vals: seq<V>): (m: map<K, V>)
    ensures forall k :: k in m <==> k in keys[..ZipLen(keys, vals)]
    decreases |keys|
  {
    var n := ZipLen(keys, vals);
    if n == 0 then map[]
    else
      assert keys[..n] == keys[..n - 1] + [keys[n - 1]];
      assert keys[..n - 1][..n - 1] == keys[..n - 1];
      ZipMap(keys[..n - 1], vals[..n - 1])[keys[n - 1] := vals[n - 1]]
  }

  /** With distinct keys, each key that is zipped maps to the value at its own position. */
  lemma {:induction false} ZipMapAt<K(!new), V>(keys: seq<K>, vals: seq<V>, i: nat)
    requires i < ZipLen(keys, vals)
    requires forall a, b :: 0 <= a < b < |keys| ==> keys[a] != keys[b]
    ensures ZipMap(keys, vals)[keys[i]] == vals[i]
    decreases |keys|
  {
    var n := ZipLen(keys, vals);
    var ks, vs := keys[..n - 1], vals[..n - 1];
    assert ZipMap(keys, vals) == ZipMap(ks, vs)[keys[n - 1] := vals[n - 1]];
    if i < n - 1 {
      assert keys[i] != keys[n - 1];
      assert ks[i] == keys[i] && vs[i] == vals[i];
      forall a, b | 0 <= a < b < |ks|
        ensures ks[a] != ks[b]
      {
        assert ks[a] == keys[a] && ks[b] == keys[b];
      }
      ZipMapAt(ks, vs, i);
    }
  }

  predicate UniqueBy<T, K(==)>(xs: seq<T>, id: T -> K) {
    forall i, j :: 0 <= i < j < |xs| ==> id(xs[i]) != id(xs[j])
  }

  /** The set of keys of `xs`. */
  function Ids<T, K(==)>(xs: seq<T>, id: T -> K): set<K> {
    set i | 0 <= i < |xs| :: id(xs[i])
  }

  /**
   * First-wins de-duplication (`dict.setdefault` / a `seen` set): keep an
   * element only if no earlier element, nor anything in `seen`, has its key.
   */
  function KeepFirst<T, K(==)>(xs: seq<T>, id: T -> K, seen: set<K>): (r: seq<T>)
    ensures forall i :: 0 <= i < |r| ==> r[i] in xs && id(r[i]) !in seen
    ensures UniqueBy(r, id)
    ensures |r| <= |xs|
    decreases |xs|
  {
    if xs == [] then []
    else if id(xs[0]) in seen then KeepFirst(xs[1..], id, seen)
    else
      var rest := KeepFirst(xs[1..], id, seen + {id(xs[0])});
      [xs[0]] + rest
  }

  /** Every new key of the input is represented in the output. */
  lemma {:induction false} KeepFirstCovers<T, K>(xs: seq<T>, id: T -> K, seen: set<K>)
    ensures Ids(KeepFirst(xs, id, seen), id) == Ids(xs, id) - seen
    decreases |xs|
  {
    if xs != [] {
      var s' := if id(xs[0]) in seen then seen else seen + {id(xs[0])};
      KeepFirstCovers(xs[1..], id, s');
      var rest := KeepFirst(xs[1..], id, s');
      assert xs == [xs[0]] + xs[1..];
      IdsAppend([xs[0]], xs[1..], id);
      IdsAppend([xs[0]], rest, id);
      assert Ids([xs[0]], id) == {id(xs[0])} by {
        assert [xs[0]][0] == xs[0];
      }
    }
  }

  /** The element kept for a key is the first element of the input with that key. */
  lemma {:induction false} KeepFirstIsFirst<T, K>(xs: seq<T>, id: T -> K, seen: set<K>, j: nat)
    requires j < |xs| && id(xs[j]) !in seen
    requires forall i :: 0 <= i < j ==> id(xs[i]) != id(xs[j])
    ensures xs[j] in KeepFirst(xs, id, seen)
    decreases |xs|
  {
    if j > 0 {
      var s' := if id(xs[0]) in seen then seen else seen + {id(xs[0])};
      assert xs[1..][j - 1] == xs[j];
      KeepFirstIsFirst(xs[1..], id, s', j - 1);
    }
  }

  /** The values of the `Some` entries, in order (`[v for v in xs if v is not None]`). */
  function Somes<T>(xs: seq<Option<T>>): (r: seq<T>)
    ensures |r| <= |xs|
    decreases |xs|
  {
    if xs == [] then []
    else (match xs[0] case Some(v) => [v] case None => []) + Somes(xs[1..])
  }

  /** Every value collected comes from an entry of the input; `j` is that entry. */
  lemma {:induction false} SomesFrom<T>(xs: seq<Option<T>>, i: nat) returns (j: nat)
    requires i < |Somes(xs)|
    ensures j < |xs| && xs[j] == Some(Somes(xs)[i])
    decreases |xs|
  {
    var head: seq<T> := match xs[0] case Some(v) => [v] case None => [];
    var rest := Somes(xs[1..]);
    assert Somes(xs) == head + rest;
    if xs[0].Some? && i == 0 {
      j := 0;
    } else {
      var j' := SomesFrom(xs[1..], i - |head|);
      assert Somes(xs)[i] == rest[i - |head|];
      j := j' + 1;
    }
  }

  /** Every `Some` entry is collected. */
  lemma {:induction false} SomesKeeps<T>(xs: seq<Option<T>>, j: nat)
    requires j < |xs| && xs[j].Some?
    ensures xs[j].value in Somes(xs)
    decreases |xs|
  {
    var head: seq<T> := match xs[0] case Some(v) => [v] case None => [];
    assert Somes(xs) == head + Somes(xs[1..]);
    if j > 0 {
      assert xs[1..][j - 1] == xs[j];
      SomesKeeps(xs[1..], j - 1);
    }
  }

  /** One value is collected per `Some` entry. */
  lemma {:induction false} SomesCount<T>(xs: seq<Option<T>>)
    ensures |Somes(xs)| == CountIf(xs, (o: Option<T>) => o.Some?)
    decreases |xs|
  {
    if xs != [] {
      SomesCount(xs[1..]);
    }
  }

  /** The keys of a concatenation. */
  lemma IdsAppend<T, K>(a: seq<T>, b: seq<T>, id: T -> K)
    ensures Ids(a + b, id) == Ids(a, id) + Ids(b, id)
  {
    forall k | k in Ids(a + b, id) ensures k in Ids(a, id) + Ids(b, id) {
      var i :| 0 <= i < |a + b| && id((a + b)[i]) == k;
      if i >= |a| {
        assert (a + b)[i] == b[i - |a|];
      }
    }
    forall k | k in Ids(a, id) + Ids(b, id) ensures k in Ids(a + b, id) {
      if k in Ids(a, id) {
        var i :| 0 <= i < |a| && id(a[i]) == k;
        assert (a + b)[i] == a[i];
      } else {
        var i :| 0 <= i < |b| && id(b[i]) == k;
        assert (a + b)[|a| + i] == b[i];
      }
    }
  }

  /** Two key-unique sequences with disjoint keys concatenate to a key-unique one. */
  lemma UniqueByAppend<T, K>(a: seq<T>, b: seq<T>, id: T -> K)
    requires UniqueBy(a, id) && UniqueBy(b, id)
    requires forall j :: 0 <= j < |b| ==> id(b[j]) !in Ids(a, id)
    ensures UniqueBy(a + b, id)
  {
    forall i, j | 0 <= i < j < |a + b|
      ensures id((a + b)[i]) != id((a + b)[j])
    {
      if j < |a| {
        assert (a + b)[i] == a[i] && (a + b)[j] == a[j];
      } else if i < |a| {
        assert (a + b)[i] == a[i] && (a + b)[j] == b[j - |a|];
        assert id(a[i]) in Ids(a, id);
      } else {
        assert (a + b)[i] == b[i - |a|] && (a + b)[j] == b[j - |a|];
      }
    }
  }
}

=== FILE: text.dfy ===
/**
 * String helpers shared by every module: Python's case mapping, strip, split,
 * `in` (substring) and character classes, restricted to ASCII plus the
 * Latin-1 letters (enough for the French "APERÇU" marker). Strings are
 * sequences of Unicode scalar values, as Python's `str` is.
 */
module Text {
  import opened Wrappers

  predicate IsAsciiUpper(c: char) { 'A' <= c <= 'Z' }
  predicate IsAsciiLower(c: char) { 'a' <= c <= 'z' }
  predicate IsDigit(c: char) { '0' <= c <= '9' }

  /** Regex `\w` on ASCII text. */
  predicate IsWordChar(c: char) {
    IsAsciiUpper(c) || IsAsciiLower(c) || IsDigit(c) || c == '_'
  }

  /** Whitespace as `str.strip()`, `str.split()` and regex `\s` see it on ASCII text. */
  predicate IsSpace(c: char) {
    c == ' ' || c == '\t' || c == '\n' || c == '\r' || c == '\U{B}' || c == '\U{C}'
  }

  predicate IsLatinUpper(c: char) {
    IsAsciiUpper(c) || ('À' <= c <= 'Þ' && c != '×')
  }

  predicate IsLatinLower(c: char) {
    IsAsciiLower(c) || ('à' <= c <= 'þ' && c != '÷')
  }

  function LowerChar(c: char): char {
    if IsLatinUpper(c) then (c as int + 32) as char else c
  }

  function UpperChar(c: char): char {
    if IsLatinLower(c) then (c as int - 32) as char else c
  }

  /** `s.lower()` */
  function Lower(s: string): (r: string)
    ensures |r| == |s|
    ensures forall i :: 0 <= i < |s| ==> r[i] == LowerChar(s[i])
  {
    seq(|s|, i requires 0 <= i < |s| => LowerChar(s[i]))
  }

  /** `s.upper()` */
  function Upper(s: string): (r: string)
    ensures |r| == |s|
    ensures forall i :: 0 <= i < |s| ==> r[i] == UpperChar(s[i])
  {
    seq(|s|, i requires 0 <= i < |s| => UpperChar(s[i]))
  }

  /** `s.startswith(p)` */
  predicate StartsWith(s: string, p: string) {
    |p| <= |s| && s[..|p|] == p
  }

  /** `needle` occurs in `hay` starting at index `i`. */
  predicate OccursAt(hay: string, needle: string, i: int) {
    0 <= i && i + |needle| <= |hay| && hay[i..i + |needle|] == needle
  }

  /** Python's `needle in hay`. */
  predicate Contains(hay: string, needle: string)
    decreases |hay|
  {
    StartsWith(hay, needle) || (|hay| > 0 && Contains(hay[1..], needle))
  }

  /** An occurrence at any index makes `Contains` true. */
  lemma {:induction false} ContainsAt(hay: string, needle: string, i: int)
    requires OccursAt(hay, needle, i)
    ensures Contains(hay, needle)
    decreases i
  {
    if i > 0 {
      assert hay[1..][i - 1..i - 1 + |needle|] == hay[i..i + |needle|];
      ContainsAt(hay[1..], needle, i - 1);
    }
  }

  /** `Contains` is witnessed by an occurrence index. */
  lemma {:induction false} ContainsWitness(hay: string, needle: string) returns (i: int)
    requires Contains(hay, needle)
    ensures OccursAt(hay, needle, i)
    decreases |hay|
  {
    if StartsWith(hay, needle) {
      i := 0;
    } else {
      var j := ContainsWitness(hay[1..], needle);
      assert hay[1..][j..j + |needle|] == hay[j + 1..j + 1 + |needle|];
      i := j + 1;
    }
  }

  /** The recursive `Contains` agrees with "occurs at some index". */
  lemma ContainsIff(hay: string, needle: string)
    ensures Contains(hay, needle) <==> exists i :: OccursAt(hay, needle, i)
  {
    if Contains(hay, needle) {
      var i := ContainsWitness(hay, needle);
    }
    forall i | OccursAt(hay, needle, i) {
      ContainsAt(hay, needle, i);
    }
  }

  /** An upper-case letter absent from `s` in both cases is absent from `Upper(s)`. */
  lemma UpperLacks(s: string, c: char)
    requires IsLatinUpper(c) && c !in s && LowerChar(c) !in s
    ensures c !in Upper(s)
  {
    forall i | 0 <= i < |s|
      ensures Upper(s)[i] != c
    {
      assert s[i] != c && s[i] != LowerChar(c);
    }
  }

  /** Every character of an occurring needle occurs in the haystack. */
  lemma ContainsChar(hay: string, needle: string, k: nat)
    requires k < |needle| && needle[k] !in hay
    ensures !Contains(hay, needle)
  {
    if Contains(hay, needle) {
      var i := ContainsWitness(hay, needle);
    }
  }

  lemma ContainsSelf(s: string)
    ensures Contains(s, s)
  {
    assert StartsWith(s, s);
  }

  lemma ContainsEmpty(s: string)
    ensures Contains(s, "")
  {
    assert StartsWith(s, "");
  }

  /** Nothing but the empty string occurs in the empty string. */
  lemma ContainsInEmpty(needle: string)
    requires Contains("", needle)
    ensures needle == ""
  {
  }

  /** Length of the longest prefix of `s` made of characters satisfying `inTok`. */
  function RunLength(s: string, inTok: char -> bool): (k: nat)
    ensures k <= |s|
    ensures forall i :: 0 <= i < k ==> inTok(s[i])
    ensures k < |s| ==> !inTok(s[k])
  {
    if s == [] || !inTok(s[0]) then 0 else 1 + RunLength(s[1..], inTok)
  }

  /** The maximal runs of characters satisfying `inTok`, left to right; never an empty run. */
  function Tokens(s: string, inTok: char -> bool): (r: seq<string>)
    ensures forall k :: 0 <= k < |r| ==> |r[k]| > 0
    decreases |s|
  {
    if s == [] then []
    else if !inTok(s[0]) then Tokens(s[1..], inTok)
    else
      var k := RunLength(s, inTok);
      [s[..k]] + Tokens(s[k..], inTok)
  }

  lemma {:induction false} RunLengthAppend(a: string, rest: string, inTok: char -> bool)
    requires RunLength(a, inTok) < |a| || (rest != [] && !inTok(rest[0]))
    ensures RunLength(a + rest, inTok) == RunLength(a, inTok)
    decreases |a|
  {
    if a == [] {
    } else if !inTok(a[0]) {
      assert (a + rest)[0] == a[0];
    } else {
      assert (a + rest)[0] == a[0];
      assert (a + rest)[1..] == a[1..] + rest;
      RunLengthAppend(a[1..], rest, inTok);
    }
  }

  /** A separator character splits the tokens of the text around it. */
  lemma {:induction false} TokensSep(a: string, c: char, b: string, inTok: char -> bool)
    requires !inTok(c)
    ensures Tokens(a + [c] + b, inTok) == Tokens(a, inTok) + Tokens(b, inTok)
    decreases |a|
  {
    var s := a + [c] + b;
    if a == [] {
      assert s == [c] + b;
      assert s[1..] == b;
    } else if !inTok(a[0]) {
      assert s[0] == a[0];
      assert s[1..] == a[1..] + [c] + b;
      TokensSep(a[1..], c, b, inTok);
    } else {
      assert s[0] == a[0];
      var k := RunLength(a, inTok);
      assert s == a + ([c] + b);
      RunLengthAppend(a, [c] + b, inTok);
      assert s[..k] == a[..k];
      assert s[k..] == a[k..] + [c] + b;
      TokensSep(a[k..], c, b, inTok);
    }
  }

  lemma {:induction false} RunLengthAll(w: string, inTok: char -> bool)
    requires forall i :: 0 <= i < |w| ==> inTok(w[i])
    ensures RunLength(w, inTok) == |w|
    decreases |w|
  {
    if w != [] {
      assert forall i :: 0 <= i < |w[1..]| ==> w[1..][i] == w[i + 1];
      RunLengthAll(w[1..], inTok);
    }
  }

  /** A non-empty run of token characters is a single token. */
  lemma {:induction false} TokensWhole(w: string, inTok: char -> bool)
    requires |w| > 0 && forall i :: 0 <= i < |w| ==> inTok(w[i])
    ensures Tokens(w, inTok) == [w]
  {
    RunLengthAll(w, inTok);
    assert w[|w|..] == [];
    assert w[..|w|] == w;
    assert inTok(w[0]);
  }

  /** `s.split()` with no argument: whitespace-separated words, no empty ones. */
  function SplitWs(s: string): seq<string> {
    Tokens(s, c => !IsSpace(c))
  }

  /** `set(re.split(r"[^a-z]+", s.lower())) - {""}`: the lowercase letter runs of `s`. */
  function Words(s: string): set<string> {
    set w | w in Tokens(Lower(s), IsAsciiLower)
  }

  lemma {:induction false} LowerAppend(a: string, b: string)
    ensures Lower(a + b) == Lower(a) + Lower(b)
  {
  }

  /** A prefix stays a prefix in lowercase. */
  lemma StartsWithLower(s: string, p: string)
    requires StartsWith(s, p)
    ensures StartsWith(Lower(s), Lower(p))
  {
    forall i | 0 <= i < |p| ensures Lower(s)[..|p|][i] == Lower(p)[i] {
      assert s[i] == p[i];
    }
  }

  /** `lower()` ignores an earlier `upper()`. */
  lemma LowerOfUpper(s: string)
    ensures Lower(Upper(s)) == Lower(s)
  {
  }

  /** `upper()` ignores an earlier `lower()` or `upper()`. */
  lemma UpperOfLower(s: string)
    ensures Upper(Lower(s)) == Upper(s) && Upper(Upper(s)) == Upper(s)
  {
  }

  /** A token run followed by a non-token character (or nothing) is the first token. */
  lemma {:induction false} TokenFirst(w: string, r: string, inTok: char -> bool)
    requires |w| > 0 && forall i :: 0 <= i < |w| ==> inTok(w[i])
    requires r == [] || !inTok(r[0])
    ensures Tokens(w + r, inTok)[0] == w
  {
    TokensWhole(w, inTok);
    if r == [] {
      assert w + r == w;
    } else {
      assert w + r == w + [r[0]] + r[1..];
      TokensSep(w, r[0], r[1..], inTok);
    }
  }

  /** A token run bounded by non-token characters (or the ends) is one of the tokens. */
  lemma {:induction false} TokenBetween(l: string, w: string, r: string, inTok: char -> bool)
    requires |w| > 0 && forall i :: 0 <= i < |w| ==> inTok(w[i])
    requires l == [] || !inTok(l[|l| - 1])
    requires r == [] || !inTok(r[0])
    ensures w in Tokens(l + w + r, inTok)
  {
    TokenFirst(w, r, inTok);
    var t := Tokens(w + r, inTok);
    assert w in t;
    if l == [] {
      assert l + w + r == w + r;
    } else {
      var l0 := l[..|l| - 1];
      assert l + w + r == l0 + [l[|l| - 1]] + (w + r);
      TokensSep(l0, l[|l| - 1], w + r, inTok);
      assert Tokens(l + w + r, inTok) == Tokens(l0, inTok) + t;
    }
  }

  /**
   * A lowercase word standing between non-letters (or the ends of the text)
   * is one of the text's words.
   */
  lemma {:induction false} WordsContain(p: string, w: string, q: string)
    requires |w| > 0 && forall i :: 0 <= i < |w| ==> IsAsciiLower(w[i])
    requires p == [] || !IsAsciiLower(LowerChar(p[|p| - 1]))
    requires q == [] || !IsAsciiLower(LowerChar(q[0]))
    ensures w in Words(p + w + q)
  {
    assert Lower(w) == w;
    LowerAppend(p, w);
    LowerAppend(p + w, q);
    assert Lower(p + w + q) == Lower(p) + w + Lower(q);
    TokenBetween(Lower(p), w, Lower(q), IsAsciiLower);
  }

  /** `" ".join(ws)` */
  function JoinSpace(ws: seq<string>): string
    decreases |ws|
  {
    if |ws| == 0 then "" else if |ws| == 1 then ws[0] else ws[0] + " " + JoinSpace(ws[1..])
  }

  function StripLeft(s: string, drop: char -> bool): (r: string)
    ensures |r| <= |s|
    ensures r == s[|s| - |r|..]
    ensures r == [] || !drop(r[0])
    decreases |s|
  {
    if |s| > 0 && drop(s[0]) then StripLeft(s[1..], drop) else s
  }

  function StripRight(s: string, drop: char -> bool): (r: string)
    ensures |r| <= |s|
    ensures r == s[..|r|]
    ensures r == [] || !drop(r[|r| - 1])
    decreases |s|
  {
    if |s| > 0 && drop(s[|s| - 1]) then StripRight(s[..|s| - 1], drop) else s
  }

  /** `s.strip(chars)` where `drop` says which characters are in `chars`. */
  function StripBy(s: string, drop: char -> bool): (r: string)
    ensures r == [] || (!drop(r[0]) && !drop(r[|r| - 1]))
  {
    StripRight(StripLeft(s, drop), drop)
  }

  /** `s.strip()` */
  function Strip(s: string): string {
    StripBy(s, IsSpace)
  }

  /** A string with no droppable character at either end is its own strip. */
  lemma StripByNoop(s: string, drop: char -> bool)
    requires s == [] || (!drop(s[0]) && !drop(s[|s| - 1]))
    ensures StripBy(s, drop) == s
  {
  }

  /** `s.strip(chars)` is the slice of `s` starting after the dropped prefix. */
  lemma StripBySlice(s: string, drop: char -> bool)
    ensures OccursAt(s, StripBy(s, drop), |s| - |StripLeft(s, drop)|)
  {
    var l := StripLeft(s, drop);
    var r := StripBy(s, drop);
    var x := |s| - |l|;
    assert r == l[..|r|];
    assert s[x..x + |r|] == l[..|r|];
  }

  /** Whatever `s.strip(chars)` returns occurs in `s`. */
  lemma StripByContained(s: string, drop: char -> bool)
    ensures Contains(s, StripBy(s, drop))
  {
    StripBySlice(s, drop);
    ContainsAt(s, StripBy(s, drop), |s| - |StripLeft(s, drop)|);
  }

  /** A slice of `s` occurs in `s`. */
  lemma ContainsSlice(s: string, i: nat, j: nat)
    requires i <= j <= |s|
    ensures Contains(s, s[i..j])
  {
    ContainsAt(s, s[i..j], i);
  }

  /** Substring containment is transitive. */
  lemma ContainsTrans(a: string, b: string, c: string)
    requires Contains(a, b) && Contains(b, c)
    ensures Contains(a, c)
  {
    var i := ContainsWitness(a, b);
    var j := ContainsWitness(b, c);
    assert b == a[i..i + |b|];
    assert c == b[j..j + |c|];
    forall k | 0 <= k < |c|
      ensures a[i + j..i + j + |c|][k] == c[k]
    {
      assert c[k] == b[j + k];
      assert b[j + k] == a[i + j + k];
    }
    assert a[i + j..i + j + |c|] == c;
    ContainsAt(a, c, i + j);
  }

  /** Replace every character by a string (`str.replace` for one-character patterns). */
  function MapChars(s: string, f: char -> string): string
    decreases |s|
  {
    if s == [] then [] else f(s[0]) + MapChars(s[1..], f)
  }

  /** `s.replace(c, rep)` for a one-character `c`. */
  function ReplaceChar(s: string, c: char, rep: string): string {
    MapChars(s, x => if x == c then rep else [x])
  }

  /** `s.replace(c, "")` */
  function RemoveChar(s: string, c: char): (r: string)
    ensures forall i :: 0 <= i < |r| ==> r[i] != c
    ensures |r| <= |s|
    decreases |s|
  {
    if s == [] then [] else (if s[0] == c then [] else [s[0]]) + RemoveChar(s[1..], c)
  }

  /** Removing a character that does not occur changes nothing. */
  lemma {:induction false} RemoveCharAbsent(s: string, c: char)
    requires c !in s
    ensures RemoveChar(s, c) == s
    decreases |s|
  {
    if s != [] {
      RemoveCharAbsent(s[1..], c);
      assert s == [s[0]] + s[1..];
    }
  }

  /** Removal distributes over concatenation. */
  lemma {:induction false} RemoveCharAppend(a: string, b: string, c: char)
    ensures RemoveChar(a + b, c) == RemoveChar(a, c) + RemoveChar(b, c)
    decreases |a|
  {
    if a != [] {
      assert (a + b)[1..] == a[1..] + b;
      RemoveCharAppend(a[1..], b, c);
    } else {
      assert a + b == b;
    }
  }

  /** Replacement distributes over concatenation. */
  lemma {:induction false} MapCharsAppend(a: string, b: string, f: char -> string)
    ensures MapChars(a + b, f) == MapChars(a, f) + MapChars(b, f)
    decreases |a|
  {
    if a != [] {
      assert (a + b)[1..] == a[1..] + b;
      MapCharsAppend(a[1..], b, f);
    } else {
      assert a + b == b;
    }
  }

  /** Replacing a character that does not occur changes nothing. */
  lemma {:induction false} ReplaceCharAbsent(s: string, c: char, rep: string)
    requires c !in s
    ensures ReplaceChar(s, c, rep) == s
    decreases |s|
  {
    if s != [] {
      ReplaceCharAbsent(s[1..], c, rep);
      assert s == [s[0]] + s[1..];
    }
  }

  /** Index of the first `c` in `s`, if any. */
  function IndexOfChar(s: string, c: char): (r: Option<nat>)
    ensures r.Some? ==> r.value < |s| && s[r.value] == c
    ensures r.Some? ==> forall i :: 0 <= i < r.value ==> s[i] != c
    ensures r.None? ==> forall i :: 0 <= i < |s| ==> s[i] != c
    decreases |s|
  {
    if s == [] then None
    else if s[0] == c then Some(0)
    else match IndexOfChar(s[1..], c)
      case None => None
      case Some(k) => Some(k + 1)
  }

  /** `s.split(sep, 1)` when it yields two parts: the text before and after the first `sep`. */
  function SplitFirst(s: string, sep: char): (r: Option<(string, string)>)
    ensures r.None? <==> sep !in s
    ensures r.Some? ==> s == r.value.0 + [sep] + r.value.1 && sep !in r.value.0
  {
    match IndexOfChar(s, sep)
    case None => None
    case Some(k) =>
      assert s == s[..k] + [sep] + s[k + 1..];
      Some((s[..k], s[k + 1..]))
  }

  /** The first `c` of `a + b` is in `b` when `a` has none. */
  lemma {:induction false} IndexOfCharAfter(a: string, b: string, c: char)
    requires forall i :: 0 <= i < |a| ==> a[i] != c
    requires |b| > 0 && b[0] == c
    ensures IndexOfChar(a + b, c) == Some(|a|)
    decreases |a|
  {
    if a != [] {
      assert (a + b)[1..] == a[1..] + b;
      IndexOfCharAfter(a[1..], b, c);
    }
  }

  /** `s.split(sep)`: the pieces between the separators, at least one. */
  function SplitOn(s: string, sep: char): (r: seq<string>)
    ensures |r| > 0
    ensures forall i :: 0 <= i < |r| ==> sep !in r[i]
    decreases |s|
  {
    match IndexOfChar(s, sep)
    case None => [s]
    case Some(k) => [s[..k]] + SplitOn(s[k + 1..], sep)
  }

  /** `sep.join(parts)` */
  function JoinOn(parts: seq<string>, sep: char): string
    decreases |parts|
  {
    if parts == [] then ""
    else if |parts| == 1 then parts[0]
    else parts[0] + [sep] + JoinOn(parts[1..], sep)
  }

  /** Joining the pieces of a split gives back the text. */
  lemma {:induction false} SplitOnJoin(s: string, sep: char)
    ensures JoinOn(SplitOn(s, sep), sep) == s
    decreases |s|
  {
    match IndexOfChar(s, sep)
    case None =>
    case Some(k) =>
      SplitOnJoin(s[k + 1..], sep);
      assert s == s[..k] + [sep] + s[k + 1..];
  }

  /** Splitting a join of separator-free pieces gives back the pieces. */
  lemma {:induction false} JoinOnSplit(parts: seq<string>, sep: char)
    requires |parts| > 0
    requires forall i :: 0 <= i < |parts| ==> sep !in parts[i]
    ensures SplitOn(JoinOn(parts, sep), sep) == parts
    decreases |parts|
  {
    if |parts| == 1 {
      assert IndexOfChar(parts[0], sep).None?;
    } else {
      var rest := JoinOn(parts[1..], sep);
      IndexOfCharAfter(parts[0], [sep] + rest, sep);
      assert parts[0] + [sep] + rest == parts[0] + ([sep] + rest);
      var s := parts[0] + [sep] + rest;
      assert s[|parts[0]| + 1..] == rest;
      assert s[..|parts[0]|] == parts[0];
      JoinOnSplit(parts[1..], sep);
    }
  }
}

=== FILE: valuation.dfy ===
/**
 * The appreciation model: major/minor brand tier, an era table of annual
 * appreciation rates, compound projection of a current value, and the
 * valuation of one guitar from a Reverb price range.
 */
module Valuation {
  import opened Wrappers
  import opened Text
  import opened Numbers

  /** Brand words that make a brand "major". */
  const MajorBrandKeywords: set<string> :=
    {"gibson", "fender", "martin", "taylor", "guild",
     "rickenbacker", "gretsch", "epiphone", "maccaferri", "angelico"}

  /** One row of the era table: years `[start, end)` and the two annual rates. */
  datatype Era = Era(start: int, end: int, majorRate: real, minorRate: real)

  const EraRates: seq<Era> := [
    Era(0, 1950, 0.10, 0.05),
    Era(1950, 1965, 0.08, 0.04),
    Era(1965, 1980, 0.05, 0.03),
    Era(1980, 2000, 0.03, 0.02),
    Era(2000, 9999, 0.01, 0.00)
  ]

  /** Rate used when no era contains the year. */
  const FallbackRate: real := 0.02

  /** Year assumed when none can be read. */
  const DefaultYear: nat := 1970

  /** Some lowercase letter run of the brand is a major-brand keyword. */
  predicate IsMajor(brand: string) {
    Words(brand) * MajorBrandKeywords != {}
  }

  /** The first four-digit run of the text (the text is `str(raw)`), or `None`. */
  function ParseYear(raw: string): (r: Option<nat>)
    ensures r.Some? ==> r.value <= 9999
    ensures r.None? <==> forall j :: 0 <= j ==> !FourDigitsAt(raw, j)
  {
    FirstFourDigits(raw)
  }

  /** `_parse_year(raw) or 1970`: a missing year and year 0 both become 1970. */
  function YearOrDefault(raw: string): (yr: nat)
    ensures yr <= 9999
  {
    match ParseYear(raw)
    case Some(y) => if y == 0 then DefaultYear else y
    case None => DefaultYear
  }

  /** Index of the first era whose half-open range contains `yr`. */
  function EraIndex(yr: int): (r: Option<nat>)
    ensures r.Some? ==> (r.value < |EraRates| && EraRates[r.value].start <= yr < EraRates[r.value].end)
    ensures r.None? ==> forall i :: 0 <= i < |EraRates| ==>
      !(EraRates[i].start <= yr < EraRates[i].end)
  {
    EraIndexFrom(yr, 0)
  }

  function EraIndexFrom(yr: int, from: nat): (r: Option<nat>)
    requires from <= |EraRates|
    ensures r.Some? ==> (from <= r.value < |EraRates| && EraRates[r.value].start <= yr < EraRates[r.value].end)
    ensures r.None? ==> forall i :: from <= i < |EraRates| ==>
      !(EraRates[i].start <= yr < EraRates[i].end)
    decreases |EraRates| - from
  {
    if from == |EraRates| then None
    else if EraRates[from].start <= yr < EraRates[from].end then Some(from)
    else EraIndexFrom(yr, from + 1)
  }

  /** The rate for a parsed year and a tier. */
  function RateFor(yr: int, major: bool): real {
    match EraIndex(yr)
    case Some(i) => if major then EraRates[i].majorRate else EraRates[i].minorRate
    case None => FallbackRate
  }

  /** `appreciation_rate(brand, year)`: annual appreciation for the brand's tier and the year's era. */
  function AppreciationRate(brand: string, year: string): (r: real)
    ensures 0.0 <= r <= 0.10
    ensures r == RateFor(YearOrDefault(year), IsMajor(brand))
  {
    var yr := YearOrDefault(year);
    match EraIndex(yr)
    case Some(i) => if IsMajor(brand) then EraRates[i].majorRate else EraRates[i].minorRate
    case None => FallbackRate
  }

  /** The table's eras tile `[0, 9999)` without gaps or overlaps. */
  lemma {:induction false} EraTableTiles(i: nat, yr: int)
    requires i < |EraRates| && EraRates[i].start <= yr < EraRates[i].end
    ensures EraIndex(yr) == Some(i)
  {
  }

  /** Only the year 9999 (or a negative year, which cannot be parsed) misses every era. */
  lemma {:induction false} FallbackOnlyAt9999(yr: int)
    requires 0 <= yr <= 9999
    ensures EraIndex(yr).None? <==> yr == 9999
  {
    if yr < 9999 {
      var i := if yr < 1950 then 0 else if yr < 1965 then 1 else if yr < 1980 then 2
               else if yr < 2000 then 3 else 4;
      EraTableTiles(i, yr);
    }
  }

  /** An unreadable year is treated as 1970: 5% for a major brand, 3% for a minor one. */
  lemma {:induction false} UnparsedYearRate(brand: string, year: string)
    requires forall j :: 0 <= j ==> !FourDigitsAt(year, j)
    ensures AppreciationRate(brand, year) == if IsMajor(brand) then 0.05 else 0.03
  {
    EraTableTiles(2, 1970);
  }

  /** In every era a major brand appreciates at least as fast as a minor one. */
  lemma {:induction false} MajorAtLeastMinor(yr: int)
    ensures RateFor(yr, true) >= RateFor(yr, false)
  {
  }

  /** For a fixed tier, rates never rise as the year advances inside the table. */
  lemma {:induction false} RateNonIncreasing(y1: int, y2: int, major: bool)
    requires 0 <= y1 <= y2 < 9999
    ensures RateFor(y1, major) >= RateFor(y2, major)
  {
    var i1 := if y1 < 1950 then 0 else if y1 < 1965 then 1 else if y1 < 1980 then 2
              else if y1 < 2000 then 3 else 4;
    var i2 := if y2 < 1950 then 0 else if y2 < 1965 then 1 else if y2 < 1980 then 2
              else if y2 < 2000 then 3 else 4;
    EraTableTiles(i1, y1);
    EraTableTiles(i2, y2);
  }

  /** `value * (1 + rate) ** years` */
  function Compound(value: real, rate: real, years: nat): real {
    value * Pow(1.0 + rate, years)
  }

  /** Compounding a positive value at a non-negative rate never loses value. */
  lemma {:induction false} CompoundAtLeast(value: real, rate: real, years: nat)
    requires value > 0.0 && rate >= 0.0
    ensures Compound(value, rate, years) >= value
  {
    var p := Pow(1.0 + rate, years);
    PowAtLeastOne(1.0 + rate, years);
    assert value * p - value == value * (p - 1.0);
  }

  lemma {:induction false} PowAdd(x: real, m: nat, n: nat)
    ensures Pow(x, m + n) == Pow(x, m) * Pow(x, n)
    decreases m
  {
    if m > 0 {
      PowAdd(x, m - 1, n);
    }
  }

  /** Compounding `m` years and then `n` more is compounding `m + n` years. */
  lemma {:induction false} CompoundAdd(value: real, rate: real, m: nat, n: nat)
    ensures Compound(Compound(value, rate, m), rate, n) == Compound(value, rate, m + n)
  {
    var x := 1.0 + rate;
    PowAdd(x, m, n);
    var pm := Pow(x, m);
    var pn := Pow(x, n);
    assert value * pm * pn == value * (pm * pn);
  }

  /** A positive value compounded at a non-negative rate grows with the number of years. */
  lemma CompoundMonotone(value: real, rate: real, m: nat, n: nat)
    requires value > 0.0 && rate >= 0.0 && m <= n
    ensures Compound(value, rate, m) <= Compound(value, rate, n)
  {
    PowMonotone(1.0 + rate, m, n);
    var pm := Pow(1.0 + rate, m);
    var pn := Pow(1.0 + rate, n);
    assert value * pn - value * pm == value * (pn - pm);
  }

  /**
   * `project_value`: `None` for a missing or non-positive value, otherwise the
   * value compounded at the brand/year rate for `yearsAhead` years, rounded to cents.
   */
  function ProjectValue(current: Option<real>, brand: string, year: string, yearsAhead: nat): (r: Option<real>)
    ensures r.Some? <==> current.Some? && current.value > 0.0
    ensures r.Some? ==> r.value >= Round2(current.value)
    ensures r.Some? ==>
      var exact := Compound(current.value, AppreciationRate(brand, year), yearsAhead);
      exact - 0.005 <= r.value <= exact + 0.005
  {
    if current.None? || current.value <= 0.0 then None
    else
      var rate := AppreciationRate(brand, year);
      CompoundAtLeast(current.value, rate, yearsAhead);
      Round2Monotone(current.value, Compound(current.value, rate, yearsAhead));
      Some(Round2(Compound(current.value, rate, yearsAhead)))
  }

  /** A longer horizon never projects a smaller value. */
  lemma ProjectValueMonotone(current: Option<real>, brand: string, year: string, m: nat, n: nat)
    requires m <= n
    ensures ProjectValue(current, brand, year, m).Some? ==>
      ProjectValue(current, brand, year, m).value <= ProjectValue(current, brand, year, n).value
  {
    if current.Some? && current.value > 0.0 {
      var rate := AppreciationRate(brand, year);
      CompoundMonotone(current.value, rate, m, n);
      Round2Monotone(Compound(current.value, rate, m), Compound(current.value, rate, n));
    }
  }

  /** Projecting zero years only rounds the value to cents. */
  lemma ProjectValueNow(current: real, brand: string, year: string)
    requires current > 0.0
    ensures ProjectValue(Some(current), brand, year, 0) == Some(Round2(current))
  {
  }

  /** A Reverb price-guide lookup result: the average low and high, or nothing. */
  type PriceRange = Option<(real, real)>

  /** What `value_guitar` returns. */
  datatype Valuation = Valuation(
    current: Option<real>,
    value1y: Option<real>,
    value2y: Option<real>,
    reverbLo: Option<real>,
    reverbHi: Option<real>)

  /**
   * `value_guitar` with the Reverb lookup passed in: the current value is the
   * midpoint of the range rounded to cents, when the low end is truthy (non-zero).
   */
  function ValueGuitar(brand: string, year: string, reverb: PriceRange): (v: Valuation)
    ensures reverb.None? || reverb.value.0 == 0.0 ==>
      v.current.None? && v.value1y.None? && v.value2y.None?
    ensures reverb.Some? && reverb.value.0 != 0.0 ==>
      v.current == Some(Round2((reverb.value.0 + reverb.value.1) / 2.0))
    ensures v.value1y == ProjectValue(v.current, brand, year, 1)
    ensures v.value2y == ProjectValue(v.current, brand, year, 2)
    ensures reverb.Some? ==> v.reverbLo == Some(reverb.value.0) && v.reverbHi == Some(reverb.value.1)
    ensures reverb.None? ==> v.reverbLo.None? && v.reverbHi.None?
  {
    var current := match reverb
      case Some(r) => if r.0 != 0.0 then Some(Round2((r.0 + r.1) / 2.0)) else None
      case None => None;
    Valuation(current,
      ProjectValue(current, brand, year, 1),
      ProjectValue(current, brand, year, 2),
      if reverb.Some? then Some(reverb.value.0) else None,
      if reverb.Some? then Some(reverb.value.1) else None)
  }

  /** A positive current value is projected upward: now <= one year <= two years. */
  lemma ValueGuitarOrdered(brand: string, year: string, reverb: PriceRange)
    requires ValueGuitar(brand, year, reverb).current.Some?
    requires ValueGuitar(brand, year, reverb).current.value > 0.0
    ensures ValueGuitar(brand, year, reverb).value1y.Some?
    ensures ValueGuitar(brand, year, reverb).current.value <= ValueGuitar(brand, year, reverb).value1y.value
    ensures ValueGuitar(brand, year, reverb).value1y.value <= ValueGuitar(brand, year, reverb).value2y.value
  {
    var v := ValueGuitar(brand, year, reverb);
    Round2Idempotent((reverb.value.0 + reverb.value.1) / 2.0);
    ProjectValueMonotone(v.current, brand, year, 1, 2);
  }

  /** A brand naming a major keyword as a separate word is major, in any letter case. */
  lemma {:induction false} MajorByKeyword(prefix: string, keyword: string, suffix: string)
    requires keyword in MajorBrandKeywords
    requires prefix == [] || !IsAsciiLower(LowerChar(prefix[|prefix| - 1]))
    requires suffix == [] || !IsAsciiLower(LowerChar(suffix[0]))
    ensures IsMajor(prefix + keyword + suffix)
    ensures IsMajor(Upper(prefix + keyword + suffix))
  {
    assert |keyword| > 0 && forall i :: 0 <= i < |keyword| ==> IsAsciiLower(keyword[i]);
    WordsContain(prefix, keyword, suffix);
    LowerOfUpper(prefix + keyword + suffix);
    assert Words(Upper(prefix + keyword + suffix)) == Words(prefix + keyword + suffix);
  }
}

=== FILE: watchdog.dfy ===
/**
 * The watchdog's bookkeeping: which listings it reads from the sheet, how the
 * notified sets are seeded on a first run, and how each poll sorts the
 * current rows into new, on-hold and sold announcements without repeating
 * one.
 */
module Watchdog {
  import opened Wrappers
  import opened Text
  import opened Seqs
  import opened Cells
  import Dates

  // ── product ids ───────────────────────────────────────────────

  const Marker: string := "ProductID="

  /** `ProductID=` followed by at least one digit starts at `i`. */
  predicate IdAt(url: string, i: int) {
    OccursAt(url, Marker, i) && i + |Marker| < |url| && IsDigit(url[i + |Marker|])
  }

  /** The digits captured by the match at `i`: the longest run of them. */
  function DigitsAt(url: string, i: nat): (r: string)
    requires IdAt(url, i)
    ensures |r| > 0 && forall k :: 0 <= k < |r| ==> IsDigit(r[k])
    ensures OccursAt(url, Marker + r, i)
    ensures i + |Marker| + |r| == |url| || !IsDigit(url[i + |Marker| + |r|])
  {
    var start := i + |Marker|;
    var n := RunLength(url[start..], IsDigit);
    assert url[start..][0] == url[start];
    var r := url[start..start + n];
    assert forall k :: 0 <= k < n ==> r[k] == url[start..][k];
    assert url[i..i + |Marker + r|] == url[i..start] + r;
    r
  }

  /** The leftmost match at or after `from`, as `re.search` finds it. */
  function FirstIdFrom(url: string, from: nat): (r: Option<nat>)
    ensures r.Some? ==> from <= r.value && IdAt(url, r.value)
    ensures r.Some? ==> forall j :: from <= j < r.value ==> !IdAt(url, j)
    ensures r.None? ==> forall j :: from <= j ==> !IdAt(url, j)
    decreases |url| - from
  {
    if from >= |url| then None
    else if IdAt(url, from) then Some(from)
    else FirstIdFrom(url, from + 1)
  }

  /** `re.search(r"ProductID=(\d+)", url)`, group 1; `None` when there is no match. */
  function ProductIdOf(url: string): (r: Option<string>)
    ensures r.None? <==> forall j :: !IdAt(url, j)
    ensures r.Some? ==> (|r.value| > 0 && (forall k :: 0 <= k < |r.value| ==> IsDigit(r.value[k]))
      && Contains(url, Marker + r.value))
  {
    match FirstIdFrom(url, 0)
    case None => None
    case Some(i) =>
      var r := DigitsAt(url, i);
      ContainsAt(url, Marker + r, i);
      Some(r)
  }

  /**
   * In a product URL whose address part has no `P`, the id is the whole run
   * of digits after `ProductID=`, whatever follows it.
   */
  lemma ProductIdOfUrl(address: string, digits: string, rest: string)
    requires forall k :: 0 <= k < |address| ==> address[k] != 'P'
    requires |digits| > 0 && forall k :: 0 <= k < |digits| ==> IsDigit(digits[k])
    requires rest == [] || !IsDigit(rest[0])
    ensures ProductIdOf(address + Marker + digits + rest) == Some(digits)
  {
    var url := address + Marker + digits + rest;
    var n := |address|;
    assert url == address + (Marker + digits + rest);
    NoIdInAddress(url, address, Marker + digits + rest);
    IdAfterAddress(url, address, digits, rest);
    var r := FirstIdFrom(url, 0);
    assert r.Some? && r.value == n;
  }

  /** No match starts inside an address without a `P`. */
  lemma NoIdInAddress(url: string, address: string, tail: string)
    requires forall k :: 0 <= k < |address| ==> address[k] != 'P'
    requires url == address + tail
    ensures forall j :: 0 <= j < |address| ==> !IdAt(url, j)
  {
    forall j | 0 <= j < |address|
      ensures !IdAt(url, j)
    {
      assert url[j] == address[j];
      if j + |Marker| <= |url| {
        assert url[j..j + |Marker|][0] == url[j];
      }
    }
  }

  /** Right after the address the marker matches, and its digits are captured whole. */
  lemma IdAfterAddress(url: string, address: string, digits: string, rest: string)
    requires |digits| > 0 && forall k :: 0 <= k < |digits| ==> IsDigit(digits[k])
    requires rest == [] || !IsDigit(rest[0])
    requires url == address + Marker + digits + rest
    ensures IdAt(url, |address|) && DigitsAt(url, |address|) == digits
  {
    var n := |address|;
    var start := n + |Marker|;
    assert url[n..start] == Marker;
    assert url[start..] == digits + rest;
    assert url[start] == digits[0];
    assert IdAt(url, n);
    var k := RunLength(digits + rest, IsDigit);
    assert forall i :: 0 <= i < |digits| ==> (digits + rest)[i] == digits[i];
    if rest != [] {
      assert (digits + rest)[|digits|] == rest[0];
    }
    assert k == |digits|;
    assert url[start..start + k] == digits;
  }

  // ── reading the sheet ─────────────────────────────────────────

  /** What the watchdog keeps of a listing row. */
  datatype Entry = Entry(id: string, dateArrived: Option<Dates.Date>, onHold: bool, sold: bool)

  /** Column J as a string, or `""` when the cell is falsy. */
  function UrlOf(row: seq<Cell>): string {
    if Truthy(At(row, 9)) then Str(At(row, 9)) else ""
  }

  /**
   * The arrival date in column A: a date cell as it is, other truthy values
   * through `date.fromisoformat` of their first ten characters, anything
   * else (or a parse failure) `None`.
   */
  function ArrivalOf(c: Cell): (r: Option<Dates.Date>)
    ensures c.When? ==> r == Some(c.date)
    ensures !Truthy(c) ==> r.None?
    ensures !c.When? && r.Some? ==> Dates.Valid(r.value)
  {
    match c
    case When(d, _) => Some(d)
    case _ => if Truthy(c) then Dates.ParseIso(PyTake(Str(c), 10)) else None
  }

  /** One data row of `read_entries`: `None` when its URL carries no product id. */
  function ReadEntry(row: seq<Cell>): (r: Option<Entry>) {
    match ProductIdOf(UrlOf(row))
    case None => None
    case Some(id) => Some(Entry(id, ArrivalOf(At(row, 0)), At(row, 10) != Blank, At(row, 11) != Blank))
  }

  /** Each row read on its own. */
  function Reads(rows: seq<seq<Cell>>): (r: seq<Option<Entry>>)
    ensures |r| == |rows| && forall i :: 0 <= i < |rows| ==> r[i] == ReadEntry(rows[i])
  {
    seq(|rows|, i requires 0 <= i < |rows| => ReadEntry(rows[i]))
  }

  /** The rows below the header that carry a product id, as entries. */
  function EntriesOf(rows: seq<seq<Cell>>): seq<Entry> {
    Somes(Reads(rows))
  }

  predicate HasId(row: seq<Cell>) { ProductIdOf(UrlOf(row)).Some? }

  /**
   * `read_entries`: `sheet` is `None` when the workbook is missing or cannot
   * be read, and then there are no entries.
   */
  function ReadEntries(sheet: Option<seq<seq<Cell>>>): seq<Entry> {
    if sheet.None? || sheet.value == [] then [] else EntriesOf(sheet.value[1..])
  }

  /**
   * Every row with a product id gives one entry, in order, and no other row
   * does; the entry's id is the digits after `ProductID=` in the row's URL,
   * and on-hold and sold mean the cell is not empty.
   */
  lemma EntriesOfRows(rows: seq<seq<Cell>>)
    ensures |EntriesOf(rows)| == CountIf(rows, HasId)
    ensures forall k :: 0 <= k < |EntriesOf(rows)| ==>
      exists i :: 0 <= i < |rows| && ReadEntry(rows[i]) == Some(EntriesOf(rows)[k])
  {
    EntriesCount(rows);
    forall k | 0 <= k < |EntriesOf(rows)|
      ensures exists i :: 0 <= i < |rows| && ReadEntry(rows[i]) == Some(EntriesOf(rows)[k])
    {
      var i := SomesFrom(Reads(rows), k);
    }
  }

  lemma {:induction false} EntriesCount(rows: seq<seq<Cell>>)
    ensures |EntriesOf(rows)| == CountIf(rows, HasId)
    decreases |rows|
  {
    if rows != [] {
      EntriesCount(rows[1..]);
      assert Reads(rows)[1..] == Reads(rows[1..]);
      assert HasId(rows[0]) <==> ReadEntry(rows[0]).Some?;
    }
  }

  /** An entry read from a row has the row's id, date and status columns. */
  lemma ReadEntryFields(row: seq<Cell>)
    requires HasId(row)
    ensures var e := ReadEntry(row).value;
      && Contains(UrlOf(row), Marker + e.id) && |e.id| > 0
      && (e.onHold <==> |row| > 10 && row[10] != Blank)
      && (e.sold <==> |row| > 11 && row[11] != Blank)
      && (At(row, 0).When? ==> e.dateArrived == Some(row[0].date))
  {
  }

  // ── notified sets ─────────────────────────────────────────────

  /** The ids already announced as new, as on hold and as sold. */
  datatype Notified = Notified(seen: set<string>, hold: set<string>, sold: set<string>)

  function Ids(es: seq<Entry>): set<string> {
    set i | 0 <= i < |es| :: es[i].id
  }

  function HeldIds(es: seq<Entry>): set<string> {
    set i | 0 <= i < |es| && es[i].onHold :: es[i].id
  }

  function SoldIds(es: seq<Entry>): set<string> {
    set i | 0 <= i < |es| && es[i].sold :: es[i].id
  }

  /** The three notified files as loaded; `None` is a file that does not exist yet. */
  datatype Files = Files(seen: Option<set<string>>, hold: Option<set<string>>, sold: Option<set<string>>)

  /**
   * First-run seeding: each missing file is replaced by the ids of the
   * current entries (on hold, sold); an existing one is kept as loaded.
   */
  function Seed(files: Files, entries: seq<Entry>): (s: Notified)
    ensures files.seen.Some? ==> s.seen == files.seen.value
    ensures files.hold.Some? ==> s.hold == files.hold.value
    ensures files.sold.Some? ==> s.sold == files.sold.value
    ensures files.seen.None? ==> forall i :: 0 <= i < |entries| ==> entries[i].id in s.seen
    ensures files.hold.None? ==> forall i :: 0 <= i < |entries| && entries[i].onHold ==> entries[i].id in s.hold
    ensures files.sold.None? ==> forall i :: 0 <= i < |entries| && entries[i].sold ==> entries[i].id in s.sold
  {
    Notified(
      if files.seen.None? then Ids(entries) else files.seen.value,
      if files.hold.None? then HeldIds(entries) else files.hold.value,
      if files.sold.None? then SoldIds(entries) else files.sold.value)
  }

  // ── one poll ──────────────────────────────────────────────────

  /** What one pass over the entries finds, with `notified` after its silent additions. */
  datatype Scan = Scan(seen: set<string>, news: seq<Entry>, hold: seq<Entry>, sold: seq<Entry>)

  /**
   * The loop over the entries. An entry not yet announced is new when it
   * arrived today and is otherwise marked as seen on the spot, so a later
   * row with the same id finds it seen. The hold and sold sets are only read.
   */
  function Classify(es: seq<Entry>, today: Dates.Date, seen: set<string>, hold: set<string>, sold: set<string>): Scan
    decreases |es|
  {
    if es == [] then Scan(seen, [], [], [])
    else
      var e := es[0];
      var isNew := e.id !in seen && e.dateArrived == Some(today);
      var seen1 := if e.id !in seen && !isNew then seen + {e.id} else seen;
      var rest := Classify(es[1..], today, seen1, hold, sold);
      Scan(rest.seen,
           (if isNew then [e] else []) + rest.news,
           (if e.onHold && e.id !in hold then [e] else []) + rest.hold,
           (if e.sold && e.id !in sold then [e] else []) + rest.sold)
  }

  /** The ids of a list include those of its tail and its head. */
  lemma IdsTail(es: seq<Entry>)
    requires es != []
    ensures Ids(es[1..]) <= Ids(es) && es[0].id in Ids(es)
  {
    forall x | x in Ids(es[1..]) ensures x in Ids(es) {
      var i :| 0 <= i < |es[1..]| && es[1..][i].id == x;
      assert es[i + 1].id == x;
    }
  }

  /**
   * The loop only adds to `notified`, only ids of the rows it reads, and
   * leaves every row either seen or about to be announced as new.
   */
  lemma {:induction false} ClassifySeen(es: seq<Entry>, today: Dates.Date, seen: set<string>,
                                        hold: set<string>, sold: set<string>)
    ensures var r := Classify(es, today, seen, hold, sold);
      seen <= r.seen && r.seen <= seen + Ids(es)
    ensures var r := Classify(es, today, seen, hold, sold);
      forall i :: 0 <= i < |es| ==> es[i].id in r.seen || es[i] in r.news
    decreases |es|
  {
    if es != [] {
      var e := es[0];
      var isNew := e.id !in seen && e.dateArrived == Some(today);
      var seen1 := if e.id !in seen && !isNew then seen + {e.id} else seen;
      ClassifySeen(es[1..], today, seen1, hold, sold);
      IdsTail(es);
      var r := Classify(es, today, seen, hold, sold);
      var rest := Classify(es[1..], today, seen1, hold, sold);
      assert r.news == (if isNew then [e] else []) + rest.news;
      forall i | 0 <= i < |es| ensures es[i].id in r.seen || es[i] in r.news {
        if i > 0 {
          assert es[i] == es[1..][i - 1];
        }
      }
    }
  }

  /** A row is announced as new only when it was not yet announced and arrived today. */
  lemma {:induction false} ClassifyNews(es: seq<Entry>, today: Dates.Date, seen: set<string>,
                                        hold: set<string>, sold: set<string>)
    ensures forall e :: e in Classify(es, today, seen, hold, sold).news ==>
      e in es && e.id !in seen && e.dateArrived == Some(today)
    decreases |es|
  {
    if es != [] {
      var e := es[0];
      var isNew := e.id !in seen && e.dateArrived == Some(today);
      var seen1 := if e.id !in seen && !isNew then seen + {e.id} else seen;
      ClassifyNews(es[1..], today, seen1, hold, sold);
      var rest := Classify(es[1..], today, seen1, hold, sold);
      assert forall x :: x in es[1..] ==> x in es;
      assert forall x :: x in Classify(es, today, seen, hold, sold).news ==> (isNew && x == e) || x in rest.news;
    }
  }

  /** A row is announced as on hold exactly when it is on hold and not yet announced so. */
  lemma {:induction false} ClassifyHold(es: seq<Entry>, today: Dates.Date, seen: set<string>,
                                        hold: set<string>, sold: set<string>)
    ensures forall e :: e in Classify(es, today, seen, hold, sold).hold <==> e in es && e.onHold && e.id !in hold
    decreases |es|
  {
    if es != [] {
      var e := es[0];
      var isNew := e.id !in seen && e.dateArrived == Some(today);
      var seen1 := if e.id !in seen && !isNew then seen + {e.id} else seen;
      ClassifyHold(es[1..], today, seen1, hold, sold);
      var rest := Classify(es[1..], today, seen1, hold, sold);
      assert forall x :: x in es <==> x == e || x in es[1..];
      assert forall x :: x in Classify(es, today, seen, hold, sold).hold <==>
        (e.onHold && e.id !in hold && x == e) || x in rest.hold;
    }
  }

  /** A row is announced as sold exactly when it is sold and not yet announced so. */
  lemma {:induction false} ClassifySold(es: seq<Entry>, today: Dates.Date, seen: set<string>,
                                        hold: set<string>, sold: set<string>)
    ensures forall e :: e in Classify(es, today, seen, hold, sold).sold <==> e in es && e.sold && e.id !in sold
    decreases |es|
  {
    if es != [] {
      var e := es[0];
      var isNew := e.id !in seen && e.dateArrived == Some(today);
      var seen1 := if e.id !in seen && !isNew then seen + {e.id} else seen;
      ClassifySold(es[1..], today, seen1, hold, sold);
      var rest := Classify(es[1..], today, seen1, hold, sold);
      assert forall x :: x in es <==> x == e || x in es[1..];
      assert forall x :: x in Classify(es, today, seen, hold, sold).sold <==>
        (e.sold && e.id !in sold && x == e) || x in rest.sold;
    }
  }

  /** Everything the loop establishes, for one call. */
  lemma ClassifyFacts(es: seq<Entry>, today: Dates.Date, seen: set<string>, hold: set<string>, sold: set<string>)
    ensures var r := Classify(es, today, seen, hold, sold);
      && seen <= r.seen && r.seen <= seen + Ids(es)
      && (forall i :: 0 <= i < |es| ==> es[i].id in r.seen || es[i] in r.news)
      && (forall e :: e in r.news ==> e in es && e.id !in seen && e.dateArrived == Some(today))
      && (forall e :: e in r.hold <==> e in es && e.onHold && e.id !in hold)
      && (forall e :: e in r.sold <==> e in es && e.sold && e.id !in sold)
  {
    ClassifySeen(es, today, seen, hold, sold);
    ClassifyNews(es, today, seen, hold, sold);
    ClassifyHold(es, today, seen, hold, sold);
    ClassifySold(es, today, seen, hold, sold);
  }

  /** The state after a poll and what it announced. */
  datatype Outcome = Outcome(state: Notified, news: seq<Entry>, hold: seq<Entry>, sold: seq<Entry>)

  /**
   * One poll: classify the entries, then, after the announcements are
   * attempted, add every announced id to its set, whether or not sending
   * succeeded.
   */
  function Cycle(s: Notified, es: seq<Entry>, today: Dates.Date): (o: Outcome)
    ensures s.seen <= o.state.seen && s.hold <= o.state.hold && s.sold <= o.state.sold
    ensures forall e :: e in o.news ==> e.id in o.state.seen
    ensures forall e :: e in o.hold ==> e.id in o.state.hold
    ensures forall e :: e in o.sold ==> e.id in o.state.sold
  {
    var r := Classify(es, today, s.seen, s.hold, s.sold);
    ClassifyFacts(es, today, s.seen, s.hold, s.sold);
    Outcome(Notified(r.seen + Ids(r.news), s.hold + Ids(r.hold), s.sold + Ids(r.sold)), r.news, r.hold, r.sold)
  }

  /**
   * An entry is announced as new only when it was not yet announced and
   * arrived today; it is announced as on hold exactly when it is on hold and
   * not yet announced so, and as sold likewise.
   */
  lemma CycleAnnounces(s: Notified, es: seq<Entry>, today: Dates.Date, e: Entry)
    ensures e in Cycle(s, es, today).news ==> e in es && e.id !in s.seen && e.dateArrived == Some(today)
    ensures e in Cycle(s, es, today).hold <==> e in es && e.onHold && e.id !in s.hold
    ensures e in Cycle(s, es, today).sold <==> e in es && e.sold && e.id !in s.sold
  {
    ClassifyFacts(es, today, s.seen, s.hold, s.sold);
  }

  /** No two entries share an id. */
  predicate UniqueIds(es: seq<Entry>) {
    forall i, j :: 0 <= i < j < |es| ==> es[i].id != es[j].id
  }

  /**
   * With one row per id, the new announcements are exactly the entries not
   * yet announced that arrived today; the others not yet announced are
   * marked as seen without a message.
   */
  lemma {:induction false} ClassifyFresh(es: seq<Entry>, today: Dates.Date, seen: set<string>,
                                         hold: set<string>, sold: set<string>, e: Entry)
    requires UniqueIds(es)
    ensures e in Classify(es, today, seen, hold, sold).news <==> e in es && e.id !in seen && e.dateArrived == Some(today)
    ensures e in es && e.id !in seen && e.dateArrived != Some(today) ==> e.id in Classify(es, today, seen, hold, sold).seen
    decreases |es|
  {
    if es != [] {
      var f := es[0];
      var isNew := f.id !in seen && f.dateArrived == Some(today);
      var seen1 := if f.id !in seen && !isNew then seen + {f.id} else seen;
      assert UniqueIds(es[1..]) by {
        forall i, j | 0 <= i < j < |es[1..]| ensures es[1..][i].id != es[1..][j].id {
          assert es[1..][i] == es[i + 1] && es[1..][j] == es[j + 1];
        }
      }
      ClassifyFresh(es[1..], today, seen1, hold, sold, e);
      ClassifySeen(es[1..], today, seen1, hold, sold);
      var r := Classify(es, today, seen, hold, sold);
      var rest := Classify(es[1..], today, seen1, hold, sold);
      assert r.news == (if isNew then [f] else []) + rest.news;
      assert r.seen == rest.seen;
      if e in es[1..] {
        var j :| 0 <= j < |es[1..]| && es[1..][j] == e;
        assert es[j + 1] == e;
        assert e.id != f.id;
        assert e.id in seen1 <==> e.id in seen;
      }
      if e == f && !isNew && f.id !in seen {
        assert e.id in seen1;
      }
    }
  }

  /** With one row per id, the new announcements of a poll are exactly the rows not yet announced that arrived today. */
  lemma CycleFresh(s: Notified, es: seq<Entry>, today: Dates.Date, e: Entry)
    requires UniqueIds(es)
    ensures e in Cycle(s, es, today).news <==> e in es && e.id !in s.seen && e.dateArrived == Some(today)
  {
    ClassifyFresh(es, today, s.seen, s.hold, s.sold, e);
  }

  /** After a poll every current row's id is in the set of each category the row belongs to. */
  lemma CycleCovers(s: Notified, es: seq<Entry>, today: Dates.Date)
    ensures var o := Cycle(s, es, today);
      && (forall i :: 0 <= i < |es| ==> es[i].id in o.state.seen)
      && (forall i :: 0 <= i < |es| && es[i].onHold ==> es[i].id in o.state.hold)
      && (forall i :: 0 <= i < |es| && es[i].sold ==> es[i].id in o.state.sold)
  {
    var o := Cycle(s, es, today);
    var r := Classify(es, today, s.seen, s.hold, s.sold);
    assert o.state == Notified(r.seen + Ids(r.news), s.hold + Ids(r.hold), s.sold + Ids(r.sold));
    ClassifySeen(es, today, s.seen, s.hold, s.sold);
    ClassifyHold(es, today, s.seen, s.hold, s.sold);
    ClassifySold(es, today, s.seen, s.hold, s.sold);
    forall i | 0 <= i < |es| ensures es[i].id in o.state.seen {
      if es[i] in r.news {
        IdsHas(r.news, es[i]);
      }
    }
    forall i | 0 <= i < |es| && es[i].onHold ensures es[i].id in o.state.hold {
      if es[i].id !in s.hold {
        IdsHas(r.hold, es[i]);
      }
    }
    forall i | 0 <= i < |es| && es[i].sold ensures es[i].id in o.state.sold {
      if es[i].id !in s.sold {
        IdsHas(r.sold, es[i]);
      }
    }
  }

  /** The id of a listed entry is among the list's ids. */
  lemma IdsHas(es: seq<Entry>, e: Entry)
    requires e in es
    ensures e.id in Ids(es)
  {
    var k :| 0 <= k < |es| && es[k] == e;
  }

  /** Rows whose ids are all seen yield no new announcement and add nothing to the seen set. */
  lemma {:induction false} ClassifyQuietNews(es: seq<Entry>, today: Dates.Date, seen: set<string>,
                                             hold: set<string>, sold: set<string>)
    requires forall i :: 0 <= i < |es| ==> es[i].id in seen
    ensures Classify(es, today, seen, hold, sold).news == []
    ensures Classify(es, today, seen, hold, sold).seen == seen
    decreases |es|
  {
    if es != [] {
      assert forall i :: 0 <= i < |es| - 1 ==> es[1..][i] == es[i + 1];
      ClassifyQuietNews(es[1..], today, seen, hold, sold);
    }
  }

  /** Rows whose on-hold ids are all announced as such yield no hold announcement. */
  lemma {:induction false} ClassifyQuietHold(es: seq<Entry>, today: Dates.Date, seen: set<string>,
                                             hold: set<string>, sold: set<string>)
    requires forall i :: 0 <= i < |es| && es[i].onHold ==> es[i].id in hold
    ensures Classify(es, today, seen, hold, sold).hold == []
    decreases |es|
  {
    if es != [] {
      var e := es[0];
      var isNew := e.id !in seen && e.dateArrived == Some(today);
      var seen1 := if e.id !in seen && !isNew then seen + {e.id} else seen;
      assert forall i :: 0 <= i < |es| - 1 ==> es[1..][i] == es[i + 1];
      ClassifyQuietHold(es[1..], today, seen1, hold, sold);
    }
  }

  /** Rows whose sold ids are all announced as such yield no sale announcement. */
  lemma {:induction false} ClassifyQuietSold(es: seq<Entry>, today: Dates.Date, seen: set<string>,
                                             hold: set<string>, sold: set<string>)
    requires forall i :: 0 <= i < |es| && es[i].sold ==> es[i].id in sold
    ensures Classify(es, today, seen, hold, sold).sold == []
    decreases |es|
  {
    if es != [] {
      var e := es[0];
      var isNew := e.id !in seen && e.dateArrived == Some(today);
      var seen1 := if e.id !in seen && !isNew then seen + {e.id} else seen;
      assert forall i :: 0 <= i < |es| - 1 ==> es[1..][i] == es[i + 1];
      ClassifyQuietSold(es[1..], today, seen1, hold, sold);
    }
  }

  /**
   * A poll over rows whose ids are all known in a category announces
   * nothing in it; when they are known in all three, the sets stay as they
   * were.
   */
  lemma CycleQuiet(s: Notified, es: seq<Entry>, today: Dates.Date)
    ensures (forall i :: 0 <= i < |es| ==> es[i].id in s.seen) ==> Cycle(s, es, today).news == []
    ensures (forall i :: 0 <= i < |es| && es[i].onHold ==> es[i].id in s.hold) ==> Cycle(s, es, today).hold == []
    ensures (forall i :: 0 <= i < |es| && es[i].sold ==> es[i].id in s.sold) ==> Cycle(s, es, today).sold == []
    ensures (&& (forall i :: 0 <= i < |es| ==> es[i].id in s.seen)
             && (forall i :: 0 <= i < |es| && es[i].onHold ==> es[i].id in s.hold)
             && (forall i :: 0 <= i < |es| && es[i].sold ==> es[i].id in s.sold))
      ==> Cycle(s, es, today).state == s
  {
    if forall i :: 0 <= i < |es| ==> es[i].id in s.seen {
      ClassifyQuietNews(es, today, s.seen, s.hold, s.sold);
      assert Ids([]) == {};
    }
    if forall i :: 0 <= i < |es| && es[i].onHold ==> es[i].id in s.hold {
      ClassifyQuietHold(es, today, s.seen, s.hold, s.sold);
      assert Ids([]) == {};
    }
    if forall i :: 0 <= i < |es| && es[i].sold ==> es[i].id in s.sold {
      ClassifyQuietSold(es, today, s.seen, s.hold, s.sold);
      assert Ids([]) == {};
    }
  }

  /**
   * Polling the same rows again announces nothing and changes nothing,
   * whatever the day.
   */
  lemma CycleSettles(s: Notified, es: seq<Entry>, today: Dates.Date, later: Dates.Date)
    ensures var o := Cycle(s, es, today);
      var again := Cycle(o.state, es, later);
      again.news == [] && again.hold == [] && again.sold == [] && again.state == o.state
  {
    CycleCovers(s, es, today);
    CycleQuiet(Cycle(s, es, today).state, es, later);
  }

  /**
   * An id announced in one poll is never announced again in the same
   * category by the next poll, whatever rows that poll reads.
   */
  lemma AnnouncedOnce(s: Notified, es: seq<Entry>, today: Dates.Date, es2: seq<Entry>, today2: Dates.Date)
    ensures var o := Cycle(s, es, today);
      var o2 := Cycle(o.state, es2, today2);
      && (forall e, f :: e in o.news && f in o2.news ==> e.id != f.id)
      && (forall e, f :: e in o.hold && f in o2.hold ==> e.id != f.id)
      && (forall e, f :: e in o.sold && f in o2.sold ==> e.id != f.id)
  {
    var o := Cycle(s, es, today);
    ClassifyFacts(es2, today2, o.state.seen, o.state.hold, o.state.sold);
  }

  /**
   * Seeding on a first run silences every row already in the sheet: the
   * first poll over the same rows announces nothing in a category whose
   * file was missing.
   */
  lemma SeedSilences(files: Files, es: seq<Entry>, today: Dates.Date)
    ensures var o := Cycle(Seed(files, es), es, today);
      && (files.seen.None? ==> o.news == [])
      && (files.hold.None? ==> o.hold == [])
      && (files.sold.None? ==> o.sold == [])
  {
    CycleQuiet(Seed(files, es), es, today);
  }
}

=== FILE: woodstore.dfy ===
/**
 * The woodstore.fr listing reader: French price parsing, classification of
 * the text lines of a product link, the product id taken from the URL slug,
 * and first-wins de-duplication by id.
 */
module Woodstore {
  import opened Wrappers
  import opened Text
  import opened Numbers
  import opened Seqs

  const BaseUrl: string := "https://www.woodstore.fr"

  /** The path segment that marks a product link. */
  const ProductMarker: string := "/guitares/p/"

  /** Drop "€" and spaces, then turn the decimal comma into a point. */
  function FrenchClean(s: string): string {
    ReplaceChar(RemoveChar(RemoveChar(s, '€'), ' '), ',', ".")
  }

  /**
   * `parse_price`: the euro amount of a French price such as "9 490,00 €";
   * `None` when the cleaned text is not a number, or when there is no text
   * at all (the `AttributeError` path).
   */
  function ParsePrice(priceText: Option<string>): (r: Option<real>)
    ensures priceText.None? ==> r.None?
  {
    match priceText
    case None => None
    case Some(s) => ParseDecimal(FrenchClean(s))
  }

  /** The example from the scraper's own documentation. */
  lemma ParsePriceExample(s: string)
    requires s == "9 490,00 €"
    ensures ParsePrice(Some(s)) == Some(9490.0)
  {
    var t, u, c := "9", "490", "00";
    ExampleParts(s, t, u, c);
    assert AllDigits(t) && AllDigits(u);
    DoubleZero();
    ParsePriceGrouped(t, u, c);
    var w := t + u;
    ExampleWhole(t, u, w);
    ParseDecimalPoint(w, c);
    PointValueWhole(w, c);
  }

  lemma ExampleParts(s: string, t: string, u: string, c: string)
    requires s == "9 490,00 €" && t == "9" && u == "490" && c == "00"
    ensures s == t + " " + u + "," + c + " €"
  {
  }

  lemma ExampleWhole(t: string, u: string, w: string)
    requires t == "9" && u == "490" && w == t + u
    ensures AllDigits(w) && DigitsValue(w) == 9490
  {
    assert w == "9490";
    DigitsValue9490();
  }

  lemma DigitsValue9490()
    ensures AllDigits("9490") && DigitsValue("9490") == 9490
  {
    assert "9490"[..3] == "949" && "949"[..2] == "94" && "94"[..1] == "9" && "9"[..0] == "";
  }

  /** Dot-grouped thousands leave two points after cleaning, which is not a number. */
  lemma ParsePriceDotGrouped(a: string, b: string, c: string)
    requires |a| > 0 && AllDigits(a) && AllDigits(b) && AllDigits(c)
    ensures ParsePrice(Some(a + "." + b + "," + c)) == None
  {
    FrenchCleanPunctuation();
    FrenchCleanDigits(a);
    FrenchCleanDigits(b);
    FrenchCleanDigits(c);
    var x1 := a + ".";
    FrenchCleanAppend(a, ".");
    assert FrenchClean(x1) == a + ".";
    var x2 := x1 + b;
    FrenchCleanAppend(x1, b);
    assert FrenchClean(x2) == a + "." + b;
    var x3 := x2 + ",";
    FrenchCleanAppend(x2, ",");
    assert FrenchClean(x3) == a + "." + b + ".";
    FrenchCleanAppend(x3, c);
    assert FrenchClean(x3 + c) == a + "." + b + "." + c;
    ParseDecimalTwoPoints(a, b, c);
  }

  /** "1.234,56" is the dot-grouped case. */
  lemma ParsePriceDotGroupedExample()
    ensures ParsePrice(Some("1.234,56")) == None
  {
    assert "1.234,56" == "1" + "." + "234" + "," + "56";
    ParsePriceDotGrouped("1", "234", "56");
  }

  /** How cleaning treats the separators on their own. */
  lemma FrenchCleanPunctuation()
    ensures FrenchClean(",") == "." && FrenchClean(".") == "."
    ensures FrenchClean(" ") == "" && FrenchClean(" €") == ""
  {
    assert RemoveChar(" €", '€') == " ";
  }

  /** Cleaning a digit string leaves it as it is. */
  lemma FrenchCleanDigits(d: string)
    requires AllDigits(d)
    ensures FrenchClean(d) == d
  {
    assert '€' !in d && ' ' !in d && ',' !in d by {
      assert forall i :: 0 <= i < |d| ==> IsDigit(d[i]);
    }
    RemoveCharAbsent(d, '€');
    RemoveCharAbsent(d, ' ');
    ReplaceCharAbsent(d, ',', ".");
  }

  /** Cleaning works piece by piece. */
  lemma FrenchCleanAppend(a: string, b: string)
    ensures FrenchClean(a + b) == FrenchClean(a) + FrenchClean(b)
  {
    RemoveCharAppend(a, b, '€');
    RemoveCharAppend(RemoveChar(a, '€'), RemoveChar(b, '€'), ' ');
    MapCharsAppend(RemoveChar(RemoveChar(a, '€'), ' '), RemoveChar(RemoveChar(b, '€'), ' '),
                   x => if x == ',' then "." else [x]);
  }

  /**
   * Euros and cents written the French way, with the euro sign after a space,
   * read as the same number written with a decimal point.
   */
  lemma ParsePriceFrench(euros: string, cents: string)
    requires AllDigits(euros) && AllDigits(cents)
    ensures ParsePrice(Some(euros + "," + cents + " €")) == ParseDecimal(euros + "." + cents)
  {
    FrenchCleanPunctuation();
    FrenchCleanDigits(euros);
    FrenchCleanDigits(cents);
    var x1 := euros + ",";
    FrenchCleanAppend(euros, ",");
    assert FrenchClean(x1) == euros + ".";
    var x2 := x1 + cents;
    FrenchCleanAppend(x1, cents);
    assert FrenchClean(x2) == euros + "." + cents;
    FrenchCleanAppend(x2, " €");
    assert FrenchClean(x2 + " €") == euros + "." + cents + "";
    assert euros + "." + cents + "" == euros + "." + cents;
  }

  /** A space between thousands and units is dropped as well. */
  lemma ParsePriceGrouped(thousands: string, units: string, cents: string)
    requires AllDigits(thousands) && AllDigits(units) && AllDigits(cents)
    ensures ParsePrice(Some(thousands + " " + units + "," + cents + " €"))
         == ParseDecimal(thousands + units + "." + cents)
  {
    FrenchCleanPunctuation();
    FrenchCleanDigits(thousands);
    FrenchCleanDigits(units);
    FrenchCleanDigits(cents);
    var x1 := thousands + " ";
    FrenchCleanAppend(thousands, " ");
    assert thousands + "" == thousands;
    assert FrenchClean(x1) == thousands;
    var x2 := x1 + units;
    FrenchCleanAppend(x1, units);
    assert FrenchClean(x2) == thousands + units;
    var x3 := x2 + ",";
    FrenchCleanAppend(x2, ",");
    assert FrenchClean(x3) == thousands + units + ".";
    var x4 := x3 + cents;
    FrenchCleanAppend(x3, cents);
    assert FrenchClean(x4) == thousands + units + "." + cents;
    FrenchCleanAppend(x4, " €");
    assert FrenchClean(x4 + " €") == thousands + units + "." + cents + "";
    assert thousands + units + "." + cents + "" == thousands + units + "." + cents;
  }

  // ---------------------------------------------------------------------
  // Lines of a product link
  // ---------------------------------------------------------------------

  /** The link text split on newlines, each piece stripped, empty pieces dropped. */
  function Lines(text: string): (r: seq<string>)
    ensures forall i :: 0 <= i < |r| ==> r[i] != ""
  {
    StrippedNonEmpty(SplitOn(text, '\n'))
  }

  function StrippedNonEmpty(pieces: seq<string>): (r: seq<string>)
    ensures forall i :: 0 <= i < |r| ==> r[i] != ""
    ensures |r| <= |pieces|
    decreases |pieces|
  {
    if pieces == [] then []
    else
      var l := Strip(pieces[0]);
      (if l == "" then [] else [l]) + StrippedNonEmpty(pieces[1..])
  }

  predicate HasDigit(s: string) {
    exists i :: 0 <= i < |s| && IsDigit(s[i])
  }

  /** A line carrying "€" and a digit is a price. */
  predicate PriceLine(l: string) {
    Contains(l, "€") && HasDigit(l)
  }

  /** A line that is not a price and mentions VENDU or SOLD in any case marks a sold item. */
  predicate SoldLine(l: string) {
    !PriceLine(l) && (Contains(Upper(l), "VENDU") || Contains(Upper(l), "SOLD"))
  }

  /** Any other line longer than ten characters without "€" or a preview label is a title. */
  predicate TitleLine(l: string) {
    && !PriceLine(l) && !SoldLine(l)
    && |l| > 10 && !Contains(l, "€")
    && !Contains(Upper(l), "APERÇU") && !Contains(Upper(l), "PREVIEW")
    && !Contains(Upper(l), "VENDU")
  }

  datatype Classified = Classified(title: string, priceText: string, sold: bool)

  /** The last line satisfying `p`, or the default when there is none. */
  predicate IsLastOr(lines: seq<string>, p: string -> bool, default: string, v: string) {
    || ((forall i :: 0 <= i < |lines| ==> !p(lines[i])) && v == default)
    || (exists i :: 0 <= i < |lines| && p(lines[i]) && v == lines[i]
                    && forall j :: i < j < |lines| ==> !p(lines[j]))
  }

  /** The classification loop over the lines, in order. */
  function Classify(lines: seq<string>): (r: Classified)
    ensures lines == [] ==> r == Classified("Unknown", "N/A", false)
    decreases |lines|
  {
    if lines == [] then Classified("Unknown", "N/A", false)
    else
      var acc := Classify(lines[..|lines| - 1]);
      var l := lines[|lines| - 1];
      if PriceLine(l) then acc.(priceText := l)
      else if SoldLine(l) then acc.(sold := true)
      else if TitleLine(l) then acc.(title := l)
      else acc
  }

  /**
   * What the loop computes: the last price line is the price text, any sold
   * line marks the item sold, and the last title line is the title;
   * "N/A" and "Unknown" when none matched.
   */
  lemma {:induction false} ClassifyLastWins(lines: seq<string>)
    ensures IsLastOr(lines, PriceLine, "N/A", Classify(lines).priceText)
    ensures IsLastOr(lines, TitleLine, "Unknown", Classify(lines).title)
    ensures Classify(lines).sold <==> exists i :: 0 <= i < |lines| && SoldLine(lines[i])
    decreases |lines|
  {
    if lines != [] {
      var front := lines[..|lines| - 1];
      ClassifyLastWins(front);
      var acc := Classify(front);
      var r := Classify(lines);
      LastOrStep(lines, PriceLine, "N/A", acc.priceText, r.priceText);
      LastOrStep(lines, TitleLine, "Unknown", acc.title, r.title);
      assert forall i :: 0 <= i < |lines| - 1 ==> front[i] == lines[i];
    }
  }

  /** Extending the line list by one keeps `IsLastOr` when the value follows the last line. */
  lemma LastOrStep(lines: seq<string>, p: string -> bool, default: string, v: string, w: string)
    requires |lines| > 0
    requires IsLastOr(lines[..|lines| - 1], p, default, v)
    requires w == (if p(lines[|lines| - 1]) then lines[|lines| - 1] else v)
    ensures IsLastOr(lines, p, default, w)
  {
    var n := |lines| - 1;
    var front := lines[..n];
    assert forall i :: 0 <= i < n ==> front[i] == lines[i];
    if !p(lines[n]) {
      if forall i :: 0 <= i < n ==> !p(front[i]) {
      } else {
        var i :| 0 <= i < n && p(front[i]) && v == front[i]
                 && forall j :: i < j < n ==> !p(front[j]);
        assert p(lines[i]) && w == lines[i];
      }
    }
  }

  /** The preview label of a card is neither price, sold mark nor title. */
  lemma PreviewLineIgnored()
    ensures !PriceLine("Aperçu") && !SoldLine("Aperçu") && !TitleLine("Aperçu")
  {
    var l := "Aperçu";
    assert !HasDigit(l);
    var u := Upper(l);
    assert forall i :: 0 <= i < |u| ==> u[i] != 'V' && u[i] != 'S';
    ContainsChar(u, "VENDU", 0);
    ContainsChar(u, "SOLD", 0);
  }

  /** Any amount with a digit followed by " €", such as "9 490,00 €", is a price line. */
  lemma AmountLineIsPrice(amount: string)
    requires HasDigit(amount)
    ensures PriceLine(amount + " €")
  {
    var l := amount + " €";
    assert l[|amount| + 1..|amount| + 2] == "€";
    ContainsAt(l, "€", |amount| + 1);
    var i :| 0 <= i < |amount| && IsDigit(amount[i]);
    assert IsDigit(l[i]);
  }

  // ---------------------------------------------------------------------
  // Product links and records
  // ---------------------------------------------------------------------

  /** A character that may appear in a product slug (`[^/?]`). */
  predicate SlugChar(c: char) {
    c != '/' && c != '?'
  }

  /** `/guitares/p/` followed by at least one slug character starts at `i`. */
  predicate SlugAt(url: string, i: int) {
    OccursAt(url, ProductMarker, i) && i + |ProductMarker| < |url| && SlugChar(url[i + |ProductMarker|])
  }

  /** The slug captured by the match at `i`: the longest run of slug characters. */
  function SlugOf(url: string, i: nat): (r: string)
    requires SlugAt(url, i)
    ensures |r| > 0 && forall k :: 0 <= k < |r| ==> SlugChar(r[k])
    ensures OccursAt(url, ProductMarker + r, i)
  {
    var start := i + |ProductMarker|;
    var r := url[start..start + RunLength(url[start..], SlugChar)];
    assert url[i..i + |ProductMarker + r|] == url[i..start] + r;
    r
  }

  /** The leftmost match at or after `from` (`re.search` scans left to right). */
  function FirstSlugFrom(url: string, from: nat): (r: Option<nat>)
    ensures r.Some? ==> from <= r.value && SlugAt(url, r.value)
    ensures r.Some? ==> forall j :: from <= j < r.value ==> !SlugAt(url, j)
    ensures r.None? ==> forall j :: from <= j ==> !SlugAt(url, j)
    decreases |url| - from
  {
    if from >= |url| then None
    else if SlugAt(url, from) then Some(from)
    else FirstSlugFrom(url, from + 1)
  }

  /** The product id: the slug of the first match, or the whole URL when nothing matches. */
  function ProductId(url: string): string {
    match FirstSlugFrom(url, 0)
    case None => url
    case Some(i) => SlugOf(url, i)
  }

  /**
   * Without a match the id is the URL; with one it is a non-empty run of slug
   * characters that follows "/guitares/p/" in the URL.
   */
  lemma ProductIdSlug(url: string)
    ensures (forall j :: !SlugAt(url, j)) ==> ProductId(url) == url
    ensures (exists j :: SlugAt(url, j)) ==>
      && |ProductId(url)| > 0 && (forall k :: 0 <= k < |ProductId(url)| ==> SlugChar(ProductId(url)[k]))
      && Contains(url, ProductMarker + ProductId(url))
  {
    match FirstSlugFrom(url, 0)
    case None =>
    case Some(i) =>
      ContainsAt(url, ProductMarker + SlugOf(url, i), i);
  }

  /** Inside the site address a "/" is never followed by a "g". */
  lemma BaseUrlSlashes()
    ensures forall j :: 0 <= j < |BaseUrl| && BaseUrl[j] == '/' ==> j + 1 < |BaseUrl| && BaseUrl[j + 1] != 'g'
  {
  }

  /**
   * A product path under the site address yields its slug as the id, whatever
   * follows the slug (a further path or a query).
   */
  lemma ProductIdOfPath(slug: string, rest: string)
    requires |slug| > 0 && forall k :: 0 <= k < |slug| ==> SlugChar(slug[k])
    requires rest == [] || !SlugChar(rest[0])
    ensures ProductId(BaseUrl + ProductMarker + slug + rest) == slug
  {
    var url := BaseUrl + ProductMarker + slug + rest;
    var n := |BaseUrl|;
    assert url == BaseUrl + (ProductMarker + slug + rest);
    NoSlugInBase(url, ProductMarker + slug + rest);
    SlugAfterBase(url, slug, rest);
    var r := FirstSlugFrom(url, 0);
    assert r.Some? && r.value == n;
  }

  /** No match starts inside the site address when a "/" follows it. */
  lemma NoSlugInBase(url: string, tail: string)
    requires url == BaseUrl + tail && |tail| > 1 && tail[0] == '/' && tail[1] == 'g'
    ensures forall j :: 0 <= j < |BaseUrl| ==> !SlugAt(url, j)
  {
    var n := |BaseUrl|;
    BaseUrlSlashes();
    forall j | 0 <= j < n
      ensures !SlugAt(url, j)
    {
      assert url[j] == BaseUrl[j];
      if j + 1 < n {
        assert url[j + 1] == BaseUrl[j + 1];
      } else {
        assert url[j + 1] == tail[0];
      }
      assert url[j] != '/' || url[j + 1] != 'g';
      if j + |ProductMarker| <= |url| {
        assert url[j..j + |ProductMarker|][0] == url[j];
        assert url[j..j + |ProductMarker|][1] == url[j + 1];
      }
    }
  }

  /** Right after the site address the product path matches, and its slug is captured whole. */
  lemma SlugAfterBase(url: string, slug: string, rest: string)
    requires |slug| > 0 && forall k :: 0 <= k < |slug| ==> SlugChar(slug[k])
    requires rest == [] || !SlugChar(rest[0])
    requires url == BaseUrl + ProductMarker + slug + rest
    ensures SlugAt(url, |BaseUrl|) && SlugOf(url, |BaseUrl|) == slug
  {
    var n := |BaseUrl|;
    var start := n + |ProductMarker|;
    assert url[n..start] == ProductMarker;
    assert url[start..] == slug + rest;
    assert url[start] == slug[0];
    assert SlugAt(url, n);
    var k := RunLength(slug + rest, SlugChar);
    assert forall i :: 0 <= i < |slug| ==> (slug + rest)[i] == slug[i];
    if rest != [] {
      assert (slug + rest)[|slug|] == rest[0];
    }
    assert k == |slug|;
    assert url[start..start + k] == slug;
  }

  /** `href` made absolute: relative links are put under the site address. */
  function FullUrl(href: string): (r: string)
    ensures StartsWith(href, "http") ==> r == href
    ensures !StartsWith(href, "http") ==> r == BaseUrl + href
  {
    if StartsWith(href, "http") then href else BaseUrl + href
  }

  /** An anchor of the category page: its `href` and its text, lines joined by newlines. */
  datatype Link = Link(href: string, text: string)

  /** One guitar record. */
  datatype Listing = Listing(
    id: string,
    title: string,
    price: string,
    priceEur: Option<real>,
    url: string,
    onHold: bool,
    sold: bool)

  /** `find_all("a", href=re.compile("/guitares/p/"))` */
  predicate ProductLink(link: Link) {
    Contains(link.href, ProductMarker)
  }

  /** A product link whose lines do not mark it sold gives a record. */
  predicate Kept(link: Link) {
    ProductLink(link) && !Classify(Lines(link.text)).sold
  }

  /**
   * `f"€{p:,.0f}" if price_float else price_str`: a parsed non-zero amount is
   * shown with the euro sign, anything else as the raw price line.
   */
  function DisplayPrice(priceText: string, amount: Option<real>, render: real -> string): (r: string)
    ensures amount.None? || amount == Some(0.0) ==> r == priceText
    ensures amount.Some? && amount.value != 0.0 ==> |r| > 0 && r[0] == '€'
  {
    if amount.Some? && amount.value != 0.0 then "€" + render(amount.value) else priceText
  }

  /**
   * The record built from one product link, or `None` when a line marks it
   * sold. `render` is the whole-euro grouping `{:,.0f}`.
   */
  function ParseLink(link: Link, render: real -> string): (r: Option<Listing>)
    ensures r.None? <==> Classify(Lines(link.text)).sold
    ensures r.Some? ==> !r.value.sold && !r.value.onHold
  {
    var url := FullUrl(link.href);
    var c := Classify(Lines(link.text));
    if c.sold then None
    else
      var amount := ParsePrice(Some(c.priceText));
      Some(Listing(ProductId(url), c.title, DisplayPrice(c.priceText, amount, render), amount, url, false, false))
  }

  /** The record's id, URL, title and euro amount come from the link as classified. */
  lemma ParseLinkFields(link: Link, render: real -> string)
    requires !Classify(Lines(link.text)).sold
    ensures var g := ParseLink(link, render).value;
      && g.url == FullUrl(link.href)
      && g.id == ProductId(g.url)
      && g.title == Classify(Lines(link.text)).title
      && g.priceEur == ParsePrice(Some(Classify(Lines(link.text)).priceText))
  {
  }

  /** The outcome of each link of the page: a record, or nothing for non-product and sold links. */
  function LinkRecords(links: seq<Link>, render: real -> string): (r: seq<Option<Listing>>)
    ensures |r| == |links|
    ensures forall j :: 0 <= j < |links| ==>
      r[j] == if ProductLink(links[j]) then ParseLink(links[j], render) else None
  {
    seq(|links|, j requires 0 <= j < |links| =>
      if ProductLink(links[j]) then ParseLink(links[j], render) else None)
  }

  /** `parse_listings`: one record per product link that is not sold, in page order. */
  function ParseListings(links: seq<Link>, render: real -> string): seq<Listing> {
    Somes(LinkRecords(links, render))
  }

  /** No record returned is sold or on hold. */
  lemma ParseListingsUnsold(links: seq<Link>, render: real -> string, i: nat)
    requires i < |ParseListings(links, render)|
    ensures !ParseListings(links, render)[i].sold && !ParseListings(links, render)[i].onHold
  {
    var j := SomesFrom(LinkRecords(links, render), i);
  }

  /** Every record comes from a kept link of the page; `j` is that link. */
  lemma ParseListingsFrom(links: seq<Link>, render: real -> string, i: nat) returns (j: nat)
    requires i < |ParseListings(links, render)|
    ensures j < |links| && Kept(links[j])
    ensures ParseLink(links[j], render) == Some(ParseListings(links, render)[i])
  {
    j := SomesFrom(LinkRecords(links, render), i);
  }

  /** Every kept link gives a record. */
  lemma ParseListingsKeeps(links: seq<Link>, render: real -> string, j: nat)
    requires j < |links| && Kept(links[j])
    ensures ParseLink(links[j], render).value in ParseListings(links, render)
  {
    SomesKeeps(LinkRecords(links, render), j);
  }

  function ListingId(g: Listing): string {
    g.id
  }

  /**
   * `scrape_all` over the category pages: the records of every page that could
   * be fetched, keeping the first record seen for each id.
   */
  function ScrapeAll(pages: seq<Option<seq<Link>>>, render: real -> string): (r: seq<Listing>)
    ensures UniqueBy(r, ListingId)
    ensures Ids(r, ListingId) == Ids(AllListings(pages, render), ListingId)
    ensures forall i :: 0 <= i < |r| ==> r[i] in AllListings(pages, render)
  {
    var all := AllListings(pages, render);
    KeepFirstCovers(all, ListingId, {});
    KeepFirst(all, ListingId, {})
  }

  /** The records of all fetched pages, in category order. */
  function AllListings(pages: seq<Option<seq<Link>>>, render: real -> string): (r: seq<Listing>)
    decreases |pages|
  {
    if pages == [] then []
    else
      (match pages[0] case None => [] case Some(links) => ParseListings(links, render))
      + AllListings(pages[1..], render)
  }

  /** The record kept for an id is the first one seen. */
  lemma ScrapeAllKeepsFirst(pages: seq<Option<seq<Link>>>, render: real -> string, j: nat)
    requires j < |AllListings(pages, render)|
    requires forall i :: 0 <= i < j ==> AllListings(pages, render)[i].id != AllListings(pages, render)[j].id
    ensures AllListings(pages, render)[j] in ScrapeAll(pages, render)
  {
    KeepFirstIsFirst(AllListings(pages, render), ListingId, {}, j);
  }
}

=== FILE: wrappers.dfy ===
/** Option: the model's stand-in for Python's `None`. */
module Wrappers {

  datatype Option<+T> = None | Some(value: T) {

    /** The wrapped value, or `default` when absent. */
    function GetOr(default: T): T {
      match this
      case Some(v) => v
      case None => default
    }
  }
}
